=== FILE: README.md ===
# SaraMV core, modelled in Dafny

SaraMV is a local Next.js application that takes a reference picture through a five-step music-video
workflow. In step 1 a picture is analysed and a keyword table is loaded, and a music prompt is
written to a versioned CSV file. Step 2 browses and regenerates prompt versions and asks for a
five-part story. Step 3 turns the story into scene prompts and scene pictures. Step 4 makes nine-panel
contact sheets and enlarges single panels. Step 5 uploads one picture and asks Grok for a video. Songs
go through Mureka. This project models the API routes behind those steps, the image-generation
libraries they call, the client-side store, and the page logic of the five steps. It also proves what
each of them promises.

One Dafny module corresponds to one source file or component:

- `JsText`, `Clock`, `DataUrl` and `Wrappers` hold the JavaScript string operations, the date stamps and the data-URL
  handling the routes share.
- `ImageLadder`, `GridImageGen`, `SceneImageGen` and `FaceSwap` model the image generators. Each tries
  a fixed schedule of provider calls and keeps the first reply with an image. Each also keeps a last-error slot.
- `GridRoutes`, `StoryRoute`, `ScenePrompts`, `PromptFiles`, `Prompts`, `AnalyzeImage`, `Mureka`,
  `Grok`, `SettingsRoute` and `DevLog` model the API routes and the prompt configuration.
- `AppStore` models the zustand store as pure transitions. `LyricsStep`, `SongStep`, `StoryboardStep`,
  `GridStep` and `VideoStep` model the step pages: the store plus each component's own state.

The outside world comes in as inputs:

- A provider's answers are a script with one reply per scheduled call.
- `JSON.parse` of a model's reply is a function parameter.
- The clock is a given calendar instant.
- The file system is the listing, the stored value, or the outcome of each write.

Paths are lists of segments.

In step 2 the page shows, for the selected version name, the first stored version with that name
(`Module2Song.tsx:55`). Every keyword's first prompt is `V01`, so after a second keyword's `V01` is
added and selected, the page shows the first keyword's prompt. `SongStep.SecondKeywordShowsFirstPrompt`
exhibits this as the code is written. `SongStep.AddedVersionIsNewest` states what the store intends: the
version just added is the newest under its name. The model keeps the page's lookup as written.

## Model

| member | source | states |
|---|---|---|
| JsText.OrElse | src/app/api/mureka-song/route.ts:226 | `a \|\| b` on an optional string: the value when it is present and non-empty, the fallback otherwise |
| JsText.Trim | src/app/api/generate-story/route.ts:61 | `trim()` removes only ECMAScript white space and line terminators, from both ends, and leaves a result that neither starts nor ends with one |
| JsText.TrimRemovesSpace | src/app/api/generate-story/route.ts:61 | every character cut off by `trim()`, before or after the kept text, is white space |
| JsText.TrimEmptyIffAllSpace | src/components/Module1Lyrics.tsx:143 | `trim()` gives the empty text exactly when every character is white space |
| JsText.TrimOfUnpadded | src/app/api/generate-story/route.ts:68 | a text with no white space at either end is its own trim |
| JsText.TrimOfSpaced | src/app/api/generate-story/route.ts:75 | leading white space before an unpadded text is all that `trim()` removes |
| JsText.TrimIsSlice | src/app/api/generate-story/route.ts:61 | the trimmed text is the slice of the input between the leading and the trailing white-space runs |
| JsText.Take | src/app/api/settings/route.ts:37 | `slice(0, n)` is the first `n` characters, or all of a shorter text |
| JsText.TakeLast | src/app/api/settings/route.ts:37 | `slice(-n)` is the last `n` characters, or all of a shorter text |
| JsText.IndexOfFrom | src/app/lib/dataUrlUtils.ts:30 | `indexOf` returns the first position at or after the start where the pattern occurs, and -1 only when it occurs nowhere there |
| JsText.PadStart | src/app/api/generate-grid-cell/route.ts:58 | `padStart(n, c)` has length `max(n, \|s\|)`, ends with `s` and is filled with `c` in front |
| JsText.NatToString | src/app/api/generate-grid-cell/route.ts:58 | `String(n)` is a non-empty digit run with no leading zero except for 0 itself |
| JsText.DigitsValueOfNatToString | src/app/api/regenerate-prompt/route.ts:113-122 | reading the decimal digits of `String(n)` gives back `n` |
| JsText.NatToStringInjective | src/app/api/regenerate-prompt/route.ts:122 | distinct numbers print differently |
| JsText.PaddedNat | src/components/Module1Lyrics.tsx:143 | `String(n).padStart(w, '0')` is a digit run at least `w` long |
| JsText.PaddedNatInjective | src/components/Module3Storyboard.tsx:324 | zero-padded numbers of the same width are different for different numbers |
| JsText.ZeroPaddedDigits | src/app/api/generate-prompt/route.ts:79 | zero-padding a digit run leaves a digit run |
| JsText.LowerAsciiString | src/components/Module1Lyrics.tsx:289 | `toLowerCase()` on ASCII text lower-cases each letter and keeps the length |
| Clock.IsoString | src/app/api/regenerate-prompt/route.ts:141 | `toISOString()` of a valid instant is 24 characters long |
| Clock.CompactStampFields | src/app/api/generate-grid-cell/route.ts:59 | `toISOString().replace(/[-:T]/g, '').slice(0, 14)` is the UTC year, month, day, hour, minute and second, zero-padded, 14 digits in all |
| Clock.DateStampFields | src/app/api/generate-prompt/route.ts:76 | `toISOString().slice(0, 10).replace(/-/g, '')` is the UTC year, month and day as `YYYYMMDD`, 8 digits |
| Clock.IsoStringStartsWithDate | src/app/api/generate-prompt/route.ts:76 | the first ten characters of the ISO text are `YYYY-MM-DD` |
| Clock.FixedValue | src/app/api/devlog/route.ts:22-25 | a zero-padded field reads back as the number it renders |
| Clock.PadStartZerosValue | src/app/api/devlog/route.ts:22-25 | zero padding does not change the value of a digit run |
| Clock.RemoveAll | src/app/api/generate-grid-cell/route.ts:59 | a global character-class `replace` with `''` leaves no character of the class and never lengthens the text |
| Clock.RemoveAllAppend | src/app/api/generate-grid-cell/route.ts:59 | the deletion distributes over concatenation |
| Clock.RemoveIsoSeparators | src/app/api/generate-grid-cell/route.ts:59 | on the ISO layout the deletion keeps the digit fields and the `.`/`Z` tail and drops the dashes, colons and `T` |
| Clock.DateOfFields | src/app/api/generate-prompt/route.ts:76 | deleting the dashes of `YYYY-MM-DD` leaves the three digit fields joined |
| DataUrl.StripWhitespace | src/app/lib/dataUrlUtils.ts:16-26 | the result is the input with every space, tab, LF and CR removed and the other characters kept in order; it contains none of the four and is never longer |
| DataUrl.StripIdempotent | src/app/lib/dataUrlUtils.ts:16-26 | removing whitespace twice gives the same text as removing it once |
| DataUrl.StripAppend | src/app/lib/dataUrlUtils.ts:16-26 | whitespace removal distributes over concatenation |
| DataUrl.StripProperties | src/app/lib/dataUrlUtils.ts:16-26 | the result is no longer than the input, holds no whitespace, and whitespace-free text is unchanged |
| DataUrl.ParseDataUrl | src/app/lib/dataUrlUtils.ts:28-51 | the MIME type is always one of jpeg, png, webp; without `;base64,` the whole input (whitespace removed) is the payload with MIME jpeg; otherwise the payload is the whitespace-free text after the first marker |
| DataUrl.ParseWithoutColonIsJpeg | src/app/lib/dataUrlUtils.ts:39-40 | a header without `:` before the marker yields `image/jpeg` |
| DataUrl.ParseNormalisesUnknownMime | src/app/lib/dataUrlUtils.ts:42-45 | a MIME type outside the accepted three is replaced by `image/jpeg` |
| DataUrl.ParseDataUrlRoundTrip | src/app/lib/dataUrlUtils.ts:28-51 | `data:<mime>;base64,<data>` with an accepted MIME and whitespace-free data parses back to exactly that MIME and data |
| DataUrl.IsValidBase64 | src/app/lib/dataUrlUtils.ts:56-74 | true exactly when the input has at least 100 characters and its first 64 are all in the base64 alphabet; shorter input is always rejected |
| DataUrl.PlausibilityIgnoresTail | src/app/lib/dataUrlUtils.ts:59-72 | two inputs of length at least 100 that share their first 64 characters get the same verdict |
| DataUrl.MatchMime | src/app/api/analyze-image/route.ts:35 | a matched MIME type always starts with `image/` |
| DataUrl.MatchPayload | src/app/api/generate-grid/route.ts:57 | a matched payload is non-empty, has no line terminator and is a suffix of the input |
| DataUrl.SplitInlineImage | src/app/lib/gridImageGen.ts:66-68 | without a payload match the whole string is the data; without a MIME match the type is `image/jpeg` |
| DataUrl.SplitInlineImageRoundTrip | src/app/lib/gridImageGen.ts:66-68 | `data:image/<subtype>;base64,<payload>` with a word-character subtype and a one-line payload splits back into `image/<subtype>` and the payload |
| DataUrl.StripImageHeader | src/app/api/analyze-image/route.ts:34 | the result is a suffix of the input, and input without the `data:image/\w+;base64,` header is returned unchanged |
| DevLog.Stamp | src/app/api/devlog/route.ts:19-27 | the stamp is the unpadded year followed by nine characters, with `_` five from the end |
| DevLog.StampLength | src/app/api/devlog/route.ts:19-27 | the stamp has 13 characters exactly when the year has four digits, and then starts with the year and has `_` at position 8 |
| DevLog.FormatTimestamp | src/components/DevLog.tsx:53-61 | a 13-character stamp containing `_` becomes 16 characters with `-`, `-`, ` `, `:` at positions 4, 7, 10, 13; anything else is shown as it is |
| DevLog.FormatRoundTrip | src/components/DevLog.tsx:53-61 | for a 13-character stamp with `_` at position 8 the display form reads back into the same stamp: no digit is lost or moved |
| DevLog.FormatIgnoresSeparator | src/components/DevLog.tsx:56-58 | the character at position 8 is never shown, so stamps that differ only there display the same |
| DevLog.FormatStamp | src/components/DevLog.tsx:53-61 | a stamp from a four-digit year displays as `YYYY-MM-DD HH:MM` of its zero-padded local fields |
| DevLog.ShortYearShownRaw | src/components/DevLog.tsx:60 | a stamp from a year before 1000 is too short and is shown raw |
| DevLog.LexLeIsOrder | src/app/api/devlog/route.ts:50 | the comparison used for sorting is total, transitive and antisymmetric |
| DevLog.Insert | src/app/api/devlog/route.ts:50 | inserting into a newest-first list keeps it newest first and adds exactly the one entry |
| DevLog.SortNewestFirst | src/app/api/devlog/route.ts:50 | the sorted list is newest first and a permutation of the input |
| DevLog.NewestFirstPairwise | src/app/api/devlog/route.ts:50 | in a newest-first list every earlier stamp sorts at or after every later one |
| DevLog.GetLogs | src/app/api/devlog/route.ts:30-57 | stored entries come back newest first and as a permutation; a missing, unreadable or non-list file gives the empty list |
| DevLog.PostLog | src/app/api/devlog/route.ts:60-101 | an unparseable or null body gives 500 "Failed to save log"; missing or empty content gives 400 "Content is required"; the post succeeds exactly when content is present, the stored file is not a non-list, and the write succeeds; the new entry carries the stamp and the trimmed content and is put first |
| DevLog.BlankContentSavedEmpty | src/app/api/devlog/route.ts:64-86 | content of spaces only is truthy, gets past the guard and is saved as the empty text |
| DevLog.PostThenListShowsNewestFirst | src/app/api/devlog/route.ts:50-88 | after a post onto a log whose stamps are no newer, listing shows the new entry first |
| FaceSwap.CompressImage | src/app/api/face-swap/route.ts:20-40 | a JPEG under the size limit is sent as it is; anything else goes through the resizer and comes out as JPEG, and a resizer failure keeps the original |
| FaceSwap.NonJpegIsAlwaysCompressed | src/app/api/face-swap/route.ts:26 | a non-JPEG image is resized whatever its size |
| FaceSwap.CompressSkipThreshold | src/app/api/face-swap/route.ts:25-26 | `length * 0.75 < 1.5 MiB` holds exactly for fewer than 2,097,152 base64 characters |
| FaceSwap.SwapPrompt | src/app/api/face-swap/route.ts:99-109 | the prompt starts with the fixed instructions and equals them exactly when the description is absent or blank; otherwise the trimmed description follows under the character heading |
| FaceSwap.SavePath | src/app/api/face-swap/route.ts:69-86 | a path is produced exactly when the base folder is a non-empty string and the folder creation and write went through; it is `<trimmed base>/IMAGE/faceswap_<stamp>.<ext>`; a failed save is caught and gives no path |
| FaceSwap.FaceSwap | src/app/api/face-swap/route.ts:55-195 | an unparseable body gives 500 "洗脸生成失败，请重试"; a missing image gives 400 "缺少原图或参考图"; with both images but no key, 400 "未配置 Gemini API Key"; a 400 never calls the provider; at most three calls; an image reply is the one of the last call made and carries the save path, which is absent when the save failed; the request holds the prompt then two images |
| FaceSwap.FaceSwapRequestAndFirstImage | src/app/api/face-swap/route.ts:96-158 | with both images, a key and plausible payloads the contents are the prompt, the compressed source and the compressed reference; the route succeeds exactly when some call returns an image, after as many calls as that reply's position; otherwise 500 after three calls |
| FaceSwap.ImplausiblePayloadRejected | src/app/api/face-swap/route.ts:90-94 | an implausible payload gives 400 "图片数据无效" before any provider call |
| FaceSwap.SwapFailureSlot | src/app/api/face-swap/route.ts:119-186 | on failure the remembered error is what the two primary calls left: the second call's throw or block, else the first call's error, else "API 未返回图片"; the retry never changes it |
| FaceSwap.SwapFailureMessageWithoutThrows | src/app/api/face-swap/route.ts:146-188 | when neither primary call threw, the message is the latest block reason or "API 未返回图片" |
| ImageLadder.LastImageIndex | src/app/lib/gridImageGen.ts:129-134 | the chosen part carries image data and no later part does; none is chosen only when no part carries data |
| ImageLadder.FirstImageIndex | src/app/api/face-swap/route.ts:136-142 | the chosen part carries image data and no earlier part does; none is chosen only when no part carries data |
| ImageLadder.ReplyImageIffSomePart | src/app/lib/gridImageGen.ts:126-135 | a reply yields an image exactly when it is a response whose part list has a part with non-empty data |
| ImageLadder.PicksAgreeOnSingleImage | src/app/lib/gridImageGen.ts:129-134 | with a single image part, the last-image and first-image rules give the same data URL |
| ImageLadder.Step | src/app/lib/gridImageGen.ts:136-145 | a throw is recorded when the rule records throws; a block reason replaces the slot; otherwise an empty slot gets the generic error and a set slot is kept |
| ImageLadder.FirstSuccess | src/app/lib/gridImageGen.ts:112-193 | the index found is of a reply with an image and every earlier reply has none; none found means no reply has an image |
| ImageLadder.Run | src/app/lib/gridImageGen.ts:112-201 | the ladder never makes more calls than scheduled; it returns an image exactly when some reply has one, that of the first such reply after as many calls as its position; on failure every scheduled call was made |
| ImageLadder.RunFailureSlot | src/app/lib/gridImageGen.ts:110-199 | on failure the remembered error is the fold of the per-call update over all calls in order |
| ImageLadder.SilentAttemptKeepsSlot | src/app/lib/gridImageGen.ts:177-197 | a call that records nothing (the 30 s retry) leaves the remembered error as it was |
| ImageLadder.GenericRuleSetsSlot | src/app/lib/gridImageGen.ts:136-143 | after a primary call with no image the remembered error is truthy, unless a falsy value was thrown |
| ImageLadder.GeneratorFailureSlot | src/app/lib/gridImageGen.ts:149-199 | after a failed contact sheet the error is the 3 s retry's block reason when it had one, otherwise what the two primary calls left |
| ImageLadder.PrimarySlotAlwaysSet | src/app/lib/gridImageGen.ts:136-143 | after the two primary calls the error is always set: the second call's throw, a block reason, or the generic "API 未返回图片" message |
| GridImageGen.PanelDescriptionDomain | src/app/lib/gridImageGen.ts:21-31 | the shot-type table has an entry exactly for the panels 1 to 9, and each entry names its own panel number |
| GridImageGen.NumberedLines | src/app/lib/gridImageGen.ts:78 | every override line becomes `<i+1>: <line>`, one per line, in order |
| GridImageGen.ContactSheetPromptPrecedence | src/app/lib/gridImageGen.ts:70-92 | a non-blank closeup prompt wins (trimmed, with its closing sentence); otherwise an intro with at least nine panel lines, numbered; otherwise the built-in prompt |
| GridImageGen.WithEthnicity | src/app/lib/gridImageGen.ts:93-95 | the ethnicity sentence is appended exactly when both a reference image and an ethnicity are given; otherwise the prompt is unchanged |
| GridImageGen.BuildContents | src/app/lib/gridImageGen.ts:97-106 | the request holds the prompt, then the source image, then the reference image exactly when one is given |
| GridImageGen.GenerateContactSheet | src/app/lib/gridImageGen.ts:54-202 | no key means no call and the error "未配置 Gemini API Key"; at most four calls; an image leaves no error; a failure with a key made all four calls and sets the error |
| GridImageGen.ContactSheetStopsAtFirstImage | src/app/lib/gridImageGen.ts:112-193 | when reply `k` is the first with an image, exactly `k+1` calls are made and that reply's last image part is returned |
| GridImageGen.ContactSheetImageIsFirst | src/app/lib/gridImageGen.ts:112-193 | a returned sheet implies a key and is the last image part of the first reply that has one |
| GridImageGen.ContactSheetFailureSlot | src/app/lib/gridImageGen.ts:136-199 | on failure the error text is the 3 s retry's block reason when it had one, else the text of what the primary calls left |
| GridImageGen.OutputSize | src/app/lib/gridImageGen.ts:228 | the size is `4K` exactly when `4K` was asked for, and `2K` otherwise |
| GridImageGen.ExpandPanel | src/app/lib/gridImageGen.ts:219-293 | no key or a panel outside 1..9 means no call and no image; otherwise the request is the panel prompt, the sheet, and the reference exactly when given, at 16:9 and the chosen size; an image comes back exactly when some reply has one, the last image part of the first such reply, after that many calls; on failure both calls are made; no error text comes back |
| GridImageGen.ExpandPromptAuxiliary | src/app/lib/gridImageGen.ts:242-244 | a non-blank auxiliary prompt is appended last, trimmed, under "用户补充要求"; a blank or absent one changes nothing |
| SceneImageGen.FullPrompt | src/app/lib/sceneImageGen.ts:45-52 | the user prompt is embedded verbatim between the fixed head and tail |
| SceneImageGen.FullPromptInjective | src/app/lib/sceneImageGen.ts:45-52 | different scene prompts give different requests |
| SceneImageGen.GenerateSceneImage | src/app/lib/sceneImageGen.ts:30-160 | no key means no call and the error "未配置 Gemini API Key，请在设置中填写"; at most four calls; with a key the request is the full prompt and the reference image at 2K |
| SceneImageGen.SceneImageAttempts | src/app/lib/sceneImageGen.ts:58-154 | the image is the last image part of the first reply that has one, after exactly that many calls; with no image all four calls are made |
| SceneImageGen.SceneFailureSlot | src/app/lib/sceneImageGen.ts:58-158 | on failure the error text is the 3 s retry's block reason when it had one, else the text of what the primary calls left |
| GridRoutes.ImageExt | src/app/api/generate-grid/route.ts:59 | the extension is `png` exactly when the URL starts with `data:image/png`, and `jpg` otherwise |
| GridRoutes.PayloadOfDataUrl | src/app/api/generate-grid/route.ts:57-59 | for an image data URL the file receives exactly its payload, and it is named `.png` exactly when the subtype starts with `png` |
| GridRoutes.PngPrefixOfDataUrl | src/app/api/generate-grid/route.ts:59 | a data URL starts with `data:image/png` exactly when its subtype starts with `png` |
| GridRoutes.CharacterFor | src/app/api/generate-grid/route.ts:45-47 | character options are passed exactly when both a reference image and an ethnicity are given |
| GridRoutes.GridPromptChoice | src/app/api/generate-grid/route.ts:35-44 | the closeup prompt is used exactly for a `closeup` grid with a non-blank configured closeup prompt; otherwise the nine configured lines when the intro is non-empty |
| GridRoutes.ContactSheetFor | src/app/api/generate-grid/route.ts:34-80 | no key gives 500 with the missing-key message; every failure is a 500 with a non-empty message; a saved sheet is the first reply's image, its payload is written, to `<base>/IMAGE/contact_<stamp>.<ext>` when a base folder is given and to `output/grid/<stamp>/contact.<ext>` otherwise |
| GridRoutes.GenerateGrid | src/app/api/generate-grid/route.ts:14-88 | an unparseable body gives 413; a JSON `null` body fails the destructuring and gives 500 "九宫格接触表生成失败"; a missing or non-string image gives 400 "Missing image (data URL or base64)"; otherwise the contact sheet under the stored prompt configuration; every failure status is 400, 413 or 500 |
| GridRoutes.CellOptions | src/app/api/generate-grid-cell/route.ts:39-46 | no options object is passed exactly when no reference image is used, no ethnicity is given, the resolution is not `4K` and the auxiliary prompt is blank |
| GridRoutes.CellOptionsMeaning | src/app/api/generate-grid-cell/route.ts:16-46 | 4K is asked for exactly when `resolution` is `4K`; the reference image is sent exactly when given and `useCharacterReference` is not false; the auxiliary prompt is sent exactly when non-blank, trimmed |
| GridRoutes.CellNumber | src/app/api/generate-grid-cell/route.ts:58 | the cell number is two digits that read back as the panel index |
| GridRoutes.CellNumberInjective | src/app/api/generate-grid-cell/route.ts:58-64 | distinct panels get distinct numbers, so their files never collide |
| GridRoutes.GenerateCell | src/app/api/generate-grid-cell/route.ts:10-87 | an unparseable body gives 500; a missing image gives 400; an index that is not an integer in 1..9 gives 400 "panelIndex must be 1-9" and nothing else does; a saved panel has a key, its payload written and the chosen size; it goes to `<base>/IMAGE/panel_NN_2K_<stamp>.<ext>`, else `<saveDir>/panel_NN_2K.<ext>`, else nowhere; a 500 is the panel's own failure or a failed save |
| GridRoutes.MissingSaveDirCases | src/app/api/generate-grid-cell/route.ts:60-72 | with the image generated, a missing `saveDir` fails with 500 because nothing creates it, while the base-folder branch creates its folder and saves |
| GridRoutes.SafeCore | src/app/api/generate-scene-image/route.ts:43 | the cleaned core word has at most 30 characters, none of `/ \ : * ? " < > \|`, and every other character kept in place |
| GridRoutes.SafeCoreKeepsCleanWords | src/app/api/generate-scene-image/route.ts:43 | a short clean core word is kept as it is, and cleaning twice changes nothing more |
| GridRoutes.StripImageExtension | src/app/api/generate-scene-image/route.ts:50 | the result is a prefix of the name, at most five characters shorter |
| GridRoutes.StripImageExtensionRoundTrip | src/app/api/generate-scene-image/route.ts:50 | appending one of `.png`, `.jpg`, `.jpeg` in any letter case and stripping it gives the name back |
| GridRoutes.AppendedExtension | src/app/api/generate-scene-image/route.ts:50 | a name followed by an extension ends with that extension lower-cased |
| GridRoutes.ShortExtensionIsNotJpeg | src/app/api/generate-scene-image/route.ts:50 | a four-character extension is never mistaken for `.jpeg` |
| GridRoutes.SceneBaseName | src/app/api/generate-scene-image/route.ts:49-51 | a given name made of `[\w.-]` loses its image extension; anything else gives `scene_<milliseconds>` |
| GridRoutes.GenerateScene | src/app/api/generate-scene-image/route.ts:14-64 | an unparseable body gives 413; a missing prompt or reference gives 400; no key gives 500 with the missing-key message; a saved scene exists exactly when both keyword id and core word are given, in `output/scene/<id>_<core>_<date>/IMAGE/<base>.<ext>`, holding the payload |
| GridRoutes.SceneDirNameParts | src/app/api/generate-scene-image/route.ts:42-44 | the folder name starts with the zero-padded id and `_`, ends with `_YYYYMMDD` of the UTC date, and has the core word in between |
| AppStore.Initial | src/store/appStore.ts:136-177 | the store starts on step 1 with only step 1 unlocked, every step-1 field empty, no versions, no groups, no songs, no videos, and the default ethnicity |
| AppStore.UnlockModule | src/store/appStore.ts:181-184 | the module is unlocked afterwards; an unlocked module leaves the store as it was; otherwise the module is appended and nothing else changes |
| AppStore.UnlockModuleIdempotent | src/store/appStore.ts:181-184 | unlocking twice is the same as unlocking once |
| AppStore.UnlockModuleKeepsNoDuplicates | src/store/appStore.ts:181-184 | the unlocked list never holds a module twice |
| AppStore.ResetModule1 | src/store/appStore.ts:254-265 | every step-1 field is cleared and every other field is kept |
| AppStore.AddPromptVersion | src/store/appStore.ts:195-198 | the version goes last, the earlier ones are kept, it becomes the selected version, and nothing else changes |
| AppStore.FindSource | src/store/appStore.ts:216 | the position found holds the source and no earlier one does; none is found exactly when the source is unknown |
| AppStore.FindSourceFirst | src/store/appStore.ts:216 | the search answers the first position holding the source |
| AppStore.AddContactSheet | src/store/appStore.ts:215-231 | an unknown source gets a new group with the one sheet at the end; for a known source the groups keep their identities, a sheet whose URL is already in the first matching group changes nothing, and otherwise every group of the source gains the sheet last |
| AppStore.AddGroupSource | src/store/appStore.ts:245-250 | a known source changes nothing; an unknown one is appended with no sheets; the source is known afterwards |
| AppStore.RemovePanel | src/store/appStore.ts:238 | the kept entries are exactly those of other panels, in their original order, and there are as many as `ps` has entries for other panels, so no repeated entry is dropped |
| AppStore.RemovePanelKeepsEveryCopy | src/store/appStore.ts:238 | every entry for another panel occurs in the result as often as in the input, and no entry for the panel remains |
| AppStore.ReplacePanel | src/store/appStore.ts:237-239 | the new enlargement comes last and is the only one for its panel; the others keep their order; one-per-panel lists stay one-per-panel |
| AppStore.ReplaceInSheets | src/store/appStore.ts:235-240 | only the sheets with the given contact-sheet URL change, and only in their enlargements |
| AppStore.AddPanel2K | src/store/appStore.ts:232-244 | groups of other sources are unchanged; every sheet of the source with the URL gets its panel replaced; identities, labels and sheet counts are kept |
| AppStore.AddPanel2KNoMatchIsIdentity | src/store/appStore.ts:232-244 | with no sheet matching both the source and the URL nothing changes |
| AppStore.AddContactSheetPreservesWf | src/store/appStore.ts:215-231 | recording a sheet keeps sources distinct, sheets distinct per source and one enlargement per panel |
| AppStore.AddGroupSourcePreservesWf | src/store/appStore.ts:245-250 | registering a source keeps the provenance tree well formed |
| AppStore.AddPanel2KPreservesWf | src/store/appStore.ts:232-244 | recording an enlargement keeps the provenance tree well formed |
| AppStore.ProvenanceStaysWellFormed | src/store/appStore.ts:215-250 | any sequence of the three recording actions keeps a well-formed tree well formed |
| AppStore.InitialProvenanceWellFormed | src/store/appStore.ts:174-250 | from the initial empty tree any sequence of recording actions leaves it well formed |
| AppStore.AddStep4ContactSheet | src/store/appStore.ts:215-231 | only the provenance tree changes, and a well-formed tree stays well formed |
| AppStore.AddStep4Panel2K | src/store/appStore.ts:232-244 | only the provenance tree changes, and a well-formed tree stays well formed |
| AppStore.AddStep4GroupSource | src/store/appStore.ts:245-250 | only the provenance tree changes, and a well-formed tree stays well formed |
| AppStore.AddGeneratedSong | src/store/appStore.ts:204-206 | the song, stamped with the given time, goes last; the earlier songs and every other field are kept |
| AppStore.AddGeneratedVideo | src/store/appStore.ts:251-253 | the video, stamped with the given time, goes last; the earlier videos and every other field are kept |
| GridStep.PicturesFrom | src/components/Module4Video.tsx:116-121 | at most one picture per prompt, and every listed picture has a non-empty URL |
| GridStep.PicturesFromUrls | src/components/Module4Video.tsx:116-121 | the pictures' URLs are exactly the prompts' present current pictures, in list order |
| GridStep.PicturesFromEmpty | src/components/Module4Video.tsx:116-125 | some picture is listed exactly when some prompt has a current picture |
| GridStep.Step3ImagesInOrder | src/components/Module4Video.tsx:111-123 | the step-3 pictures are the empty scene, then the scene prompts' pictures, then the desire prompts', each left out when missing or empty |
| GridStep.IsUnlockedMeaning | src/components/Module4Video.tsx:125-126 | the page is open exactly when step 4 is unlocked, or step 3 is and some step-3 picture exists |
| GridStep.FindImage | src/components/Module4Video.tsx:168 | the position found holds the id and no earlier one does; none found means the id is absent |
| GridStep.InitialOptions | src/components/Module4Video.tsx:100-104 | the options cover exactly panels 1 to 9, each with the reference on, `2K` and no auxiliary prompt |
| GridStep.OptionFor | src/components/Module4Video.tsx:188 | a panel without options reads the default |
| GridStep.UpdatePanelOption | src/components/Module4Video.tsx:223-231 | the same panels keep options; the other panels are unchanged; the panel's one field is set and its other two kept |
| GridStep.OptionsStayOnNinePanels | src/components/Module4Video.tsx:223-231 | whatever the edits, the options cover exactly panels 1 to 9, so the lookup never falls back to the default |
| GridStep.FindSheet | src/components/Module4Video.tsx:132 | the sheet found matches the URL or the directory and no earlier one does; none found means none matches |
| GridStep.CurrentPanels | src/components/Module4Video.tsx:129-134 | no sheet on show, or no group for its source, means no enlargements listed |
| GridStep.SelectContactSheet | src/components/Module4Video.tsx:179-184 | the chosen sheet is on show and the store is untouched |
| GridStep.SelectShowsSheetPanels | src/components/Module4Video.tsx:129-184 | choosing a recorded sheet that is the first of its group to match shows exactly its enlargements |
| GridStep.RecordShown | src/components/Module4Video.tsx:137-139 | the sheet on show is recorded under its source when it has a picture, a source and a caption; otherwise the store is unchanged; only the provenance tree changes |
| GridStep.GenerateGrid | src/components/Module4Video.tsx:136-177 | only the provenance tree changes; the sheet on show is recorded first and stays found under its source; on failure nothing is on show; on an answer the new sheet is shown; the new sheet is recorded after the old one, and found under its source, exactly when both URL and directory came back |
| GridStep.AddContactSheetKeepsSheets | src/store/appStore.ts:215-231 | recording a sheet never loses one: a sheet found under its source is still found there afterwards |
| GridStep.AddContactSheetRecords | src/store/appStore.ts:215-231 | after recording, the source's first group holds a sheet with the URL |
| GridStep.FindSourceSameIds | src/store/appStore.ts:216 | lists with the same sources position by position find every source at the same place |
| GridStep.FindSourceAppend | src/store/appStore.ts:248 | a known source keeps its place when a group is appended |
| GridStep.RecordShownTwice | src/components/Module4Video.tsx:137-139 | recording the sheet on show a second time changes nothing |
| GridStep.GenerateGridKeepsProvenanceWf | src/components/Module4Video.tsx:136-177 | generating a sheet keeps the provenance tree well formed |
| GridStep.DerivedId | src/components/Module4Video.tsx:212 | the derived source id starts with `2k-` and is longer than the source id |
| GridStep.DerivedSources | src/components/Module4Video.tsx:431 | the listed groups are exactly those whose source id starts with `2k-` |
| GridStep.ExpandRequest | src/components/Module4Video.tsx:186-205 | a request is sent exactly when a sheet and its source are on show; it carries the sheet, the panel, its directory, the panel's options, and the reference picture only when the panel uses it |
| GridStep.ExpandRequestMeaning | src/components/Module4Video.tsx:194-204 | at the route the enlargement is 4K exactly when the panel's option says so, and the reference goes along exactly when the panel uses it and one exists |
| GridStep.ExpandPanel | src/components/Module4Video.tsx:186-221 | without a sheet on show or a picture back nothing changes; otherwise the enlargement is recorded, a derived source is registered with its label, step 5 is unlocked, and the view is kept |
| GridStep.ExpandPanelKeepsProvenanceWf | src/components/Module4Video.tsx:209-213 | enlarging a panel keeps the provenance tree well formed |
| GridStep.ExpandAddsDerivedSource | src/components/Module4Video.tsx:212 | an enlargement registers a source that the derived list shows |
| GridStep.ExpandShowsNewPanel | src/components/Module4Video.tsx:129-210 | when the sheet on show is recorded, the enlargement is listed last and is the only one for its panel |
| GridStep.ExpandedSheetPanels | src/components/Module4Video.tsx:129-212 | after recording and registering, the sheet on show lists its old enlargements with the panel replaced |
| GridStep.PanelRecordedInPlace | src/store/appStore.ts:232-244 | recording an enlargement keeps the group and sheet where the lookups find them and replaces that sheet's entry for the panel |
| GridStep.AddGroupSourceKeepsPlace | src/store/appStore.ts:245-250 | registering a source keeps every known source and group at its place |
| GridStep.SameSheetFound | src/components/Module4Video.tsx:132 | sheets that keep their URLs and directories are found at the same place |
| StoryboardStep.Present | src/components/Module3Storyboard.tsx:392 | dropping the missing and empty entries leaves no more entries than before, none of them empty |
| StoryboardStep.PresentAppend | src/components/Module3Storyboard.tsx:392 | filtering a concatenation is concatenating the filtered parts |
| StoryboardStep.RecordImage | src/components/Module3Storyboard.tsx:333-336 | the prompt keeps its id and text and takes the new picture; the old picture, when there was one, goes to the end of the history, which is otherwise kept |
| StoryboardStep.RecordImageKeepsPictures | src/components/Module3Storyboard.tsx:333-392 | after a new picture the prompt's pictures are the old ones followed by the new one when present: no picture is lost |
| StoryboardStep.RecordImageFor | src/components/Module3Storyboard.tsx:331-338 | prompts with other ids are unchanged and every prompt with the id records the picture |
| StoryboardStep.ReplaceAt | src/components/Module3Storyboard.tsx:261-263 | only the entry at the index may change, and only its text, which becomes the answer's text or stays when the answer has none |
| StoryboardStep.ReplaceAtTwice | src/components/Module3Storyboard.tsx:261-263 | of two answers for one entry the later text wins, and a missing later text leaves the earlier one |
| StoryboardStep.UpdateById | src/components/Module3Storyboard.tsx:302-307 | prompts with other ids are unchanged and every prompt with the id takes the text |
| StoryboardStep.UpdateByIdIsReplaceAt | src/components/Module3Storyboard.tsx:261-307 | with distinct ids, editing by id is editing that one entry, and every prompt keeps its pictures |
| StoryboardStep.Label | src/components/Module3Storyboard.tsx:394-400 | a caption carries a ` (k/n)` suffix exactly when the prompt has more than one picture |
| StoryboardStep.EntriesOf | src/components/Module3Storyboard.tsx:392-395 | one entry per picture of the prompt, in order, each suffixed exactly when there are several |
| StoryboardStep.GalleryFromUrls | src/components/Module3Storyboard.tsx:391-396 | the entries of a run of prompts show exactly their pictures, prompt by prompt |
| StoryboardStep.GalleryShowsEveryPicture | src/components/Module3Storyboard.tsx:389-405 | the gallery shows, in order, every scene prompt's pictures and then every desire prompt's |
| StoryboardStep.AllUrlsAppend | src/components/Module3Storyboard.tsx:391-402 | the pictures of two runs of prompts are those of the first followed by those of the second |
| StoryboardStep.NewPictureJoinsGallery | src/components/Module3Storyboard.tsx:331-405 | with distinct ids, a new picture appears right after its prompt's earlier pictures and nothing else in the gallery moves |
| StoryboardStep.CoreWord | src/components/Module3Storyboard.tsx:175 | the core word is never empty, at most thirty characters, starts with no space, is `scene` for a blank context and otherwise begins the trimmed context |
| StoryboardStep.Ordinal | src/components/Module3Storyboard.tsx:324-364 | the position is written with at least two digits |
| StoryboardStep.OrdinalsDiffer | src/components/Module3Storyboard.tsx:324-364 | different positions give different ordinals |
| StoryboardStep.KindHead | src/components/Module3Storyboard.tsx:324-364 | the list's name is a non-empty run of word characters |
| StoryboardStep.ImageFileName | src/components/Module3Storyboard.tsx:324-364 | the file name is made of word characters and ends in a digit |
| StoryboardStep.ImageFileNamesDiffer | src/components/Module3Storyboard.tsx:324-364 | two different prompts, or the two lists, never share a file name |
| StoryboardStep.NoImageExtension | src/app/api/generate-scene-image/route.ts:50 | a word-character name ending in a digit passes the route's extension stripping unchanged |
| StoryboardStep.SceneImageRequest | src/components/Module3Storyboard.tsx:309-327 | a request is sent exactly when there is an uploaded picture; it carries the prompt, the picture, the core word and the file name, and a keyword exactly when one is selected |
| StoryboardStep.SceneImageSavedUnderItsName | src/components/Module3Storyboard.tsx:316-327 | the route saves the picture under the very file name the page asked for, and saves it exactly when a keyword is selected |
| StoryboardStep.WithList | src/components/Module3Storyboard.tsx:331-371 | replacing one list makes it the given one |
| StoryboardStep.GenerateImage | src/components/Module3Storyboard.tsx:309-387 | without the uploaded picture or on failure nothing changes; otherwise the picture is recorded on the prompt, the save directory kept when one came back, and step 4 unlocked |
| StoryboardStep.GenerateImageKeepsOtherList | src/components/Module3Storyboard.tsx:331-378 | a picture for one list never touches the other |
| StoryboardStep.FromRoute | src/components/Module3Storyboard.tsx:198-230 | the route's prompts are taken over one for one, with no history |
| StoryboardStep.SetPrompts | src/components/Module3Storyboard.tsx:177-237 | without the uploaded picture (scenes) or with a blank story (desires), or on failure, nothing changes; otherwise the list becomes the route's prompts |
| StoryboardStep.NewPromptsHaveNoPictures | src/components/Module3Storyboard.tsx:198-230 | prompts fresh from the route carry no pictures, so a new list empties its part of the gallery |
| StoryboardStep.NoPicturesFrom | src/components/Module3Storyboard.tsx:392 | prompts with no history and no picture contribute no pictures |
| StoryboardStep.RegeneratePrompt | src/components/Module3Storyboard.tsx:239-300 | an index outside the list, a scene prompt without the uploaded picture, or a failed answer changes nothing; otherwise only that entry's text is replaced |
| StoryboardStep.EffectiveReference | src/components/Module3Storyboard.tsx:166 | the page's own reference picture wins, and the uploaded one is used only when there is none |
| StoryboardStep.StudioRequest | src/components/Module3Storyboard.tsx:105-127 | a request is sent exactly when a reference picture exists and, in mode 3, the scene is not blank; it carries the mode, the reference, the final version's lyrics, the context only when not empty, and the trimmed scene only in mode 3 |
| StoryboardStep.StudioRequestAccepted | src/components/Module3Storyboard.tsx:105-130 | any request the page sends is one the route answers with a prompt, given a key and a model reply |
| StoryboardStep.StudioApplied | src/components/Module3Storyboard.tsx:144-148 | on failure nothing changes; otherwise the picture and the save directory are kept when present, step 4 is unlocked and the prompt lists are untouched |
| ScenePrompts.DropOpenFence | src/app/api/generate-scene-prompts/route.ts:82 | a text not starting with three backticks is kept; otherwise the fence, its `\w*` tag and one line break are cut off the front |
| ScenePrompts.DropCloseFence | src/app/api/generate-scene-prompts/route.ts:82 | a closing fence is cut off the end together with the line break before it when there is one; a text without one is kept |
| ScenePrompts.Unfence | src/app/api/generate-scene-prompts/route.ts:80-83 | the reply is trimmed, and unfenced only when it starts with three backticks |
| ScenePrompts.UnfenceRoundTrip | src/app/api/generate-scene-prompts/route.ts:80-83 | a body fenced with any word tag and a line break on both sides comes back exactly |
| ScenePrompts.DropOpenFenceOf | src/app/api/generate-scene-prompts/route.ts:82 | an opening fence with a word tag and a line break comes off whole |
| ScenePrompts.DropCloseFenceOf | src/app/api/generate-scene-prompts/route.ts:82 | a closing fence after a line break comes off with the line break |
| ScenePrompts.UnfenceOneLine | src/app/api/generate-scene-prompts/route.ts:80-83 | a JSON array fenced on one line comes back exactly too |
| ScenePrompts.FiveItems | src/app/api/generate-scene-prompts/route.ts:90 | exactly five items, the first five texts in order, with no picture, each id starting with the prefix |
| ScenePrompts.FiveItemsNumbered | src/app/api/generate-scene-prompts/route.ts:90 | item `i` is numbered `i + 1`, so the five ids are pairwise distinct |
| ScenePrompts.FiveFromReply | src/app/api/generate-scene-prompts/route.ts:79-95 | no reply or an unparseable one is the route's 500; a non-array or fewer than five is `Invalid prompts format`; otherwise the first five texts with numbered ids |
| ScenePrompts.SceneBase | src/app/api/generate-scene-prompts/route.ts:41 | the scene base is the trimmed description, or `（无）` when it is missing or blank; never empty |
| ScenePrompts.SceneAskOf | src/app/api/generate-scene-prompts/route.ts:38-61 | the request carries the scene base, the parsed picture, and the gender and hair words with their fall-backs |
| ScenePrompts.GenerateScenePrompts | src/app/api/generate-scene-prompts/route.ts:23-96 | a non-JSON body is a 500, a missing image a 400, a missing key a 400; five `scene-N` prompts come back exactly when the reply parses to an array of at least five |
| ScenePrompts.SegmentEntries | src/app/api/generate-desire-scene-prompts/route.ts:54 | five entries, each the numbered head followed by the segment cut to 400 characters |
| ScenePrompts.StoryBlock | src/app/api/generate-desire-scene-prompts/route.ts:45-55 | without five segments the story is used, cut to 6000 characters and kept whole when shorter |
| ScenePrompts.SegmentEntriesKeepShortSegments | src/app/api/generate-desire-scene-prompts/route.ts:45-55 | a segment of at most 400 characters is carried whole under its number, and segments past the fifth are ignored |
| ScenePrompts.MainSceneEntries | src/app/api/generate-desire-scene-prompts/route.ts:48-59 | at most five entries, each numbered and holding the prompt cut to 120 characters |
| ScenePrompts.MainScenesBlock | src/app/api/generate-desire-scene-prompts/route.ts:59 | no main-scene prompts give the free-choice line |
| ScenePrompts.OtherSceneLine | src/app/api/generate-desire-scene-prompts/route.ts:64 | the other-scene line is present exactly when the other scene is non-empty, and then holds it |
| ScenePrompts.DesireAskOf | src/app/api/generate-desire-scene-prompts/route.ts:45-69 | the request carries the story block, the main-scene block, the other-scene line and the context with its fall-back |
| ScenePrompts.GenerateDesirePrompts | src/app/api/generate-desire-scene-prompts/route.ts:21-99 | a non-JSON body is a 500, a missing story a 400, a missing key a 400; five `desire-N` prompts come back exactly when the reply parses to an array of at least five |
| ScenePrompts.Others | src/app/api/regenerate-one-scene-prompt/route.ts:37 | without a list there are no others; with one, the prompt at the position is left out and the rest kept in order; a position outside the list keeps all |
| ScenePrompts.KeepOthersFromIsSplice | src/app/api/regenerate-one-scene-prompt/route.ts:37 | the position filter on any suffix is the splice around the position |
| ScenePrompts.OthersIsFilter | src/app/api/regenerate-one-scene-prompt/route.ts:37 | the spliced list is exactly the route's position filter |
| ScenePrompts.RegenerateOneOmitsOwnPrompt | src/app/api/regenerate-one-scene-prompt/route.ts:37 | the others and the prompt itself together are the whole list, as a multiset |
| ScenePrompts.Numbered | src/app/api/regenerate-one-scene-prompt/route.ts:54 | one line per prompt, starting with its number from one and ending with the prompt |
| ScenePrompts.OthersBlock | src/app/api/regenerate-one-scene-prompt/route.ts:54 | the section is present exactly when there is another prompt, and then opens with its heading |
| ScenePrompts.StripQuotes | src/app/api/regenerate-one-scene-prompt/route.ts:65 | at most one character comes off each end of the trimmed reply |
| ScenePrompts.StripQuotesOfQuoted | src/app/api/regenerate-one-scene-prompt/route.ts:65 | quotes around a reply come off whatever they enclose, a lone pair included |
| ScenePrompts.StripQuotesOfPlain | src/app/api/regenerate-one-scene-prompt/route.ts:65 | a reply without surrounding space or quotes is returned unchanged |
| ScenePrompts.StripQuotesRemovesOnlyOne | src/app/api/regenerate-one-scene-prompt/route.ts:65 | only one quote comes off each end: a doubled quote keeps its inner half |
| ScenePrompts.InlineImage | src/app/api/regenerate-one-scene-prompt/route.ts:34-35 | without a data-URL header the image is sent whole as JPEG; the payload is always a tail of the input |
| ScenePrompts.InlineImageRoundTrip | src/app/api/regenerate-one-scene-prompt/route.ts:34-35 | a data URL with a word subtype splits into its payload and `image/<subtype>` |
| ScenePrompts.OneSceneAskOf | src/app/api/regenerate-one-scene-prompt/route.ts:24-54 | a missing index asks for prompt 1; at most four others are listed; the picture is split as a data URL |
| ScenePrompts.Take4 | src/app/api/regenerate-one-scene-prompt/route.ts:54 | at most four, a prefix of the list, the whole list when it is short |
| ScenePrompts.RegenerateOneScene | src/app/api/regenerate-one-scene-prompt/route.ts:18-71 | a non-JSON body is a 500, a missing image a 400, a missing key a 400; otherwise a prompt comes back exactly when the model answered, at most two characters shorter than the trimmed answer |
| ScenePrompts.OneDesireAskOf | src/app/api/regenerate-one-desire-prompt/route.ts:24-44 | a missing index asks for prompt 1; the story is cut to 6000 characters; every other prompt is listed |
| ScenePrompts.RegenerateOneDesire | src/app/api/regenerate-one-desire-prompt/route.ts:18-60 | a non-JSON body is a 500, a missing story a 400, a missing key a 400; otherwise a prompt comes back exactly when the model answered |
| ScenePrompts.Instruction | src/app/api/generate-studio-scene-prompt/route.ts:46-66 | modes 1 and 2 give their fixed instructions; mode 3 wraps the trimmed user scene |
| ScenePrompts.InstructionsDistinct | src/app/api/generate-studio-scene-prompt/route.ts:46-66 | the three modes give different instructions, and two user scenes give the same one exactly when they trim alike |
| ScenePrompts.LyricsBlock | src/app/api/generate-studio-scene-prompt/route.ts:74 | the block opens with the context exactly when there is one, and ends with the lyrics, or with `（无）` when there are none |
| ScenePrompts.GenerateStudioPrompt | src/app/api/generate-studio-scene-prompt/route.ts:21-93 | a non-JSON body is a 500; a missing image, a mode other than 1-3, or mode 3 without a scene string is a 400; a missing key a 400; otherwise a prompt comes back exactly when the model answered |
| ScenePrompts.StudioAskOf | src/app/api/generate-studio-scene-prompt/route.ts:43-74 | the request carries the mode's instruction, the lyrics block and the split picture |
| ScenePrompts.StudioAcceptsEmptyScene | src/app/api/generate-studio-scene-prompt/route.ts:31-64 | the route accepts an empty mode-3 scene and builds the instruction around nothing |
| LyricsStep.HeaderRows | src/components/Module1Lyrics.tsx:139 | one header row is skipped exactly when the table's first cell is `id`, `编号`, `序号` or `ID` in any case |
| LyricsStep.GeneratedId | src/components/Module1Lyrics.tsx:143 | a generated id is all digits, at least three of them |
| LyricsStep.RowItem | src/components/Module1Lyrics.tsx:143-148 | the item's keyword is non-empty exactly when the row is kept; keyword and translation are the trimmed cells; the id is the trimmed first cell, or the generated one when that is blank |
| LyricsStep.KeptStep | src/components/Module1Lyrics.tsx:141-149 | one row further, a kept row adds its position in front and any other row nothing |
| LyricsStep.KeptRowsAreKept | src/components/Module1Lyrics.tsx:147 | only kept rows are listed |
| LyricsStep.KeptRowsInOrder | src/components/Module1Lyrics.tsx:141 | kept rows are listed in increasing order, so each at most once |
| LyricsStep.KeptRowsComplete | src/components/Module1Lyrics.tsx:141-149 | every kept row is listed |
| LyricsStep.KeptItems | src/components/Module1Lyrics.tsx:148 | one item per listed position |
| LyricsStep.PushFollowsKeptRows | src/components/Module1Lyrics.tsx:141-149 | what the loop pushes is exactly the items of the kept rows, in input order |
| LyricsStep.CsvItemsFollowKeptRows | src/components/Module1Lyrics.tsx:130-151 | the uploaded keywords are the items of the kept rows after the header, in input order |
| LyricsStep.GeneratedIdsDiffer | src/components/Module1Lyrics.tsx:143 | rows at different positions never get the same generated id |
| LyricsStep.HeaderIsSkipped | src/components/Module1Lyrics.tsx:139-141 | a header row is never an item, and the rows after it keep their positions |
| LyricsStep.DragStep | src/components/Module1Lyrics.tsx:261-287 | entering counts up and highlights, leaving counts down and clears at zero or below, dropping clears |
| LyricsStep.DragRunStaysSettled | src/components/Module1Lyrics.tsx:261-287 | from a settled zone any events keep the counter non-negative and the highlight on exactly while it is positive |
| LyricsStep.InitialDragStaysSettled | src/components/Module1Lyrics.tsx:261-320 | from the initial zone any sequence of drag events leaves it settled |
| LyricsStep.CsvSuffixAccepted | src/components/Module1Lyrics.tsx:289 | a `.csv` name in either case is accepted whatever the type |
| LyricsStep.CsvOthersRejected | src/components/Module1Lyrics.tsx:289 | a `.txt` plain-text file, or an empty drop, is refused |
| LyricsStep.LowerEnding | src/components/Module1Lyrics.tsx:289 | the ending of a lower-cased name is the lower-cased ending |
| LyricsStep.ImageUploaded | src/components/Module1Lyrics.tsx:192-206 | the new picture is stored and the six analysis fields and the empty-scene picture are cleared; nothing else changes |
| LyricsStep.AnalysisApplied | src/components/Module1Lyrics.tsx:161-188 | a failed analysis changes nothing; otherwise gender, hair colour, scene description and scene context take the response's values, the short and full contexts their value or `''`, and the empty-scene picture is the response's one exactly when it is non-empty; nothing else changes |
| LyricsStep.UploadThenAnalysis | src/components/Module1Lyrics.tsx:161-206 | after an upload and a successful analysis the picture stays, no empty-scene picture is set, and a blank short context leaves the prompt button disabled |
| LyricsStep.PromptGenerated | src/components/Module1Lyrics.tsx:221-249 | without a keyword or an image context, or when the route failed, nothing changes; otherwise the returned version, with the keyword and its translation, is appended after the earlier ones and selected, step 2 is added to the unlocked steps, and nothing else changes |
| SongStep.FilenameInfo | src/components/Module2Song.tsx:59-73 | a caption is read exactly when the name matches the file-name pattern; it then has a non-empty keyword and a `V` version, and writing the fields back gives the name |
| SongStep.FilenameInfoRoundTrip | src/components/Module2Song.tsx:59-73 | a name the routes generate with a non-empty keyword reads back as its own fields |
| SongStep.IndexOfVersion | src/components/Module2Song.tsx:163 | the position found holds the name and no earlier one does; -1 exactly when no version has the name |
| SongStep.FindVersion | src/components/Module2Song.tsx:55-133 | a version is found exactly when one has the name, and it is a listed version with that name |
| SongStep.IndexOfDistinct | src/components/Module2Song.tsx:163 | with distinct names, looking up a listed version's name finds its own position |
| SongStep.NewestVersion | src/components/Module2Song.tsx:55 | the last version with the name: found exactly when one has the name, and the last entry when it has the name |
| SongStep.AddedVersionIsNewest | src/store/appStore.ts:195-198 | a version just added and selected is always the newest under its name |
| SongStep.SecondKeywordShowsFirstPrompt | src/components/Module2Song.tsx:55 | after a second keyword's `V01` is added and selected, the page shows the first keyword's `V01` |
| SongStep.VersionChange | src/components/Module2Song.tsx:76-79 | the version is selected and the edits are dropped; nothing else changes |
| SongStep.Next | src/components/Module2Song.tsx:163-165 | on the last version nothing changes; otherwise the following version is selected, and with distinct names the shown position moves up by one |
| SongStep.Prev | src/components/Module2Song.tsx:163-164 | on the first version nothing changes; otherwise the preceding version is selected, and with distinct names the shown position moves down by one |
| SongStep.NextFromUnknownShowsFirst | src/components/Module2Song.tsx:163-165 | when the selection names no version, "next" shows the first one |
| SongStep.NextThenPrevReturns | src/components/Module2Song.tsx:300-322 | with distinct names, "next" then "previous" comes back to the version shown before |
| SongStep.NavigationStaysInList | src/components/Module2Song.tsx:300-322 | navigation keeps the selection or selects a listed version |
| SongStep.WithField | src/components/Module2Song.tsx:84-87 | the named field takes the value and every other field is kept |
| SongStep.CurrentData | src/components/Module2Song.tsx:56 | the edits are shown when there are any, otherwise the shown version's data when a version is shown |
| SongStep.UpdateField | src/components/Module2Song.tsx:82-88 | with nothing shown nothing changes; otherwise only the named field of the shown data changes, and the store and feedback are untouched |
| SongStep.VersionChangeDiscardsEdits | src/components/Module2Song.tsx:76-88 | after an edit and a version change the page shows the chosen version's stored data |
| SongStep.RegenerateRequest | src/components/Module2Song.tsx:91-106 | a request goes exactly when the feedback is not blank and a version is shown; it carries the feedback and the shown version |
| SongStep.RegenerateRequestIsComplete | src/app/api/regenerate-prompt/route.ts:26-30 | whatever the page sends passes the route's check for a previous version and a feedback |
| SongStep.HandleRegenerate | src/components/Module2Song.tsx:91-122 | a refused guard or a failed call changes nothing; a created file is added as a version with the shown version's keywords, and the feedback and edits are cleared |
| SongStep.RegeneratedVersionIsShown | src/components/Module2Song.tsx:55-122 | after a regeneration under a new name the page shows the new data, with the keywords of the version shown before |
| SongStep.SetFinal | src/components/Module2Song.tsx:330 | the shown version becomes the final one, and nothing else changes |
| SongStep.StoryRequest | src/components/Module2Song.tsx:127-143 | a request goes exactly when a final version is named and found; it carries the context and that version's lyrics |
| SongStep.SetFinalEnablesStory | src/components/Module2Song.tsx:127-143 | marking a shown, named version final lets the story request go with its lyrics |
| SongStep.HandleGenerateStory | src/components/Module2Song.tsx:127-160 | without a request, or on failure, nothing changes; otherwise the story and its segments are stored, the other scene emptied and step 3 unlocked; nothing else changes |
| SongStep.Continue | src/components/Module2Song.tsx:423-424 | with a blank story nothing happens; otherwise step 3 is unlocked and shown |
| SongStep.RouteStoryEnablesContinue | src/components/Module2Song.tsx:148-153 | a story the route produced always opens the way to step 3 |
| StoryRoute.NextMarker | src/app/api/generate-story/route.ts:65-67 | a marker found lies at or after the search position |
| StoryRoute.NextMarkerIsFirst | src/app/api/generate-story/route.ts:65-67 | no marker lies before the one found, nor anywhere after the search position when none is found |
| StoryRoute.SegmentEnd | src/app/api/generate-story/route.ts:65 | the lazy segment end lies in the text and the look-ahead holds there |
| StoryRoute.SegmentEndIsFirst | src/app/api/generate-story/route.ts:65 | the segment ends at the first position where the look-ahead holds |
| StoryRoute.NoMarkerBeforeSegmentEnd | src/app/api/generate-story/route.ts:65 | no marker starts inside a segment |
| StoryRoute.SegmentAtIsClean | src/app/api/generate-story/route.ts:65-68 | every segment pushed is trimmed and holds no marker |
| StoryRoute.ScannedSegmentsAreClean | src/app/api/generate-story/route.ts:64-69 | all segments the loop collects are trimmed and marker-free |
| StoryRoute.ScanStep | src/app/api/generate-story/route.ts:67-68 | one `exec` step pushes the segment the next marker opens and resumes after it |
| StoryRoute.ScanCountsMarkers | src/app/api/generate-story/route.ts:64-69 | the loop collects exactly one segment per marker occurrence: none is skipped or swallowed |
| StoryRoute.BlankLineAt | src/app/api/generate-story/route.ts:72 | the blank line found is the first at or after the position |
| StoryRoute.Paragraphs | src/app/api/generate-story/route.ts:72 | the split gives at least one paragraph |
| StoryRoute.FallbackTextAsWritten | src/app/api/generate-story/route.ts:75-76 | the marker is removed only when the untrimmed paragraph starts with it; the rest is trimmed |
| StoryRoute.FallbackTextDropsMarker | src/app/api/generate-story/route.ts:75-76 | whatever white space surrounds `i.`, the corrected fallback keeps just the text |
| StoryRoute.IndentedParagraphKeepsNumberAsWritten | src/app/api/generate-story/route.ts:75-76 | as written, a paragraph indented by white space keeps its number in its text |
| StoryRoute.IndentedParagraphKeepsNumber | src/app/api/generate-story/route.ts:75-76 | the paragraph ` 2. b` gives `2. b` as written and `b` corrected |
| StoryRoute.FindNumbered | src/app/api/generate-story/route.ts:75 | the paragraph found is the first whose trimmed text starts with `i.` |
| StoryRoute.FiveSegments | src/app/api/generate-story/route.ts:79-80 | exactly five segments: the first five given, padded with empty ones |
| StoryRoute.StorySegments | src/app/api/generate-story/route.ts:61-80 | with at least five scanned segments the first five are used, otherwise the fallback's five |
| StoryRoute.StoryParts | src/app/api/generate-story/route.ts:82 | part `i` is the number `i + 1`, a dot, a space and the segment |
| StoryRoute.StoryScansBack | src/app/api/generate-story/route.ts:65-82 | a story of five trimmed, marker-free segments scans back to exactly those segments |
| StoryRoute.GenerateStory | src/app/api/generate-story/route.ts:17-98 | an unreadable body is a 500, a missing context or lyrics a 400, a missing key a 400; a story comes back exactly when the model answered, with five segments, the story built from them |
| StoryRoute.StoryOfScannedReplyScansBack | src/app/api/generate-story/route.ts:61-82 | when the reply scans to five segments, the story the route returns scans back to the same five |
| StoryRoute.StoryStartsWithOne | src/app/api/generate-story/route.ts:82 | every story starts with `1` |
| StoryRoute.StoryEndsWithLast | src/app/api/generate-story/route.ts:82 | every story ends with its fifth segment |
| Mureka.RawSongs | src/app/api/mureka-song/route.ts:102 | `choices` wins when present, even empty; then `songs`; then `result.songs`; otherwise none (the GET handler repeats it at line 176) |
| Mureka.EmptyChoicesHideSongs | src/app/api/mureka-song/route.ts:102 | an empty `choices` array hides whatever `songs` holds (likewise at line 176) |
| Mureka.DurationOf | src/app/api/mureka-song/route.ts:111 | no duration exactly when it is missing or zero; above 1000 it is read as milliseconds, otherwise as seconds (the GET handler repeats it at line 182) |
| Mureka.ApiModel | src/app/api/mureka-song/route.ts:35-56 | a name `Object.prototype` gives a function is omitted from the request, `__proto__` becomes `{}`, and every other name becomes `auto` |
| Mureka.OfferedModelsAreAuto | src/app/api/mureka-song/route.ts:35-56 | every model the page offers, and a missing one, selects `auto` |
| Mureka.SongRequestOf | src/app/api/mureka-song/route.ts:59-67 | the lyrics are cut to 5000 characters; a prompt is sent exactly when the style is not blank, trimmed and cut to 1000 |
| Mureka.SubmittedSongs | src/app/api/mureka-song/route.ts:107-112 | one song per raw entry, with its first URL and duration, titled by number when neither it nor the request has a title |
| Mureka.SubmitSong | src/app/api/mureka-song/route.ts:29-128 | a `null` body is a 500; a missing or non-string body's lyrics a 400; a missing key a 400; an upstream refusal passes its status and text; a reply with songs completes with one per song; otherwise the task id and status come back |
| Mureka.SubmitPassesStatusThrough | src/app/api/mureka-song/route.ts:81-91 | a refused submit answers with the upstream status unchanged |
| Mureka.UsableSongs | src/app/api/mureka-song/route.ts:177-184 | the songs with a URL, none of them empty; none exactly when no entry has a URL |
| Mureka.MusicDir | src/app/api/mureka-song/route.ts:203-214 | the project directory's `MUSIC` folder first, then the keyword-and-core-word scene folder, then `output/music` |
| Mureka.SongNumber | src/app/api/mureka-song/route.ts:219 | the number is all digits, at least two |
| Mureka.SongFileNamesDiffer | src/app/api/mureka-song/route.ts:218-220 | different songs of one query get different file names |
| Mureka.SongFileExtension | src/app/api/mureka-song/route.ts:218-220 | the file is a `.wav` exactly when the URL mentions `.wav`, otherwise an `.mp3` |
| Mureka.SavedPaths | src/app/api/mureka-song/route.ts:191-228 | at most one path per song |
| Mureka.SavedPathAsWritten | src/app/api/mureka-song/route.ts:223-236 | as written, a song is given a path only when some save succeeded |
| Mureka.SavedPathOf | src/app/api/mureka-song/route.ts:223-236 | corrected: a song carries a path exactly when its own save succeeded, and it is its own file |
| Mureka.SavedPathShiftsAfterFailure | src/app/api/mureka-song/route.ts:223-236 | with the first of two saves failing, the route as written gives the first song the second song's file and the second none |
| Mureka.EveryPathAt | src/app/api/mureka-song/route.ts:218-221 | every song's path is its own file in the music folder |
| Mureka.AllSavedIsEveryPath | src/app/api/mureka-song/route.ts:194-228 | with every save successful the saved paths are every song's path |
| Mureka.SavedPathsAlignWhenAllSaved | src/app/api/mureka-song/route.ts:223-236 | with every save successful the as-written and corrected pairings agree |
| Mureka.QuerySong | src/app/api/mureka-song/route.ts:137-254 | a missing task id or key is a 400; an upstream refusal passes its status; a completed answer lists every usable song, each with its own saved path |
| Mureka.QueryStatusMapping | src/app/api/mureka-song/route.ts:187-246 | completed exactly when some song has a URL; otherwise failed exactly when the upstream status is `failed`, `error` or `cancelled`, and pending for anything else, `succeeded` included |
| PromptFiles.DropPrefix | src/app/api/generate-prompt/route.ts:59-61 | removes the pattern exactly when the text starts with it and otherwise leaves the text alone |
| PromptFiles.DropSuffix | src/app/api/generate-prompt/route.ts:59-61 | removes the pattern exactly when the text ends with it and otherwise leaves the text alone |
| PromptFiles.StripFence | src/app/api/generate-prompt/route.ts:57-62 | the result is never longer than the trimmed reply, and a reply that does not start with a fence is only trimmed |
| PromptFiles.StripFenceRoundTrip | src/app/api/generate-prompt/route.ts:57-62 | a body fenced with "```json" or bare "```" lines comes back exactly |
| PromptFiles.KeepSafe | src/app/api/generate-prompt/route.ts:78 | keeps only ASCII letters, digits and U+4E00..U+9FA5, and is empty exactly when the input has none of them |
| PromptFiles.KeepSafeOfSafe | src/app/api/generate-prompt/route.ts:78 | text made of safe characters passes through unchanged |
| PromptFiles.SafeKeyword | src/app/api/generate-prompt/route.ts:78 | at most 15 safe characters, never an underscore or a line break, and empty exactly when the first 15 characters hold no safe one |
| PromptFiles.SafeKeywordIdempotent | src/app/api/generate-prompt/route.ts:78 | cleaning a cleaned keyword changes nothing |
| PromptFiles.PaddedId | src/app/api/generate-prompt/route.ts:79 | at least three characters ending with the id, and all digits when the id is |
| PromptFiles.TimeOfDay | src/app/api/generate-prompt/route.ts:77 | four digits reading back as the local hour and minute |
| PromptFiles.VersionDigits | src/app/api/generate-prompt/route.ts:92 | at least two digits, reading back as the version number |
| PromptFiles.PaddedDigitsValue | src/app/api/generate-prompt/route.ts:92 | leading zeros do not change the value the version reads back as |
| PromptFiles.VersionOf | src/app/api/generate-prompt/route.ts:83-88 | a matching file starts with the head and an underscore and ends in `.csv` |
| PromptFiles.OwnVersionMatches | src/app/api/generate-prompt/route.ts:83-88 | a name built from its fields matches the search for its own head, with its own version |
| PromptFiles.MaxVersion | src/app/api/generate-prompt/route.ts:84-91 | the largest matching version or the start value: at least the start, at least every match, and either the start or some file's version |
| PromptFiles.NextVersionIsFresh | src/app/api/generate-prompt/route.ts:84-92 | the next version is above the start and above every version on disk for that head |
| PromptFiles.NextVersionDigitsFresh | src/app/api/generate-prompt/route.ts:92-94 | the same holds for the version as written into the name and read back |
| PromptFiles.TrailingDigits | src/app/api/regenerate-prompt/route.ts:101 | the digit run at the end of a text is all digits and maximal |
| PromptFiles.LeadingDigits | src/app/api/regenerate-prompt/route.ts:101 | the digit run at the start of a text is all digits and maximal |
| PromptFiles.ParseTail | src/app/api/regenerate-prompt/route.ts:101 | a read tail has an 8-digit date, a 4-digit time and a non-empty digit version, and the name is rebuilt from it exactly |
| PromptFiles.ParseTailOf | src/app/api/regenerate-prompt/route.ts:101 | a name built from a stem, date, time and version reads back as them |
| PromptFiles.SplitId | src/app/api/regenerate-prompt/route.ts:101 | the id is a non-empty digit run and the stem is the id, an underscore and the rest |
| PromptFiles.ParseName | src/app/api/regenerate-prompt/route.ts:100-107 | the corrected reader (empty keyword allowed): whatever it reads is well formed and rebuilds the name exactly |
| PromptFiles.ParseNameRoundTrip | src/app/api/regenerate-prompt/route.ts:100-107 | every well-formed name, including one with an empty keyword, reads back as its fields |
| PromptFiles.ParseNameAsWritten | src/app/api/regenerate-prompt/route.ts:101-105 | the reader as written: whatever it reads has a non-empty keyword, and it differs from the corrected reader only on empty keywords |
| PromptFiles.KanaKeywordIsDropped | src/app/api/generate-prompt/route.ts:78 | a kana-only keyword is cleaned to the empty text |
| PromptFiles.KanaKeywordNameUnreadable | src/app/api/regenerate-prompt/route.ts:101-105 | a file named for a kana-only keyword is one the as-written reader rejects, and the corrected one reads |
| PromptFiles.EmptyKeywordRejectedAsWritten | src/app/api/regenerate-prompt/route.ts:101-105 | every well-formed name with an empty keyword is rejected as written |
| PromptFiles.DoubleQuotes | src/app/api/generate-prompt/route.ts:98 | doubling quotes never shortens the text |
| PromptFiles.ReadQuotedOfEscaped | src/app/api/generate-prompt/route.ts:98 | an escaped field reads back as the original text, leaving what follows it |
| PromptFiles.Field | src/app/api/generate-prompt/route.ts:99-101 | a field written after a separator starts with that separator |
| PromptFiles.Expect | src/app/api/generate-prompt/route.ts:99-101 | a literal prefix is read exactly when the text starts with it, and the rest is what follows |
| PromptFiles.CsvRoundTrip | src/app/api/generate-prompt/route.ts:98-101 | the three-line CSV file reads back as the four texts it was written from |
| PromptFiles.Accepted | src/app/api/generate-prompt/route.ts:56-101 | a reply is accepted only when it parses after the fence is stripped with a non-empty style prompt and lyrics, and a parsed reply is refused only for a missing one of those or a missing translation |
| PromptFiles.GeneratePrompt | src/app/api/generate-prompt/route.ts:25-131 | a non-JSON body answers 500, missing keywords or context 400, a missing key 400; otherwise the template is filled from the stored config and a file is created exactly when the reply is accepted and the folder creation and both writes went through, else 500 |
| PromptFiles.SavedFacts | src/app/api/generate-prompt/route.ts:94-123 | what is saved carries the versioned name, `V` and the version, a 24-character time stamp and a CSV that reads back as the data |
| PromptFiles.GeneratedPartsFacts | src/app/api/generate-prompt/route.ts:75-94 | the new name keeps the padded id, the cleaned keyword, the UTC date and the local time, its version is at least 1 and above every one on disk, and with a digit id it reads back field by field |
| PromptFiles.GeneratedIsSaved | src/app/api/generate-prompt/route.ts:94-123 | a created outcome is the accepted data saved under the generated name |
| PromptFiles.GeneratedFileFacts | src/app/api/generate-prompt/route.ts:75-123 | a created file has the generated name with a fresh version, reads back field by field for a digit id, and its CSV reads back as the data |
| PromptFiles.RegenerationPromptFrame | src/app/api/regenerate-prompt/route.ts:43-75 | the prompt starts with the fixed role text, ends with the fixed rules, and holds the feedback unchanged just before the rules |
| PromptFiles.RegeneratePrompt | src/app/api/regenerate-prompt/route.ts:24-162 | a non-JSON body answers 500, a missing previous version or feedback 400, a missing key 400; otherwise a file is created exactly when the reply is accepted, the folder creation and both writes went through and the previous name reads, else 500 |
| PromptFiles.RegeneratedNameReadsBack | src/app/api/regenerate-prompt/route.ts:107-124 | the regenerated name reads back as its own fields |
| PromptFiles.RegeneratedPartsFacts | src/app/api/regenerate-prompt/route.ts:107-124 | the regenerated name keeps the previous id, keyword and date, takes the local time, and gets a version above the previous one and above every version on disk |
| PromptFiles.RegeneratedIsSaved | src/app/api/regenerate-prompt/route.ts:124-154 | a created regeneration is the accepted data saved under the name regenerated from the previous one |
| PromptFiles.RegenerationBumpsVersion | src/app/api/regenerate-prompt/route.ts:100-154 | a regenerated file's name reads back, its version is above the previous one and every one on disk, and its CSV reads back as the data |
| Prompts.DefaultPanels | src/app/lib/promptsConfig.ts:51-61 | nine panel descriptions, the same ones the contact-sheet generator numbers 1 to 9 |
| Prompts.Defaults | src/app/lib/promptsConfig.ts:90-95 | the built-in configuration has nine panels |
| Prompts.LoadPanels | src/app/lib/promptsConfig.ts:106-108 | a stored list of at least nine is cut to its first nine; a missing, non-array or shorter list gives the default nine |
| Prompts.LoadConfig | src/app/lib/promptsConfig.ts:99-114 | an unreadable file gives the defaults; otherwise each present field wins over its default, and the panel list always has nine entries |
| Prompts.GetPromptsConfig | src/app/lib/promptsConfig.ts:99-114 | the configuration every route reads always has nine panels |
| Prompts.SaveLoadRoundTrip | src/app/lib/promptsConfig.ts:99-119 | saving and loading gives the texts back, the panel list cut to nine or replaced by the defaults below nine, and a nine-panel configuration unchanged |
| Prompts.LoadIsIdempotent | src/app/lib/promptsConfig.ts:99-119 | a loaded configuration, saved and loaded again, is unchanged |
| Prompts.PostPrompts | src/app/api/prompts/route.ts:14-35 | fails with 500 exactly when the body is not JSON or is null, or the save's folder creation or write throws; otherwise a JSON value without the fields saves the current configuration back and an object is merged into it |
| Prompts.MergeIsFieldwise | src/app/api/prompts/route.ts:17-28 | each posted field of the right type replaces its current value independently; every other field keeps the current value |
| Prompts.EmptyPostKeepsConfig | src/app/api/prompts/route.ts:22-28 | a body with none of the fields saves exactly the current configuration |
| Prompts.ShortPanelsRevertOnLoad | src/app/api/prompts/route.ts:19-26 | a posted list shorter than nine is saved as is, but the next load gives the default panels |
| Prompts.SplitFromJoin | src/app/lib/promptsConfig.ts:128-131 | cutting a text at the occurrences of a placeholder and joining the pieces with it rebuilds the text |
| Prompts.SplitFromPiecesWithout | src/app/lib/promptsConfig.ts:128-131 | no piece between occurrences contains the placeholder |
| Prompts.ReplaceAllFromIsJoin | src/app/lib/promptsConfig.ts:128-131 | the literal replacement joins those pieces with the value |
| Prompts.ReplaceAllReplacesEveryOccurrence | src/app/lib/promptsConfig.ts:128-131 | every occurrence is replaced: the text is the pieces joined by the placeholder, none of them contains it, and the result is the pieces joined by the value |
| Prompts.ReplaceAllWithoutOccurrence | src/app/lib/promptsConfig.ts:128-131 | a text without the placeholder is returned unchanged |
| Prompts.ContextValueIsExpanded | src/app/lib/promptsConfig.ts:128-131 | the corrected template: placeholders inside the context value are themselves substituted, since the context goes first |
| Prompts.FullContextValueIsLiteral | src/app/lib/promptsConfig.ts:128-131 | the corrected template: the fullContext value is inserted literally, since it goes last |
| Prompts.NoOtherPlaceholderInFullContext | src/app/lib/promptsConfig.ts:129-131 | the fullContext placeholder contains neither of the other two |
| Prompts.ReplaceWhole | src/app/lib/promptsConfig.ts:128-131 | replacing a whole text by a value gives the value |
| Prompts.SubstitutionWithoutDollar | src/app/lib/promptsConfig.ts:129-131 | a replacement value without `$` is inserted as is |
| Prompts.ReplaceAllJsAgreesWithoutDollar | src/app/lib/promptsConfig.ts:129-131 | `replace` with a `$`-free value is the literal replacement |
| Prompts.AsWrittenAgreesWithoutDollar | src/app/lib/promptsConfig.ts:122-132 | with `$`-free values the template as written gives the corrected template's result |
| Prompts.DollarAmpersandReinsertsPlaceholder | src/app/lib/promptsConfig.ts:128-131 | a context of `$&` puts the placeholder back as written, while the corrected template inserts `$&` |
| SettingsRoute.DefaultSettings | src/app/api/settings/route.ts:9-25 | the fourteen known keys, each with the empty string |
| SettingsRoute.MaskValue | src/app/api/settings/route.ts:36-40 | a string longer than 8 under a key naming an API key, an access key or a secret shows its first four characters, `****` and its last four; every other value is shown unchanged |
| SettingsRoute.GetSettings | src/app/api/settings/route.ts:28-48 | a missing or unparseable file gives the defaults; otherwise every stored key is returned, each value masked by that rule |
| SettingsRoute.Existing | src/app/api/settings/route.ts:62-68 | the stored settings spread over the defaults: the known keys plus whatever the file holds |
| SettingsRoute.KeptValue | src/app/api/settings/route.ts:76 | a stored non-empty string is kept; a non-string kept is a truthy stored value |
| SettingsRoute.MergedSettings | src/app/api/settings/route.ts:71-80 | the known keys plus the posted ones; an unposted known key is empty and every posted key gets the merged value |
| SettingsRoute.PostSettings | src/app/api/settings/route.ts:51-118 | a null or non-object body answers 400; a file-system failure answers 500 with its message, with the settings file written exactly when only the `.env.local` write failed; otherwise the merged settings and the generated `.env.local` are written |
| SettingsRoute.EnvLinesSplit | src/app/api/settings/route.ts:86-105 | a group of variables is the lines before one variable, its own line, and the lines after it |
| SettingsRoute.GroupLineInText | src/app/api/settings/route.ts:86-105 | each variable's line occurs in the text around its group |
| SettingsRoute.EnvCarriesSetting | src/app/api/settings/route.ts:86-107 | every variable of both groups has its own line in `.env.local`, and a stored string setting appears there as `NAME=value` |
| SettingsRoute.MergedValueCases | src/app/api/settings/route.ts:72-80 | a masked value posted for a sensitive key keeps the stored value (or empty); any other string is stored as is; a non-string is stored as the empty string |
| SettingsRoute.GetThenPostKeepsStrings | src/app/api/settings/route.ts:28-83 | posting back exactly what GET showed leaves every stored string setting as it was, masked secrets included |
| Grok.GrokApiKey | src/app/api/grok-video/route.ts:12-21 | a non-empty key in the settings file wins; otherwise the environment variable or the empty string; the key is empty exactly when neither is set |
| Grok.ClampDuration | src/app/api/grok-video/route.ts:60 | the duration lies in 1..15, is kept inside that range and is pinned to the nearer end outside it |
| Grok.ClampDurationIdempotentAndMonotone | src/app/api/grok-video/route.ts:60 | clamping twice is clamping once, and it keeps the order of two durations |
| Grok.CreateRequestOf | src/app/api/grok-video/route.ts:30-63 | the submission carries the prompt and picture, the fixed model and 720p whatever the body asks, the requested duration clamped to 1..15 (10 when absent) and the aspect ratio (16:9 by default) |
| Grok.VideoUrlOf | src/app/api/grok-video/route.ts:101 | `url` wins, then `video_url`, then `video.url`; the result is empty exactly when all three are |
| Grok.Poll | src/app/api/grok-video/route.ts:77-109 | every poll made passed the 55-second check; the loop stops at the first poll that threw, reported failure or carried a URL, or when a check sees the limit passed; a failure status wins over a URL in the same answer |
| Grok.SpacedReadings | src/app/api/grok-video/route.ts:83-90 | with a five-second wait before every poll, the k-th check comes at least 5k seconds after the start |
| Grok.PollStopsWithinTwelve | src/app/api/grok-video/route.ts:79-90 | under that clock the loop always ends by itself after at most twelve polls |
| Grok.PollStopsFrom | src/app/api/grok-video/route.ts:79-90 | the same, from any turn up to the twelfth |
| Grok.FailureStatusBeatsUrl | src/app/api/grok-video/route.ts:101-108 | an answer with a URL and status `failed` ends as a failure; one with status `done` and state `error` returns the URL, since `status` hides `state` |
| Grok.SavedVideoPath | src/app/api/grok-video/route.ts:112-126 | a copy is kept exactly when a base folder was given and the download and write went through, as `<base>/VIDEO/video_<ms>.mp4` |
| Grok.SavedVideoPathsDiffer | src/app/api/grok-video/route.ts:119 | saves at different milliseconds write different files |
| Grok.GrokVideo | src/app/api/grok-video/route.ts:26-134 | a JSON `null` body fails the destructuring and answers 500 with the engine's message; missing picture or prompt answers 400, a missing key 400; a failed submission passes its status and text on, a throw answers 500; a video comes back exactly when the submission went through and the loop got a URL; 202 exactly when it timed out; 502 exactly when the job reported failure |
| Grok.StillRunningMeansTimeout | src/app/api/grok-video/route.ts:79-88 | under the real clock a 202 means some check after at most twelve polls saw more than 55 seconds, and every earlier check was in time |
| VideoStep.Lead | src/components/Module5Video.tsx:9-14 | each lead is the ethnicity in corner brackets followed by the face clause |
| VideoStep.NamedEthnicity | src/components/Module5Video.tsx:36 | the ethnicity named is always one the table knows |
| VideoStep.PrefixFor | src/components/Module5Video.tsx:36 | a known option gets its own lead; any other option gets the lead for Asian women |
| VideoStep.PrefixesDiffer | src/components/Module5Video.tsx:9-14 | different known options give different leads |
| VideoStep.FullPrompt | src/components/Module5Video.tsx:37 | empty with no picture chosen; otherwise it starts with the lead and is never blank, whatever the user typed |
| VideoStep.TrimKeepsUnpaddedHead | src/components/Module5Video.tsx:37 | trimming a text that opens with the lead keeps the lead |
| VideoStep.PanelItems | src/components/Module5Video.tsx:45-52 | one item per enlargement of a sheet, in order, each with its URL and its source's label |
| VideoStep.CountKindAppend | src/components/Module5Video.tsx:40-56 | counting items of a kind adds up over concatenation |
| VideoStep.PanelItemsCount | src/components/Module5Video.tsx:45-52 | a sheet contributes one enlargement item per enlargement and no scene item |
| VideoStep.SheetItemsCount | src/components/Module5Video.tsx:44-53 | a source's sheets contribute all their enlargements and no scene item |
| VideoStep.LeftListCounts | src/components/Module5Video.tsx:40-56 | the list holds one scene item per source and one item per enlargement in the store |
| VideoStep.SheetPanelCountPositive | src/components/Module5Video.tsx:58 | a source's sheets hold an enlargement exactly when some sheet does |
| VideoStep.Step5UnlocksWithAPanel | src/components/Module5Video.tsx:58-132 | the page unlocks exactly when the store holds an enlargement, which is exactly when the list shows one |
| VideoStep.ExpandUnlocksStep5 | src/components/Module4Video.tsx:186-221 | enlarging a panel of a recorded sheet on show in step 4 unlocks this page |
| VideoStep.CurrentPanelsInStore | src/components/Module4Video.tsx:129-134 | any enlargement step 4 lists is held in the store, so this page is unlocked |
| VideoStep.Select | src/components/Module5Video.tsx:154-158 | clicking an item chooses it and forgets any earlier upload and warning; the prompt and options stay |
| VideoStep.Upload | src/components/Module5Video.tsx:60-84 | with no picture chosen the page asks for one; otherwise the message is cleared exactly when the upload succeeds, which records the public URL and the warning, and a refusal shows the host's error or the default text |
| VideoStep.ActionsKeepConsistent | src/components/Module5Video.tsx:60-158 | choosing and uploading keep every upload tied to a chosen picture |
| VideoStep.VideoRequest | src/components/Module5Video.tsx:86-105 | the request is refused exactly without an upload or with a blank prompt, with the matching message; otherwise it carries the uploaded URL, the full prompt, the duration, the aspect ratio and the step-3 folder |
| VideoStep.UploadedMeansRequest | src/components/Module5Video.tsx:37-105 | on a consistent page the request goes out exactly when an upload exists, and it always has the picture and a prompt starting with the lead, so the route's 400 for a missing input never fires |
| VideoStep.FinishVideo | src/components/Module5Video.tsx:106-112 | the video opens exactly when the route returned one with a URL; a message shows exactly when the route failed |
| VideoStep.FinishedVideoOpens | src/components/Module5Video.tsx:106-112 | a video the route produced always opens, and a job still running after the route's guard shows nothing |
| AnalyzeImage.ChosenModel | src/app/api/analyze-image/route.ts:38-55 | the model used is always one of the four names, and the first when it builds |
| AnalyzeImage.ChosenModelIsFirstThatBuilds | src/app/api/analyze-image/route.ts:42-50 | the model chosen is the first whose construction does not throw |
| AnalyzeImage.ChosenFromSkips | src/app/api/analyze-image/route.ts:42-50 | the search skips the names that throw, up to the first that builds |
| AnalyzeImage.Respond | src/app/api/analyze-image/route.ts:122-132 | gender, hair colour, scene description and scene context default to the empty string exactly when missing or empty; the two contexts pass through as they are; no empty-scene image |
| AnalyzeImage.Analyze | src/app/api/analyze-image/route.ts:18-140 | a body that is not JSON or is `null` answers 500; no picture answers 400, no key 400; an analysis comes back exactly when the model replied and the reply parses after the fence is stripped; every other failure answers 500 |
| AnalyzeImage.AnalysisIsResponse | src/app/api/analyze-image/route.ts:20-132 | a successful analysis needs a readable body with a picture and a model reply, and is exactly the defaulting of the parsed reply |
| AnalyzeImage.ImagePart | src/app/api/analyze-image/route.ts:34-35 | a picture without a data-URL header goes out whole as JPEG |
| AnalyzeImage.AnalysisIgnoresFence | src/app/api/analyze-image/route.ts:109-117 | fencing the JSON reply, with or without the `json` tag, does not change the analysis |

## Left out

- DevLog.SortNewestFirst: compares stamps by code-unit order, not by `localeCompare`. The two agree on the digit-and-underscore stamps the route writes.
- FaceSwap.SavePath: paths are segment lists. `path.resolve` with an absolute folder, or with one containing `..`, is not normalised.
- GridRoutes.GenerateGrid: saved paths are segment lists. An absolute or `..` folder is not normalised.
- GridRoutes.GenerateCell: saved paths are segment lists. An absolute or `..` folder is not normalised.
- GridRoutes.GenerateScene: saved paths are segment lists. An absolute or `..` folder is not normalised.
- Mureka.MusicDir: paths are segment lists. An absolute or `..` folder is not normalised.
- Grok.SavedVideoPath: paths are segment lists. An absolute or `..` folder is not normalised.
- JsText.Take: lengths and `slice` count Unicode code points, not UTF-16 code units. They differ only for characters outside the Basic Multilingual Plane, such as emoji.
- SettingsRoute.MaskValue: the 8-character threshold and the four-character ends are counted in code points.
- StoryboardStep.CoreWord: the cut is counted in code points.
- Mureka.SongRequestOf: the 5000- and 1000-character cuts are counted in code points.
- ScenePrompts.SegmentEntries: the 400-character cut is counted in code points, and so are the cuts in `ScenePrompts.MainSceneEntries`.
- PromptFiles.SafeKeyword: `slice(0, 15)` is counted in code points.
- FaceSwap.FaceSwap: a truthy `sourceImage` that is not a string is read as missing, so the model answers 400 where the source fails later with 500.
- FaceSwap.FaceSwap: a truthy `referenceImage` that is not a string is read as missing, so the model answers 400 where `parseDataUrl` throws and the source answers 500 (`face-swap/route.ts:91`).
- FaceSwap.FaceSwap: a truthy `characterDescription` that is not a string is read as absent, so the model sends the prompt without a description where `characterDescription?.trim()` throws and the source answers 500 (`face-swap/route.ts:107`).
- PromptFiles.GeneratePrompt: `keywords` and `context` are strings or absent. A truthy non-string `keywords` passes the guard, is sent to the provider, and then `keywords.slice(0, 15).replace` throws into the 500 (`generate-prompt/route.ts:29`, `:78`); the model answers 400 for it. A truthy non-string `context` is interpolated as its JS text form, which the model does not represent.
- PromptFiles.RegeneratePrompt: `previousVersion` is absent or a record with `data` and a string `filename`. A truthy `previousVersion` without `data` throws at `regenerate-prompt/route.ts:47`, and one with a non-string `filename` throws at `:101`; both answer 500 in the source and cannot be given to the model.
- Grok.CreateRequestOf: `duration` is an integer or absent. A JSON `null` duration escapes the `= 10` default and becomes `Number(null)`, that is 0, clamped to 1 (`grok-video/route.ts:34`, `:60`); the model sends the default 10 for it. A fractional duration is sent unrounded and cannot be given to the model.
- GridRoutes.GenerateGrid: a failing write of the saved sheet is not modelled.
- GridRoutes.GenerateScene: a failing write of the saved picture is not modelled. A JSON `null` body is not represented. The stale error detail in the catch is not modelled.
- GridStep.GenerateGrid: one state stands for request time and reply time, so a stale closure reading the store across `await` is not modelled.
- GridStep.ExpandPanel: one state stands for request time and reply time, as above.
- StoryboardStep.GenerateImage: one state stands for request time and reply time, as above.
- StoryboardStep.RegeneratePrompt: one state stands for request time and reply time, so the `prompts` list the handler reads from its closure after `await` (Module3Storyboard.tsx:261-262, 291-292) is taken to be the current one.
- ScenePrompts.IndexOr0: a non-integer `index` is not modelled. Indices are integers.
- Mureka.DurationOf: a non-integer duration is not modelled.
- GridRoutes.CellNumber: a non-integer `panelIndex` is not modelled.
- PromptFiles.MaxVersion: the version search matches its head literally. Regular-expression metacharacters in an id or keyword are read as plain characters (`regenerate-prompt/route.ts:113`).
- AnalyzeImage.Analyze: the key lookup `settings.geminiApiKey || process.env.GEMINI_API_KEY || ''` is taken as the key parameter. It has the same shape as `Grok.GrokApiKey`.
- AnalyzeImage.Analyze: a truthy `image` that is not a string is read as missing, so the model answers 400 where the source fails at `image.replace` with 500.
- Prompts.LoadConfig: a stored field of the wrong type (a number where a text is expected) is read as missing, where `??` would keep it.
- Prompts.PostPrompts: non-string elements inside a posted `gridPanelDescriptions` array are not represented.
- GridStep.UpdatePanelOption: the source inserts a partial entry for a panel key it does not hold. Callers only pass the keys 1..9, which `GridStep.OptionsStayOnNinePanels` keeps present, so that branch is never taken.
- ImageLadder.Step: thrown values of every kind (`Error` objects, other values, falsy values) are modelled only in the image-generation ladders of GridImageGen, SceneImageGen and FaceSwap. Elsewhere a caught value stands for its message text (`Threw(m)` in Grok.GrokVideo and Mureka, `PollThrew` in Grok.Poll), so a thrown non-`Error` or falsy value there is not modelled.
- Logging (`console.log`, `console.error`), React rendering, styling, timers and loading flags are left out. They do not affect the values the routes return or the store holds.
- The long fixed instruction texts of the text-model prompts are left out. Only the sections built from inputs are modelled, and the grid, scene and face-swap prompt texts are kept verbatim.
- CSV parsing of the keyword table (Papa Parse) is not modelled. The page starts from the parsed rows.

## Findings

| source | as written | input that shows it | evidently intended | confidence | as-written member | corrected member |
|---|---|---|---|---|---|---|
| src/app/api/mureka-song/route.ts:223,236 | a saved path is pushed only after a successful save, and song `i` is answered with `savedPaths[i]` | two finished songs, the first download fails: song 1 gets song 2's file and song 2 gets none | each song carries its own saved file, or none | high, not executed | `Mureka.SavedPathAsWritten`, shown by `Mureka.SavedPathShiftsAfterFailure` | `Mureka.SavedPathOf`, used by `Mureka.QuerySong`; its contract gives each song its own file, and `Mureka.SavedPathsAlignWhenAllSaved` shows the two agree when every save succeeds |
| src/app/api/generate-story/route.ts:75-76 | a fallback paragraph is found by its trimmed text starting with `i.`, but the marker is removed from the untrimmed text | reply `1. a` blank line ` 2. b`: the second segment is `2. b` and the story shows `2. 2. b` | the marker is removed whatever white space precedes it | high, not executed | `StoryRoute.FallbackTextAsWritten`, shown by `StoryRoute.IndentedParagraphKeepsNumber` | `StoryRoute.FallbackText`, used by `StoryRoute.FallbackSegment`, proved by `StoryRoute.FallbackTextDropsMarker` |
| src/app/api/regenerate-prompt/route.ts:101-105 | the previous file name is read with `(.+)` for the keyword, which rejects an empty keyword | a keyword of kana only is cleaned to the empty text by `generate-prompt/route.ts:78`, giving `001__20250101_1200_V01.csv`; regenerating from it answers 500 | every name the generate route writes can be regenerated | medium, not executed | `PromptFiles.ParseNameAsWritten`, shown by `PromptFiles.KanaKeywordNameUnreadable` and `PromptFiles.EmptyKeywordRejectedAsWritten` | `PromptFiles.ParseName`, used by `PromptFiles.RegeneratePrompt`, proved by `PromptFiles.ParseNameRoundTrip` |
| src/app/lib/promptsConfig.ts:128-131 | each placeholder is replaced with `String.prototype.replace` and a string value, which expands `$&`, `$$`, `` $` `` and `$'` | template `{{context}}` with context `$&`: the prompt sent is `{{context}}` | the values are inserted literally | medium, not executed | `Prompts.ApplyMusicTemplateAsWritten`, shown by `Prompts.DollarAmpersandReinsertsPlaceholder` | `Prompts.ApplyMusicTemplate`, used by `PromptFiles.GeneratePrompt`, proved by `Prompts.ContextValueIsExpanded`, `Prompts.FullContextValueIsLiteral` and `Prompts.AsWrittenAgreesWithoutDollar` |

The routes named in the last column use the corrected helper. Each as-written helper sits beside
its corrected one, and a lemma exhibits the difference on a concrete input.

=== FILE: analyze_image.dfy ===
/**
 * `POST /api/analyze-image`: the step-1 analysis of an uploaded picture. The
 * model's reply and `JSON.parse` are oracles; what is modelled is the choice
 * of model, the data-URL split, the fence strip and the defaulting of the
 * six analysis fields.
 */
module AnalyzeImage {
  import opened Wrappers
  import opened JsText
  import DataUrl
  import PromptFiles
  import ScenePrompts

  const NoImage: string := "No image provided"
  const MissingKey: string := "API Key not configured. Please set it in Settings."
  const AnalysisFailure: string := "Failed to analyze image"

  /** The model names tried in order when building the client. */
  const ModelNames: seq<string> := ["gemini-2.0-flash", "gemini-1.5-flash", "gemini-pro-vision", "gemini-1.5-pro-latest"]

  /** The first model whose construction does not throw (`fails[k]` says whether the k-th throws),
      or `gemini-2.0-flash` when every one does. */
  function ChosenModel(fails: seq<bool>): (m: string)
    requires |fails| == |ModelNames|
    ensures m in ModelNames
    ensures !fails[0] ==> m == ModelNames[0]
  {
    ChosenFrom(fails, 0)
  }

  function ChosenFrom(fails: seq<bool>, k: nat): (m: string)
    requires |fails| == |ModelNames| && k <= |ModelNames|
    ensures m in ModelNames
    decreases |ModelNames| - k
  {
    if k == |ModelNames| then ModelNames[0]
    else if !fails[k] then ModelNames[k]
    else ChosenFrom(fails, k + 1)
  }

  /** The model chosen is the first that builds; with none building, the default is the first name. */
  lemma {:induction false} ChosenModelIsFirstThatBuilds(fails: seq<bool>, k: nat)
    requires |fails| == |ModelNames| && k < |ModelNames|
    requires !fails[k] && forall j :: 0 <= j < k ==> fails[j]
    ensures ChosenModel(fails) == ModelNames[k]
  {
    ChosenFromSkips(fails, 0, k);
  }

  lemma {:induction false} ChosenFromSkips(fails: seq<bool>, from: nat, k: nat)
    requires |fails| == |ModelNames| && from <= k < |ModelNames|
    requires !fails[k] && forall j :: from <= j < k ==> fails[j]
    ensures ChosenFrom(fails, from) == ModelNames[k]
    decreases k - from
  {
    if from < k {
      ChosenFromSkips(fails, from + 1, k);
    }
  }

  /** What `JSON.parse` gave: each field is `None` when missing, null or not a string. */
  datatype Fields = Fields(characterGender: Option<string>, characterHairColor: Option<string>,
                           sceneDescription: Option<string>, shortContext: Option<string>,
                           fullContext: Option<string>, sceneContext: Option<string>)

  datatype Analysis =
    | Analysed(characterGender: string, characterHairColor: string, sceneDescription: string,
               shortContext: Option<string>, fullContext: Option<string>, sceneContext: string,
               emptySceneImage: Option<string>)
    | AnalysisFailed(status: nat, error: string)

  /** The response fields: four default to `''`, the two contexts pass through as they are. */
  function Respond(f: Fields): (r: Analysis)
    ensures r.Analysed? && r.emptySceneImage.None?
    ensures r.shortContext == f.shortContext && r.fullContext == f.fullContext
    ensures r.characterGender == "" <==> !Truthy(f.characterGender)
    ensures r.characterHairColor == "" <==> !Truthy(f.characterHairColor)
    ensures r.sceneDescription == "" <==> !Truthy(f.sceneDescription)
    ensures r.sceneContext == "" <==> !Truthy(f.sceneContext)
    ensures Truthy(f.characterGender) ==> r.characterGender == f.characterGender.value
    ensures Truthy(f.sceneContext) ==> r.sceneContext == f.sceneContext.value
  {
    Analysed(OrElse(f.characterGender, ""), OrElse(f.characterHairColor, ""), OrElse(f.sceneDescription, ""),
             f.shortContext, f.fullContext, OrElse(f.sceneContext, ""), None)
  }

  /** The body once `await request.json()` gave an object; `image` is `None` when missing or not a string. */
  datatype AnalyzeRequest = AnalyzeRequest(image: Option<string>)

  /** `POST /api/analyze-image`. `body` is `None` when the body is not JSON or is `null` (reading its
      `image` throws); `reply` is `None` when the model call throws; `parse` is `None` when the text is
      not a JSON object. */
  function Analyze(body: Option<AnalyzeRequest>, apiKey: string, reply: Option<string>, parse: string -> Option<Fields>): (r: Analysis)
    ensures body.None? ==> r == AnalysisFailed(500, AnalysisFailure)
    ensures body.Some? && !Truthy(body.value.image) ==> r == AnalysisFailed(400, NoImage)
    ensures body.Some? && Truthy(body.value.image) && apiKey == "" ==> r == AnalysisFailed(400, MissingKey)
    ensures r.Analysed? <==> (body.Some? && Truthy(body.value.image) && apiKey != "" && reply.Some?
      && parse(PromptFiles.StripFence(reply.value)).Some?)
    ensures r.Analysed? ==> r.emptySceneImage.None?
    ensures r.AnalysisFailed? && (body.None? || (Truthy(body.value.image) && apiKey != "")) ==>
      r == AnalysisFailed(500, AnalysisFailure)
  {
    if body.None? then AnalysisFailed(500, AnalysisFailure)
    else if !Truthy(body.value.image) then AnalysisFailed(400, NoImage)
    else if apiKey == "" then AnalysisFailed(400, MissingKey)
    else match reply
      case None => AnalysisFailed(500, AnalysisFailure)
      case Some(text) =>
        match parse(PromptFiles.StripFence(text))
        case None => AnalysisFailed(500, AnalysisFailure)
        case Some(f) => Respond(f)
  }

  /** A successful analysis needs a readable body with a picture and a model reply, and is exactly
      the defaulting of the parsed reply: the route adds nothing of its own. */
  lemma AnalysisIsResponse(body: Option<AnalyzeRequest>, apiKey: string, reply: Option<string>,
                           parse: string -> Option<Fields>)
    requires Analyze(body, apiKey, reply, parse).Analysed?
    ensures body.Some? && Truthy(body.value.image) && reply.Some?
    ensures parse(PromptFiles.StripFence(reply.value)).Some?
    ensures Analyze(body, apiKey, reply, parse) == Respond(parse(PromptFiles.StripFence(reply.value)).value)
  {
  }

  /** The picture goes out as its payload and MIME, JPEG when the header is missing. */
  function ImagePart(image: string): (p: DataUrl.Parsed)
    ensures DataUrl.HeaderEnd(image).None? ==> p == DataUrl.Parsed(image, DataUrl.Jpeg)
  {
    ScenePrompts.InlineImage(image)
  }

  /** Fencing the JSON, with or without the `json` tag, does not change the analysis. */
  lemma AnalysisIgnoresFence(body: Option<AnalyzeRequest>, apiKey: string, json: string, parse: string -> Option<Fields>)
    requires |json| > 0 && json[0] == '{' && !IsJsSpace(json[|json| - 1])
    ensures Analyze(body, apiKey, Some(PromptFiles.JsonFenceOpen + json + PromptFiles.FenceClose), parse)
         == Analyze(body, apiKey, Some(json), parse)
    ensures Analyze(body, apiKey, Some(PromptFiles.FenceOpen + json + PromptFiles.FenceClose), parse)
         == Analyze(body, apiKey, Some(json), parse)
  {
    PromptFiles.StripFenceRoundTrip(json);
    TrimOfUnpadded(json);
    assert !StartsWith(json, "```") by { assert json[0] != '`'; }
  }
}

=== FILE: app_store.dfy ===
/**
 * The client-side application store: navigation, the per-step working data
 * and the step-4 provenance tree (source image -> contact sheets -> 2K panels).
 * Every action is a pure transition from one `State` to the next.
 */
module AppStore {
  import opened Wrappers

  datatype PromptData = PromptData(stylePrompt: string, stylePromptCN: string, lyrics: string, lyricsCN: string)

  /** One saved prompt-version CSV, as listed in step 2. */
  datatype PromptVersion = PromptVersion(
    filename: string, version: string, data: PromptData, createdAt: string,
    keywordJa: Option<string>, keywordCn: Option<string>)

  /** One row of the step-1 keyword table. */
  datatype KeywordItem = KeywordItem(id: string, keyword: string, translation: string)

  /** A step-3 scene prompt with its current image and the images it replaced. */
  datatype ScenePrompt = ScenePrompt(id: string, prompt: string, imageUrl: Option<string>, imageHistory: Option<seq<string>>)

  /** A 2K/4K enlargement of one panel of a contact sheet. */
  datatype Panel2K = Panel2K(panelIndex: int, imageUrl: string)

  /** A nine-panel contact sheet with its enlargements in generation order. */
  datatype Sheet = Sheet(contactImageUrl: string, savedDir: string, panels: seq<Panel2K>)

  /** A source image and the contact sheets generated from it. */
  datatype Group = Group(sourceId: string, sourceLabel: string, sourceImageUrl: string, sheets: seq<Sheet>)

  /** A song of step 2's list, stamped when it is added. */
  datatype GeneratedSong = GeneratedSong(
    id: string, url: string, title: string, model: string, duration: Option<int>,
    savedPath: Option<string>, createdAt: string)

  /** A video of step 6's gallery, stamped when it is added. */
  datatype GeneratedVideo = GeneratedVideo(videoUrl: string, savedPath: Option<string>, sourceLabel: string, createdAt: string)

  datatype State = State(
    currentModule: int,
    unlockedModules: seq<int>,
    // step 1
    csvKeywords: seq<KeywordItem>,
    selectedKeyword: Option<KeywordItem>,
    uploadedImage: Option<string>,
    characterGender: string,
    characterHairColor: string,
    sceneDescription: string,
    imageContext: string,
    fullContext: string,
    sceneContext: string,
    emptySceneImage: Option<string>,
    // step 2
    promptVersions: seq<PromptVersion>,
    selectedVersion: Option<string>,
    finalSelectedVersion: Option<string>,
    generatedStory: string,
    generatedStorySegments: seq<string>,
    generatedStoryOtherScene: string,
    finalSongId: Option<string>,
    // step 3
    scenePrompts: seq<ScenePrompt>,
    desireScenePrompts: seq<ScenePrompt>,
    step3OutputBaseDir: Option<string>,
    studioSceneImage: Option<string>,
    characterDescription: string,
    // step 4
    ethnicityOption: string,
    step4Groups: seq<Group>,
    // lists of results
    generatedSongs: seq<GeneratedSong>,
    generatedVideos: seq<GeneratedVideo>)

  const DefaultEthnicity: string := "亚洲女性"

  /** The step-1 analysis fields, all empty. */
  predicate Module1Cleared(s: State) {
    && s.csvKeywords == [] && s.selectedKeyword == None && s.uploadedImage == None
    && s.characterGender == "" && s.characterHairColor == "" && s.sceneDescription == ""
    && s.imageContext == "" && s.fullContext == "" && s.sceneContext == ""
    && s.emptySceneImage == None
  }

  /** The store as the application starts: on step 1, only step 1 unlocked, no data. */
  function Initial(): (s: State)
    ensures s.currentModule == 1 && s.unlockedModules == [1]
    ensures Module1Cleared(s)
    ensures s.promptVersions == [] && s.selectedVersion == None && s.step4Groups == []
    ensures s.generatedSongs == [] && s.generatedVideos == []
    ensures s.ethnicityOption == DefaultEthnicity
  {
    State(1, [1], [], None, None, "", "", "", "", "", "", None,
          [], None, None, "", [], "", None,
          [], [], None, None, "",
          DefaultEthnicity, [], [], [])
  }

  // ---------------------------------------------------------------- navigation

  predicate NoDuplicates(xs: seq<int>) {
    forall i, j :: 0 <= i < j < |xs| ==> xs[i] != xs[j]
  }

  /** `unlockModule`: adds the module at the end of the unlocked list unless it is already there. */
  function UnlockModule(s: State, m: int): (r: State)
    ensures m in r.unlockedModules
    ensures m in s.unlockedModules ==> r == s
    ensures m !in s.unlockedModules ==> r.unlockedModules == s.unlockedModules + [m]
    ensures r == s.(unlockedModules := r.unlockedModules)
  {
    if m in s.unlockedModules then s else s.(unlockedModules := s.unlockedModules + [m])
  }

  lemma UnlockModuleIdempotent(s: State, m: int)
    ensures UnlockModule(UnlockModule(s, m), m) == UnlockModule(s, m)
  {
  }

  /** The unlocked list never holds a module twice. */
  lemma UnlockModuleKeepsNoDuplicates(s: State, m: int)
    requires NoDuplicates(s.unlockedModules)
    ensures NoDuplicates(UnlockModule(s, m).unlockedModules)
  {
    var u := s.unlockedModules;
    if m !in u {
      var v := u + [m];
      forall i, j | 0 <= i < j < |v| ensures v[i] != v[j] {
        if j == |u| {
          assert v[i] == u[i];
        }
      }
    }
  }

  // ---------------------------------------------------------------- step 1 / step 2

  /** `resetModule1`: clears the step-1 fields and nothing else. */
  function ResetModule1(s: State): (r: State)
    ensures Module1Cleared(r)
    ensures r.(csvKeywords := s.csvKeywords, selectedKeyword := s.selectedKeyword,
               uploadedImage := s.uploadedImage, characterGender := s.characterGender,
               characterHairColor := s.characterHairColor, sceneDescription := s.sceneDescription,
               imageContext := s.imageContext, fullContext := s.fullContext,
               sceneContext := s.sceneContext, emptySceneImage := s.emptySceneImage) == s
  {
    s.(csvKeywords := [], selectedKeyword := None, uploadedImage := None,
       characterGender := "", characterHairColor := "", sceneDescription := "",
       imageContext := "", fullContext := "", sceneContext := "", emptySceneImage := None)
  }

  /** `addPromptVersion`: the version goes last in the list and becomes the selected one. */
  function AddPromptVersion(s: State, v: PromptVersion): (r: State)
    ensures |r.promptVersions| == |s.promptVersions| + 1
    ensures r.promptVersions[..|s.promptVersions|] == s.promptVersions
    ensures r.promptVersions[|s.promptVersions|] == v
    ensures r.selectedVersion == Some(v.version)
    ensures r == s.(promptVersions := r.promptVersions, selectedVersion := r.selectedVersion)
  {
    s.(promptVersions := s.promptVersions + [v], selectedVersion := Some(v.version))
  }

  // ---------------------------------------------------------------- step-4 provenance

  predicate HasSource(gs: seq<Group>, id: string) {
    exists i :: 0 <= i < |gs| && gs[i].sourceId == id
  }

  predicate HasSheet(g: Group, contactImageUrl: string) {
    exists k :: 0 <= k < |g.sheets| && g.sheets[k].contactImageUrl == contactImageUrl
  }

  /** `step4Groups.find(g => g.sourceId === id)`, as a position. */
  function FindSource(gs: seq<Group>, id: string): (r: Option<nat>)
    ensures r.Some? ==> r.value < |gs| && gs[r.value].sourceId == id
    ensures r.Some? ==> forall j :: 0 <= j < r.value ==> gs[j].sourceId != id
    ensures r.None? <==> !HasSource(gs, id)
  {
    if |gs| == 0 then None
    else if gs[0].sourceId == id then Some(0)
    else
      match FindSource(gs[1..], id)
      case Some(k) => Some(k + 1)
      case None => None
  }

  /** The search answers the first position holding the source. */
  lemma {:induction false} FindSourceFirst(gs: seq<Group>, id: string, a: nat)
    requires a < |gs| && gs[a].sourceId == id
    requires forall j :: 0 <= j < a ==> gs[j].sourceId != id
    ensures FindSource(gs, id) == Some(a)
  {
    if a > 0 {
      assert forall j :: 0 <= j < a - 1 ==> gs[1..][j] == gs[j + 1];
      FindSourceFirst(gs[1..], id, a - 1);
    }
  }

  /** Sources are distinct, every group's sheets are distinct by contact-sheet URL,
      and every sheet holds at most one enlargement per panel. */
  predicate DistinctSources(gs: seq<Group>) {
    forall i, j :: 0 <= i < j < |gs| ==> gs[i].sourceId != gs[j].sourceId
  }

  predicate DistinctSheets(g: Group) {
    forall k, l :: 0 <= k < l < |g.sheets| ==> g.sheets[k].contactImageUrl != g.sheets[l].contactImageUrl
  }

  predicate DistinctPanels(ps: seq<Panel2K>) {
    forall a, b :: 0 <= a < b < |ps| ==> ps[a].panelIndex != ps[b].panelIndex
  }

  predicate GroupWf(g: Group) {
    DistinctSheets(g) && forall k :: 0 <= k < |g.sheets| ==> DistinctPanels(g.sheets[k].panels)
  }

  predicate GroupsWf(gs: seq<Group>) {
    DistinctSources(gs) && forall i :: 0 <= i < |gs| ==> GroupWf(gs[i])
  }

  /** Same source identity, label and image: only the sheets may differ. */
  predicate SameSource(a: Group, b: Group) {
    a.sourceId == b.sourceId && a.sourceLabel == b.sourceLabel && a.sourceImageUrl == b.sourceImageUrl
  }

  /** `addStep4ContactSheet`: records a new contact sheet under its source, creating
      the source group if it is unknown, and skipping a sheet already recorded in
      the first group with that source. */
  function AddContactSheet(gs: seq<Group>, sourceId: string, sourceLabel: string, sourceImageUrl: string,
                           contactImageUrl: string, savedDir: string): (r: seq<Group>)
    ensures !HasSource(gs, sourceId) ==>
      r == gs + [Group(sourceId, sourceLabel, sourceImageUrl, [Sheet(contactImageUrl, savedDir, [])])]
    ensures HasSource(gs, sourceId) ==>
      && |r| == |gs|
      && forall i :: 0 <= i < |gs| ==> SameSource(r[i], gs[i])
    ensures HasSource(gs, sourceId) && HasSheet(gs[FindSource(gs, sourceId).value], contactImageUrl) ==> r == gs
    ensures HasSource(gs, sourceId) && !HasSheet(gs[FindSource(gs, sourceId).value], contactImageUrl) ==>
      forall i :: 0 <= i < |gs| ==>
        r[i].sheets == if gs[i].sourceId == sourceId then gs[i].sheets + [Sheet(contactImageUrl, savedDir, [])] else gs[i].sheets
  {
    var newSheet := Sheet(contactImageUrl, savedDir, []);
    match FindSource(gs, sourceId)
    case Some(k) =>
      if HasSheet(gs[k], contactImageUrl) then gs
      else seq(|gs|, i requires 0 <= i < |gs| =>
                 if gs[i].sourceId == sourceId then gs[i].(sheets := gs[i].sheets + [newSheet]) else gs[i])
    case None =>
      gs + [Group(sourceId, sourceLabel, sourceImageUrl, [newSheet])]
  }

  /** `addStep4GroupSource`: registers a source with no sheets, unless it is known. */
  function AddGroupSource(gs: seq<Group>, sourceId: string, sourceLabel: string, sourceImageUrl: string): (r: seq<Group>)
    ensures HasSource(gs, sourceId) ==> r == gs
    ensures !HasSource(gs, sourceId) ==> r == gs + [Group(sourceId, sourceLabel, sourceImageUrl, [])]
    ensures HasSource(r, sourceId)
  {
    if HasSource(gs, sourceId) then gs
    else
      var r := gs + [Group(sourceId, sourceLabel, sourceImageUrl, [])];
      assert r[|gs|].sourceId == sourceId;
      r
  }

  /** How many entries of `ps` are for the panel. */
  function PanelCount(ps: seq<Panel2K>, panelIndex: int): (n: nat)
    ensures n <= |ps|
  {
    if |ps| == 0 then 0 else (if ps[0].panelIndex == panelIndex then 1 else 0) + PanelCount(ps[1..], panelIndex)
  }

  /** Keeps the entries of `ps` whose panel is not `panelIndex`, in order. Being an ordered selection
      of `ps` as long as its entries for other panels, it drops no repeated entry. */
  function RemovePanel(ps: seq<Panel2K>, panelIndex: int): (r: seq<Panel2K>)
    ensures |r| == |ps| - PanelCount(ps, panelIndex)
    ensures forall p :: p in r <==> p in ps && p.panelIndex != panelIndex
    ensures IsSubsequence(r, ps)
  {
    if |ps| == 0 then []
    else if ps[0].panelIndex == panelIndex then RemovePanel(ps[1..], panelIndex)
    else [ps[0]] + RemovePanel(ps[1..], panelIndex)
  }

  /** `filter` keeps every copy: an entry for another panel occurs in the result as often as in `ps`,
      and an entry for the panel not at all. */
  lemma {:induction false} RemovePanelKeepsEveryCopy(ps: seq<Panel2K>, panelIndex: int, p: Panel2K)
    ensures multiset(RemovePanel(ps, panelIndex))[p] == if p.panelIndex == panelIndex then 0 else multiset(ps)[p]
  {
    if |ps| > 0 {
      var t := ps[1..];
      var rest := RemovePanel(t, panelIndex);
      RemovePanelKeepsEveryCopy(t, panelIndex, p);
      assert ps == [ps[0]] + t;
      assert multiset(ps) == multiset{ps[0]} + multiset(t);
      if ps[0].panelIndex != panelIndex {
        assert multiset([ps[0]] + rest) == multiset{ps[0]} + multiset(rest);
      }
    }
  }

  /** `a` is `b` with some elements left out and the rest in their original order. */
  predicate IsSubsequence<T(==)>(a: seq<T>, b: seq<T>)
    decreases |b|
  {
    if |a| == 0 then true
    else if |b| == 0 then false
    else if a[0] == b[0] then IsSubsequence(a[1..], b[1..])
    else IsSubsequence(a, b[1..])
  }

  /** One enlargement per panel: the old entry for the panel goes, the new one comes last. */
  function ReplacePanel(ps: seq<Panel2K>, panelIndex: int, imageUrl: string): (r: seq<Panel2K>)
    ensures |r| >= 1 && r[|r| - 1] == Panel2K(panelIndex, imageUrl)
    ensures forall a :: 0 <= a < |r| - 1 ==> r[a].panelIndex != panelIndex
    ensures IsSubsequence(r[..|r| - 1], ps)
    ensures forall p :: p in ps && p.panelIndex != panelIndex ==> p in r
    ensures DistinctPanels(ps) ==> DistinctPanels(r)
  {
    var kept := RemovePanel(ps, panelIndex);
    var r := kept + [Panel2K(panelIndex, imageUrl)];
    assert r[..|r| - 1] == kept;
    assert forall a :: 0 <= a < |kept| ==> kept[a] in kept;
    assert DistinctPanels(ps) ==> DistinctPanels(kept) by {
      if DistinctPanels(ps) {
        RemovePanelKeepsDistinct(ps, panelIndex);
      }
    }
    r
  }

  lemma {:induction false} RemovePanelKeepsDistinct(ps: seq<Panel2K>, panelIndex: int)
    requires DistinctPanels(ps)
    ensures DistinctPanels(RemovePanel(ps, panelIndex))
  {
    if |ps| > 0 {
      var tail := ps[1..];
      DistinctTail(ps);
      RemovePanelKeepsDistinct(tail, panelIndex);
      if ps[0].panelIndex != panelIndex {
        var rest := RemovePanel(tail, panelIndex);
        HeadPanelUnique(ps);
        assert forall p :: p in rest ==> p.panelIndex != ps[0].panelIndex;
        ConsKeepsDistinct(ps[0], rest);
      }
    }
  }

  lemma DistinctTail(ps: seq<Panel2K>)
    requires |ps| > 0 && DistinctPanels(ps)
    ensures DistinctPanels(ps[1..])
  {
    var tail := ps[1..];
    forall a, b | 0 <= a < b < |tail| ensures tail[a].panelIndex != tail[b].panelIndex {
      assert tail[a] == ps[a + 1] && tail[b] == ps[b + 1];
    }
  }

  lemma HeadPanelUnique(ps: seq<Panel2K>)
    requires |ps| > 0 && DistinctPanels(ps)
    ensures forall p :: p in ps[1..] ==> p.panelIndex != ps[0].panelIndex
  {
    forall p | p in ps[1..] ensures p.panelIndex != ps[0].panelIndex {
      var j :| 0 <= j < |ps[1..]| && ps[1..][j] == p;
      assert ps[j + 1] == p;
    }
  }

  lemma ConsKeepsDistinct(p: Panel2K, rest: seq<Panel2K>)
    requires DistinctPanels(rest)
    requires forall q :: q in rest ==> q.panelIndex != p.panelIndex
    ensures DistinctPanels([p] + rest)
  {
    var r := [p] + rest;
    forall a, b | 0 <= a < b < |r| ensures r[a].panelIndex != r[b].panelIndex {
      assert r[b] == rest[b - 1];
      if a > 0 {
        assert r[a] == rest[a - 1];
      }
    }
  }

  /** The sheet with the given contact-sheet URL gets its enlargement for the panel replaced. */
  function ReplaceInSheets(sheets: seq<Sheet>, contactImageUrl: string, panelIndex: int, imageUrl: string): (r: seq<Sheet>)
    ensures |r| == |sheets|
    ensures forall k :: 0 <= k < |sheets| ==>
      && r[k].contactImageUrl == sheets[k].contactImageUrl
      && r[k].savedDir == sheets[k].savedDir
      && (sheets[k].contactImageUrl != contactImageUrl ==> r[k] == sheets[k])
      && (sheets[k].contactImageUrl == contactImageUrl ==> r[k].panels == ReplacePanel(sheets[k].panels, panelIndex, imageUrl))
  {
    seq(|sheets|, k requires 0 <= k < |sheets| =>
      if sheets[k].contactImageUrl != contactImageUrl then sheets[k]
      else sheets[k].(panels := ReplacePanel(sheets[k].panels, panelIndex, imageUrl)))
  }

  /** `addStep4Panel2K`: records the enlargement of one panel in every matching group and sheet. */
  function AddPanel2K(gs: seq<Group>, sourceId: string, contactImageUrl: string, panelIndex: int, imageUrl: string): (r: seq<Group>)
    ensures |r| == |gs|
    ensures forall i :: 0 <= i < |gs| ==> SameSource(r[i], gs[i]) && |r[i].sheets| == |gs[i].sheets|
    ensures forall i :: 0 <= i < |gs| && gs[i].sourceId != sourceId ==> r[i] == gs[i]
    ensures forall i :: 0 <= i < |gs| && gs[i].sourceId == sourceId ==>
      r[i].sheets == ReplaceInSheets(gs[i].sheets, contactImageUrl, panelIndex, imageUrl)
  {
    seq(|gs|, i requires 0 <= i < |gs| =>
      if gs[i].sourceId != sourceId then gs[i]
      else gs[i].(sheets := ReplaceInSheets(gs[i].sheets, contactImageUrl, panelIndex, imageUrl)))
  }

  /** With no sheet matching both the source and the contact-sheet URL, nothing changes. */
  lemma AddPanel2KNoMatchIsIdentity(gs: seq<Group>, sourceId: string, contactImageUrl: string, panelIndex: int, imageUrl: string)
    requires forall i :: 0 <= i < |gs| && gs[i].sourceId == sourceId ==> !HasSheet(gs[i], contactImageUrl)
    ensures AddPanel2K(gs, sourceId, contactImageUrl, panelIndex, imageUrl) == gs
  {
    var r := AddPanel2K(gs, sourceId, contactImageUrl, panelIndex, imageUrl);
    forall i | 0 <= i < |gs| ensures r[i] == gs[i] {
      if gs[i].sourceId == sourceId {
        var sh := gs[i].sheets;
        var rs := r[i].sheets;
        forall k | 0 <= k < |sh| ensures rs[k] == sh[k] {
          assert sh[k].contactImageUrl != contactImageUrl;
        }
        assert rs == sh;
      }
    }
  }

  // ---------------------------------------------------------------- invariant

  lemma AddContactSheetPreservesWf(gs: seq<Group>, sourceId: string, sourceLabel: string, sourceImageUrl: string,
                                   contactImageUrl: string, savedDir: string)
    requires GroupsWf(gs)
    ensures GroupsWf(AddContactSheet(gs, sourceId, sourceLabel, sourceImageUrl, contactImageUrl, savedDir))
  {
    var r := AddContactSheet(gs, sourceId, sourceLabel, sourceImageUrl, contactImageUrl, savedDir);
    var f := FindSource(gs, sourceId);
    if f.Some? {
      var k := f.value;
      if !HasSheet(gs[k], contactImageUrl) {
        forall i | 0 <= i < |r| ensures GroupWf(r[i]) {
          if gs[i].sourceId == sourceId {
            assert i == k;
            var s := r[i].sheets;
            assert s == gs[i].sheets + [Sheet(contactImageUrl, savedDir, [])];
            forall a, b | 0 <= a < b < |s| ensures s[a].contactImageUrl != s[b].contactImageUrl {
              if b == |s| - 1 {
                assert s[a] == gs[i].sheets[a];
              } else {
                assert s[a] == gs[i].sheets[a] && s[b] == gs[i].sheets[b];
              }
            }
            forall a | 0 <= a < |s| ensures DistinctPanels(s[a].panels) {
              if a < |s| - 1 {
                assert s[a] == gs[i].sheets[a];
              }
            }
          } else {
            assert r[i] == gs[i];
          }
        }
        assert DistinctSources(r) by {
          forall i, j | 0 <= i < j < |r| ensures r[i].sourceId != r[j].sourceId {
            assert SameSource(r[i], gs[i]) && SameSource(r[j], gs[j]);
          }
        }
      }
    } else {
      forall i | 0 <= i < |r| ensures GroupWf(r[i]) {
        if i < |gs| {
          assert r[i] == gs[i];
        }
      }
      forall i, j | 0 <= i < j < |r| ensures r[i].sourceId != r[j].sourceId {
        if j == |gs| {
          assert r[i] == gs[i];
        } else {
          assert r[i] == gs[i] && r[j] == gs[j];
        }
      }
    }
  }

  lemma AddGroupSourcePreservesWf(gs: seq<Group>, sourceId: string, sourceLabel: string, sourceImageUrl: string)
    requires GroupsWf(gs)
    ensures GroupsWf(AddGroupSource(gs, sourceId, sourceLabel, sourceImageUrl))
  {
    var r := AddGroupSource(gs, sourceId, sourceLabel, sourceImageUrl);
    if !HasSource(gs, sourceId) {
      forall i | 0 <= i < |r| ensures GroupWf(r[i]) {
        if i < |gs| {
          assert r[i] == gs[i];
        }
      }
      forall i, j | 0 <= i < j < |r| ensures r[i].sourceId != r[j].sourceId {
        if j == |gs| {
          assert r[i] == gs[i];
        } else {
          assert r[i] == gs[i] && r[j] == gs[j];
        }
      }
    }
  }

  lemma AddPanel2KPreservesWf(gs: seq<Group>, sourceId: string, contactImageUrl: string, panelIndex: int, imageUrl: string)
    requires GroupsWf(gs)
    ensures GroupsWf(AddPanel2K(gs, sourceId, contactImageUrl, panelIndex, imageUrl))
  {
    var r := AddPanel2K(gs, sourceId, contactImageUrl, panelIndex, imageUrl);
    forall i | 0 <= i < |r| ensures GroupWf(r[i]) {
      if gs[i].sourceId == sourceId {
        var sh := gs[i].sheets;
        var rs := r[i].sheets;
        forall k, l | 0 <= k < l < |rs| ensures rs[k].contactImageUrl != rs[l].contactImageUrl {
          assert rs[k].contactImageUrl == sh[k].contactImageUrl;
          assert rs[l].contactImageUrl == sh[l].contactImageUrl;
        }
        forall k | 0 <= k < |rs| ensures DistinctPanels(rs[k].panels) {
          assert DistinctPanels(sh[k].panels);
        }
      }
    }
    forall i, j | 0 <= i < j < |r| ensures r[i].sourceId != r[j].sourceId {
      assert SameSource(r[i], gs[i]) && SameSource(r[j], gs[j]);
    }
  }

  /** The three provenance-recording actions. */
  datatype ProvenanceAction =
    | RecordSheet(sourceId: string, sourceLabel: string, sourceImageUrl: string, contactImageUrl: string, savedDir: string)
    | RecordPanel(sourceId: string, contactImageUrl: string, panelIndex: int, imageUrl: string)
    | RecordSource(sourceId: string, sourceLabel: string, sourceImageUrl: string)

  function ApplyAction(gs: seq<Group>, a: ProvenanceAction): seq<Group> {
    match a
    case RecordSheet(id, name, src, url, dir) => AddContactSheet(gs, id, name, src, url, dir)
    case RecordPanel(id, url, p, img) => AddPanel2K(gs, id, url, p, img)
    case RecordSource(id, name, src) => AddGroupSource(gs, id, name, src)
  }

  function ApplyActions(gs: seq<Group>, actions: seq<ProvenanceAction>): seq<Group>
    decreases |actions|
  {
    if |actions| == 0 then gs else ApplyActions(ApplyAction(gs, actions[0]), actions[1..])
  }

  /** Starting from no groups, any sequence of the recording actions keeps sources,
      contact sheets within a group, and panels within a sheet pairwise distinct. */
  lemma {:induction false} ProvenanceStaysWellFormed(gs: seq<Group>, actions: seq<ProvenanceAction>)
    requires GroupsWf(gs)
    ensures GroupsWf(ApplyActions(gs, actions))
    decreases |actions|
  {
    if |actions| > 0 {
      var next := ApplyAction(gs, actions[0]);
      match actions[0] {
        case RecordSheet(id, name, src, url, dir) => AddContactSheetPreservesWf(gs, id, name, src, url, dir);
        case RecordPanel(id, url, p, img) => AddPanel2KPreservesWf(gs, id, url, p, img);
        case RecordSource(id, name, src) => AddGroupSourcePreservesWf(gs, id, name, src);
      }
      ProvenanceStaysWellFormed(next, actions[1..]);
    }
  }

  lemma InitialProvenanceWellFormed(actions: seq<ProvenanceAction>)
    ensures GroupsWf(ApplyActions(Initial().step4Groups, actions))
  {
    ProvenanceStaysWellFormed([], actions);
  }

  // ---------------------------------------------------------------- state-level actions

  /** `addStep4ContactSheet`: only the provenance tree changes, and it stays well formed. */
  function AddStep4ContactSheet(s: State, sourceId: string, sourceLabel: string, sourceImageUrl: string,
                                contactImageUrl: string, savedDir: string): (r: State)
    ensures r.(step4Groups := s.step4Groups) == s
    ensures GroupsWf(s.step4Groups) ==> GroupsWf(r.step4Groups)
  {
    var gs := AddContactSheet(s.step4Groups, sourceId, sourceLabel, sourceImageUrl, contactImageUrl, savedDir);
    assert GroupsWf(s.step4Groups) ==> GroupsWf(gs) by {
      if GroupsWf(s.step4Groups) {
        AddContactSheetPreservesWf(s.step4Groups, sourceId, sourceLabel, sourceImageUrl, contactImageUrl, savedDir);
      }
    }
    s.(step4Groups := gs)
  }

  /** `addStep4Panel2K`: only the provenance tree changes, and it stays well formed. */
  function AddStep4Panel2K(s: State, sourceId: string, contactImageUrl: string, panelIndex: int, imageUrl: string): (r: State)
    ensures r.(step4Groups := s.step4Groups) == s
    ensures GroupsWf(s.step4Groups) ==> GroupsWf(r.step4Groups)
  {
    var gs := AddPanel2K(s.step4Groups, sourceId, contactImageUrl, panelIndex, imageUrl);
    assert GroupsWf(s.step4Groups) ==> GroupsWf(gs) by {
      if GroupsWf(s.step4Groups) {
        AddPanel2KPreservesWf(s.step4Groups, sourceId, contactImageUrl, panelIndex, imageUrl);
      }
    }
    s.(step4Groups := gs)
  }

  /** `addStep4GroupSource`: only the provenance tree changes, and it stays well formed. */
  function AddStep4GroupSource(s: State, sourceId: string, sourceLabel: string, sourceImageUrl: string): (r: State)
    ensures r.(step4Groups := s.step4Groups) == s
    ensures GroupsWf(s.step4Groups) ==> GroupsWf(r.step4Groups)
  {
    var gs := AddGroupSource(s.step4Groups, sourceId, sourceLabel, sourceImageUrl);
    assert GroupsWf(s.step4Groups) ==> GroupsWf(gs) by {
      if GroupsWf(s.step4Groups) {
        AddGroupSourcePreservesWf(s.step4Groups, sourceId, sourceLabel, sourceImageUrl);
      }
    }
    s.(step4Groups := gs)
  }

  /** `addGeneratedSong`: the song, stamped `createdAt`, goes at the end of the list; nothing else changes. */
  function AddGeneratedSong(s: State, song: GeneratedSong, createdAt: string): (r: State)
    ensures |r.generatedSongs| == |s.generatedSongs| + 1
    ensures r.generatedSongs[..|s.generatedSongs|] == s.generatedSongs
    ensures r.generatedSongs[|s.generatedSongs|] == song.(createdAt := createdAt)
    ensures r.(generatedSongs := s.generatedSongs) == s
  {
    s.(generatedSongs := s.generatedSongs + [song.(createdAt := createdAt)])
  }

  /** `addGeneratedVideo`: the video, stamped `createdAt`, goes at the end of the list; nothing else changes. */
  function AddGeneratedVideo(s: State, video: GeneratedVideo, createdAt: string): (r: State)
    ensures |r.generatedVideos| == |s.generatedVideos| + 1
    ensures r.generatedVideos[..|s.generatedVideos|] == s.generatedVideos
    ensures r.generatedVideos[|s.generatedVideos|] == video.(createdAt := createdAt)
    ensures r.(generatedVideos := s.generatedVideos) == s
  {
    s.(generatedVideos := s.generatedVideos + [video.(createdAt := createdAt)])
  }
}

=== FILE: clock.dfy ===
/**
 * Calendar instants and the textual stamps the routes derive from them:
 * `toISOString()`, the compact `YYYYMMDDHHmmss` stamp obtained by deleting
 * `-`, `:` and `T` and keeping 14 characters, and the `YYYYMMDD` date stamp.
 * The clock itself is not modelled: every operation takes the instant as input.
 */
module Clock {
  import opened JsText

  /** Broken-down time; UTC when fed to `toISOString`, local time when fed to `getHours` and friends. */
  datatype DateTime = DateTime(year: nat, month: nat, day: nat, hour: nat, minute: nat, second: nat, millis: nat)

  /** Field ranges of a real instant with a four-digit year. */
  predicate Valid(d: DateTime) {
    d.year <= 9999 && 1 <= d.month <= 12 && 1 <= d.day <= 31
    && d.hour < 24 && d.minute < 60 && d.second < 60 && d.millis < 1000
  }

  function Pow10(k: nat): (p: nat)
    ensures p >= 1
  {
    if k == 0 then 1 else 10 * Pow10(k - 1)
  }

  /** A number below `10^k` has at most `k` decimal digits. */
  lemma {:induction false} NatToStringLength(n: nat, k: nat)
    requires 1 <= k && n < Pow10(k)
    ensures |NatToString(n)| <= k
  {
    if n >= 10 {
      assert k >= 2;
      assert n / 10 < Pow10(k - 1);
      NatToStringLength(n / 10, k - 1);
    }
  }

  /** `String(n).padStart(w, '0')`, for a number that fits in `w` digits. */
  function Fixed(n: nat, w: nat): (r: string)
    requires 1 <= w && n < Pow10(w)
    ensures |r| == w && AllDigits(r)
  {
    NatToStringLength(n, w);
    PadStart(NatToString(n), w, '0')
  }

  /** Leading zeros do not change a digit run's value. */
  lemma {:induction false} LeadingZerosValue(z: string, s: string)
    requires forall i :: 0 <= i < |z| ==> z[i] == '0'
    requires AllDigits(s)
    ensures AllDigits(z + s) && DigitsValue(z + s) == DigitsValue(s)
    decreases |s|
  {
    if |s| == 0 {
      assert z + s == z;
      ZerosValue(z);
    } else {
      assert (z + s)[..|z + s| - 1] == z + s[..|s| - 1];
      LeadingZerosValue(z, s[..|s| - 1]);
    }
  }

  lemma {:induction false} ZerosValue(z: string)
    requires forall i :: 0 <= i < |z| ==> z[i] == '0'
    ensures AllDigits(z) && DigitsValue(z) == 0
  {
    if |z| > 0 {
      ZerosValue(z[..|z| - 1]);
    }
  }

  /** Zero padding does not change a digit run's value. */
  lemma PadStartZerosValue(s: string, w: nat)
    requires AllDigits(s)
    ensures AllDigits(PadStart(s, w, '0')) && DigitsValue(PadStart(s, w, '0')) == DigitsValue(s)
  {
    var r := PadStart(s, w, '0');
    var k := |r| - |s|;
    assert r[k..] == s;
    assert r == r[..k] + r[k..];
    LeadingZerosValue(r[..k], s);
  }

  /** A zero-padded field reads back as the number it renders. */
  lemma FixedValue(n: nat, w: nat)
    requires 1 <= w && n < Pow10(w)
    ensures DigitsValue(Fixed(n, w)) == n
  {
    PadStartZerosValue(NatToString(n), w);
    DigitsValueOfNatToString(n);
  }

  /** A field followed by a one-character separator and the rest of the text. */
  function Sep(field: string, c: char, rest: string): string {
    field + [c] + rest
  }

  /** `Date.prototype.toISOString`: `YYYY-MM-DDTHH:mm:ss.sssZ`. */
  function IsoString(d: DateTime): (r: string)
    requires Valid(d)
    ensures |r| == 24
  {
    Sep(Fixed(d.year, 4), '-', Sep(Fixed(d.month, 2), '-', Sep(Fixed(d.day, 2), 'T',
      Sep(Fixed(d.hour, 2), ':', Sep(Fixed(d.minute, 2), ':', Sep(Fixed(d.second, 2), '.', Fixed(d.millis, 3) + "Z"))))))
  }

  /** `s.replace(/[...]/g, '')`: every character in `cs` deleted. */
  function RemoveAll(s: string, cs: set<char>): (r: string)
    ensures |r| <= |s|
    ensures forall i :: 0 <= i < |r| ==> r[i] !in cs
  {
    if |s| == 0 then ""
    else (if s[0] in cs then "" else [s[0]]) + RemoveAll(s[1..], cs)
  }

  lemma {:induction false} RemoveAllAppend(a: string, b: string, cs: set<char>)
    ensures RemoveAll(a + b, cs) == RemoveAll(a, cs) + RemoveAll(b, cs)
    decreases |a|
  {
    if |a| > 0 {
      assert (a + b)[1..] == a[1..] + b;
      RemoveAllAppend(a[1..], b, cs);
    } else {
      assert a + b == b;
    }
  }

  /** Digits are never among the deleted separators, so a digit run passes through unchanged. */
  lemma {:induction false} RemoveAllKeepsDigits(s: string, cs: set<char>)
    requires AllDigits(s)
    requires forall c :: c in cs ==> !IsDigit(c)
    ensures RemoveAll(s, cs) == s
    decreases |s|
  {
    if |s| > 0 {
      RemoveAllKeepsDigits(s[1..], cs);
    }
  }

  const IsoSeparators: set<char> := {'-', ':', 'T'}

  /** `toISOString().replace(/[-:T]/g, '').slice(0, 14)` */
  function CompactStamp(d: DateTime): string
    requires Valid(d)
  {
    Take(RemoveAll(IsoString(d), IsoSeparators), 14)
  }

  /** Deleting a separator from `field sep rest`: the digit field survives and the separator goes. */
  lemma RemoveAllSepDropped(field: string, c: char, rest: string, cs: set<char>)
    requires AllDigits(field) && c in cs
    requires forall x :: x in cs ==> !IsDigit(x)
    ensures RemoveAll(Sep(field, c, rest), cs) == field + RemoveAll(rest, cs)
  {
    RemoveAllAppend(field + [c], rest, cs);
    RemoveAllAppend(field, [c], cs);
    RemoveAllKeepsDigits(field, cs);
  }

  /** A separator outside `cs` is kept between the field and the rest. */
  lemma RemoveAllSepKept(field: string, c: char, rest: string, cs: set<char>)
    requires AllDigits(field) && c !in cs
    requires forall x :: x in cs ==> !IsDigit(x)
    ensures RemoveAll(Sep(field, c, rest), cs) == field + ([c] + RemoveAll(rest, cs))
  {
    RemoveAllAppend(field + [c], rest, cs);
    RemoveAllAppend(field, [c], cs);
    RemoveAllKeepsDigits(field, cs);
  }

  lemma IsoSeparatorsAreNotDigits()
    ensures forall x :: x in IsoSeparators ==> !IsDigit(x)
  {
  }

  /** The separator deletion on the ISO layout, over arbitrary digit fields: the digits stay,
      nested as the layout nests them, and only the dot and what follows are left after them. */
  lemma RemoveIsoSeparators(y: string, mo: string, da: string, h: string, mi: string, se: string, ms: string)
    requires AllDigits(y) && AllDigits(mo) && AllDigits(da) && AllDigits(h) && AllDigits(mi) && AllDigits(se) && AllDigits(ms)
    ensures RemoveAll(Sep(y, '-', Sep(mo, '-', Sep(da, 'T', Sep(h, ':', Sep(mi, ':', Sep(se, '.', ms + "Z")))))), IsoSeparators)
      == y + (mo + (da + (h + (mi + (se + ("." + (ms + "Z")))))))
  {
    var cs := IsoSeparators;
    IsoSeparatorsAreNotDigits();
    var t6 := ms + "Z";
    assert RemoveAll(t6, cs) == t6 by {
      RemoveAllAppend(ms, "Z", cs);
      RemoveAllKeepsDigits(ms, cs);
    }
    var t5 := Sep(se, '.', t6);
    assert RemoveAll(t5, cs) == se + ("." + t6) by { RemoveAllSepKept(se, '.', t6, cs); }
    var t4 := Sep(mi, ':', t5);
    assert RemoveAll(t4, cs) == mi + RemoveAll(t5, cs) by { RemoveAllSepDropped(mi, ':', t5, cs); }
    var t3 := Sep(h, ':', t4);
    assert RemoveAll(t3, cs) == h + RemoveAll(t4, cs) by { RemoveAllSepDropped(h, ':', t4, cs); }
    var t2 := Sep(da, 'T', t3);
    assert RemoveAll(t2, cs) == da + RemoveAll(t3, cs) by { RemoveAllSepDropped(da, 'T', t3, cs); }
    var t1 := Sep(mo, '-', t2);
    assert RemoveAll(t1, cs) == mo + RemoveAll(t2, cs) by { RemoveAllSepDropped(mo, '-', t2, cs); }
    assert RemoveAll(Sep(y, '-', t1), cs) == y + RemoveAll(t1, cs) by { RemoveAllSepDropped(y, '-', t1, cs); }
  }

  /** Six fields nested before a tail, cut at their total length, are the six fields in a row. */
  lemma TakeNestedFields(y: string, mo: string, da: string, h: string, mi: string, se: string, tail: string)
    requires |y| + |mo| + |da| + |h| + |mi| + |se| == 14
    ensures Take(y + (mo + (da + (h + (mi + (se + tail))))), 14) == y + mo + da + h + mi + se
  {
    var a5 := se + tail;
    var a4 := mi + a5;
    assert a4 == (mi + se) + tail;
    var a3 := h + a4;
    assert a3 == (h + mi + se) + tail;
    var a2 := da + a3;
    assert a2 == (da + h + mi + se) + tail;
    var a1 := mo + a2;
    assert a1 == (mo + da + h + mi + se) + tail;
    var a0 := y + a1;
    var digits := y + mo + da + h + mi + se;
    assert a0 == digits + tail;
    assert a0[..14] == digits;
  }

  /** The separator deletion and the cut, over arbitrary digit fields. */
  lemma CompactOfFields(y: string, mo: string, da: string, h: string, mi: string, se: string, ms: string)
    requires AllDigits(y) && AllDigits(mo) && AllDigits(da) && AllDigits(h) && AllDigits(mi) && AllDigits(se) && AllDigits(ms)
    requires |y| + |mo| + |da| + |h| + |mi| + |se| == 14
    ensures Take(RemoveAll(Sep(y, '-', Sep(mo, '-', Sep(da, 'T', Sep(h, ':', Sep(mi, ':', Sep(se, '.', ms + "Z")))))), IsoSeparators), 14)
      == y + mo + da + h + mi + se
  {
    RemoveIsoSeparators(y, mo, da, h, mi, se, ms);
    TakeNestedFields(y, mo, da, h, mi, se, "." + (ms + "Z"));
  }

  /** The fields of a valid instant fit their widths. */
  lemma ValidFieldsFit(d: DateTime)
    requires Valid(d)
    ensures d.year < Pow10(4) && d.month < Pow10(2) && d.day < Pow10(2) && d.hour < Pow10(2)
      && d.minute < Pow10(2) && d.second < Pow10(2) && d.millis < Pow10(3)
  {
    assert Pow10(2) == 100 && Pow10(3) == 1000 && Pow10(4) == 10000;
  }

  /** The compact stamp is exactly the six UTC fields, zero-padded, in order. */
  lemma CompactStampFields(d: DateTime)
    requires Valid(d)
    ensures CompactStamp(d) == Fixed(d.year, 4) + Fixed(d.month, 2) + Fixed(d.day, 2)
      + Fixed(d.hour, 2) + Fixed(d.minute, 2) + Fixed(d.second, 2)
    ensures |CompactStamp(d)| == 14 && AllDigits(CompactStamp(d))
  {
    ValidFieldsFit(d);
    var y, mo, da := Fixed(d.year, 4), Fixed(d.month, 2), Fixed(d.day, 2);
    var h, mi, se, ms := Fixed(d.hour, 2), Fixed(d.minute, 2), Fixed(d.second, 2), Fixed(d.millis, 3);
    assert CompactStamp(d) == Take(RemoveAll(Sep(y, '-', Sep(mo, '-', Sep(da, 'T', Sep(h, ':', Sep(mi, ':', Sep(se, '.', ms + "Z")))))), IsoSeparators), 14);
    CompactOfFields(y, mo, da, h, mi, se, ms);
    DigitsJoin(y, mo);
    DigitsJoin(y + mo, da);
    DigitsJoin(y + mo + da, h);
    DigitsJoin(y + mo + da + h, mi);
    DigitsJoin(y + mo + da + h + mi, se);
  }

  lemma DigitsJoin(a: string, b: string)
    requires AllDigits(a) && AllDigits(b)
    ensures AllDigits(a + b)
  {
  }

  /** `toISOString().slice(0, 10).replace(/-/g, '')` */
  function DateStamp(d: DateTime): string
    requires Valid(d)
  {
    RemoveAll(IsoString(d)[..10], {'-'})
  }

  /** The date stamp is the UTC year, month and day, zero-padded: `YYYYMMDD`. */
  lemma DateStampFields(d: DateTime)
    requires Valid(d)
    ensures DateStamp(d) == Fixed(d.year, 4) + Fixed(d.month, 2) + Fixed(d.day, 2)
    ensures |DateStamp(d)| == 8 && AllDigits(DateStamp(d))
  {
    ValidFieldsFit(d);
    var y, mo, da := Fixed(d.year, 4), Fixed(d.month, 2), Fixed(d.day, 2);
    assert DateStamp(d) == RemoveAll(Sep(y, '-', Sep(mo, '-', da)), {'-'}) by { IsoStringStartsWithDate(d); }
    DateOfFields(y, mo, da);
  }

  /** Deleting the dashes of `YYYY-MM-DD`, over arbitrary digit fields. */
  lemma DateOfFields(y: string, mo: string, da: string)
    requires AllDigits(y) && AllDigits(mo) && AllDigits(da)
    ensures RemoveAll(Sep(y, '-', Sep(mo, '-', da)), {'-'}) == y + mo + da
    ensures AllDigits(y + mo + da)
  {
    var cs: set<char> := {'-'};
    RemoveAllKeepsDigits(da, cs);
    RemoveAllSepDropped(mo, '-', da, cs);
    RemoveAllSepDropped(y, '-', Sep(mo, '-', da), cs);
    assert y + (mo + da) == y + mo + da;
    DigitsJoin(y, mo);
    DigitsJoin(y + mo, da);
  }

  /** The first ten characters of the ISO text are the date, `YYYY-MM-DD`. */
  lemma IsoStringStartsWithDate(d: DateTime)
    requires Valid(d)
    ensures IsoString(d)[..10] == Sep(Fixed(d.year, 4), '-', Sep(Fixed(d.month, 2), '-', Fixed(d.day, 2)))
  {
    ValidFieldsFit(d);
    var y, mo, da := Fixed(d.year, 4), Fixed(d.month, 2), Fixed(d.day, 2);
    var rest := Sep(Fixed(d.hour, 2), ':', Sep(Fixed(d.minute, 2), ':', Sep(Fixed(d.second, 2), '.', Fixed(d.millis, 3) + "Z")));
    var iso := Sep(y, '-', Sep(mo, '-', Sep(da, 'T', rest)));
    assert IsoString(d) == iso;
    assert iso == Sep(y, '-', Sep(mo, '-', da)) + ("T" + rest);
  }
}

=== FILE: data_url.dfy ===
/**
 * Data-URL handling: the marker-based splitter with MIME normalisation and
 * white-space stripping, the cheap base64 plausibility check, and the
 * `^data:image/\w+;base64,` pattern that the generators and several routes
 * apply inline.
 */
module DataUrl {
  import opened Wrappers
  import opened JsText

  const Marker: string := ";base64,"
  const Jpeg: string := "image/jpeg"
  const Png: string := "image/png"
  const Webp: string := "image/webp"

  /** The MIME types the image provider accepts. */
  predicate IsValidMime(m: string) { m == Jpeg || m == Png || m == Webp }

  /** Space, tab, LF and CR: the characters removed from base64 payloads. */
  predicate IsStripped(c: char) { c == ' ' || c == '\t' || c == '\n' || c == '\r' }

  predicate NoStripped(s: string) { forall i :: 0 <= i < |s| ==> !IsStripped(s[i]) }

  /** `s` with every space, tab, LF and CR removed, the other characters kept in order. */
  function Strip(s: string): string {
    if |s| == 0 then ""
    else if IsStripped(s[|s| - 1]) then Strip(s[..|s| - 1])
    else Strip(s[..|s| - 1]) + [s[|s| - 1]]
  }

  lemma {:induction false} StripProperties(s: string)
    ensures |Strip(s)| <= |s|
    ensures NoStripped(Strip(s))
    ensures NoStripped(s) ==> Strip(s) == s
  {
    if |s| > 0 {
      StripProperties(s[..|s| - 1]);
      if NoStripped(s) {
        assert NoStripped(s[..|s| - 1]);
        assert s[..|s| - 1] + [s[|s| - 1]] == s;
      }
    }
  }

  /** Stripping distributes over concatenation. */
  lemma {:induction false} StripAppend(a: string, b: string)
    ensures Strip(a + b) == Strip(a) + Strip(b)
    decreases |b|
  {
    if |b| > 0 {
      var b' := b[..|b| - 1];
      assert (a + b)[..|a + b| - 1] == a + b';
      StripAppend(a, b');
    } else {
      assert a + b == a;
    }
  }

  /** `stripWhitespace` is idempotent and never lengthens its input. */
  lemma StripIdempotent(s: string)
    ensures Strip(Strip(s)) == Strip(s)
    ensures |Strip(s)| <= |s|
  {
    StripProperties(s);
    StripProperties(Strip(s));
  }

  /** `stripWhitespace`: the character loop of the source. */
  method StripWhitespace(s: string) returns (out: string)
    ensures out == Strip(s)
    ensures NoStripped(out) && |out| <= |s|
  {
    out := "";
    var i := 0;
    while i < |s|
      invariant 0 <= i <= |s|
      invariant out == Strip(s[..i])
    {
      assert s[..i + 1][..i] == s[..i];
      if !IsStripped(s[i]) {
        out := out + [s[i]];
      }
      i := i + 1;
    }
    assert s[..i] == s;
    StripProperties(s);
  }

  datatype Parsed = Parsed(data: string, mimeType: string)

  /** `parseDataUrl`: the text after the first `;base64,` (stripped) and the MIME between
      the first `:` and the marker, normalised to one the provider accepts. Input without
      the marker is taken as bare base64. */
  function ParseDataUrl(u: string): (r: Parsed)
    ensures IsValidMime(r.mimeType)
    ensures NoStripped(r.data)
    ensures IndexOf(u, Marker) == -1 ==> r == Parsed(Strip(u), Jpeg)
    ensures IndexOf(u, Marker) >= 0 ==> r.data == Strip(u[IndexOf(u, Marker) + |Marker|..])
  {
    var idx := IndexOf(u, Marker);
    if idx == -1 then
      StripProperties(u);
      Parsed(Strip(u), Jpeg)
    else
      var prefix := u[..idx];
      var colon := IndexOf(prefix, ":");
      var mime := if colon != -1 then prefix[colon + 1..] else Jpeg;
      var data := Strip(u[idx + |Marker|..]);
      StripProperties(u[idx + |Marker|..]);
      Parsed(data, if IsValidMime(mime) then mime else Jpeg)
  }

  /** A marker whose prefix has no `:` yields `image/jpeg`. */
  lemma ParseWithoutColonIsJpeg(u: string)
    requires IndexOf(u, Marker) >= 0
    requires !Contains(u[..IndexOf(u, Marker)], ":")
    ensures ParseDataUrl(u).mimeType == Jpeg
  {
  }

  /** A MIME outside the accepted three is replaced by `image/jpeg`. */
  lemma ParseNormalisesUnknownMime(mime: string, data: string)
    requires !IsValidMime(mime)
    requires !Contains(mime, ";") && !Contains(mime, ":")
    ensures ParseDataUrl("data:" + mime + Marker + data).mimeType == Jpeg
  {
    var u := "data:" + mime + Marker + data;
    MarkerFirstAfterHeader(mime, data);
    var prefix := u[..|"data:" + mime|];
    assert prefix == "data:" + mime;
    assert OccursAt(prefix, ":", 4);
    ContainsAt(prefix, ":", 4);
  }

  lemma MarkerFirstAfterHeader(mime: string, data: string)
    requires !Contains(mime, ";")
    ensures IndexOf("data:" + mime + Marker + data, Marker) == |"data:" + mime|
  {
    var u := "data:" + mime + Marker + data;
    var k := |"data:" + mime|;
    assert OccursAt(u, Marker, k) by {
      assert u[k..k + |Marker|] == Marker;
    }
    ContainsAt(u, Marker, k);
    var idx := IndexOf(u, Marker);
    if idx < k {
      assert u[idx] == u[idx..idx + |Marker|][0] == ';';
      if idx >= 5 {
        OccursAtChar(mime, ';', idx - 5);
      }
      assert false;
    }
  }

  /** A well-formed data URL with an accepted MIME and a clean payload parses back to its parts. */
  lemma ParseDataUrlRoundTrip(mime: string, data: string)
    requires IsValidMime(mime)
    requires NoStripped(data)
    ensures ParseDataUrl("data:" + mime + Marker + data) == Parsed(data, mime)
  {
    var u := "data:" + mime + Marker + data;
    assert forall i :: 0 <= i < |mime| ==> mime[i] != ';';
    NotContainsChar(mime, ';');
    MarkerFirstAfterHeader(mime, data);
    var k := |"data:" + mime|;
    var prefix := u[..k];
    assert prefix == "data:" + mime;
    assert OccursAt(prefix, ":", 4);
    ContainsAt(prefix, ":", 4);
    var colon := IndexOf(prefix, ":");
    assert colon == 4 by {
      assert prefix[..4] == "data";
      if colon < 4 {
        OccursAtChar(prefix, ':', colon);
      }
    }
    assert prefix[colon + 1..] == mime;
    assert u[k + |Marker|..] == data;
    StripProperties(data);
  }

  // ---------------------------------------------------------------- base64 plausibility

  predicate IsBase64Char(c: char) {
    ('A' <= c <= 'Z') || ('a' <= c <= 'z') || ('0' <= c <= '9') || c == '+' || c == '/' || c == '='
  }

  const SampleLength: nat := 64
  const MinLength: nat := 100

  /** The plausibility rule: long enough, and the leading sample is base64 alphabet only. */
  predicate PlausibleBase64(data: string) {
    |data| >= MinLength && forall i :: 0 <= i < SampleLength ==> IsBase64Char(data[i])
  }

  /** `isValidBase64`: rejects short input, then scans the first 64 characters. */
  method IsValidBase64(data: string) returns (ok: bool)
    ensures ok <==> PlausibleBase64(data)
    ensures |data| < MinLength ==> !ok
  {
    if |data| == 0 || |data| < MinLength {
      return false;
    }
    var sample := Take(data, SampleLength);
    var i := 0;
    while i < |sample|
      invariant 0 <= i <= |sample| == SampleLength
      invariant forall j :: 0 <= j < i ==> IsBase64Char(data[j])
    {
      if !IsBase64Char(sample[i]) {
        return false;
      }
      i := i + 1;
    }
    return true;
  }

  /** Characters after the sample never change the verdict. */
  lemma PlausibilityIgnoresTail(a: string, b: string)
    requires |a| == |b| && |a| >= SampleLength
    requires a[..SampleLength] == b[..SampleLength]
    ensures PlausibleBase64(a) <==> PlausibleBase64(b)
  {
    assert forall i :: 0 <= i < SampleLength ==> a[i] == a[..SampleLength][i] && b[i] == b[..SampleLength][i];
  }

  // ---------------------------------------------------------------- inline pattern

  const ImagePrefix: string := "data:image/"

  /** Length of the run of `\w` characters starting at `from`. */
  function WordRun(s: string, from: nat): (n: nat)
    requires from <= |s|
    ensures from + n <= |s|
    ensures forall i :: from <= i < from + n ==> IsWordChar(s[i])
    ensures from + n < |s| ==> !IsWordChar(s[from + n])
    decreases |s| - from
  {
    if from < |s| && IsWordChar(s[from]) then 1 + WordRun(s, from + 1) else 0
  }

  /** The position just after `data:image/\w+;base64,` when `s` starts that way. */
  function HeaderEnd(s: string): Option<nat> {
    if !StartsWith(s, ImagePrefix) then None
    else
      var n := WordRun(s, |ImagePrefix|);
      if n > 0 && OccursAt(s, Marker, |ImagePrefix| + n) then Some(|ImagePrefix| + n + |Marker|) else None
  }

  /** `s.match(/^data:(image\/\w+);base64,/)?.[1]` */
  function MatchMime(s: string): (r: Option<string>)
    ensures r.Some? ==> StartsWith(r.value, "image/")
  {
    match HeaderEnd(s)
    case Some(k) =>
      assert s[..|ImagePrefix|] == ImagePrefix;
      assert s[5..k - |Marker|][..6] == s[..|ImagePrefix|][5..];
      Some(s[5..k - |Marker|])
    case None => None
  }

  /** `s.match(/^data:image\/\w+;base64,(.+)$/)?.[1]` */
  function MatchPayload(s: string): (r: Option<string>)
    ensures r.Some? ==> |r.value| > 0 && NoLineTerminator(r.value) && EndsWith(s, r.value)
  {
    match HeaderEnd(s)
    case Some(k) => if k < |s| && NoLineTerminator(s[k..]) then Some(s[k..]) else None
    case None => None
  }

  /** How the generators split an inline image: the matched payload or the whole string,
      and the matched MIME or `image/jpeg`. */
  function SplitInlineImage(s: string): (r: Parsed)
    ensures MatchPayload(s).None? ==> r.data == s
    ensures MatchMime(s).None? ==> r.mimeType == Jpeg
  {
    Parsed(MatchPayload(s).GetOr(s), MatchMime(s).GetOr(Jpeg))
  }

  predicate AllWordChars(s: string) { forall i :: 0 <= i < |s| ==> IsWordChar(s[i]) }

  /** A data URL built from a `\w+` subtype and a one-line payload is split back into them. */
  lemma SplitInlineImageRoundTrip(subtype: string, payload: string)
    requires |subtype| > 0 && AllWordChars(subtype)
    requires |payload| > 0 && NoLineTerminator(payload)
    ensures SplitInlineImage(ImagePrefix + subtype + Marker + payload) == Parsed(payload, "image/" + subtype)
  {
    var s := ImagePrefix + subtype + Marker + payload;
    var k := |ImagePrefix| + |subtype| + |Marker|;
    HeaderEndOf(subtype, payload);
    assert s[k..] == payload;
    assert s[5..k - |Marker|] == "image/" + subtype;
  }

  /** The header of a data URL built from a `\w+` subtype ends just after the marker. */
  lemma HeaderEndOf(subtype: string, rest: string)
    requires |subtype| > 0 && AllWordChars(subtype)
    ensures HeaderEnd(ImagePrefix + subtype + Marker + rest) == Some(|ImagePrefix| + |subtype| + |Marker|)
  {
    var s := ImagePrefix + subtype + Marker + rest;
    var p := |ImagePrefix|;
    assert s[..p] == ImagePrefix;
    assert forall i :: p <= i < p + |subtype| ==> s[i] == subtype[i - p];
    assert s[p + |subtype|] == ';';
    WordRunOf(s, p, |subtype|);
    assert s[p + |subtype|..p + |subtype| + |Marker|] == Marker;
  }

  lemma WordRunOf(s: string, from: nat, n: nat)
    requires from + n < |s|
    requires forall i :: from <= i < from + n ==> IsWordChar(s[i])
    requires !IsWordChar(s[from + n])
    ensures WordRun(s, from) == n
    decreases n
  {
    if n > 0 {
      WordRunOf(s, from + 1, n - 1);
    }
  }

  /** `data.replace(/^data:image\/\w+;base64,/, '')`: the header is removed when present. */
  function StripImageHeader(s: string): (r: string)
    ensures EndsWith(s, r)
    ensures HeaderEnd(s).None? ==> r == s
  {
    match HeaderEnd(s)
    case Some(k) => s[k..]
    case None => s
  }
}

=== FILE: devlog.dfy ===
/**
 * The development log: `/api/devlog` keeps `logs/devlog.json`, a JSON array of entries stamped
 * `YYYYMMDD_HHMM` in local time; POST prepends one entry, GET lists them newest first. The panel
 * renders a stamp as `YYYY-MM-DD HH:MM`. The file system is given as the stored value and the
 * outcome of the write.
 */
module DevLog {
  import opened Wrappers
  import opened JsText
  import Clock

  datatype LogEntry = LogEntry(timestamp: string, content: string)

  const ContentRequired: string := "Content is required"
  const SaveFailure: string := "Failed to save log"

  /** `${year}${MM}${DD}_${HH}${mm}` from the local clock; the year is printed as it is, unpadded. */
  function Stamp(d: Clock.DateTime): (s: string)
    requires Clock.Valid(d)
    ensures |s| == |NatToString(d.year)| + 9
    ensures s[|s| - 5] == '_'
  {
    NatToString(d.year) + Clock.Fixed(d.month, 2) + Clock.Fixed(d.day, 2) + "_"
      + Clock.Fixed(d.hour, 2) + Clock.Fixed(d.minute, 2)
  }

  lemma {:induction false} NatToStringAtLeast(n: nat, k: nat)
    requires n >= Clock.Pow10(k)
    ensures |NatToString(n)| >= k + 1
  {
    if k > 0 {
      NatToStringAtLeast(n / 10, k - 1);
    }
  }

  /** The stamp has the thirteen characters the panel expects exactly for four-digit years. */
  lemma StampLength(d: Clock.DateTime)
    requires Clock.Valid(d)
    ensures |Stamp(d)| == 13 <==> 1000 <= d.year
    ensures 1000 <= d.year ==> Stamp(d)[..4] == Clock.Fixed(d.year, 4) && Stamp(d)[8] == '_'
  {
    if d.year < 1000 {
      Clock.NatToStringLength(d.year, 3);
    } else {
      NatToStringAtLeast(d.year, 3);
      Clock.NatToStringLength(d.year, 4);
      var y := NatToString(d.year);
      assert Clock.Fixed(d.year, 4) == y;
      assert Stamp(d)[..4] == y;
    }
  }

  /** The panel's display form: `YYYY-MM-DD HH:MM` for a 13-character stamp that contains `_`,
      otherwise the text unchanged. Character 8 is skipped whatever it is. */
  function FormatTimestamp(ts: string): (r: string)
    ensures |ts| == 13 && Contains(ts, "_") ==> |r| == 16 && r[4] == '-' && r[7] == '-' && r[10] == ' ' && r[13] == ':'
    ensures !(|ts| == 13 && Contains(ts, "_")) ==> r == ts
  {
    if |ts| == 13 && Contains(ts, "_") then
      ts[0..4] + "-" + ts[4..6] + "-" + ts[6..8] + " " + ts[9..11] + ":" + ts[11..13]
    else ts
  }

  /** Reads a display form back into a stamp. */
  function ParseDisplay(f: string): (ts: string)
    requires |f| == 16
    ensures |ts| == 13 && ts[8] == '_'
  {
    f[0..4] + f[5..7] + f[8..10] + "_" + f[11..13] + f[14..16]
  }

  /** A 13-character stamp is its six pieces around the separator at position 8. */
  lemma StampPieces(ts: string)
    requires |ts| == 13 && ts[8] == '_'
    ensures ts == ts[0..4] + ts[4..6] + ts[6..8] + "_" + ts[9..11] + ts[11..13]
  {
    var u := ts[0..4] + ts[4..6] + ts[6..8] + "_" + ts[9..11] + ts[11..13];
    assert forall i :: 0 <= i < 13 ==> u[i] == ts[i];
  }

  /** Each digit pair of the display form sits where the reader looks for it. */
  lemma DisplayPieces(ts: string)
    requires |ts| == 13 && Contains(ts, "_")
    ensures var r := FormatTimestamp(ts);
      |r| == 16 && r[0..4] == ts[0..4] && r[5..7] == ts[4..6] && r[8..10] == ts[6..8]
      && r[11..13] == ts[9..11] && r[14..16] == ts[11..13]
  {
    var r := FormatTimestamp(ts);
    assert r[0..4] == ts[0..4] && r[5..7] == ts[4..6] && r[8..10] == ts[6..8];
    assert r[11..13] == ts[9..11] && r[14..16] == ts[11..13];
  }

  /** Formatting keeps the twelve digits in order: reading the display back gives the stamp. */
  lemma FormatRoundTrip(ts: string)
    requires |ts| == 13 && ts[8] == '_'
    ensures Contains(ts, "_")
    ensures ParseDisplay(FormatTimestamp(ts)) == ts
  {
    assert ts[8..9] == "_";
    ContainsAt(ts, "_", 8);
    DisplayPieces(ts);
    StampPieces(ts);
  }

  /** Two stamps that differ only at the separator position display the same. */
  lemma FormatIgnoresSeparator(ts: string, c: char)
    requires |ts| == 13 && Contains(ts, "_") && Contains(ts[8 := c], "_")
    ensures FormatTimestamp(ts[8 := c]) == FormatTimestamp(ts)
  {
    var u := ts[8 := c];
    assert u[0..8] == ts[0..8] && u[9..13] == ts[9..13];
  }

  /** A devlog stamp from a four-digit year displays as its zero-padded fields. */
  lemma FormatStamp(d: Clock.DateTime)
    requires Clock.Valid(d) && 1000 <= d.year
    ensures FormatTimestamp(Stamp(d)) == Clock.Fixed(d.year, 4) + "-" + Clock.Fixed(d.month, 2) + "-"
      + Clock.Fixed(d.day, 2) + " " + Clock.Fixed(d.hour, 2) + ":" + Clock.Fixed(d.minute, 2)
  {
    StampLength(d);
    var s := Stamp(d);
    assert s[8..9] == "_";
    ContainsAt(s, "_", 8);
    assert s[4..6] == Clock.Fixed(d.month, 2);
    assert s[6..8] == Clock.Fixed(d.day, 2);
    assert s[9..11] == Clock.Fixed(d.hour, 2);
    assert s[11..13] == Clock.Fixed(d.minute, 2);
  }

  /** A year before 1000 gives a shorter stamp, which the panel shows raw. */
  lemma ShortYearShownRaw(d: Clock.DateTime)
    requires Clock.Valid(d) && d.year < 1000
    ensures FormatTimestamp(Stamp(d)) == Stamp(d)
  {
    StampLength(d);
  }

  // ---- ordering ----

  /** Code-unit order on strings, standing in for `localeCompare`: `a` sorts at or before `b`. */
  predicate LexLe(a: string, b: string) {
    LexLeFrom(a, b, 0)
  }

  predicate LexLeFrom(a: string, b: string, i: nat)
    decreases |a| - i
  {
    i >= |a| || (i < |b| && (a[i] < b[i] || (a[i] == b[i] && LexLeFrom(a, b, i + 1))))
  }

  lemma {:induction false} LexLeFromTotal(a: string, b: string, i: nat)
    ensures LexLeFrom(a, b, i) || LexLeFrom(b, a, i)
    decreases |a| - i
  {
    if i < |a| && i < |b| && a[i] == b[i] {
      LexLeFromTotal(a, b, i + 1);
    }
  }

  lemma {:induction false} LexLeFromTransitive(a: string, b: string, c: string, i: nat)
    requires LexLeFrom(a, b, i) && LexLeFrom(b, c, i)
    ensures LexLeFrom(a, c, i)
    decreases |a| - i
  {
    if i < |a| && a[i] == b[i] && b[i] == c[i] {
      LexLeFromTransitive(a, b, c, i + 1);
    }
  }

  lemma {:induction false} LexLeFromAntisymmetric(a: string, b: string, i: nat)
    requires i <= |a| && i <= |b| && a[..i] == b[..i]
    requires LexLeFrom(a, b, i) && LexLeFrom(b, a, i)
    ensures a == b
    decreases |a| - i
  {
    if i < |a| {
      assert a[..i + 1] == b[..i + 1] by {
        assert a[..i + 1] == a[..i] + [a[i]];
        assert b[..i + 1] == b[..i] + [b[i]];
      }
      LexLeFromAntisymmetric(a, b, i + 1);
    } else {
      assert a == a[..i] && b == b[..i];
    }
  }

  /** The order is total, transitive and antisymmetric. */
  lemma LexLeIsOrder(a: string, b: string, c: string)
    ensures LexLe(a, b) || LexLe(b, a)
    ensures LexLe(a, b) && LexLe(b, c) ==> LexLe(a, c)
    ensures LexLe(a, b) && LexLe(b, a) ==> a == b
  {
    LexLeFromTotal(a, b, 0);
    if LexLe(a, b) && LexLe(b, c) {
      LexLeFromTransitive(a, b, c, 0);
    }
    if LexLe(a, b) && LexLe(b, a) {
      LexLeFromAntisymmetric(a, b, 0);
    }
  }

  /** Newest first: each entry's stamp sorts at or after the next one's. */
  predicate NewestFirst(s: seq<LogEntry>) {
    forall i :: 0 <= i < |s| - 1 ==> LexLe(s[i + 1].timestamp, s[i].timestamp)
  }

  /** Places `e` before the first entry not newer than it, so equal stamps keep their order. */
  function Insert(e: LogEntry, s: seq<LogEntry>): (r: seq<LogEntry>)
    requires NewestFirst(s)
    ensures NewestFirst(r)
    ensures multiset(r) == multiset(s) + multiset{e}
    ensures |r| == |s| + 1 && (r[0] == e || (|s| > 0 && r[0] == s[0]))
  {
    if s == [] || LexLe(s[0].timestamp, e.timestamp) then
      [e] + s
    else
      LexLeIsOrder(s[0].timestamp, e.timestamp, e.timestamp);
      var t := Insert(e, s[1..]);
      assert s == [s[0]] + s[1..];
      [s[0]] + t
  }

  /** `logs.sort((a, b) => b.timestamp.localeCompare(a.timestamp))`: a stable sort, newest first. */
  function SortNewestFirst(logs: seq<LogEntry>): (r: seq<LogEntry>)
    ensures NewestFirst(r)
    ensures multiset(r) == multiset(logs) && |r| == |logs|
  {
    if logs == [] then []
    else
      assert logs == [logs[0]] + logs[1..];
      Insert(logs[0], SortNewestFirst(logs[1..]))
  }

  /** Sorted newest first means every earlier entry is at least as new as every later one. */
  lemma {:induction false} NewestFirstPairwise(s: seq<LogEntry>, i: nat, j: nat)
    requires NewestFirst(s) && i <= j < |s|
    ensures LexLe(s[j].timestamp, s[i].timestamp)
    decreases j - i
  {
    if i == j {
      LexLeFromTotal(s[i].timestamp, s[i].timestamp, 0);
    } else {
      NewestFirstPairwise(s, i + 1, j);
      LexLeIsOrder(s[j].timestamp, s[i + 1].timestamp, s[i].timestamp);
    }
  }

  /** What the log file holds: nothing, something unreadable or not JSON, JSON that is not an
      array, or an array of entries. */
  datatype Stored = Absent | Unreadable | NotList | Entries(logs: seq<LogEntry>)

  /** `GET /api/devlog`: the entries newest first; an empty list when there is no file or when reading,
      parsing or sorting fails. */
  function GetLogs(stored: Stored): (r: seq<LogEntry>)
    ensures stored.Entries? ==> NewestFirst(r) && multiset(r) == multiset(stored.logs)
    ensures !stored.Entries? ==> r == []
  {
    if stored.Entries? then SortNewestFirst(stored.logs) else []
  }

  datatype PostResponse = Posted(entry: LogEntry, log: seq<LogEntry>) | PostFailed(status: nat, error: string)

  /** `POST /api/devlog`. `content` is `None` when the body cannot be parsed or is `null`, and
      `Some(None)` when `content` is missing or not a string; `written` says whether creating the
      folder and writing the file went through. */
  function PostLog(content: Option<Option<string>>, stored: Stored, written: bool, now: Clock.DateTime): (r: PostResponse)
    requires Clock.Valid(now)
    ensures content.None? ==> r == PostFailed(500, SaveFailure)
    ensures content.Some? && !Truthy(content.value) ==> r == PostFailed(400, ContentRequired)
    ensures r.Posted? <==> (content.Some? && Truthy(content.value) && !stored.NotList? && written)
    ensures r.PostFailed? ==> r.status == 400 || r == PostFailed(500, SaveFailure)
    ensures r.Posted? ==> (r.entry == LogEntry(Stamp(now), Trim(content.value.value))
      && |r.log| >= 1 && r.log[0] == r.entry
      && r.log[1..] == (if stored.Entries? then stored.logs else []))
  {
    match content
    case None => PostFailed(500, SaveFailure)
    case Some(c) =>
      if !Truthy(c) then PostFailed(400, ContentRequired)
      else if stored.NotList? || !written then PostFailed(500, SaveFailure)
      else
        var entry := LogEntry(Stamp(now), Trim(c.value));
        var previous := if stored.Entries? then stored.logs else [];
        Posted(entry, [entry] + previous)
  }

  /** Content of spaces only gets past the guard (it is truthy) and is saved empty. */
  lemma BlankContentSavedEmpty(stored: Stored, now: Clock.DateTime)
    requires Clock.Valid(now) && !stored.NotList?
    ensures PostLog(Some(Some("  ")), stored, true, now).Posted?
    ensures PostLog(Some(Some("  ")), stored, true, now).entry.content == ""
  {
    assert AllSpace("  ") by { assert IsJsSpace(' '); }
    TrimEmptyIffAllSpace("  ");
  }

  /** A post onto a log whose stamps are all no newer than the current one is the first entry the
      next listing shows, and the listing holds the earlier entries too. */
  lemma PostThenListShowsNewestFirst(text: string, logs: seq<LogEntry>, now: Clock.DateTime)
    requires Clock.Valid(now) && text != ""
    requires forall i :: 0 <= i < |logs| ==> LexLe(logs[i].timestamp, Stamp(now))
    ensures var p := PostLog(Some(Some(text)), Entries(logs), true, now);
      p.Posted? && GetLogs(Entries(p.log))[0] == p.entry
      && multiset(GetLogs(Entries(p.log))) == multiset(logs) + multiset{p.entry}
  {
    var p := PostLog(Some(Some(text)), Entries(logs), true, now);
    assert p.log == [p.entry] + logs;
    assert p.log[1..] == logs;
    var sorted := SortNewestFirst(logs);
    if sorted != [] {
      assert sorted[0] in multiset(logs);
      var k :| 0 <= k < |logs| && logs[k] == sorted[0];
    }
    assert GetLogs(Entries(p.log)) == Insert(p.entry, sorted);
  }
}

=== FILE: face_swap.dfy ===
/**
 * The face-swap route: validation, the compression skip rule, the prompt with
 * its optional character section, and a three-call ladder in which the FIRST
 * image part of a response wins.
 */
module FaceSwap {
  import opened Wrappers
  import opened JsText
  import opened DataUrl
  import opened ImageLadder
  import GridImageGen
  import Clock

  /** The JSON body; a field that is absent (or not a string) is `None`. */
  datatype SwapRequest = SwapRequest(
    sourceImage: Option<string>, referenceImage: Option<string>,
    characterDescription: Option<string>, step3OutputBaseDir: Option<string>)

  /** The HTTP reply. A saved file is given as path segments relative to the working directory. */
  datatype Response =
    | Swapped(imageUrl: string, savedPath: Option<seq<string>>)
    | Rejected(status: nat, error: string)

  /** The route's reply, how many provider calls it made, and the contents it sent. */
  datatype SwapResult = SwapResult(response: Response, attempts: nat, contents: seq<GridImageGen.Content>)

  /** Size limit below which a JPEG is sent as is: 1.5 MiB. */
  const CompressLimitBytes: nat := 1572864

  /** `base64Data.length * 0.75 < 1.5 * 1024 * 1024 && mimeType === 'image/jpeg'`, in exact integers. */
  predicate CompressSkipped(data: string, mime: string) {
    3 * |data| < 4 * CompressLimitBytes && mime == Jpeg
  }

  /** `compressImage`; `sharp` is an oracle: `Some(out)` is its base64 output, `None` a failure. */
  function CompressImage(p: Parsed, sharp: Option<string>): (r: Parsed)
    ensures CompressSkipped(p.data, p.mimeType) ==> r == p
    ensures !CompressSkipped(p.data, p.mimeType) && sharp.None? ==> r == p
    ensures !CompressSkipped(p.data, p.mimeType) && sharp.Some? ==> r == Parsed(sharp.value, Jpeg)
    ensures r.mimeType == p.mimeType || r.mimeType == Jpeg
  {
    if CompressSkipped(p.data, p.mimeType) then p
    else match sharp
      case Some(out) => Parsed(out, Jpeg)
      case None => p
  }

  /** Anything that is not a JPEG goes through the resizer, whatever its size. */
  lemma NonJpegIsAlwaysCompressed(p: Parsed, out: string)
    requires p.mimeType != Jpeg
    ensures CompressImage(p, Some(out)) == Parsed(out, Jpeg)
  {
  }

  /** The skip test on the length alone: fewer than 2 MiB base64 characters. */
  lemma CompressSkipThreshold(data: string, mime: string)
    ensures CompressSkipped(data, mime) <==> |data| < 2097152 && mime == Jpeg
  {
  }

  const BasePrompt: string :=
    "请根据以下两张图片生成一张新图片。\n\n"
    + "第一张是【原始场景图】，第二张是【人物参考图】。\n\n"
    + "【严格要求】\n"
    + "1. 新图片的画面构图、拍摄角度、景别、场景、背景、光影、色调、服装风格等所有视觉细节必须与原始场景图完全一致，不得有任何改变。\n"
    + "2. 画面中人物的面部所有特征（五官、脸型、肤色）、发型、发色必须与参考图中的人物完全相同。\n"
    + "3. 仅替换人物的面部和头发，其他一切保持不变。\n"
    + "4. 输出一张与原图相同比例的 16:9 高清图片。"

  const CharacterHeading: string := "\n\n【人物特征限定】\n"

  /** The prompt, with the trimmed character description appended under its heading when not blank. */
  function SwapPrompt(description: Option<string>): (r: string)
    ensures StartsWith(r, BasePrompt)
    ensures r == BasePrompt <==> description.None? || AllSpace(description.value)
    ensures r != BasePrompt ==> r == BasePrompt + CharacterHeading + Trim(description.value)
  {
    var r := if description.Some? && Trim(description.value) != ""
      then BasePrompt + CharacterHeading + Trim(description.value) else BasePrompt;
    assert r[..|BasePrompt|] == BasePrompt;
    assert description.Some? ==> (Trim(description.value) == "" <==> AllSpace(description.value)) by {
      if description.Some? { TrimEmptyIffAllSpace(description.value); }
    }
    r
  }

  const SwapNoImageError: string := "API 未返回图片"
  const SwapRule: Rule := Rule(true, Some(SwapNoImageError), true)

  /** pro, flash, then pro again after 3 s; the retry records nothing. */
  const SwapSchedule: seq<Attempt> := [
    Attempt(ProModel, 0, SwapRule),
    Attempt(FlashModel, 0, SwapRule),
    Attempt(ProModel, 3000, Rule(false, None, false))
  ]

  const FallbackError: string := "洗脸生成失败"

  /** `lastError instanceof Error ? lastError.message : '洗脸生成失败'` */
  function FinalMessage(err: Option<JsValue>): string {
    if err.Some? && err.value.ErrorObject? then err.value.message else FallbackError
  }

  /** Where `saveToLocal` writes: `<base.trim()>/IMAGE/faceswap_<ts>.<ext>`, only for a non-empty base
      and only when `mkdir` and `writeFile` went through (`saved`); a throw there is caught and the reply
      carries no path. */
  function SavePath(baseDir: Option<string>, imageUrl: string, now: Clock.DateTime, saved: bool): (r: Option<seq<string>>)
    requires Clock.Valid(now)
    ensures r.Some? <==> Truthy(baseDir) && saved
    ensures r.Some? ==> |r.value| == 3 && r.value[0] == Trim(baseDir.value) && r.value[1] == "IMAGE"
  {
    if !Truthy(baseDir) || !saved then None
    else
      var ext := if ParseDataUrl(imageUrl).mimeType == Png then "png" else "jpg";
      Some([Trim(baseDir.value), "IMAGE", "faceswap_" + Clock.CompactStamp(now) + "." + ext])
  }

  /** `POST /api/face-swap`. `body == None` is an unparseable body; `srcSharp`/`refSharp` answer the
      resizer, `replies[k]` the k-th scheduled provider call, `now` is the clock at saving time and
      `saved` says whether the save's `mkdir` and `writeFile` went through. */
  function FaceSwap(body: Option<SwapRequest>, apiKey: string, srcSharp: Option<string>, refSharp: Option<string>,
                    replies: seq<Reply>, now: Clock.DateTime, saved: bool): (r: SwapResult)
    requires |replies| == |SwapSchedule| && Clock.Valid(now)
    ensures body.None? ==> r.response == Rejected(500, "洗脸生成失败，请重试")
    ensures body.Some? && !(Truthy(body.value.sourceImage) && Truthy(body.value.referenceImage)) ==>
      r.response == Rejected(400, "缺少原图或参考图")
    ensures body.Some? && Truthy(body.value.sourceImage) && Truthy(body.value.referenceImage) && apiKey == "" ==>
      r.response == Rejected(400, "未配置 Gemini API Key") && r.attempts == 0
    ensures r.response.Rejected? && r.response.status == 400 ==> r.attempts == 0
    ensures r.attempts <= 3
    ensures r.response.Swapped? ==>
      body.Some? && r.attempts >= 1 && ReplyImage(replies[r.attempts - 1], FirstImage).Some? && r.response == Swapped(
      ReplyImage(replies[r.attempts - 1], FirstImage).value,
      SavePath(body.value.step3OutputBaseDir, ReplyImage(replies[r.attempts - 1], FirstImage).value, now, saved))
    ensures r.contents != [] ==> body.Some? && |r.contents| == 3 && r.contents[0] == GridImageGen.TextContent(SwapPrompt(body.value.characterDescription))
  {
    if body.None? then SwapResult(Rejected(500, "洗脸生成失败，请重试"), 0, [])
    else
      var req := body.value;
      if !(Truthy(req.sourceImage) && Truthy(req.referenceImage)) then SwapResult(Rejected(400, "缺少原图或参考图"), 0, [])
      else if apiKey == "" then SwapResult(Rejected(400, "未配置 Gemini API Key"), 0, [])
      else
        var src := ParseDataUrl(req.sourceImage.value);
        var ref := ParseDataUrl(req.referenceImage.value);
        if !PlausibleBase64(src.data) || !PlausibleBase64(ref.data) then SwapResult(Rejected(400, "图片数据无效"), 0, [])
        else
          var s := CompressImage(src, srcSharp);
          var f := CompressImage(ref, refSharp);
          var contents := [GridImageGen.TextContent(SwapPrompt(req.characterDescription)),
                           GridImageGen.ImageContent(s.mimeType, s.data), GridImageGen.ImageContent(f.mimeType, f.data)];
          var o := Run(SwapSchedule, replies, FirstImage, None);
          var response := match o.image
            case Some(url) => Swapped(url, SavePath(req.step3OutputBaseDir, url, now, saved))
            case None => Rejected(500, FinalMessage(o.lastError));
          SwapResult(response, o.attempts, contents)
  }

  /** A request with both images, a key and plausible payloads sends the prompt, then the source, then the
      reference, each after the compression rule; and it stops at the first reply with an image. */
  lemma FaceSwapRequestAndFirstImage(req: SwapRequest, apiKey: string, srcSharp: Option<string>, refSharp: Option<string>,
                                     replies: seq<Reply>, now: Clock.DateTime, saved: bool)
    requires |replies| == 3 && Clock.Valid(now)
    requires Truthy(req.sourceImage) && Truthy(req.referenceImage) && apiKey != ""
    requires PlausibleBase64(ParseDataUrl(req.sourceImage.value).data) && PlausibleBase64(ParseDataUrl(req.referenceImage.value).data)
    ensures var r := FaceSwap(Some(req), apiKey, srcSharp, refSharp, replies, now, saved);
      var s := CompressImage(ParseDataUrl(req.sourceImage.value), srcSharp);
      var f := CompressImage(ParseDataUrl(req.referenceImage.value), refSharp);
      && r.contents == [GridImageGen.TextContent(SwapPrompt(req.characterDescription)),
                        GridImageGen.ImageContent(s.mimeType, s.data), GridImageGen.ImageContent(f.mimeType, f.data)]
      && (r.response.Swapped? <==> FirstSuccess(replies, FirstImage).Some?)
      && (r.response.Swapped? ==> r.attempts == FirstSuccess(replies, FirstImage).value + 1)
      && (r.response.Rejected? ==> r.attempts == 3 && r.response.status == 500)
  {
  }

  /** An implausible payload is refused before any provider call. */
  lemma ImplausiblePayloadRejected(req: SwapRequest, apiKey: string, srcSharp: Option<string>, refSharp: Option<string>,
                                   replies: seq<Reply>, now: Clock.DateTime, saved: bool)
    requires |replies| == 3 && Clock.Valid(now)
    requires Truthy(req.sourceImage) && Truthy(req.referenceImage) && apiKey != ""
    requires !PlausibleBase64(ParseDataUrl(req.sourceImage.value).data) || !PlausibleBase64(ParseDataUrl(req.referenceImage.value).data)
    ensures FaceSwap(Some(req), apiKey, srcSharp, refSharp, replies, now, saved) == SwapResult(Rejected(400, "图片数据无效"), 0, [])
  {
  }

  /** The slot on failure: the 3 s retry never changes it, so it is what the two primary calls left. */
  lemma SwapFailureSlot(replies: seq<Reply>)
    requires |replies| == 3
    requires FirstSuccess(replies, FirstImage).None?
    ensures var e := Run(SwapSchedule, replies, FirstImage, None).lastError;
      var first := Step(SwapRule, replies[0], None);
      && (replies[1].Threw? ==> e == Some(replies[1].error))
      && (replies[1].Responded? && replies[1].blockReason != "" ==> e == Some(BlockedError(replies[1].blockReason)))
      && (replies[1].Responded? && replies[1].blockReason == "" ==>
            e == if IsSet(first) then first else Some(ErrorObject(SwapNoImageError)))
  {
    RunFailureSlot(SwapSchedule, replies, FirstImage, None);
    var s := SwapSchedule;
    assert SlotAfter(s, replies, 3, None) == Step(s[2].rule, replies[2], SlotAfter(s, replies, 2, None));
    assert SlotAfter(s, replies, 2, None) == Step(SwapRule, replies[1], SlotAfter(s, replies, 1, None));
    assert SlotAfter(s, replies, 1, None) == Step(SwapRule, replies[0], None);
  }

  /** When no provider call threw, the failure message is a block message or the generic one, never the fallback. */
  lemma SwapFailureMessageWithoutThrows(replies: seq<Reply>)
    requires |replies| == 3
    requires FirstSuccess(replies, FirstImage).None?
    requires replies[0].Responded? && replies[1].Responded?
    ensures var m := FinalMessage(Run(SwapSchedule, replies, FirstImage, None).lastError);
      m == (if replies[1].blockReason != "" then "内容被过滤: " + replies[1].blockReason
            else if replies[0].blockReason != "" then "内容被过滤: " + replies[0].blockReason
            else SwapNoImageError)
  {
    SwapFailureSlot(replies);
  }
}

=== FILE: grid_image_gen.dfy ===
/**
 * The nine-panel contact sheet generator and the single-panel enlargement:
 * prompt selection, request contents and the attempt ladders with their
 * last-error slot.
 */
module GridImageGen {
  import opened Wrappers
  import opened JsText
  import DataUrl
  import opened ImageLadder

  /** `PANEL_DESCRIPTIONS[i]`: the shot type of each panel, numbered 1 to 9. */
  function PanelDescription(i: int): Option<string> {
    if i == 1 then Some("第1格 特长镜头 ELS：主体在广阔环境中显得渺小")
    else if i == 2 then Some("第2格 长镜头 LS：整个主体头到脚可见")
    else if i == 3 then Some("第3格 中景长镜头 MLS：膝盖以上或 3/4 视角")
    else if i == 4 then Some("第4格 中景 MS：腰部以上")
    else if i == 5 then Some("第5格 中景特写 MCU：胸部以上亲密近景")
    else if i == 6 then Some("第6格 特写 CU：面部或正面紧凑构图")
    else if i == 7 then Some("第7格 极特写 ECU：眼睛、手部等微距细节")
    else if i == 8 then Some("第8格 低角度 虫眼：从地面向上仰视")
    else if i == 9 then Some("第9格 高角度 鸟瞰：从上方俯视")
    else None
  }

  predicate IsPanelIndex(i: int) { 1 <= i <= 9 }

  /** The description table is defined for exactly the panels 1..9, each naming its own panel. */
  lemma PanelDescriptionDomain(i: int)
    ensures PanelDescription(i).Some? <==> IsPanelIndex(i)
    ensures IsPanelIndex(i) ==> PanelDescription(i).value[1] == DigitChar(i)
  {
  }

  /** Prompt overrides read from the prompt configuration (`?? null` and `Array.isArray` become options). */
  datatype GridOverrides = GridOverrides(
    gridContactSheetPrompt: Option<string>,
    gridPanelDescriptions: Option<seq<string>>,
    gridCloseupPrompt: Option<string>)

  /** The character options: a reference image and an ethnicity label. */
  datatype CharacterOptions = CharacterOptions(characterReferenceImage: Option<string>, ethnicity: Option<string>)

  /** One entry of the request contents. */
  datatype Content = TextContent(text: string) | ImageContent(mimeType: string, data: string)

  /** What is sent on every attempt. */
  datatype Request = Request(contents: seq<Content>, aspectRatio: string, imageSize: string)

  /** What a generator call leaves behind: the image, the error slot, the calls made and the request. */
  datatype Generation = Generation(image: Option<string>, errorSlot: Option<string>, attempts: nat, request: Option<Request>)

  const CloseupSuffix: string := "\n\n输出这一张包含 9 格的 16:9 接触表图片即可，镜头之间用黑色细线分割，保持影调与风格一致。"
  const LinesSuffix: string := "\n\n输出这一张包含 9 格的接触表图片即可，保持影调与风格一致。"
  const DefaultContactSheetPrompt: string :=
    "你是一位日本人像摄影师。根据附件中的参考图，生成「一张」电影接触表图片。\n\n"
    + "要求：这一张图必须是一幅完整的 3x3 网格图，包含 9 个画面格子（从左到右、从上到下编号 1–9）。\n"
    + "每个格子的镜头类型如下，同一人物、同一服装与照明在所有格中保持一致：\n"
    + "1: 特长镜头 ELS，主体在广阔环境中显得渺小\n"
    + "2: 长镜头 LS，整个主体头到脚可见\n"
    + "3: 中景长镜头 MLS，膝盖以上或 3/4 视角\n"
    + "4: 中景 MS，腰部以上\n"
    + "5: 中景特写 MCU，胸部以上亲密近景\n"
    + "6: 特写 CU，面部或正面紧凑构图\n"
    + "7: 极特写 ECU，眼睛、手部等微距细节\n"
    + "8: 低角度 虫眼，从地面向上仰视\n"
    + "9: 高角度 鸟瞰，从上方俯视\n\n"
    + "输出这一张包含 9 格的接触表图片即可，保持影调与风格一致。"

  /** `${i + 1}: ${line}` for every line, joined by newlines. */
  function NumberedLines(lines: seq<string>, from: nat): (r: seq<string>)
    ensures |r| == |lines|
    ensures forall i :: 0 <= i < |lines| ==> r[i] == NatToString(from + i + 1) + ": " + lines[i]
  {
    if |lines| == 0 then [] else [NatToString(from + 1) + ": " + lines[0]] + NumberedLines(lines[1..], from + 1)
  }

  /** Which of the three prompt sources the contact sheet uses. */
  datatype PromptSource = CloseupSource | LinesSource | DefaultSource

  function CloseupTrimmed(o: Option<GridOverrides>): Option<string> {
    if o.Some? && o.value.gridCloseupPrompt.Some? then Some(Trim(o.value.gridCloseupPrompt.value)) else None
  }

  function ChoosePromptSource(o: Option<GridOverrides>): PromptSource {
    if Truthy(CloseupTrimmed(o)) then CloseupSource
    else if o.Some? && Truthy(o.value.gridContactSheetPrompt)
         && o.value.gridPanelDescriptions.Some? && |o.value.gridPanelDescriptions.value| >= 9 then LinesSource
    else DefaultSource
  }

  /** The contact-sheet prompt before the ethnicity sentence. */
  function BasePrompt(o: Option<GridOverrides>): string {
    match ChoosePromptSource(o)
    case CloseupSource => CloseupTrimmed(o).value + CloseupSuffix
    case LinesSource =>
      o.value.gridContactSheetPrompt.value
        + Join(NumberedLines(o.value.gridPanelDescriptions.value, 0), "\n") + LinesSuffix
    case DefaultSource => DefaultContactSheetPrompt
  }

  /** Precedence of the prompt sources: a non-blank closeup prompt wins; otherwise an intro with
      at least nine lines (every line numbered); otherwise the built-in default. */
  lemma ContactSheetPromptPrecedence(o: Option<GridOverrides>)
    ensures o.Some? && o.value.gridCloseupPrompt.Some? && !AllSpace(o.value.gridCloseupPrompt.value) ==>
      BasePrompt(o) == Trim(o.value.gridCloseupPrompt.value) + CloseupSuffix
    ensures ((o.None? || o.value.gridCloseupPrompt.None? || AllSpace(o.value.gridCloseupPrompt.value))
             && o.Some? && Truthy(o.value.gridContactSheetPrompt)
             && o.value.gridPanelDescriptions.Some? && |o.value.gridPanelDescriptions.value| >= 9) ==>
      BasePrompt(o) == o.value.gridContactSheetPrompt.value
        + Join(NumberedLines(o.value.gridPanelDescriptions.value, 0), "\n") + LinesSuffix
    ensures ((o.None? || o.value.gridCloseupPrompt.None? || AllSpace(o.value.gridCloseupPrompt.value))
             && (o.None? || !Truthy(o.value.gridContactSheetPrompt) || o.value.gridPanelDescriptions.None?
                 || |o.value.gridPanelDescriptions.value| < 9)) ==>
      BasePrompt(o) == DefaultContactSheetPrompt
  {
    if o.Some? && o.value.gridCloseupPrompt.Some? {
      TrimEmptyIffAllSpace(o.value.gridCloseupPrompt.value);
    }
  }

  /** The sentence that binds the face to the reference image. */
  function EthnicitySentence(ethnicity: string): string {
    "\n\n重要：人物为【" + ethnicity + "】，严格按照参考图人物的所有面部特征（五官、脸型、肤色等）一致。"
  }

  /** The ethnicity sentence is added only when both a reference image and an ethnicity are given. */
  function WithEthnicity(prompt: string, opts: Option<CharacterOptions>): (r: string)
    ensures opts.Some? && Truthy(opts.value.characterReferenceImage) && Truthy(opts.value.ethnicity) ==>
      r == prompt + EthnicitySentence(opts.value.ethnicity.value)
    ensures !(opts.Some? && Truthy(opts.value.characterReferenceImage) && Truthy(opts.value.ethnicity)) ==> r == prompt
  {
    if opts.Some? && Truthy(opts.value.characterReferenceImage) && Truthy(opts.value.ethnicity)
    then prompt + EthnicitySentence(opts.value.ethnicity.value)
    else prompt
  }

  function InlineImage(dataUrl: string): Content {
    var p := DataUrl.SplitInlineImage(dataUrl);
    ImageContent(p.mimeType, p.data)
  }

  /** Text first, then the source image, then the reference image whenever one is given. */
  function BuildContents(prompt: string, source: string, opts: Option<CharacterOptions>): (r: seq<Content>)
    ensures |r| == if opts.Some? && Truthy(opts.value.characterReferenceImage) then 3 else 2
    ensures r[0] == TextContent(prompt) && r[1] == InlineImage(source)
    ensures |r| == 3 ==> r[2] == InlineImage(opts.value.characterReferenceImage.value)
  {
    var base := [TextContent(prompt), InlineImage(source)];
    if opts.Some? && Truthy(opts.value.characterReferenceImage)
    then base + [InlineImage(opts.value.characterReferenceImage.value)]
    else base
  }

  // ---------------------------------------------------------------- contact sheet ladder

  const MissingKeyError: string := "未配置 Gemini API Key"

  /** `generateContactSheetImage`: `replies[k]` is the provider's answer to the k-th scheduled call. */
  function GenerateContactSheet(apiKey: string, source: string, overrides: Option<GridOverrides>,
                                opts: Option<CharacterOptions>, replies: seq<Reply>): (g: Generation)
    requires |replies| == |GeneratorSchedule|
    ensures apiKey == "" ==> g == Generation(None, Some(MissingKeyError), 0, None)
    ensures g.attempts <= 4
    ensures g.image.Some? ==> g.errorSlot == None
    ensures g.image.None? && apiKey != "" ==> g.errorSlot.Some? && g.attempts == 4
  {
    if apiKey == "" then Generation(None, Some(MissingKeyError), 0, None)
    else
      var prompt := WithEthnicity(BasePrompt(overrides), opts);
      var req := Request(BuildContents(prompt, source, opts), "16:9", "1K");
      var o := Run(GeneratorSchedule, replies, LastImage, None);
      Generation(o.image, if o.image.Some? then None else Some(SlotText(o.lastError)), o.attempts, Some(req))
  }

  /** Calls stop at the first reply carrying an image, and that reply's last image part is returned. */
  lemma ContactSheetStopsAtFirstImage(apiKey: string, source: string, overrides: Option<GridOverrides>,
                                      opts: Option<CharacterOptions>, replies: seq<Reply>, k: nat)
    requires |replies| == 4 && apiKey != ""
    requires k < 4 && ReplyImage(replies[k], LastImage).Some?
    requires forall j :: 0 <= j < k ==> ReplyImage(replies[j], LastImage).None?
    ensures GenerateContactSheet(apiKey, source, overrides, opts, replies).attempts == k + 1
    ensures GenerateContactSheet(apiKey, source, overrides, opts, replies).image == ReplyImage(replies[k], LastImage)
  {
    var f := FirstSuccess(replies, LastImage);
    assert f.Some?;
    if f.value < k {
    } else if f.value > k {
    }
  }

  /** A contact sheet comes back only with a key, and it is the first reply carrying an image. */
  lemma ContactSheetImageIsFirst(apiKey: string, source: string, overrides: Option<GridOverrides>,
                                 opts: Option<CharacterOptions>, replies: seq<Reply>)
    requires |replies| == 4
    ensures var g := GenerateContactSheet(apiKey, source, overrides, opts, replies);
      g.image.Some? ==> (apiKey != "" && FirstSuccess(replies, LastImage).Some?
        && g.image == ReplyImage(replies[FirstSuccess(replies, LastImage).value], LastImage))
  {
    var f := FirstSuccess(replies, LastImage);
    if apiKey != "" && f.Some? {
      ContactSheetStopsAtFirstImage(apiKey, source, overrides, opts, replies, f.value);
    }
  }

  /** On failure the slot holds: the 3 s retry's block reason if it had one; otherwise what the
      primary calls left, which exceptions in the retries and anything in the 30 s retry never change. */
  lemma ContactSheetFailureSlot(apiKey: string, source: string, overrides: Option<GridOverrides>,
                                opts: Option<CharacterOptions>, replies: seq<Reply>)
    requires |replies| == 4 && apiKey != ""
    requires GenerateContactSheet(apiKey, source, overrides, opts, replies).image.None?
    ensures var g := GenerateContactSheet(apiKey, source, overrides, opts, replies);
      && (replies[2].Responded? && replies[2].blockReason != "" ==>
            g.errorSlot == Some("内容被过滤: " + replies[2].blockReason))
      && (!(replies[2].Responded? && replies[2].blockReason != "") ==>
            g.errorSlot == Some(SlotText(PrimarySlot(replies[0], replies[1]))))
  {
    GeneratorFailureSlot(replies);
  }

  // ---------------------------------------------------------------- panel enlargement

  datatype ExpandOptions = ExpandOptions(
    characterReferenceImage: Option<string>, ethnicity: Option<string>,
    imageSize: Option<string>, auxiliaryPrompt: Option<string>)

  const ExpandRule: Rule := Rule(false, None, true)

  /** flash, then pro; no waits, no block-reason inspection. */
  const ExpandSchedule: seq<Attempt> := [Attempt(FlashModel, 0, ExpandRule), Attempt(ProModel, 0, ExpandRule)]

  /** `'4K'` only for exactly `'4K'`. */
  function OutputSize(opts: Option<ExpandOptions>): (size: string)
    ensures size == "4K" <==> opts.Some? && opts.value.imageSize == Some("4K")
    ensures size == "4K" || size == "2K"
  {
    if opts.Some? && opts.value.imageSize == Some("4K") then "4K" else "2K"
  }

  function ExpandPrompt(panelIndex: int, size: string, opts: Option<ExpandOptions>): string
    requires IsPanelIndex(panelIndex)
  {
    var base :=
      "附件是一张 3x3 电影接触表（9 格，从左到右、从上到下编号 1–9）。\n\n"
      + "请仅根据「第 " + NatToString(panelIndex) + " 格」的画面内容，生成一张独立的 " + size + " 大图。\n"
      + "该格镜头类型：" + PanelDescription(panelIndex).value + "。\n"
      + "要求：人物、服装、照明与接触表中该格一致，输出为一张完整的 " + size + " 分辨率图片。";
    var withEthnicity :=
      if opts.Some? && Truthy(opts.value.characterReferenceImage) && Truthy(opts.value.ethnicity)
      then base + EthnicitySentence(opts.value.ethnicity.value) else base;
    if opts.Some? && opts.value.auxiliaryPrompt.Some? && Trim(opts.value.auxiliaryPrompt.value) != ""
    then withEthnicity + "\n\n用户补充要求：" + Trim(opts.value.auxiliaryPrompt.value)
    else withEthnicity
  }

  /** `expandPanelTo2K`: `replies` answers the two scheduled calls. Without a key or for a panel
      outside 1..9 nothing is sent; otherwise the sheet goes out after the prompt, the reference after
      it when given, and the image is the last image part of the first reply that has one. Failures
      are only logged, so no error text comes back. */
  function ExpandPanel(apiKey: string, sheet: string, panelIndex: int, opts: Option<ExpandOptions>,
                       replies: seq<Reply>): (g: Generation)
    requires |replies| == |ExpandSchedule|
    ensures apiKey == "" || !IsPanelIndex(panelIndex) ==> g.image == None && g.attempts == 0 && g.request == None
    ensures g.request.Some? <==> apiKey != "" && IsPanelIndex(panelIndex)
    ensures g.attempts <= 2 && g.errorSlot == None
    ensures g.request.Some? ==>
      && g.request.value.imageSize == OutputSize(opts) && g.request.value.aspectRatio == "16:9"
      && |g.request.value.contents| == (if opts.Some? && Truthy(opts.value.characterReferenceImage) then 3 else 2)
      && g.request.value.contents[0] == TextContent(ExpandPrompt(panelIndex, OutputSize(opts), opts))
      && g.request.value.contents[1] == InlineImage(sheet)
      && (opts.Some? && Truthy(opts.value.characterReferenceImage) ==>
            g.request.value.contents[2] == InlineImage(opts.value.characterReferenceImage.value))
    ensures g.request.Some? ==>
      && (g.image.Some? <==> FirstSuccess(replies, LastImage).Some?)
      && (g.image.Some? ==>
            g.attempts == FirstSuccess(replies, LastImage).value + 1
            && g.image == ReplyImage(replies[FirstSuccess(replies, LastImage).value], LastImage))
      && (g.image.None? ==> g.attempts == 2)
  {
    if apiKey == "" || !IsPanelIndex(panelIndex) then Generation(None, None, 0, None)
    else
      var size := OutputSize(opts);
      var prompt := ExpandPrompt(panelIndex, size, opts);
      var charOpts := if opts.Some? then Some(CharacterOptions(opts.value.characterReferenceImage, opts.value.ethnicity)) else None;
      var req := Request(BuildContents(prompt, sheet, charOpts), "16:9", size);
      var o := Run(ExpandSchedule, replies, LastImage, None);
      Generation(o.image, None, o.attempts, Some(req))
  }

  /** The trimmed auxiliary prompt is appended, last, only when it is not blank. */
  lemma ExpandPromptAuxiliary(panelIndex: int, size: string, opts: ExpandOptions)
    requires IsPanelIndex(panelIndex)
    ensures opts.auxiliaryPrompt.Some? && !AllSpace(opts.auxiliaryPrompt.value) ==>
      ExpandPrompt(panelIndex, size, Some(opts))
        == ExpandPrompt(panelIndex, size, Some(opts.(auxiliaryPrompt := None))) + "\n\n用户补充要求：" + Trim(opts.auxiliaryPrompt.value)
    ensures opts.auxiliaryPrompt.None? || AllSpace(opts.auxiliaryPrompt.value) ==>
      ExpandPrompt(panelIndex, size, Some(opts)) == ExpandPrompt(panelIndex, size, Some(opts.(auxiliaryPrompt := None)))
  {
    if opts.auxiliaryPrompt.Some? {
      TrimEmptyIffAllSpace(opts.auxiliaryPrompt.value);
    }
  }
}

=== FILE: grid_routes.dfy ===
/**
 * The step-3 image routes: `POST /api/generate-grid` (the nine-panel contact
 * sheet), `POST /api/generate-grid-cell` (one panel enlarged to 2K or 4K) and
 * `POST /api/generate-scene-image` (a 16:9 scene from a prompt and a reference
 * image). Each validates its body, runs the generator, and names the file it
 * saves. Saved locations are lists of path segments; the clock, the provider
 * replies and the API key are inputs.
 */
module GridRoutes {
  import opened Wrappers
  import opened JsText
  import Clock
  import DataUrl
  import opened ImageLadder
  import GridImageGen
  import SceneImageGen
  import Prompts
  import PromptFiles

  const MissingImage: string := "Missing image (data URL or base64)"

  /** `typeof d === 'string' && d.trim()`: a directory given as non-blank text. */
  predicate GivenDir(d: Option<string>) { d.Some? && Trim(d.value) != "" }

  /** `imageUrl.startsWith('data:image/png') ? 'png' : 'jpg'` */
  function ImageExt(imageUrl: string): (e: string)
    ensures e == "png" <==> StartsWith(imageUrl, "data:image/png")
    ensures e == "png" || e == "jpg"
  {
    if StartsWith(imageUrl, "data:image/png") then "png" else "jpg"
  }

  /** The base64 text written to disk: the payload of a `data:image/<w>;base64,` URL, or the whole text. */
  function Payload(imageUrl: string): string {
    DataUrl.SplitInlineImage(imageUrl).data
  }

  /** For an image data URL the file receives exactly its payload, and it is named `.png` exactly
      when the subtype starts with `png`. */
  lemma PayloadOfDataUrl(subtype: string, payload: string)
    requires |subtype| > 0 && DataUrl.AllWordChars(subtype)
    requires |payload| > 0 && NoLineTerminator(payload)
    ensures var u := DataUrl.ImagePrefix + subtype + DataUrl.Marker + payload;
      Payload(u) == payload && (ImageExt(u) == "png" <==> StartsWith(subtype, "png"))
  {
    DataUrl.SplitInlineImageRoundTrip(subtype, payload);
    PngPrefixOfDataUrl(subtype, DataUrl.Marker + payload);
    assert DataUrl.ImagePrefix + subtype + DataUrl.Marker + payload == DataUrl.ImagePrefix + subtype + (DataUrl.Marker + payload);
  }

  /** A data URL starts with `data:image/png` exactly when its subtype starts with `png`. */
  lemma PngPrefixOfDataUrl(subtype: string, rest: string)
    requires |subtype| > 0 && DataUrl.AllWordChars(subtype) && |rest| > 0 && rest[0] == ';'
    ensures StartsWith(DataUrl.ImagePrefix + subtype + rest, "data:image/png") <==> StartsWith(subtype, "png")
  {
    var u := DataUrl.ImagePrefix + subtype + rest;
    assert forall i :: 0 <= i < |subtype| ==> u[11 + i] == subtype[i];
    if |subtype| < 3 {
      assert u[11 + |subtype|] == ';';
    } else {
      assert u[..14] == "data:image/" + subtype[..3];
    }
  }

  // ---------------------------------------------------------------------------
  // POST /api/generate-grid
  // ---------------------------------------------------------------------------

  const GridBodyError: string := "请求体过大或格式错误，请尝试使用较小的图片或刷新后重试"
  const GridFallbackError: string := "九宫格接触表生成失败，请检查 API Key 或稍后重试"
  const GridCatchError: string := "九宫格接触表生成失败"

  /** The body; `image == None` is a missing or non-string image. */
  datatype GridBody = GridBody(image: Option<string>, characterReferenceImage: Option<string>,
                               ethnicity: Option<string>, step3OutputBaseDir: Option<string>, gridType: Option<string>)

  datatype GridResponse =
    | GridSaved(imageUrl: string, savedDir: seq<string>, fileName: string, payload: string)
    | GridFailed(status: nat, error: string)

  /** The overrides the route passes: the configured intro and panel lines always, the configured
      closeup prompt only for a closeup grid and only when it is not empty. */
  function GridOverridesFor(gridType: Option<string>, c: Prompts.PromptsConfig): GridImageGen.GridOverrides {
    GridImageGen.GridOverrides(Some(c.gridContactSheetPrompt), Some(c.gridPanelDescriptions),
      if gridType == Some("closeup") && c.gridCloseupPrompt != "" then Some(c.gridCloseupPrompt) else None)
  }

  /** The character options are passed only when both a reference image and an ethnicity are given. */
  function CharacterFor(reference: Option<string>, ethnicity: Option<string>): (r: Option<GridImageGen.CharacterOptions>)
    ensures r.Some? <==> Truthy(reference) && Truthy(ethnicity)
  {
    if Truthy(reference) && Truthy(ethnicity) then Some(GridImageGen.CharacterOptions(reference, ethnicity)) else None
  }

  /** The closeup prompt is used exactly for a closeup grid with a non-blank configured closeup prompt;
      otherwise the configured intro with its nine numbered lines, or the default when the intro is empty. */
  lemma GridPromptChoice(gridType: Option<string>, c: Prompts.PromptsConfig)
    requires |c.gridPanelDescriptions| == 9
    ensures GridImageGen.ChoosePromptSource(Some(GridOverridesFor(gridType, c))) == GridImageGen.CloseupSource <==>
      gridType == Some("closeup") && !AllSpace(c.gridCloseupPrompt)
    ensures GridImageGen.ChoosePromptSource(Some(GridOverridesFor(gridType, c))) == GridImageGen.LinesSource <==>
      !(gridType == Some("closeup") && !AllSpace(c.gridCloseupPrompt)) && c.gridContactSheetPrompt != ""
  {
    TrimEmptyIffAllSpace(c.gridCloseupPrompt);
    if c.gridCloseupPrompt == "" {
      assert AllSpace(c.gridCloseupPrompt);
    }
  }

  /** The contact sheet for a body with an image, under the prompt configuration `c`. */
  function ContactSheetFor(b: GridBody, apiKey: string, c: Prompts.PromptsConfig, replies: seq<Reply>,
                           now: Clock.DateTime): (r: GridResponse)
    requires |replies| == |GeneratorSchedule| && Clock.Valid(now) && Truthy(b.image)
    ensures apiKey == "" ==> r == GridFailed(500, GridImageGen.MissingKeyError)
    ensures r.GridFailed? ==> r.status == 500 && r.error != ""
    ensures r.GridSaved? ==> apiKey != "" && FirstSuccess(replies, LastImage).Some?
    ensures r.GridSaved? ==>
      r.imageUrl == ReplyImage(replies[FirstSuccess(replies, LastImage).value], LastImage).value
    ensures r.GridSaved? ==> r.payload == Payload(r.imageUrl)
    ensures r.GridSaved? && GivenDir(b.step3OutputBaseDir) ==>
      r.savedDir == [Trim(b.step3OutputBaseDir.value), "IMAGE"]
      && r.fileName == "contact_" + Clock.CompactStamp(now) + "." + ImageExt(r.imageUrl)
    ensures r.GridSaved? && !GivenDir(b.step3OutputBaseDir) ==>
      r.savedDir == ["output", "grid", Clock.CompactStamp(now)] && r.fileName == "contact." + ImageExt(r.imageUrl)
  {
    var g := GridImageGen.GenerateContactSheet(apiKey, b.image.value, Some(GridOverridesFor(b.gridType, c)),
                                               CharacterFor(b.characterReferenceImage, b.ethnicity), replies);
    match g.image
    case None => GridFailed(500, OrElse(g.errorSlot, GridFallbackError))
    case Some(url) =>
      GridImageGen.ContactSheetImageIsFirst(apiKey, b.image.value, Some(GridOverridesFor(b.gridType, c)),
        CharacterFor(b.characterReferenceImage, b.ethnicity), replies);
      var ext := ImageExt(url);
      var stamp := Clock.CompactStamp(now);
      if GivenDir(b.step3OutputBaseDir)
      then GridSaved(url, [Trim(b.step3OutputBaseDir.value), "IMAGE"], "contact_" + stamp + "." + ext, Payload(url))
      else GridSaved(url, ["output", "grid", stamp], "contact." + ext, Payload(url))
  }

  /** What `request.json()` gave: it threw (`NotJson`), JSON `null` (destructuring it throws into
      the outer catch), or an object read through `GridBody`. */
  datatype GridRequest = NotJson | NullJson | GridJson(fields: GridBody)

  /** `POST /api/generate-grid`. `prompts` is the stored prompt configuration; `replies` answers the
      contact-sheet ladder; `now` is the saving time. */
  function GenerateGrid(body: GridRequest, apiKey: string, prompts: Option<Prompts.StoredPrompts>,
                        replies: seq<Reply>, now: Clock.DateTime): (r: GridResponse)
    requires |replies| == |GeneratorSchedule| && Clock.Valid(now)
    ensures body.NotJson? ==> r == GridFailed(413, GridBodyError)
    ensures body.NullJson? ==> r == GridFailed(500, GridCatchError)
    ensures body.GridJson? && !Truthy(body.fields.image) ==> r == GridFailed(400, MissingImage)
    ensures body.GridJson? && Truthy(body.fields.image) ==>
      r == ContactSheetFor(body.fields, apiKey, Prompts.GetPromptsConfig(prompts), replies, now)
    ensures r.GridFailed? ==> r.status in {400, 413, 500} && r.error != ""
  {
    match body
    case NotJson => GridFailed(413, GridBodyError)
    case NullJson => GridFailed(500, GridCatchError)
    case GridJson(b) =>
      if !Truthy(b.image) then GridFailed(400, MissingImage)
      else ContactSheetFor(b, apiKey, Prompts.GetPromptsConfig(prompts), replies, now)
  }

  // ---------------------------------------------------------------------------
  // POST /api/generate-grid-cell
  // ---------------------------------------------------------------------------

  const CellFailure: string := "单格 2K 生成失败"
  const PanelIndexError: string := "panelIndex must be 1-9"

  /** The body. `panelNumber` is `Number(panelIndex)` when that is an integer (`None` otherwise);
      `useCharacterReference` is its truthiness when present (absent means `true`). */
  datatype CellBody = CellBody(image: Option<string>, panelNumber: Option<int>, saveDir: Option<string>,
                               useCharacterReference: Option<bool>, characterReferenceImage: Option<string>,
                               ethnicity: Option<string>, step3OutputBaseDir: Option<string>,
                               resolution: Option<string>, auxiliaryPrompt: Option<string>)

  datatype CellResponse =
    | CellSaved(imageUrl: string, panelIndex: int, imageSize: string, savedPath: Option<seq<string>>, payload: string)
    | CellFailed(status: nat, error: string)

  /** The options object the route builds; no option set means no options at all. */
  function CellOptions(b: CellBody): (r: Option<GridImageGen.ExpandOptions>)
    ensures r.None? <==>
      && !(b.useCharacterReference.GetOr(true) && Truthy(b.characterReferenceImage))
      && !Truthy(b.ethnicity)
      && b.resolution.GetOr("2K") != "4K"
      && !(b.auxiliaryPrompt.Some? && Trim(b.auxiliaryPrompt.value) != "")
  {
    var reference := if b.useCharacterReference.GetOr(true) && Truthy(b.characterReferenceImage) then b.characterReferenceImage else None;
    var ethnicity := if Truthy(b.ethnicity) then b.ethnicity else None;
    var size := if b.resolution.GetOr("2K") == "4K" then Some("4K") else None;
    var aux := if b.auxiliaryPrompt.Some? && Trim(b.auxiliaryPrompt.value) != "" then Some(Trim(b.auxiliaryPrompt.value)) else None;
    if reference.None? && ethnicity.None? && size.None? && aux.None? then None
    else Some(GridImageGen.ExpandOptions(reference, ethnicity, size, aux))
  }

  /** What the options mean to the generator: 4K exactly when `resolution` is `'4K'` (the default is 2K);
      the reference image goes into the request unless `useCharacterReference` is false; a blank
      auxiliary prompt is dropped and a non-blank one is trimmed. */
  lemma CellOptionsMeaning(b: CellBody)
    ensures GridImageGen.OutputSize(CellOptions(b)) == "4K" <==> b.resolution == Some("4K")
    ensures var o := CellOptions(b);
      (o.Some? && Truthy(o.value.characterReferenceImage)) <==>
        (b.useCharacterReference != Some(false) && Truthy(b.characterReferenceImage))
    ensures var o := CellOptions(b);
      (o.Some? && o.value.auxiliaryPrompt.Some?) <==> (b.auxiliaryPrompt.Some? && !AllSpace(b.auxiliaryPrompt.value))
    ensures var o := CellOptions(b);
      o.Some? && o.value.auxiliaryPrompt.Some? ==> o.value.auxiliaryPrompt.value == Trim(b.auxiliaryPrompt.value)
  {
    if b.auxiliaryPrompt.Some? {
      TrimEmptyIffAllSpace(b.auxiliaryPrompt.value);
    }
  }

  /** `String(cell).padStart(2, '0')` */
  function CellNumber(cell: int): (num: string)
    requires GridImageGen.IsPanelIndex(cell)
    ensures |num| == 2 && AllDigits(num) && DigitsValue(num) == cell
  {
    Clock.FixedValue(cell, 2);
    Clock.Fixed(cell, 2)
  }

  /** The two panel numbers of distinct cells differ, so their files never collide. */
  lemma CellNumberInjective(a: int, b: int)
    requires GridImageGen.IsPanelIndex(a) && GridImageGen.IsPanelIndex(b) && CellNumber(a) == CellNumber(b)
    ensures a == b
  {
  }

  /** The file system as the save sees it: whether the target directory exists beforehand, and
      whether creating and writing files there succeeds. */
  datatype Disk = Disk(dirExists: bool, writable: bool)

  /** Whether the save of a generated panel goes through: the `step3OutputBaseDir` branch creates its
      directory first, the `saveDir` branch writes into the directory as it finds it, and with neither
      nothing is written. */
  predicate SaveSucceeds(b: CellBody, disk: Disk) {
    if GivenDir(b.step3OutputBaseDir) then disk.writable
    else if GivenDir(b.saveDir) then disk.dirExists && disk.writable
    else true
  }

  /** `POST /api/generate-grid-cell`; `replies` answers the enlargement ladder. A body that does not
      parse ends in the route's own 500. */
  function GenerateCell(body: Option<CellBody>, apiKey: string, replies: seq<Reply>, now: Clock.DateTime, disk: Disk): (r: CellResponse)
    requires |replies| == |GridImageGen.ExpandSchedule| && Clock.Valid(now)
    ensures body.None? ==> r == CellFailed(500, CellFailure)
    ensures r.CellSaved? ==> SaveSucceeds(body.value, disk)
    ensures body.Some? && !Truthy(body.value.image) ==> r == CellFailed(400, MissingImage)
    ensures body.Some? && Truthy(body.value.image) ==>
      (r == CellFailed(400, PanelIndexError) <==>
         body.value.panelNumber.None? || !GridImageGen.IsPanelIndex(body.value.panelNumber.value))
    ensures r.CellSaved? ==> body.Some? && body.value.panelNumber == Some(r.panelIndex)
    ensures r.CellSaved? ==> GridImageGen.IsPanelIndex(r.panelIndex) && apiKey != "" && r.payload == Payload(r.imageUrl)
    ensures r.CellSaved? ==> r.imageSize == GridImageGen.OutputSize(CellOptions(body.value))
    ensures r.CellSaved? && GivenDir(body.value.step3OutputBaseDir) ==>
      r.savedPath == Some([Trim(body.value.step3OutputBaseDir.value), "IMAGE",
        "panel_" + CellNumber(r.panelIndex) + "_2K_" + Clock.CompactStamp(now) + "." + ImageExt(r.imageUrl)])
    ensures r.CellSaved? && !GivenDir(body.value.step3OutputBaseDir) && GivenDir(body.value.saveDir) ==>
      r.savedPath == Some([Trim(body.value.saveDir.value), "panel_" + CellNumber(r.panelIndex) + "_2K." + ImageExt(r.imageUrl)])
    ensures r.CellSaved? && !GivenDir(body.value.step3OutputBaseDir) && !GivenDir(body.value.saveDir) ==> r.savedPath == None
    ensures r.CellFailed? && r.status == 500 && body.Some? ==>
      || (body.value.panelNumber.Some? && r.error == "第 " + NatToString(body.value.panelNumber.value) + " 格 2K 生成失败")
      || (r.error == CellFailure && !SaveSucceeds(body.value, disk))
  {
    match body
    case None => CellFailed(500, CellFailure)
    case Some(b) =>
      if !Truthy(b.image) then CellFailed(400, MissingImage)
      else if b.panelNumber.None? || !GridImageGen.IsPanelIndex(b.panelNumber.value) then CellFailed(400, PanelIndexError)
      else
        var cell := b.panelNumber.value;
        var opts := CellOptions(b);
        var g := GridImageGen.ExpandPanel(apiKey, b.image.value, cell, opts, replies);
        match g.image
        case None => CellFailed(500, "第 " + NatToString(cell) + " 格 2K 生成失败")
        case Some(url) =>
          if !SaveSucceeds(b, disk) then CellFailed(500, CellFailure) else
          var ext := ImageExt(url);
          var num := CellNumber(cell);
          var saved :=
            if GivenDir(b.step3OutputBaseDir)
            then Some([Trim(b.step3OutputBaseDir.value), "IMAGE", "panel_" + num + "_2K_" + Clock.CompactStamp(now) + "." + ext])
            else if GivenDir(b.saveDir) then Some([Trim(b.saveDir.value), "panel_" + num + "_2K." + ext])
            else None;
          CellSaved(url, cell, GridImageGen.OutputSize(opts), saved, Payload(url))
  }

  /** With the image generated, a missing directory fails the `saveDir` branch with 500, while the
      `step3OutputBaseDir` branch creates it and saves. */
  lemma MissingSaveDirCases(b: CellBody, apiKey: string, replies: seq<Reply>, now: Clock.DateTime, writable: bool)
    requires |replies| == |GridImageGen.ExpandSchedule| && Clock.Valid(now)
    requires Truthy(b.image) && b.panelNumber.Some? && GridImageGen.IsPanelIndex(b.panelNumber.value)
    requires GridImageGen.ExpandPanel(apiKey, b.image.value, b.panelNumber.value, CellOptions(b), replies).image.Some?
    ensures !GivenDir(b.step3OutputBaseDir) && GivenDir(b.saveDir) ==>
      GenerateCell(Some(b), apiKey, replies, now, Disk(false, writable)) == CellFailed(500, CellFailure)
    ensures GivenDir(b.step3OutputBaseDir) ==>
      GenerateCell(Some(b), apiKey, replies, now, Disk(false, true)).CellSaved?
  {
  }

  // ---------------------------------------------------------------------------
  // POST /api/generate-scene-image
  // ---------------------------------------------------------------------------

  const SceneBodyError: string := "请求体过大或格式错误，请尝试使用较小的参考图或刷新后重试"
  const SceneMissingFields: string := "Missing prompt or referenceImage"
  const SceneFallbackError: string := "场景图生成失败，请检查 API Key 与提示词内容"

  /** The characters a directory name may not hold: `/ \ : * ? " < > |`. */
  predicate IsForbiddenPathChar(c: char) {
    c == '/' || c == '\\' || c == ':' || c == '*' || c == '?' || c == '"' || c == '<' || c == '>' || c == '|'
  }

  /** `String(coreWord).replace(/[/\\:*?"<>|]/g, '_').slice(0, 30)` */
  function SafeCore(coreWord: string): (r: string)
    ensures |r| == if |coreWord| < 30 then |coreWord| else 30
    ensures forall i :: 0 <= i < |r| ==> !IsForbiddenPathChar(r[i])
    ensures forall i :: 0 <= i < |r| && !IsForbiddenPathChar(coreWord[i]) ==> r[i] == coreWord[i]
  {
    var replaced := seq(|coreWord|, i requires 0 <= i < |coreWord| => if IsForbiddenPathChar(coreWord[i]) then '_' else coreWord[i]);
    Take(replaced, 30)
  }

  /** A core word already short and clean is kept as it is; cleaning twice changes nothing more. */
  lemma SafeCoreKeepsCleanWords(coreWord: string)
    ensures |coreWord| <= 30 && (forall i :: 0 <= i < |coreWord| ==> !IsForbiddenPathChar(coreWord[i])) ==>
      SafeCore(coreWord) == coreWord
    ensures SafeCore(SafeCore(coreWord)) == SafeCore(coreWord)
  {
  }

  /** The characters of `/^[\w.-]+$/`. */
  predicate IsFileNameChar(c: char) { IsWordChar(c) || c == '.' || c == '-' }

  /** The name ends with `ext`, ignoring ASCII case. */
  predicate HasExtension(name: string, ext: string) {
    |ext| <= |name| && LowerAsciiString(name[|name| - |ext|..]) == ext
  }

  /** `name.replace(/\.(png|jpg|jpeg)$/i, '')`: at most one image extension is removed. */
  function StripImageExtension(name: string): (r: string)
    ensures StartsWith(name, r) && |name| - 5 <= |r|
  {
    if HasExtension(name, ".jpeg") then name[..|name| - 5]
    else if HasExtension(name, ".png") || HasExtension(name, ".jpg") then name[..|name| - 4]
    else name
  }

  /** A name followed by `ext` has the extension `ext` lower-cased, and drops back to the name. */
  lemma AppendedExtension(name: string, ext: string)
    ensures HasExtension(name + ext, LowerAsciiString(ext))
    ensures (name + ext)[..|name + ext| - |ext|] == name
  {
    var s := name + ext;
    assert s[|s| - |ext|..] == ext;
    assert s[..|s| - |ext|] == name;
  }

  /** Five characters with a dot second never lower-case to `.jpeg`. */
  lemma DotSecondIsNotJpeg(t: string)
    requires |t| == 5 && LowerAscii(t[1]) == '.'
    ensures LowerAsciiString(t) != ".jpeg"
  {
    assert LowerAsciiString(t)[1] != ".jpeg"[1];
  }

  /** A four-character extension starting with a dot is never taken for `.jpeg`. */
  lemma ShortExtensionIsNotJpeg(name: string, ext: string)
    requires |ext| == 4 && LowerAsciiString(ext)[0] == '.'
    ensures !HasExtension(name + ext, ".jpeg")
  {
    var s := name + ext;
    if |s| >= 5 {
      var t := s[|s| - 5..];
      assert t[1] == ext[0];
      DotSecondIsNotJpeg(t);
    }
  }

  /** Appending one image extension, in any letter case, and stripping it gives the name back,
      whatever the name itself ends with. */
  lemma StripImageExtensionRoundTrip(name: string, ext: string)
    requires LowerAsciiString(ext) in {".png", ".jpg", ".jpeg"}
    ensures StripImageExtension(name + ext) == name
  {
    AppendedExtension(name, ext);
    if |ext| == 4 {
      ShortExtensionIsNotJpeg(name, ext);
    }
  }

  /** The file's base name: a given `[\w.-]+` name without its image extension, else `scene_<ms>`. */
  function SceneBaseName(given: Option<string>, nowMs: nat): (r: string)
    ensures Truthy(given) && (forall i :: 0 <= i < |given.value| ==> IsFileNameChar(given.value[i])) ==>
      r == StripImageExtension(given.value)
    ensures !(Truthy(given) && (forall i :: 0 <= i < |given.value| ==> IsFileNameChar(given.value[i]))) ==>
      r == "scene_" + NatToString(nowMs)
  {
    if Truthy(given) && (forall i :: 0 <= i < |given.value| ==> IsFileNameChar(given.value[i]))
    then StripImageExtension(given.value)
    else "scene_" + NatToString(nowMs)
  }

  /** The body; `None` fields are missing (or, for the ids, falsy). */
  datatype SceneBody = SceneBody(prompt: Option<string>, referenceImage: Option<string>, keywordId: Option<string>,
                                 coreWord: Option<string>, filename: Option<string>)

  datatype SceneSave = SceneSave(saveDir: seq<string>, savedPath: seq<string>, payload: string)

  datatype SceneResponse =
    | SceneDone(imageUrl: string, saved: Option<SceneSave>)
    | SceneFailed(status: nat, error: string)

  /** `${String(keywordId).padStart(3, '0')}_${safeCore}_${YYYYMMDD}` */
  function SceneDirName(keywordId: string, coreWord: string, now: Clock.DateTime): string
    requires Clock.Valid(now)
  {
    PromptFiles.PaddedId(keywordId) + "_" + SafeCore(coreWord) + "_" + Clock.DateStamp(now)
  }

  /** `POST /api/generate-scene-image`; `replies` answers the scene ladder; `now` and `nowMs` are the clock. */
  function GenerateScene(body: Option<SceneBody>, apiKey: string, replies: seq<Reply>, now: Clock.DateTime, nowMs: nat): (r: SceneResponse)
    requires |replies| == |GeneratorSchedule| && Clock.Valid(now)
    ensures body.None? ==> r == SceneFailed(413, SceneBodyError)
    ensures body.Some? && !(Truthy(body.value.prompt) && Truthy(body.value.referenceImage)) ==>
      r == SceneFailed(400, SceneMissingFields)
    ensures body.Some? && Truthy(body.value.prompt) && Truthy(body.value.referenceImage) && apiKey == "" ==>
      r == SceneFailed(500, SceneImageGen.MissingKeyError)
    ensures r.SceneDone? ==> apiKey != "" && (r.saved.Some? <==> Truthy(body.value.keywordId) && Truthy(body.value.coreWord))
    ensures r.SceneDone? && r.saved.Some? ==>
      var d := ["output", "scene", SceneDirName(body.value.keywordId.value, body.value.coreWord.value, now)];
      var p := DataUrl.ParseDataUrl(r.imageUrl);
      && r.saved.value.saveDir == d
      && r.saved.value.savedPath == d + ["IMAGE", SceneBaseName(body.value.filename, nowMs) + "." + (if p.mimeType == DataUrl.Png then "png" else "jpg")]
      && r.saved.value.payload == p.data
  {
    match body
    case None => SceneFailed(413, SceneBodyError)
    case Some(b) =>
      if !(Truthy(b.prompt) && Truthy(b.referenceImage)) then SceneFailed(400, SceneMissingFields)
      else
        var g := SceneImageGen.GenerateSceneImage(apiKey, b.prompt.value, b.referenceImage.value, replies);
        match g.image
        case None => SceneFailed(500, OrElse(g.errorSlot, SceneFallbackError))
        case Some(url) =>
          if Truthy(b.keywordId) && Truthy(b.coreWord) then
            var dir := ["output", "scene", SceneDirName(b.keywordId.value, b.coreWord.value, now)];
            var p := DataUrl.ParseDataUrl(url);
            var ext := if p.mimeType == DataUrl.Png then "png" else "jpg";
            SceneDone(url, Some(SceneSave(dir, dir + ["IMAGE", SceneBaseName(b.filename, nowMs) + "." + ext], p.data)))
          else SceneDone(url, None)
  }

  /** The scene directory name carries the zero-padded id, a clean core word of at most 30 characters
      and the UTC date, `YYYYMMDD`. */
  lemma SceneDirNameParts(keywordId: string, coreWord: string, now: Clock.DateTime)
    requires Clock.Valid(now)
    ensures var n := SceneDirName(keywordId, coreWord, now);
      && StartsWith(n, PromptFiles.PaddedId(keywordId) + "_")
      && EndsWith(n, "_" + Clock.DateStamp(now))
      && Clock.DateStamp(now) == Clock.Fixed(now.year, 4) + Clock.Fixed(now.month, 2) + Clock.Fixed(now.day, 2)
      && |n| == |PromptFiles.PaddedId(keywordId)| + |SafeCore(coreWord)| + 10
  {
    Clock.DateStampFields(now);
    FramedBy(PromptFiles.PaddedId(keywordId) + "_", SafeCore(coreWord), "_", Clock.DateStamp(now));
  }

  lemma FramedBy(a: string, m: string, u: string, z: string)
    ensures StartsWith(a + m + u + z, a) && EndsWith(a + m + u + z, u + z)
  {
    var n := a + m + u + z;
    assert n[..|a|] == a;
    assert n[|n| - |u + z|..] == u + z;
  }
}

=== FILE: grid_step.dfy ===
/**
 * Step 4 of the application (`Module4Video`): the pictures step 3 produced, the
 * nine-panel contact sheet on show, the per-panel enlargement options, and the
 * way generating a sheet or enlarging a panel is recorded in the store's
 * provenance tree. The page is the store plus the component's own state.
 */
module GridStep {
  import opened Wrappers
  import opened JsText
  import AppStore
  import StoryboardStep
  import GridRoutes
  import GridImageGen

  type Prompt = AppStore.ScenePrompt

  const EthnicityOptions: seq<string> := ["亚洲女性", "欧美女性", "亚洲男性", "欧美男性"]

  // ---------------------------------------------------------------------------
  // The pictures of step 3
  // ---------------------------------------------------------------------------

  datatype Step3Image = Step3Image(id: string, url: string, caption: string)

  /** The prompts of a run that have a current picture, captioned by their position in the list. */
  function PicturesFrom(ps: seq<Prompt>, head: string, offset: nat): (r: seq<Step3Image>)
    ensures |r| <= |ps|
    ensures forall k :: 0 <= k < |r| ==> r[k].url != ""
    decreases |ps|
  {
    if |ps| == 0 then []
    else
      var rest := PicturesFrom(ps[1..], head, offset + 1);
      if Truthy(ps[0].imageUrl) then [Step3Image(ps[0].id, ps[0].imageUrl.value, head + " " + NatToString(offset + 1))] + rest
      else rest
  }

  /** `step3Images`: the empty scene first, then the scene prompts' pictures, then the desire prompts'. */
  /** The empty-scene picture, when there is one. */
  function EmptyScenePicture(o: Option<string>): seq<Step3Image> {
    if Truthy(o) then [Step3Image("empty", o.value, "空场景")] else []
  }

  function Step3Images(s: AppStore.State): seq<Step3Image> {
    EmptyScenePicture(s.emptySceneImage) + PicturesFrom(s.scenePrompts, "场景", 0) + PicturesFrom(s.desireScenePrompts, "爱欲场景", 0)
  }

  function ImageUrls(xs: seq<Step3Image>): (r: seq<string>)
    ensures |r| == |xs| && forall k :: 0 <= k < |xs| ==> r[k] == xs[k].url
  {
    seq(|xs|, k requires 0 <= k < |xs| => xs[k].url)
  }

  /** The current pictures of a list, as optional values in list order. */
  function Currents(ps: seq<Prompt>): (r: seq<Option<string>>)
    ensures |r| == |ps| && forall k :: 0 <= k < |ps| ==> r[k] == ps[k].imageUrl
  {
    seq(|ps|, k requires 0 <= k < |ps| => ps[k].imageUrl)
  }

  lemma {:induction false} PicturesFromUrls(ps: seq<Prompt>, head: string, offset: nat)
    ensures ImageUrls(PicturesFrom(ps, head, offset)) == StoryboardStep.Present(Currents(ps))
    decreases |ps|
  {
    if |ps| > 0 {
      PicturesFromUrls(ps[1..], head, offset + 1);
      assert Currents(ps) == [ps[0].imageUrl] + Currents(ps[1..]);
      StoryboardStep.PresentAppend([ps[0].imageUrl], Currents(ps[1..]));
      var rest := PicturesFrom(ps[1..], head, offset + 1);
      if Truthy(ps[0].imageUrl) {
        var x := Step3Image(ps[0].id, ps[0].imageUrl.value, head + " " + NatToString(offset + 1));
        assert ImageUrls([x] + rest) == [x.url] + ImageUrls(rest);
      }
    } else {
      assert Currents(ps) == [];
    }
  }

  /** The step-3 pictures are, in order, the empty scene, the scene prompts' current pictures and the
      desire prompts' current pictures, each left out when it is missing or empty. */
  lemma Step3ImagesInOrder(s: AppStore.State)
    ensures ImageUrls(Step3Images(s)) ==
      StoryboardStep.Present([s.emptySceneImage] + Currents(s.scenePrompts) + Currents(s.desireScenePrompts))
  {
    var e := EmptyScenePicture(s.emptySceneImage);
    var a := PicturesFrom(s.scenePrompts, "场景", 0);
    var b := PicturesFrom(s.desireScenePrompts, "爱欲场景", 0);
    EmptyScenePictureUrl(s.emptySceneImage);
    PicturesFromUrls(s.scenePrompts, "场景", 0);
    PicturesFromUrls(s.desireScenePrompts, "爱欲场景", 0);
    ImageUrlsAppend(e + a, b);
    ImageUrlsAppend(e, a);
    StoryboardStep.PresentAppend([s.emptySceneImage] + Currents(s.scenePrompts), Currents(s.desireScenePrompts));
    StoryboardStep.PresentAppend([s.emptySceneImage], Currents(s.scenePrompts));
  }

  lemma ImageUrlsAppend(a: seq<Step3Image>, b: seq<Step3Image>)
    ensures ImageUrls(a + b) == ImageUrls(a) + ImageUrls(b)
  {
  }

  lemma EmptyScenePictureUrl(o: Option<string>)
    ensures ImageUrls(EmptyScenePicture(o)) == StoryboardStep.Present([o])
  {
    assert [o][1..] == [];
  }

  /** Some picture of step 3 exists. */
  predicate AnyStep3Picture(s: AppStore.State) {
    || Truthy(s.emptySceneImage)
    || (exists j :: 0 <= j < |s.scenePrompts| && Truthy(s.scenePrompts[j].imageUrl))
    || (exists j :: 0 <= j < |s.desireScenePrompts| && Truthy(s.desireScenePrompts[j].imageUrl))
  }

  lemma {:induction false} PicturesFromEmpty(ps: seq<Prompt>, head: string, offset: nat)
    ensures |PicturesFrom(ps, head, offset)| > 0 <==> exists j :: 0 <= j < |ps| && Truthy(ps[j].imageUrl)
    decreases |ps|
  {
    if |ps| > 0 {
      PicturesFromEmpty(ps[1..], head, offset + 1);
      if exists j :: 0 <= j < |ps| && Truthy(ps[j].imageUrl) {
        var j :| 0 <= j < |ps| && Truthy(ps[j].imageUrl);
        if j > 0 {
          assert ps[1..][j - 1] == ps[j];
        }
      }
      if exists j :: 0 <= j < |ps[1..]| && Truthy(ps[1..][j].imageUrl) {
        var j :| 0 <= j < |ps[1..]| && Truthy(ps[1..][j].imageUrl);
        assert ps[j + 1] == ps[1..][j];
      }
    }
  }

  /** `isUnlocked`: module 4 is unlocked, or module 3 is and step 3 has produced a picture. */
  predicate IsUnlocked(s: AppStore.State) {
    4 in s.unlockedModules || (3 in s.unlockedModules && |Step3Images(s)| > 0)
  }

  lemma IsUnlockedMeaning(s: AppStore.State)
    ensures IsUnlocked(s) <==> 4 in s.unlockedModules || (3 in s.unlockedModules && AnyStep3Picture(s))
  {
    PicturesFromEmpty(s.scenePrompts, "场景", 0);
    PicturesFromEmpty(s.desireScenePrompts, "爱欲场景", 0);
  }

  /** `step3Images.find(i => i.id === id)`, as a position. */
  function FindImage(xs: seq<Step3Image>, id: string): (r: Option<nat>)
    ensures r.Some? ==> r.value < |xs| && xs[r.value].id == id
    ensures r.Some? ==> forall j :: 0 <= j < r.value ==> xs[j].id != id
    ensures r.None? ==> forall j :: 0 <= j < |xs| ==> xs[j].id != id
    decreases |xs|
  {
    if |xs| == 0 then None
    else if xs[0].id == id then Some(0)
    else
      match FindImage(xs[1..], id)
      case Some(k) => Some(k + 1)
      case None => None
  }

  /** `step3Images.find(i => i.id === id)?.url ?? ''` */
  function SourceUrl(xs: seq<Step3Image>, id: string): string {
    match FindImage(xs, id)
    case Some(k) => xs[k].url
    case None => ""
  }

  // ---------------------------------------------------------------------------
  // Per-panel options
  // ---------------------------------------------------------------------------

  datatype PanelOption = PanelOption(useRef: bool, resolution: string, auxiliaryPrompt: string)

  const DefaultOption: PanelOption := PanelOption(true, "2K", "")

  const PanelIndices: set<int> := {1, 2, 3, 4, 5, 6, 7, 8, 9}

  /** The options the page starts with: panels 1 to 9, each with the reference on, `2K` and no
      auxiliary prompt. */
  function InitialOptions(): (m: map<int, PanelOption>)
    ensures forall i :: i in m <==> GridImageGen.IsPanelIndex(i)
    ensures forall i :: i in m ==> m[i] == DefaultOption
  {
    map i | i in PanelIndices :: DefaultOption
  }

  /** `panelOptions[i] ?? default` */
  function OptionFor(m: map<int, PanelOption>, i: int): (o: PanelOption)
    ensures i !in m ==> o == DefaultOption
    ensures i in m ==> o == m[i]
  {
    if i in m then m[i] else DefaultOption
  }

  datatype OptionChange = SetUseRef(useRef: bool) | SetResolution(resolution: string) | SetAuxiliary(text: string)

  function Changed(o: PanelOption, c: OptionChange): PanelOption {
    match c
    case SetUseRef(b) => o.(useRef := b)
    case SetResolution(res) => o.(resolution := res)
    case SetAuxiliary(t) => o.(auxiliaryPrompt := t)
  }

  /** `updatePanelOption` for a panel on the page: one field of one panel changes. */
  function UpdatePanelOption(m: map<int, PanelOption>, i: int, c: OptionChange): (r: map<int, PanelOption>)
    ensures r.Keys == m.Keys
    ensures forall j :: j in m && j != i ==> r[j] == m[j]
    ensures i in m ==> r[i] == Changed(m[i], c)
    ensures i in m && c.SetUseRef? ==> r[i].useRef == c.useRef && r[i].resolution == m[i].resolution && r[i].auxiliaryPrompt == m[i].auxiliaryPrompt
    ensures i in m && c.SetResolution? ==> r[i].resolution == c.resolution && r[i].useRef == m[i].useRef && r[i].auxiliaryPrompt == m[i].auxiliaryPrompt
    ensures i in m && c.SetAuxiliary? ==> r[i].auxiliaryPrompt == c.text && r[i].useRef == m[i].useRef && r[i].resolution == m[i].resolution
  {
    if i in m then m[i := Changed(m[i], c)] else m
  }

  function UpdateAll(m: map<int, PanelOption>, changes: seq<(int, OptionChange)>): map<int, PanelOption>
    decreases |changes|
  {
    if |changes| == 0 then m else UpdateAll(UpdatePanelOption(m, changes[0].0, changes[0].1), changes[1..])
  }

  /** Whatever the edits, the options cover exactly panels 1 to 9, so the lookup never falls back. */
  lemma {:induction false} OptionsStayOnNinePanels(m: map<int, PanelOption>, changes: seq<(int, OptionChange)>)
    requires forall i :: i in m <==> GridImageGen.IsPanelIndex(i)
    ensures forall i :: i in UpdateAll(m, changes) <==> GridImageGen.IsPanelIndex(i)
    decreases |changes|
  {
    if |changes| > 0 {
      OptionsStayOnNinePanels(UpdatePanelOption(m, changes[0].0, changes[0].1), changes[1..]);
    }
  }

  // ---------------------------------------------------------------------------
  // The sheet on show and its enlargements
  // ---------------------------------------------------------------------------

  /** The contact sheet on show: its picture, save directory, caption and source. */
  datatype Shown = Shown(image: Option<string>, savedDir: Option<string>, caption: Option<string>, sourceId: Option<string>)

  datatype Page = Page(store: AppStore.State, shown: Shown, options: map<int, PanelOption>)

  /** `sheets.find(s => s.contactImageUrl === url || s.savedDir === dir)`, as a position. */
  function FindSheet(sheets: seq<AppStore.Sheet>, url: string, dir: Option<string>): (r: Option<nat>)
    ensures r.Some? ==> r.value < |sheets| && (sheets[r.value].contactImageUrl == url || Some(sheets[r.value].savedDir) == dir)
    ensures r.Some? ==> forall k :: 0 <= k < r.value ==> sheets[k].contactImageUrl != url && Some(sheets[k].savedDir) != dir
    ensures r.None? ==> forall k :: 0 <= k < |sheets| ==> sheets[k].contactImageUrl != url && Some(sheets[k].savedDir) != dir
    decreases |sheets|
  {
    if |sheets| == 0 then None
    else if sheets[0].contactImageUrl == url || Some(sheets[0].savedDir) == dir then Some(0)
    else
      match FindSheet(sheets[1..], url, dir)
      case Some(k) => Some(k + 1)
      case None => None
  }

  /** `panel2KOrderedForCurrent`: the enlargements of the sheet on show, in generation order; none
      without a source or picture, or when the store has no such group or sheet. */
  function CurrentPanels(gs: seq<AppStore.Group>, shown: Shown): (r: seq<AppStore.Panel2K>)
    ensures !Truthy(shown.sourceId) || !Truthy(shown.image) ==> r == []
    ensures !AppStore.HasSource(gs, OrElse(shown.sourceId, "")) ==> r == []
  {
    if !Truthy(shown.sourceId) || !Truthy(shown.image) then []
    else match AppStore.FindSource(gs, shown.sourceId.value)
      case None => []
      case Some(i) =>
        match FindSheet(gs[i].sheets, shown.image.value, shown.savedDir)
        case None => []
        case Some(k) => gs[i].sheets[k].panels
  }

  /** `selectContactSheet` */
  function SelectContactSheet(p: Page, url: string, savedDir: string, caption: string, sourceId: string): (r: Page)
    ensures r.store == p.store && r.options == p.options
    ensures r.shown == Shown(Some(url), Some(savedDir), Some(caption), Some(sourceId))
  {
    p.(shown := Shown(Some(url), Some(savedDir), Some(caption), Some(sourceId)))
  }

  /** Choosing a recorded sheet of a source shows exactly that sheet's enlargements, when its
      contact-sheet URL and directory are the first of their group to match. */
  lemma SelectShowsSheetPanels(p: Page, i: nat, k: nat)
    requires i < |p.store.step4Groups| && k < |p.store.step4Groups[i].sheets|
    requires AppStore.FindSource(p.store.step4Groups, p.store.step4Groups[i].sourceId) == Some(i)
    requires var sh := p.store.step4Groups[i].sheets;
      forall j :: 0 <= j < k ==> sh[j].contactImageUrl != sh[k].contactImageUrl && sh[j].savedDir != sh[k].savedDir
    requires p.store.step4Groups[i].sourceId != "" && p.store.step4Groups[i].sheets[k].contactImageUrl != ""
    ensures var g := p.store.step4Groups[i];
      CurrentPanels(p.store.step4Groups,
                    SelectContactSheet(p, g.sheets[k].contactImageUrl, g.sheets[k].savedDir, "", g.sourceId).shown)
      == g.sheets[k].panels
  {
    var g := p.store.step4Groups[i];
    var f := FindSheet(g.sheets, g.sheets[k].contactImageUrl, Some(g.sheets[k].savedDir));
    assert f == Some(k);
  }

  // ---------------------------------------------------------------------------
  // Generating a contact sheet
  // ---------------------------------------------------------------------------

  /** What the grid route answered, as the page reads it. */
  datatype GridReply = GridDone(imageUrl: Option<string>, savedDir: Option<string>) | GridError(message: string)

  /** The sheet on show is recorded when it has a picture, a source and a caption. */
  predicate ShowsRecordable(shown: Shown) {
    Truthy(shown.image) && shown.sourceId.Some? && Truthy(shown.caption)
  }

  /** Records the sheet on show, if any, under its source. */
  function RecordShown(s: AppStore.State, shown: Shown): (r: AppStore.State)
    ensures r == s.(step4Groups := r.step4Groups)
    ensures !ShowsRecordable(shown) ==> r == s
    ensures ShowsRecordable(shown) ==>
      r.step4Groups == AppStore.AddContactSheet(s.step4Groups, shown.sourceId.value, shown.caption.value,
        SourceUrl(Step3Images(s), shown.sourceId.value), shown.image.value, shown.savedDir.GetOr(""))
  {
    if ShowsRecordable(shown) then
      AppStore.AddStep4ContactSheet(s, shown.sourceId.value, shown.caption.value,
        SourceUrl(Step3Images(s), shown.sourceId.value), shown.image.value, shown.savedDir.GetOr(""))
    else s
  }

  /** `handleGenerateGrid` for a source picture, once the answer is in: the sheet that was on show is
      recorded first, and stays findable under its source; the new sheet is shown (nothing is, on
      failure) and recorded after it only when both its URL and its directory came back. Only the
      provenance tree of the store changes. */
  function GenerateGrid(p: Page, sourceId: string, caption: string, reply: GridReply): (r: Page)
    ensures r.options == p.options
    ensures r.store == p.store.(step4Groups := r.store.step4Groups)
    ensures reply.GridError? ==> r.shown == Shown(None, None, Some(caption), None)
    ensures reply.GridDone? ==> r.shown == Shown(reply.imageUrl, reply.savedDir, Some(caption), Some(sourceId))
    ensures !(reply.GridDone? && Truthy(reply.imageUrl) && Truthy(reply.savedDir)) ==>
      r.store == RecordShown(p.store, p.shown)
    ensures reply.GridDone? && Truthy(reply.imageUrl) && Truthy(reply.savedDir) ==>
      r.store.step4Groups == AppStore.AddContactSheet(RecordShown(p.store, p.shown).step4Groups, sourceId, caption,
        SourceUrl(Step3Images(p.store), sourceId), reply.imageUrl.value, reply.savedDir.value)
    ensures !ShowsRecordable(p.shown) && !(reply.GridDone? && Truthy(reply.imageUrl) && Truthy(reply.savedDir)) ==>
      r.store == p.store
    ensures ShowsRecordable(p.shown) ==>
      var gs := r.store.step4Groups;
      AppStore.HasSource(gs, p.shown.sourceId.value)
      && AppStore.HasSheet(gs[AppStore.FindSource(gs, p.shown.sourceId.value).value], p.shown.image.value)
    ensures reply.GridDone? && Truthy(reply.imageUrl) && Truthy(reply.savedDir) ==>
      var gs := r.store.step4Groups;
      AppStore.HasSource(gs, sourceId) && AppStore.HasSheet(gs[AppStore.FindSource(gs, sourceId).value], reply.imageUrl.value)
  {
    var s1 := RecordShown(p.store, p.shown);
    assert ShowsRecordable(p.shown) ==>
      AppStore.HasSource(s1.step4Groups, p.shown.sourceId.value)
      && AppStore.HasSheet(s1.step4Groups[AppStore.FindSource(s1.step4Groups, p.shown.sourceId.value).value], p.shown.image.value)
    by {
      if ShowsRecordable(p.shown) {
        var id := p.shown.sourceId.value;
        AddContactSheetRecords(p.store.step4Groups, id, p.shown.caption.value, SourceUrl(Step3Images(p.store), id),
                               p.shown.image.value, p.shown.savedDir.GetOr(""));
      }
    }
    assert Step3Images(s1) == Step3Images(p.store);
    match reply
    case GridError(_) => Page(s1, Shown(None, None, Some(caption), None), p.options)
    case GridDone(url, dir) =>
      var shown := Shown(url, dir, Some(caption), Some(sourceId));
      if Truthy(url) && Truthy(dir) then
        var gs := s1.step4Groups;
        var src := SourceUrl(Step3Images(s1), sourceId);
        AddContactSheetRecords(gs, sourceId, caption, src, url.value, dir.value);
        assert ShowsRecordable(p.shown) ==>
          var r := AppStore.AddContactSheet(gs, sourceId, caption, src, url.value, dir.value);
          AppStore.HasSource(r, p.shown.sourceId.value)
          && AppStore.HasSheet(r[AppStore.FindSource(r, p.shown.sourceId.value).value], p.shown.image.value)
        by {
          if ShowsRecordable(p.shown) {
            AddContactSheetKeepsSheets(gs, p.shown.sourceId.value, p.shown.image.value, sourceId, caption, src, url.value, dir.value);
          }
        }
        Page(AppStore.AddStep4ContactSheet(s1, sourceId, caption, src, url.value, dir.value), shown, p.options)
      else Page(s1, shown, p.options)
  }

  /** Recording a sheet never loses one: a sheet found under its source is still found there. */
  lemma AddContactSheetKeepsSheets(gs: seq<AppStore.Group>, id: string, kept: string,
                                   sourceId: string, caption: string, src: string, url: string, dir: string)
    requires AppStore.HasSource(gs, id) && AppStore.HasSheet(gs[AppStore.FindSource(gs, id).value], kept)
    ensures var r := AppStore.AddContactSheet(gs, sourceId, caption, src, url, dir);
      AppStore.HasSource(r, id) && AppStore.HasSheet(r[AppStore.FindSource(r, id).value], kept)
  {
    var r := AppStore.AddContactSheet(gs, sourceId, caption, src, url, dir);
    var k := AppStore.FindSource(gs, id).value;
    var j :| 0 <= j < |gs[k].sheets| && gs[k].sheets[j].contactImageUrl == kept;
    if AppStore.HasSource(gs, sourceId) {
      FindSourceSameIds(gs, r, id);
      if !AppStore.HasSheet(gs[AppStore.FindSource(gs, sourceId).value], url) {
        assert r[k].sheets[j] == gs[k].sheets[j];
      }
    } else {
      FindSourceAppend(gs, r[|gs|], id);
      assert r == gs + [r[|gs|]];
      assert r[k] == gs[k];
    }
    assert r[k].sheets[j].contactImageUrl == kept;
  }

  /** After `addStep4ContactSheet` the first group of the source holds a sheet with the URL. */
  lemma AddContactSheetRecords(gs: seq<AppStore.Group>, sourceId: string, caption: string, src: string, url: string, dir: string)
    ensures var r := AppStore.AddContactSheet(gs, sourceId, caption, src, url, dir);
      AppStore.HasSource(r, sourceId) && AppStore.HasSheet(r[AppStore.FindSource(r, sourceId).value], url)
  {
    var r := AppStore.AddContactSheet(gs, sourceId, caption, src, url, dir);
    if AppStore.HasSource(gs, sourceId) {
      var k := AppStore.FindSource(gs, sourceId).value;
      FindSourceSameIds(gs, r, sourceId);
      if !AppStore.HasSheet(gs[k], url) {
        assert r[k].sheets[|r[k].sheets| - 1].contactImageUrl == url;
      }
    } else {
      assert r[|gs|].sourceId == sourceId;
      assert r[|gs|].sheets[0].contactImageUrl == url;
      assert forall j :: 0 <= j < |gs| ==> r[j] == gs[j];
    }
  }

  /** Two lists with the same sources position by position find every source at the same place. */
  lemma FindSourceSameIds(a: seq<AppStore.Group>, b: seq<AppStore.Group>, id: string)
    requires |a| == |b| && forall i :: 0 <= i < |a| ==> a[i].sourceId == b[i].sourceId
    ensures AppStore.FindSource(a, id) == AppStore.FindSource(b, id)
  {
    var fa := AppStore.FindSource(a, id);
    if fa.Some? {
      AppStore.FindSourceFirst(b, id, fa.value);
    }
  }

  /** A known source keeps its place when a group is appended. */
  lemma FindSourceAppend(gs: seq<AppStore.Group>, g: AppStore.Group, id: string)
    requires AppStore.HasSource(gs, id)
    ensures AppStore.FindSource(gs + [g], id) == AppStore.FindSource(gs, id)
  {
    var a := AppStore.FindSource(gs, id).value;
    AppStore.FindSourceFirst(gs + [g], id, a);
  }

  /** Generating twice in a row never records the same sheet twice: recording the sheet on show a
      second time changes nothing. */
  lemma RecordShownTwice(s: AppStore.State, shown: Shown)
    ensures RecordShown(RecordShown(s, shown), shown) == RecordShown(s, shown)
  {
    if ShowsRecordable(shown) {
      var id := shown.sourceId.value;
      var s1 := RecordShown(s, shown);
      AddContactSheetRecords(s.step4Groups, id, shown.caption.value, SourceUrl(Step3Images(s), id),
                             shown.image.value, shown.savedDir.GetOr(""));
      assert Step3Images(s1) == Step3Images(s);
    }
  }

  /** Generating a sheet keeps the provenance tree well formed: distinct sources, distinct sheets
      per source, one enlargement per panel. */
  lemma GenerateGridKeepsProvenanceWf(p: Page, sourceId: string, caption: string, reply: GridReply)
    requires AppStore.GroupsWf(p.store.step4Groups)
    ensures AppStore.GroupsWf(GenerateGrid(p, sourceId, caption, reply).store.step4Groups)
  {
    var s1 := RecordShown(p.store, p.shown);
    if ShowsRecordable(p.shown) {
      var id := p.shown.sourceId.value;
      AppStore.AddContactSheetPreservesWf(p.store.step4Groups, id, p.shown.caption.value,
        SourceUrl(Step3Images(p.store), id), p.shown.image.value, p.shown.savedDir.GetOr(""));
    }
    if reply.GridDone? && Truthy(reply.imageUrl) && Truthy(reply.savedDir) {
      AppStore.AddContactSheetPreservesWf(s1.step4Groups, sourceId, caption,
        SourceUrl(Step3Images(s1), sourceId), reply.imageUrl.value, reply.savedDir.value);
    }
  }

  // ---------------------------------------------------------------------------
  // Enlarging a panel
  // ---------------------------------------------------------------------------

  /** The prefix of the sources an enlargement registers. */
  const DerivedPrefix: string := "2k-"

  /** `2k-${sourceId}-${panelIndex}-${Date.now()}` */
  function DerivedId(sourceId: string, panelIndex: nat, nowMs: nat): (r: string)
    ensures StartsWith(r, DerivedPrefix) && |r| > |sourceId|
  {
    var r := DerivedPrefix + sourceId + "-" + NatToString(panelIndex) + "-" + NatToString(nowMs);
    assert r[..3] == DerivedPrefix;
    r
  }

  /** `${caption ?? ''} - 第${panelIndex}格${resolution}` */
  function DerivedLabel(caption: Option<string>, panelIndex: nat, resolution: string): string {
    caption.GetOr("") + " - 第" + NatToString(panelIndex) + "格" + resolution
  }

  /** The groups that came from an enlargement, in order. */
  function DerivedSources(gs: seq<AppStore.Group>): (r: seq<AppStore.Group>)
    ensures forall g :: g in r <==> g in gs && StartsWith(g.sourceId, DerivedPrefix)
    decreases |gs|
  {
    if |gs| == 0 then []
    else
      var rest := DerivedSources(gs[1..]);
      assert forall g :: g in gs <==> g == gs[0] || g in gs[1..];
      if StartsWith(gs[0].sourceId, DerivedPrefix) then [gs[0]] + rest else rest
  }

  /** The body posted to `/api/generate-grid-cell`; `None` without a sheet on show and its source. */
  function ExpandRequest(p: Page, characterRef: Option<string>, panelIndex: nat): (r: Option<GridRoutes.CellBody>)
    ensures r.Some? <==> Truthy(p.shown.image) && Truthy(p.shown.sourceId)
    ensures r.Some? ==> var o := OptionFor(p.options, panelIndex);
      && r.value.image == p.shown.image && r.value.panelNumber == Some(panelIndex as int)
      && r.value.saveDir == p.shown.savedDir
      && r.value.useCharacterReference == Some(o.useRef)
      && (r.value.characterReferenceImage.Some? ==> o.useRef)
      && (o.useRef ==> r.value.characterReferenceImage == StoryboardStep.EffectiveReference(characterRef, p.store.uploadedImage))
      && r.value.resolution == Some(o.resolution)
      && r.value.auxiliaryPrompt == (if o.auxiliaryPrompt != "" then Some(o.auxiliaryPrompt) else None)
  {
    if !Truthy(p.shown.image) || !Truthy(p.shown.sourceId) then None
    else
      var o := OptionFor(p.options, panelIndex);
      var s := p.store;
      Some(GridRoutes.CellBody(p.shown.image, Some(panelIndex as int), p.shown.savedDir, Some(o.useRef),
        if o.useRef then StoryboardStep.EffectiveReference(characterRef, s.uploadedImage) else None,
        Some(s.ethnicityOption), s.step3OutputBaseDir, Some(o.resolution),
        if o.auxiliaryPrompt != "" then Some(o.auxiliaryPrompt) else None))
  }

  /** What the options mean at the route: the enlargement is 4K exactly when the panel's option says
      `4K`, and the reference picture goes along exactly when the panel uses it and one exists. */
  lemma ExpandRequestMeaning(p: Page, characterRef: Option<string>, panelIndex: nat)
    requires Truthy(p.shown.image) && Truthy(p.shown.sourceId)
    ensures var b := ExpandRequest(p, characterRef, panelIndex).value;
      var o := OptionFor(p.options, panelIndex);
      var cell := GridRoutes.CellOptions(b);
      && (GridImageGen.OutputSize(cell) == "4K" <==> o.resolution == "4K")
      && ((cell.Some? && Truthy(cell.value.characterReferenceImage)) <==>
            o.useRef && Truthy(StoryboardStep.EffectiveReference(characterRef, p.store.uploadedImage)))
  {
    GridRoutes.CellOptionsMeaning(ExpandRequest(p, characterRef, panelIndex).value);
  }

  /** What the cell route answered, as the page reads it. */
  datatype CellReply = CellDone(imageUrl: Option<string>) | CellError(message: string)

  /** `handleExpandPanel` once the answer is in. With a sheet on show and a picture back, the
      enlargement is recorded on the sheet, a derived source is registered for it, and step 5 is
      unlocked; otherwise nothing changes. */
  function ExpandPanel(p: Page, panelIndex: nat, nowMs: nat, reply: CellReply): (r: Page)
    ensures !(Truthy(p.shown.image) && Truthy(p.shown.sourceId) && reply.CellDone? && Truthy(reply.imageUrl)) ==> r == p
    ensures Truthy(p.shown.image) && Truthy(p.shown.sourceId) && reply.CellDone? && Truthy(reply.imageUrl) ==>
      var id := p.shown.sourceId.value;
      var url := reply.imageUrl.value;
      var derived := DerivedId(id, panelIndex, nowMs);
      && r.shown == p.shown && r.options == p.options
      && 5 in r.store.unlockedModules
      && r.store.step4Groups == AppStore.AddGroupSource(
           AppStore.AddPanel2K(p.store.step4Groups, id, p.shown.image.value, panelIndex, url),
           derived, DerivedLabel(p.shown.caption, panelIndex, OptionFor(p.options, panelIndex).resolution), url)
      && AppStore.HasSource(r.store.step4Groups, derived)
  {
    if !(Truthy(p.shown.image) && Truthy(p.shown.sourceId)) then p
    else match reply
      case CellError(_) => p
      case CellDone(url) =>
        if !Truthy(url) then p
        else
          var id := p.shown.sourceId.value;
          var s1 := AppStore.AddStep4Panel2K(p.store, id, p.shown.image.value, panelIndex, url.value);
          var derivedCaption := DerivedLabel(p.shown.caption, panelIndex, OptionFor(p.options, panelIndex).resolution);
          var s2 := AppStore.AddStep4GroupSource(s1, DerivedId(id, panelIndex, nowMs), derivedCaption, url.value);
          p.(store := AppStore.UnlockModule(s2, 5))
  }

  /** Enlarging a panel keeps the provenance tree well formed. */
  lemma ExpandPanelKeepsProvenanceWf(p: Page, panelIndex: nat, nowMs: nat, reply: CellReply)
    requires AppStore.GroupsWf(p.store.step4Groups)
    ensures AppStore.GroupsWf(ExpandPanel(p, panelIndex, nowMs, reply).store.step4Groups)
  {
    if Truthy(p.shown.image) && Truthy(p.shown.sourceId) && reply.CellDone? && Truthy(reply.imageUrl) {
      var id := p.shown.sourceId.value;
      var url := reply.imageUrl.value;
      var g1 := AppStore.AddPanel2K(p.store.step4Groups, id, p.shown.image.value, panelIndex, url);
      AppStore.AddPanel2KPreservesWf(p.store.step4Groups, id, p.shown.image.value, panelIndex, url);
      AppStore.AddGroupSourcePreservesWf(g1, DerivedId(id, panelIndex, nowMs),
        DerivedLabel(p.shown.caption, panelIndex, OptionFor(p.options, panelIndex).resolution), url);
    }
  }

  /** An enlargement registers a source that step 4 and step 5 list as derived. */
  lemma ExpandAddsDerivedSource(p: Page, panelIndex: nat, nowMs: nat, url: string)
    requires Truthy(p.shown.image) && Truthy(p.shown.sourceId) && url != ""
    ensures var gs := ExpandPanel(p, panelIndex, nowMs, CellDone(Some(url))).store.step4Groups;
      exists g :: g in DerivedSources(gs) && g.sourceId == DerivedId(p.shown.sourceId.value, panelIndex, nowMs)
  {
    var gs := ExpandPanel(p, panelIndex, nowMs, CellDone(Some(url))).store.step4Groups;
    var id := DerivedId(p.shown.sourceId.value, panelIndex, nowMs);
    assert AppStore.HasSource(gs, id);
    var i :| 0 <= i < |gs| && gs[i].sourceId == id;
    assert gs[i] in gs;
  }

  /** When the sheet on show is recorded under its source (and is the first of its group to match),
      the enlargement joins its list: last, and the only entry for that panel. */
  lemma ExpandShowsNewPanel(p: Page, panelIndex: nat, nowMs: nat, url: string)
    requires Truthy(p.shown.image) && Truthy(p.shown.sourceId) && url != ""
    requires var gs := p.store.step4Groups;
      && AppStore.HasSource(gs, p.shown.sourceId.value)
      && var g := gs[AppStore.FindSource(gs, p.shown.sourceId.value).value];
         && FindSheet(g.sheets, p.shown.image.value, p.shown.savedDir).Some?
         && g.sheets[FindSheet(g.sheets, p.shown.image.value, p.shown.savedDir).value].contactImageUrl == p.shown.image.value
    ensures var panels := CurrentPanels(ExpandPanel(p, panelIndex, nowMs, CellDone(Some(url))).store.step4Groups, p.shown);
      && |panels| > 0 && panels[|panels| - 1] == AppStore.Panel2K(panelIndex, url)
      && forall a :: 0 <= a < |panels| - 1 ==> panels[a].panelIndex != panelIndex
  {
    var gs := p.store.step4Groups;
    var derivedCaption := DerivedLabel(p.shown.caption, panelIndex, OptionFor(p.options, panelIndex).resolution);
    ExpandedSheetPanels(gs, p.shown, panelIndex, url, DerivedId(p.shown.sourceId.value, panelIndex, nowMs), derivedCaption);
  }

  lemma ExpandedSheetPanels(gs: seq<AppStore.Group>, shown: Shown, panelIndex: nat, url: string, newId: string, caption: string)
    requires Truthy(shown.image) && Truthy(shown.sourceId)
    requires AppStore.HasSource(gs, shown.sourceId.value)
    requires var g := gs[AppStore.FindSource(gs, shown.sourceId.value).value];
      && FindSheet(g.sheets, shown.image.value, shown.savedDir).Some?
      && g.sheets[FindSheet(g.sheets, shown.image.value, shown.savedDir).value].contactImageUrl == shown.image.value
    ensures var g := gs[AppStore.FindSource(gs, shown.sourceId.value).value];
      var k := FindSheet(g.sheets, shown.image.value, shown.savedDir).value;
      var g1 := AppStore.AddPanel2K(gs, shown.sourceId.value, shown.image.value, panelIndex, url);
      CurrentPanels(AppStore.AddGroupSource(g1, newId, caption, url), shown)
        == AppStore.ReplacePanel(g.sheets[k].panels, panelIndex, url)
  {
    var id := shown.sourceId.value;
    var img := shown.image.value;
    var i := AppStore.FindSource(gs, id).value;
    var k := FindSheet(gs[i].sheets, img, shown.savedDir).value;
    var g1 := AppStore.AddPanel2K(gs, id, img, panelIndex, url);
    PanelRecordedInPlace(gs, id, img, shown.savedDir, panelIndex, url, i, k);
    AddGroupSourceKeepsPlace(g1, newId, caption, url, id);
    var g2 := AppStore.AddGroupSource(g1, newId, caption, url);
    assert g2[i] == g1[i];
    CurrentPanelsAt(g2, shown, i, k);
  }

  /** `addStep4Panel2K` leaves the group and the sheet where the lookup finds them, and replaces that
      sheet's entry for the panel. */
  lemma PanelRecordedInPlace(gs: seq<AppStore.Group>, id: string, img: string, dir: Option<string>,
                             panelIndex: nat, url: string, i: nat, k: nat)
    requires AppStore.FindSource(gs, id) == Some(i)
    requires FindSheet(gs[i].sheets, img, dir) == Some(k) && gs[i].sheets[k].contactImageUrl == img
    ensures var g1 := AppStore.AddPanel2K(gs, id, img, panelIndex, url);
      && AppStore.FindSource(g1, id) == Some(i)
      && FindSheet(g1[i].sheets, img, dir) == Some(k)
      && g1[i].sheets[k].panels == AppStore.ReplacePanel(gs[i].sheets[k].panels, panelIndex, url)
  {
    var g1 := AppStore.AddPanel2K(gs, id, img, panelIndex, url);
    FindSourceSameIds(gs, g1, id);
    assert g1[i].sheets == AppStore.ReplaceInSheets(gs[i].sheets, img, panelIndex, url);
    SameSheetFound(gs[i].sheets, g1[i].sheets, img, dir, k);
  }

  /** Registering a source keeps every known source at its place. */
  lemma AddGroupSourceKeepsPlace(gs: seq<AppStore.Group>, newId: string, caption: string, url: string, id: string)
    requires AppStore.HasSource(gs, id)
    ensures var r := AppStore.AddGroupSource(gs, newId, caption, url);
      && AppStore.FindSource(r, id) == AppStore.FindSource(gs, id)
      && forall j :: 0 <= j < |gs| ==> r[j] == gs[j]
  {
    if !AppStore.HasSource(gs, newId) {
      FindSourceAppend(gs, AppStore.Group(newId, caption, url, []), id);
    }
  }

  lemma CurrentPanelsAt(gs: seq<AppStore.Group>, shown: Shown, i: nat, k: nat)
    requires Truthy(shown.image) && Truthy(shown.sourceId)
    requires AppStore.FindSource(gs, shown.sourceId.value) == Some(i)
    requires FindSheet(gs[i].sheets, shown.image.value, shown.savedDir) == Some(k)
    ensures CurrentPanels(gs, shown) == gs[i].sheets[k].panels
  {
  }

  /** Sheets that keep their URLs and directories are found at the same place. */
  lemma {:induction false} SameSheetFound(a: seq<AppStore.Sheet>, b: seq<AppStore.Sheet>, url: string, dir: Option<string>, k: nat)
    requires |a| == |b|
    requires forall j :: 0 <= j < |a| ==> a[j].contactImageUrl == b[j].contactImageUrl && a[j].savedDir == b[j].savedDir
    requires FindSheet(a, url, dir) == Some(k)
    ensures FindSheet(b, url, dir) == Some(k)
    decreases |a|
  {
    if !(a[0].contactImageUrl == url || Some(a[0].savedDir) == dir) {
      SameSheetFound(a[1..], b[1..], url, dir, k - 1);
    }
  }
}

=== FILE: grok.dfy ===
/**
 * `POST /api/grok-video`: submit an image-to-video job to xAI, poll it every five seconds until a
 * URL, a failure status or the 55-second guard, then optionally keep a copy under the step-3 output
 * folder. The provider's answers, the clock readings and the download are given as scripts.
 */
module Grok {
  import opened Wrappers
  import opened JsText

  const Model: string := "grok-imagine-video"
  const Resolution: string := "720p"
  const DefaultDuration: int := 10
  const DefaultAspectRatio: string := "16:9"

  /** Milliseconds after which the route stops polling, and the wait before every poll. */
  const TimeoutLimit: int := 55000
  const PollDelay: int := 5000

  const MissingInput: string := "Missing imageUrl or prompt"
  const MissingKey: string := "请先配置 Grok API Key"
  const SubmitPrefix: string := "提交失败: "
  const TooLong: string := "任务处理时间过长，请稍后检查"
  const GenerationFailure: string := "Grok 生成视频失败"

  /** `settings.grokApiKey || process.env.GROK_API_KEY || ''`; `file` is `None` when the settings file
      cannot be read or parsed, and then only the environment counts. */
  function GrokApiKey(file: Option<Option<string>>, env: Option<string>): (k: string)
    ensures file.Some? && Truthy(file.value) ==> k == file.value.value
    ensures !(file.Some? && Truthy(file.value)) ==> k == OrElse(env, "")
    ensures k == "" <==> !(file.Some? && Truthy(file.value)) && !Truthy(env)
  {
    match file
    case None => OrElse(env, "")
    case Some(key) => OrElse(key, OrElse(env, ""))
  }

  /** The request body; a body that is not JSON is the empty object, every field `None`. `duration` is the
      number given, `None` when absent. */
  datatype VideoBody = VideoBody(imageUrl: Option<string>, prompt: Option<string>, duration: Option<int>,
                                 aspectRatio: Option<string>, step3OutputBaseDir: Option<string>)

  /** `Math.min(15, Math.max(1, d))`. */
  function ClampDuration(d: int): (r: int)
    ensures 1 <= r <= 15
    ensures 1 <= d <= 15 ==> r == d
    ensures d < 1 ==> r == 1
    ensures d > 15 ==> r == 15
  {
    if d < 1 then 1 else if d > 15 then 15 else d
  }

  /** Clamping twice is clamping once, and it never reverses the order of two durations. */
  lemma ClampDurationIdempotentAndMonotone(a: int, b: int)
    ensures ClampDuration(ClampDuration(a)) == ClampDuration(a)
    ensures a <= b ==> ClampDuration(a) <= ClampDuration(b)
  {
  }

  /** The JSON sent to `/v1/videos/generations`: the resolution is always 720p, whatever the body
      asked for, and the duration is clamped to 1..15 seconds. */
  datatype CreateRequest = CreateRequest(prompt: string, model: string, imageUrl: string, duration: int,
                                         aspectRatio: string, resolution: string)

  function CreateRequestOf(b: VideoBody): (q: CreateRequest)
    requires Truthy(b.imageUrl) && Truthy(b.prompt)
    ensures q.prompt == b.prompt.value && q.imageUrl == b.imageUrl.value
    ensures q.model == Model && q.resolution == Resolution
    ensures 1 <= q.duration <= 15
    ensures b.duration.None? ==> q.duration == DefaultDuration
    ensures b.duration.Some? ==> q.duration == ClampDuration(b.duration.value)
    ensures b.aspectRatio.None? ==> q.aspectRatio == DefaultAspectRatio
    ensures b.aspectRatio.Some? ==> q.aspectRatio == b.aspectRatio.value
  {
    CreateRequest(b.prompt.value, Model, b.imageUrl.value, ClampDuration(b.duration.GetOr(DefaultDuration)),
                  b.aspectRatio.GetOr(DefaultAspectRatio), Resolution)
  }

  /** One poll: the fetch (or its `json()`) threw, the status was not OK, or the parsed body with
      `url`, `video_url`, `video.url`, `status` and `state`. */
  datatype PollReply =
    | PollThrew(message: string)
    | PollNotOk
    | PollData(url: Option<string>, videoUrl: Option<string>, nestedUrl: Option<string>,
               status: Option<string>, state: Option<string>)

  /** `pollData.url || pollData.video_url || pollData.video?.url || ''` */
  function VideoUrlOf(d: PollReply): (u: string)
    requires d.PollData?
    ensures u == "" <==> !Truthy(d.url) && !Truthy(d.videoUrl) && !Truthy(d.nestedUrl)
    ensures Truthy(d.url) ==> u == d.url.value
  {
    OrElse(d.url, OrElse(d.videoUrl, OrElse(d.nestedUrl, "")))
  }

  /** `pollData.status || pollData.state` is `failed` or `error`. */
  predicate ReportsFailure(d: PollReply)
    requires d.PollData?
  {
    var s := if Truthy(d.status) then d.status else d.state;
    s == Some("failed") || s == Some("error")
  }

  datatype PollOutcome = Got(url: string) | TimedOut | GenerationFailed | PollError(message: string) | Unfinished

  /** How the loop ended and how many polls it made. */
  datatype PollRun = PollRun(outcome: PollOutcome, polls: nat)

  /** The polling loop from its `k`-th turn: `elapsed[k]` is `Date.now() - startTime` at the turn's
      check and `polls[k]` the answer to the turn's poll. `Unfinished` only when the script runs out. */
  function Poll(polls: seq<PollReply>, elapsed: seq<int>, k: nat): (r: PollRun)
    requires |polls| == |elapsed| && k <= |polls|
    ensures k <= r.polls <= |polls|
    ensures forall j :: k <= j < r.polls ==> elapsed[j] <= TimeoutLimit
    ensures r.outcome.Unfinished? <==> r.polls == |polls| && !(r.polls > k && PollEnds(polls[r.polls - 1]))
    ensures r.outcome.TimedOut? ==> r.polls < |polls| && elapsed[r.polls] > TimeoutLimit
    ensures r.outcome.Got? || r.outcome.GenerationFailed? || r.outcome.PollError? ==>
      r.polls > k && PollEnds(polls[r.polls - 1])
    ensures r.outcome.Got? ==> (polls[r.polls - 1].PollData? && !ReportsFailure(polls[r.polls - 1])
      && r.outcome.url == VideoUrlOf(polls[r.polls - 1]) != "")
    ensures r.outcome.GenerationFailed? ==> polls[r.polls - 1].PollData? && ReportsFailure(polls[r.polls - 1])
    ensures forall j :: k <= j < r.polls - 1 ==> !PollEnds(polls[j])
    decreases |polls| - k
  {
    if k == |polls| then PollRun(Unfinished, k)
    else if elapsed[k] > TimeoutLimit then PollRun(TimedOut, k)
    else
      match polls[k]
      case PollThrew(m) => PollRun(PollError(m), k + 1)
      case PollNotOk => Poll(polls, elapsed, k + 1)
      case PollData(_, _, _, _, _) =>
        if ReportsFailure(polls[k]) then PollRun(GenerationFailed, k + 1)
        else if VideoUrlOf(polls[k]) != "" then PollRun(Got(VideoUrlOf(polls[k])), k + 1)
        else Poll(polls, elapsed, k + 1)
  }

  /** A poll that leaves the loop: it threw, reported failure, or carried a URL. */
  predicate PollEnds(p: PollReply) {
    p.PollThrew? || (p.PollData? && (ReportsFailure(p) || VideoUrlOf(p) != ""))
  }

  /** What the real clock guarantees: readings start at zero or later and every turn waits five
      seconds before its poll, so consecutive checks are at least `PollDelay` apart. */
  predicate Spaced(elapsed: seq<int>) {
    |elapsed| > 0 && elapsed[0] >= 0
    && forall j :: 0 <= j < |elapsed| - 1 ==> elapsed[j + 1] >= elapsed[j] + PollDelay
  }

  lemma {:induction false} SpacedReadings(elapsed: seq<int>, k: nat)
    requires Spaced(elapsed) && k < |elapsed|
    ensures elapsed[k] >= PollDelay * k
  {
    if k > 0 {
      SpacedReadings(elapsed, k - 1);
    }
  }

  /** With the clock spaced by the five-second wait and a script of thirteen turns, the loop always
      ends on its own: it makes at most twelve polls and never runs out of script. */
  lemma {:induction false} PollStopsWithinTwelve(polls: seq<PollReply>, elapsed: seq<int>)
    requires |polls| == |elapsed| >= 13 && Spaced(elapsed)
    ensures !Poll(polls, elapsed, 0).outcome.Unfinished?
    ensures Poll(polls, elapsed, 0).polls <= 12
  {
    PollStopsFrom(polls, elapsed, 0);
  }

  lemma {:induction false} PollStopsFrom(polls: seq<PollReply>, elapsed: seq<int>, k: nat)
    requires |polls| == |elapsed| >= 13 && Spaced(elapsed) && k <= 12
    ensures !Poll(polls, elapsed, k).outcome.Unfinished?
    ensures Poll(polls, elapsed, k).polls <= 12
    decreases 12 - k
  {
    SpacedReadings(elapsed, k);
    if elapsed[k] <= TimeoutLimit {
      assert k < 12;
      if !PollEnds(polls[k]) {
        PollStopsFrom(polls, elapsed, k + 1);
      }
    }
  }

  /** A failure status ends the job even when the same answer carries a video URL. */
  lemma FailureStatusBeatsUrl(url: string, elapsed: seq<int>)
    requires url != "" && |elapsed| == 1 && elapsed[0] <= TimeoutLimit
    ensures Poll([PollData(Some(url), None, None, Some("failed"), None)], elapsed, 0).outcome == GenerationFailed
    ensures Poll([PollData(Some(url), None, None, Some("done"), Some("error"))], elapsed, 0).outcome == Got(url)
  {
  }

  datatype GrokResponse =
    | Video(videoUrl: string, savedPath: Option<seq<string>>)
    | StillRunning(error: string, requestId: Option<string>)
    | VideoFailed(status: nat, error: string)

  /** Where the video is kept: `<base>/VIDEO/video_<ms>.mp4`, when the base is given and the download
      and write went through at clock `saved` (milliseconds since the epoch); otherwise `''`. */
  function SavedVideoPath(base: Option<string>, saved: Option<nat>): (p: Option<seq<string>>)
    ensures p.Some? <==> Truthy(base) && saved.Some?
    ensures p.Some? ==> (|p.value| == 3 && p.value[0] == base.value && p.value[1] == "VIDEO"
      && StartsWith(p.value[2], "video_") && EndsWith(p.value[2], ".mp4"))
  {
    if Truthy(base) && saved.Some? then
      var name := "video_" + NatToString(saved.value) + ".mp4";
      assert name[..6] == "video_";
      assert name[|name| - 4..] == ".mp4";
      Some([base.value, "VIDEO", name])
    else None
  }

  /** Two saves at different milliseconds write different files. */
  lemma SavedVideoPathsDiffer(base: string, a: nat, b: nat)
    requires base != "" && a != b
    ensures SavedVideoPath(Some(base), Some(a)) != SavedVideoPath(Some(base), Some(b))
  {
    var x, y := NatToString(a), NatToString(b);
    var p, q := "video_" + x + ".mp4", "video_" + y + ".mp4";
    if p == q {
      assert p[6..|p| - 4] == x;
      assert q[6..|q| - 4] == y;
      NatToStringInjective(a, b);
    }
  }

  /** `POST /api/grok-video`. `body` is `None` for JSON `null`: `.catch(() => ({}))` only covers a body
      that is not JSON, so destructuring `null` throws a `TypeError` whose engine-given message is
      `nullError`, answered with 500. `apiKey` is what `GrokApiKey` found; `created` is the submission
      and the `request_id` it returned; `polls`/`elapsed` script the loop; `saved` the download-and-write. */
  function GrokVideo(body: Option<VideoBody>, nullError: string, apiKey: string, created: Upstream<Option<string>>,
                     polls: seq<PollReply>, elapsed: seq<int>, saved: Option<nat>): (r: GrokResponse)
    requires |polls| == |elapsed|
    ensures body.None? ==> r == VideoFailed(500, nullError)
    ensures body.Some? && !(Truthy(body.value.imageUrl) && Truthy(body.value.prompt)) ==> r == VideoFailed(400, MissingInput)
    ensures body.Some? && Truthy(body.value.imageUrl) && Truthy(body.value.prompt) && apiKey == "" ==>
      r == VideoFailed(400, MissingKey)
    ensures r.Video? <==> (body.Some? && Truthy(body.value.imageUrl) && Truthy(body.value.prompt) && apiKey != ""
      && created.Ok? && Poll(polls, elapsed, 0).outcome.Got?)
    ensures r.Video? ==> (r.videoUrl == Poll(polls, elapsed, 0).outcome.url != ""
      && r.savedPath == SavedVideoPath(body.value.step3OutputBaseDir, saved))
    ensures body.Some? && Truthy(body.value.imageUrl) && Truthy(body.value.prompt) && apiKey != "" ==> match created
      case Threw(m) => r == VideoFailed(500, m)
      case NotOk(s, t) => r == VideoFailed(s, SubmitPrefix + t)
      case Ok(id) => (r.StillRunning? <==> (Poll(polls, elapsed, 0).outcome.TimedOut?
                                           || Poll(polls, elapsed, 0).outcome.Unfinished?))
                     && (r.StillRunning? ==> r == StillRunning(TooLong, id))
                     && (r == VideoFailed(502, GenerationFailure) <==> Poll(polls, elapsed, 0).outcome.GenerationFailed?)
  {
    if body.None? then VideoFailed(500, nullError)
    else
      var b := body.value;
      if !(Truthy(b.imageUrl) && Truthy(b.prompt)) then VideoFailed(400, MissingInput)
      else if apiKey == "" then VideoFailed(400, MissingKey)
      else match created
        case Threw(m) => VideoFailed(500, m)
        case NotOk(s, t) => VideoFailed(s, SubmitPrefix + t)
        case Ok(requestId) =>
          match Poll(polls, elapsed, 0).outcome
          case Got(url) => Video(url, SavedVideoPath(b.step3OutputBaseDir, saved))
          case GenerationFailed => VideoFailed(502, GenerationFailure)
          case PollError(m) => VideoFailed(500, m)
          case _ => StillRunning(TooLong, requestId)
  }

  /** Under the real clock the 202 answer means the 55-second guard fired: some check saw more than
      `TimeoutLimit` milliseconds, after at most twelve polls all made in time. */
  lemma StillRunningMeansTimeout(body: Option<VideoBody>, nullError: string, apiKey: string, created: Upstream<Option<string>>,
                                 polls: seq<PollReply>, elapsed: seq<int>, saved: Option<nat>)
    requires |polls| == |elapsed| >= 13 && Spaced(elapsed)
    requires GrokVideo(body, nullError, apiKey, created, polls, elapsed, saved).StillRunning?
    ensures var n := Poll(polls, elapsed, 0).polls;
      n <= 12 && elapsed[n] > TimeoutLimit && forall j :: 0 <= j < n ==> elapsed[j] <= TimeoutLimit
  {
    PollStopsWithinTwelve(polls, elapsed);
  }
}

=== FILE: image_ladder.dfy ===
/**
 * The attempt ladder shared by the image generators: a fixed schedule of
 * provider calls, each answered by a scripted reply, run until the first
 * reply that carries an image. Along the way a last-error slot is updated
 * according to the rule of each attempt.
 */
module ImageLadder {
  import opened Wrappers

  const FlashModel: string := "gemini-2.5-flash-image"
  const ProModel: string := "gemini-3-pro-image-preview"

  /** A thrown JavaScript value: an `Error` with its message, or any other value with
      its `String(...)` rendering and its truthiness. */
  datatype JsValue = ErrorObject(message: string) | OtherValue(text: string, truthy: bool)

  /** One part of a provider response: text, or inline data (an empty field stands for a missing one). */
  datatype Part = TextPart(text: string) | InlineData(mimeType: string, data: string)

  /** What the provider did with one call: threw, or answered with an optional part list
      (`candidates[0].content.parts`) and an optional block reason (empty when absent). */
  datatype Reply = Threw(error: JsValue) | Responded(parts: Option<seq<Part>>, blockReason: string)

  /** Which image part wins when a response holds several. */
  datatype Pick = LastImage | FirstImage

  /** How one attempt updates the last-error slot when it yields no image:
      record a block reason, set a generic error if none is set yet, record a thrown value. */
  datatype Rule = Rule(recordBlock: bool, genericError: Option<string>, recordThrow: bool)

  /** One scheduled provider call: the model, the wait before it (milliseconds) and its rule. */
  datatype Attempt = Attempt(model: string, waitMs: nat, rule: Rule)

  /** The ladder's result: the image data URL if any, how many calls were made, and the slot. */
  datatype Outcome = Outcome(image: Option<string>, attempts: nat, lastError: Option<JsValue>)

  /** An inline part carries an image when its data is non-empty. */
  predicate HasImage(p: Part) { p.InlineData? && p.data != "" }

  /** `data:${mimeType || 'image/png'};base64,${data}` */
  function ImageUrl(p: Part): string
    requires p.InlineData?
  {
    "data:" + (if p.mimeType == "" then "image/png" else p.mimeType) + ";base64," + p.data
  }

  /** Position of the last part carrying an image. */
  function LastImageIndex(parts: seq<Part>): (r: Option<nat>)
    ensures r.Some? ==> r.value < |parts| && HasImage(parts[r.value])
    ensures r.Some? ==> forall k :: r.value < k < |parts| ==> !HasImage(parts[k])
    ensures r.None? ==> forall k :: 0 <= k < |parts| ==> !HasImage(parts[k])
  {
    if |parts| == 0 then None
    else if HasImage(parts[|parts| - 1]) then Some(|parts| - 1)
    else LastImageIndex(parts[..|parts| - 1])
  }

  /** Position of the first part carrying an image. */
  function FirstImageIndex(parts: seq<Part>): (r: Option<nat>)
    ensures r.Some? ==> r.value < |parts| && HasImage(parts[r.value])
    ensures r.Some? ==> forall k :: 0 <= k < r.value ==> !HasImage(parts[k])
    ensures r.None? ==> forall k :: 0 <= k < |parts| ==> !HasImage(parts[k])
  {
    if |parts| == 0 then None
    else if HasImage(parts[0]) then Some(0)
    else
      match FirstImageIndex(parts[1..])
      case Some(k) => Some(k + 1)
      case None => None
  }

  /** The image a reply yields under the given pick rule, as a data URL. */
  function ReplyImage(reply: Reply, pick: Pick): Option<string> {
    match reply
    case Threw(_) => None
    case Responded(None, _) => None
    case Responded(Some(parts), _) =>
      var idx := if pick == LastImage then LastImageIndex(parts) else FirstImageIndex(parts);
      match idx
      case Some(k) => Some(ImageUrl(parts[k]))
      case None => None
  }

  /** A reply yields an image iff it is a response whose part list has a part with data. */
  lemma ReplyImageIffSomePart(reply: Reply, pick: Pick)
    ensures ReplyImage(reply, pick).Some? <==>
      reply.Responded? && reply.parts.Some? && exists k :: 0 <= k < |reply.parts.value| && HasImage(reply.parts.value[k])
  {
    if reply.Responded? && reply.parts.Some? {
      var parts := reply.parts.value;
      if exists k :: 0 <= k < |parts| && HasImage(parts[k]) {
        var k :| 0 <= k < |parts| && HasImage(parts[k]);
        if pick == LastImage {
          assert LastImageIndex(parts).Some?;
        } else {
          assert FirstImageIndex(parts).Some?;
        }
      }
    }
  }

  /** With a single image part, first and last pick agree. */
  lemma PicksAgreeOnSingleImage(parts: seq<Part>, k: nat)
    requires k < |parts| && HasImage(parts[k])
    requires forall j :: 0 <= j < |parts| && j != k ==> !HasImage(parts[j])
    ensures ReplyImage(Responded(Some(parts), ""), LastImage) == ReplyImage(Responded(Some(parts), ""), FirstImage)
      == Some(ImageUrl(parts[k]))
  {
  }

  /** `!lastError` is false: the slot holds a truthy value. */
  predicate IsSet(err: Option<JsValue>) {
    err.Some? && (err.value.ErrorObject? || err.value.truthy)
  }

  function BlockedError(reason: string): JsValue {
    ErrorObject("内容被过滤: " + reason)
  }

  /** The slot after one attempt that yielded no image. */
  function Step(rule: Rule, reply: Reply, err: Option<JsValue>): (r: Option<JsValue>)
    ensures reply.Threw? ==> r == if rule.recordThrow then Some(reply.error) else err
    ensures reply.Responded? && rule.recordBlock && reply.blockReason != "" ==> r == Some(BlockedError(reply.blockReason))
    ensures reply.Responded? && IsSet(err) && (!rule.recordBlock || reply.blockReason == "") ==> r == err
    ensures reply.Responded? && !IsSet(err) && (!rule.recordBlock || reply.blockReason == "") ==>
      r == if rule.genericError.Some? then Some(ErrorObject(rule.genericError.value)) else err
  {
    match reply
    case Threw(e) => if rule.recordThrow then Some(e) else err
    case Responded(_, reason) =>
      if rule.recordBlock && reason != "" then Some(BlockedError(reason))
      else if rule.genericError.Some? && !IsSet(err) then Some(ErrorObject(rule.genericError.value))
      else err
  }

  /** Index of the first reply that yields an image. */
  function FirstSuccess(replies: seq<Reply>, pick: Pick): (r: Option<nat>)
    ensures r.Some? ==> r.value < |replies| && ReplyImage(replies[r.value], pick).Some?
    ensures r.Some? ==> forall k :: 0 <= k < r.value ==> ReplyImage(replies[k], pick).None?
    ensures r.None? ==> forall k :: 0 <= k < |replies| ==> ReplyImage(replies[k], pick).None?
  {
    if |replies| == 0 then None
    else if ReplyImage(replies[0], pick).Some? then Some(0)
    else
      match FirstSuccess(replies[1..], pick)
      case Some(k) => Some(k + 1)
      case None => None
  }

  /** The slot after the first `n` attempts, none of which yielded an image. */
  function SlotAfter(schedule: seq<Attempt>, replies: seq<Reply>, n: nat, err: Option<JsValue>): Option<JsValue>
    requires |replies| == |schedule| && n <= |schedule|
  {
    if n == 0 then err
    else Step(schedule[n - 1].rule, replies[n - 1], SlotAfter(schedule, replies, n - 1, err))
  }

  /** Runs the schedule: attempt `k` is answered by `replies[k]`; stop at the first image. */
  function Run(schedule: seq<Attempt>, replies: seq<Reply>, pick: Pick, err: Option<JsValue>): (o: Outcome)
    requires |replies| == |schedule|
    ensures o.attempts <= |schedule|
    ensures o.image.Some? <==> FirstSuccess(replies, pick).Some?
    ensures o.image.Some? ==>
      o.attempts == FirstSuccess(replies, pick).value + 1 && o.image == ReplyImage(replies[o.attempts - 1], pick)
    ensures o.image.None? ==> o.attempts == |schedule|
    decreases |schedule|
  {
    if |schedule| == 0 then Outcome(None, 0, err)
    else
      match ReplyImage(replies[0], pick)
      case Some(url) => Outcome(Some(url), 1, err)
      case None =>
        var o := Run(schedule[1..], replies[1..], pick, Step(schedule[0].rule, replies[0], err));
        Outcome(o.image, o.attempts + 1, o.lastError)
  }

  /** On failure the slot is the fold of `Step` over every attempt, in schedule order. */
  lemma {:induction false} RunFailureSlot(schedule: seq<Attempt>, replies: seq<Reply>, pick: Pick, err: Option<JsValue>)
    requires |replies| == |schedule|
    requires FirstSuccess(replies, pick).None?
    ensures Run(schedule, replies, pick, err).lastError == SlotAfter(schedule, replies, |schedule|, err)
    decreases |schedule|
  {
    if |schedule| > 0 {
      var e1 := Step(schedule[0].rule, replies[0], err);
      assert FirstSuccess(replies[1..], pick).None? by {
        forall k | 0 <= k < |replies[1..]| ensures ReplyImage(replies[1..][k], pick).None? {
          assert replies[1..][k] == replies[k + 1];
        }
      }
      RunFailureSlot(schedule[1..], replies[1..], pick, e1);
      SlotAfterShift(schedule, replies, |schedule|, err);
    }
  }

  /** Folding from the first attempt equals stepping once and folding the rest. */
  lemma {:induction false} SlotAfterShift(schedule: seq<Attempt>, replies: seq<Reply>, n: nat, err: Option<JsValue>)
    requires |replies| == |schedule| && 1 <= n <= |schedule|
    ensures SlotAfter(schedule, replies, n, err)
      == SlotAfter(schedule[1..], replies[1..], n - 1, Step(schedule[0].rule, replies[0], err))
  {
    if n > 1 {
      SlotAfterShift(schedule, replies, n - 1, err);
    }
  }

  /** An attempt whose rule records neither block reasons, generic errors nor throws leaves the slot alone. */
  lemma SilentAttemptKeepsSlot(reply: Reply, err: Option<JsValue>)
    ensures Step(Rule(false, None, false), reply, err) == err
  {
  }

  /** An attempt with a generic error always leaves a truthy value in the slot, unless it records a falsy thrown value. */
  lemma GenericRuleSetsSlot(rule: Rule, reply: Reply, err: Option<JsValue>)
    requires rule.genericError.Some? && rule.recordThrow
    requires reply.Threw? ==> reply.error.ErrorObject? || reply.error.truthy
    ensures IsSet(Step(rule, reply, err))
  {
  }

  /** The message the generators store: an `Error`'s message, else `String(value)`. */
  function SlotText(err: Option<JsValue>): string {
    match err
    case Some(ErrorObject(m)) => m
    case Some(OtherValue(t, _)) => t
    case None => "undefined"
  }

  // ---------------------------------------------------------------- the generators' ladder

  const NoImageError: string := "API 未返回图片，可能被限流或内容策略拦截"

  const PrimaryRule: Rule := Rule(true, Some(NoImageError), true)
  const ShortRetryRule: Rule := Rule(true, None, false)
  const LongRetryRule: Rule := Rule(false, None, false)

  /** flash, pro, flash after 3 s, flash after 30 s. */
  const GeneratorSchedule: seq<Attempt> := [
    Attempt(FlashModel, 0, PrimaryRule),
    Attempt(ProModel, 0, PrimaryRule),
    Attempt(FlashModel, 3000, ShortRetryRule),
    Attempt(FlashModel, 30000, LongRetryRule)
  ]

  /** The error slot after the two primary calls, stated per reply. */
  function PrimarySlot(first: Reply, second: Reply): Option<JsValue> {
    var afterFirst :=
      match first
      case Threw(e) => Some(e)
      case Responded(_, b) => if b != "" then Some(BlockedError(b)) else Some(ErrorObject(NoImageError));
    match second
    case Threw(e) => Some(e)
    case Responded(_, b) =>
      if b != "" then Some(BlockedError(b))
      else if IsSet(afterFirst) then afterFirst
      else Some(ErrorObject(NoImageError))
  }

  /** The generators' slot on failure: the 3 s retry's block reason if it had one; otherwise what
      the primary calls left, which exceptions in the retries and anything in the 30 s retry never change. */
  lemma GeneratorFailureSlot(replies: seq<Reply>)
    requires |replies| == |GeneratorSchedule|
    requires FirstSuccess(replies, LastImage).None?
    ensures replies[2].Responded? && replies[2].blockReason != "" ==>
      Run(GeneratorSchedule, replies, LastImage, None).lastError == Some(BlockedError(replies[2].blockReason))
    ensures !(replies[2].Responded? && replies[2].blockReason != "") ==>
      Run(GeneratorSchedule, replies, LastImage, None).lastError == PrimarySlot(replies[0], replies[1])
  {
    RunFailureSlot(GeneratorSchedule, replies, LastImage, None);
    var s := GeneratorSchedule;
    assert SlotAfter(s, replies, 4, None) == Step(LongRetryRule, replies[3], SlotAfter(s, replies, 3, None));
    assert SlotAfter(s, replies, 3, None) == Step(ShortRetryRule, replies[2], SlotAfter(s, replies, 2, None));
    assert SlotAfter(s, replies, 2, None) == Step(PrimaryRule, replies[1], SlotAfter(s, replies, 1, None));
    assert SlotAfter(s, replies, 1, None) == Step(PrimaryRule, replies[0], None);
  }

  /** After the primary calls the slot always holds a value, so the stored message is never `String(undefined)`. */
  lemma PrimarySlotAlwaysSet(first: Reply, second: Reply)
    ensures PrimarySlot(first, second).Some?
    ensures (second.Responded? && second.blockReason == "" && first.Responded? && first.blockReason == "") ==>
      PrimarySlot(first, second) == Some(ErrorObject(NoImageError))
    ensures second.Threw? ==> PrimarySlot(first, second) == Some(second.error)
  {
  }
}

=== FILE: js_text.dfy ===
/**
 * The JavaScript string operations the application relies on, stated over
 * `string`: `trim`, `slice`, `padStart`, `indexOf`, `startsWith`, decimal
 * formatting of numbers and `parseInt` of a digit run. A Dafny `char` is a
 * Unicode scalar value, so lengths and cut points count code points where
 * JavaScript counts UTF-16 code units; the two agree on text inside the Basic
 * Multilingual Plane, which covers the Latin, CJK and kana text the
 * application handles.
 */
module JsText {
  import opened Wrappers

  /** JavaScript truthiness of an optional string: present and non-empty. */
  predicate Truthy(o: Option<string>) { o.Some? && o.value != "" }

  /** `a || b` on optional strings. */
  function OrElse(a: Option<string>, b: string): (r: string)
    ensures Truthy(a) ==> r == a.value
    ensures !Truthy(a) ==> r == b
  {
    if Truthy(a) then a.value else b
  }

  /** The code points `String.prototype.trim` removes: ECMAScript WhiteSpace
      (tab, VT, FF, space, NBSP, BOM and the Zs category) and LineTerminator. */
  predicate IsJsSpace(c: char) {
    || c == '\t' || c == '\n' || c == '\U{000B}' || c == '\U{000C}' || c == '\r'
    || c == ' ' || c == '\U{00A0}' || c == '\U{1680}'
    || ('\U{2000}' <= c <= '\U{200A}')
    || c == '\U{2028}' || c == '\U{2029}' || c == '\U{202F}' || c == '\U{205F}'
    || c == '\U{3000}' || c == '\U{FEFF}'
  }

  /** The characters a regular-expression `.` does not match. */
  predicate IsLineTerminator(c: char) {
    c == '\n' || c == '\r' || c == '\U{2028}' || c == '\U{2029}'
  }

  /** A text a regular-expression `.*` can match in full. */
  predicate NoLineTerminator(s: string) { forall i :: 0 <= i < |s| ==> !IsLineTerminator(s[i]) }

  predicate IsDigit(c: char) { '0' <= c <= '9' }

  predicate IsAsciiLetter(c: char) { ('A' <= c <= 'Z') || ('a' <= c <= 'z') }

  /** The regular-expression class `\w`. */
  predicate IsWordChar(c: char) { IsAsciiLetter(c) || IsDigit(c) || c == '_' }

  predicate AllDigits(s: string) { forall i :: 0 <= i < |s| ==> IsDigit(s[i]) }

  predicate AllSpace(s: string) { forall i :: 0 <= i < |s| ==> IsJsSpace(s[i]) }

  /** The first position at or after `i` that is not white space (`|s|` when there is none). */
  function SpaceRunEnd(s: string, i: nat): (r: nat)
    requires i <= |s|
    ensures i <= r <= |s|
    ensures r < |s| ==> !IsJsSpace(s[r])
    decreases |s| - i
  {
    if i < |s| && IsJsSpace(s[i]) then SpaceRunEnd(s, i + 1) else i
  }

  /** Everything before `SpaceRunEnd(s, i)` from `i` on is white space. */
  lemma {:induction false} SpaceRunEndSkipsSpace(s: string, i: nat, k: nat)
    requires i <= |s| && i <= k < SpaceRunEnd(s, i)
    ensures IsJsSpace(s[k])
    decreases |s| - i
  {
    if k > i {
      SpaceRunEndSkipsSpace(s, i + 1, k);
    }
  }

  /** The white space run from `i` ends at `r`. */
  lemma {:induction false} SpaceRunEndIs(s: string, i: nat, r: nat)
    requires i <= r <= |s|
    requires forall k :: i <= k < r ==> IsJsSpace(s[k])
    requires r < |s| ==> !IsJsSpace(s[r])
    ensures SpaceRunEnd(s, i) == r
    decreases r - i
  {
    if i < r {
      SpaceRunEndIs(s, i + 1, r);
    }
  }

  /** The last position at or before `j` preceded by a character that is not white space (`0`
      when there is none). */
  function SpaceRunStart(s: string, j: nat): (r: nat)
    requires j <= |s|
    ensures r <= j
    ensures r > 0 ==> !IsJsSpace(s[r - 1])
  {
    if j > 0 && IsJsSpace(s[j - 1]) then SpaceRunStart(s, j - 1) else j
  }

  /** Everything from `SpaceRunStart(s, j)` up to `j` is white space. */
  lemma {:induction false} SpaceRunStartSkipsSpace(s: string, j: nat, k: nat)
    requires j <= |s| && SpaceRunStart(s, j) <= k < j
    ensures IsJsSpace(s[k])
  {
    if k < j - 1 {
      SpaceRunStartSkipsSpace(s, j - 1, k);
    }
  }

  /** A non-white-space character before `j` keeps `SpaceRunStart(s, j)` above it. */
  lemma {:induction false} SpaceRunStartAbove(s: string, j: nat, k: nat)
    requires j <= |s| && k < j && !IsJsSpace(s[k])
    ensures k < SpaceRunStart(s, j)
    decreases j
  {
    if j - 1 > k && IsJsSpace(s[j - 1]) {
      SpaceRunStartAbove(s, j - 1, k);
    }
  }

  /** `s.trim()`: the text between the leading and the trailing white space. */
  function Trim(s: string): (r: string)
    ensures |r| <= |s|
    ensures |r| > 0 ==> !IsJsSpace(r[0]) && !IsJsSpace(r[|r| - 1])
  {
    var a := SpaceRunEnd(s, 0);
    var b := SpaceRunStart(s, |s|);
    if a < b then s[a..b] else ""
  }

  /** What `trim` removes is white space: everything before the leading run ends, and everything
      after the trailing run starts. */
  lemma {:induction false} TrimRemovesSpace(s: string, k: nat)
    requires k < |s|
    requires k < SpaceRunEnd(s, 0) || SpaceRunStart(s, |s|) <= k
    ensures IsJsSpace(s[k])
  {
    if k < SpaceRunEnd(s, 0) {
      SpaceRunEndSkipsSpace(s, 0, k);
    } else {
      SpaceRunStartSkipsSpace(s, |s|, k);
    }
  }

  /** `s.trim()` is empty exactly when every character of `s` is white space. */
  lemma {:induction false} TrimEmptyIffAllSpace(s: string)
    ensures Trim(s) == "" <==> AllSpace(s)
  {
    var a := SpaceRunEnd(s, 0);
    if Trim(s) == "" {
      forall k | 0 <= k < |s|
        ensures IsJsSpace(s[k])
      {
        if k >= a {
          if !IsJsSpace(s[a]) {
            SpaceRunStartAbove(s, |s|, a);
          }
        }
        TrimRemovesSpace(s, k);
      }
    }
  }

  /** A text with no white space at either end is its own trim. */
  lemma {:induction false} TrimOfUnpadded(s: string)
    requires |s| > 0 && !IsJsSpace(s[0]) && !IsJsSpace(s[|s| - 1])
    ensures Trim(s) == s
  {
    assert SpaceRunEnd(s, 0) == 0;
    assert SpaceRunStart(s, |s|) == |s|;
  }

  /** White space before an unpadded text is all that trimming removes. */
  lemma {:induction false} TrimOfSpaced(ws: string, core: string)
    requires AllSpace(ws) && |core| > 0 && !IsJsSpace(core[0]) && !IsJsSpace(core[|core| - 1])
    ensures Trim(ws + core) == core
  {
    var s := ws + core;
    assert s[|ws|] == core[0] && s[|s| - 1] == core[|core| - 1];
    SpaceRunEndIs(s, 0, |ws|);
    assert SpaceRunStart(s, |s|) == |s|;
    assert s[|ws|..|s|] == core;
  }

  /** The trim is a slice of the text: it starts where the leading white space ends. */
  lemma {:induction false} TrimIsSlice(s: string)
    ensures var a := SpaceRunEnd(s, 0);
      a + |Trim(s)| <= |s| && Trim(s) == s[a..a + |Trim(s)|]
  {
  }

  /** `s.slice(0, n)` for a non-negative `n`. */
  function Take(s: string, n: nat): (r: string)
    ensures |r| == if n < |s| then n else |s|
    ensures r == s[..|r|]
  {
    if n < |s| then s[..n] else s
  }

  /** `s.slice(-n)` for a positive `n`: the last `n` characters (all of `s` when shorter). */
  function TakeLast(s: string, n: nat): (r: string)
    ensures |r| == if n < |s| then n else |s|
    ensures r == s[|s| - |r|..]
  {
    if n < |s| then s[|s| - n..] else s
  }

  predicate StartsWith(s: string, p: string) { |p| <= |s| && s[..|p|] == p }

  predicate EndsWith(s: string, p: string) { |p| <= |s| && s[|s| - |p|..] == p }

  predicate OccursAt(s: string, p: string, i: nat) { i + |p| <= |s| && s[i..i + |p|] == p }

  /** `s.indexOf(p, from)`: the first position at or after `from` where `p` occurs, or -1. */
  function IndexOfFrom(s: string, p: string, from: nat): (r: int)
    requires from <= |s|
    decreases |s| - from
    ensures r == -1 || (from <= r <= |s| && OccursAt(s, p, r))
    ensures r == -1 ==> forall i :: from <= i <= |s| ==> !OccursAt(s, p, i)
    ensures r >= 0 ==> forall i :: from <= i < r ==> !OccursAt(s, p, i)
  {
    if OccursAt(s, p, from) then from
    else if from == |s| then -1
    else IndexOfFrom(s, p, from + 1)
  }

  /** `s.indexOf(p)` */
  function IndexOf(s: string, p: string): int {
    IndexOfFrom(s, p, 0)
  }

  /** `s.includes(p)` */
  predicate Contains(s: string, p: string) {
    IndexOf(s, p) >= 0
  }

  /** A one-character pattern occurs exactly where that character is. */
  lemma OccursAtChar(s: string, c: char, i: nat)
    ensures OccursAt(s, [c], i) <==> i < |s| && s[i] == c
  {
    if i < |s| && s[i] == c {
      assert s[i..i + 1] == [c];
    }
  }

  /** A string none of whose characters is `c` does not contain `[c]`. */
  lemma NotContainsChar(s: string, c: char)
    requires forall i :: 0 <= i < |s| ==> s[i] != c
    ensures !Contains(s, [c])
  {
    if Contains(s, [c]) {
      OccursAtChar(s, c, IndexOf(s, [c]));
    }
  }

  lemma ContainsAt(s: string, p: string, i: nat)
    requires OccursAt(s, p, i)
    ensures Contains(s, p)
  {
  }

  lemma NotContainsAt(s: string, p: string, i: nat)
    requires !Contains(s, p)
    ensures !OccursAt(s, p, i)
  {
    if i <= |s| {
    }
  }

  /** A pattern longer than the text never occurs in it. */
  lemma LongerNeverOccurs(s: string, p: string)
    requires |p| > |s|
    ensures !Contains(s, p)
  {
  }

  /** `s.padStart(n, c)` with a one-character pad. */
  function PadStart(s: string, n: nat, c: char): (r: string)
    ensures |r| == if |s| < n then n else |s|
    ensures EndsWith(r, s)
    ensures forall i :: 0 <= i < |r| - |s| ==> r[i] == c
  {
    if |s| < n then seq(n - |s|, _ => c) + s else s
  }

  function DigitChar(d: nat): (c: char)
    requires d < 10
    ensures IsDigit(c)
  {
    ['0', '1', '2', '3', '4', '5', '6', '7', '8', '9'][d]
  }

  function DigitValue(c: char): (d: nat)
    requires IsDigit(c)
    ensures d < 10 && DigitChar(d) == c
  {
    (c as int - '0' as int) as nat
  }

  /** `String(n)` for a non-negative integer: its decimal digits, without leading zeros. */
  function NatToString(n: nat): (r: string)
    ensures |r| >= 1 && AllDigits(r)
    ensures r[0] == '0' ==> n == 0
  {
    if n < 10 then [DigitChar(n)] else NatToString(n / 10) + [DigitChar(n % 10)]
  }

  /** `parseInt` of a decimal digit run. */
  function DigitsValue(s: string): nat
    requires AllDigits(s)
  {
    if |s| == 0 then 0 else DigitsValue(s[..|s| - 1]) * 10 + DigitValue(s[|s| - 1])
  }

  /** Decimal formatting and parsing are inverse. */
  lemma {:induction false} DigitsValueOfNatToString(n: nat)
    ensures DigitsValue(NatToString(n)) == n
  {
    var r := NatToString(n);
    if n >= 10 {
      DigitsValueOfNatToString(n / 10);
      assert r[..|r| - 1] == NatToString(n / 10);
    }
  }

  /** Formatting is injective, as a consequence of the round trip. */
  lemma NatToStringInjective(a: nat, b: nat)
    requires NatToString(a) == NatToString(b)
    ensures a == b
  {
    DigitsValueOfNatToString(a);
    DigitsValueOfNatToString(b);
  }

  /** Padding a digit run with zeros leaves a digit run. */
  lemma ZeroPaddedDigits(s: string, w: nat)
    requires AllDigits(s)
    ensures AllDigits(PadStart(s, w, '0'))
  {
    var r := PadStart(s, w, '0');
    assert forall c :: |r| - |s| <= c < |r| ==> r[c] == s[c - (|r| - |s|)];
  }

  /** `String(n).padStart(w, '0')` */
  function PaddedNat(n: nat, w: nat): (r: string)
    ensures |r| >= 1 && |r| >= w && AllDigits(r)
  {
    ZeroPaddedDigits(NatToString(n), w);
    PadStart(NatToString(n), w, '0')
  }

  /** `String(n).padStart(w, '0')` tells positive numbers apart. */
  lemma PaddedNatInjective(a: nat, b: nat, w: nat)
    requires 1 <= a && 1 <= b && a != b
    ensures PaddedNat(a, w) != PaddedNat(b, w)
  {
    var sa, sb := NatToString(a), NatToString(b);
    var pa, pb := PadStart(sa, w, '0'), PadStart(sb, w, '0');
    if pa == pb {
      if |sa| == |sb| {
        assert sa == pa[|pa| - |sa|..] == pb[|pb| - |sb|..] == sb;
        NatToStringInjective(a, b);
      }
    }
  }

  /** `parts.join(sep)` */
  function Join(parts: seq<string>, sep: string): string {
    if |parts| == 0 then ""
    else if |parts| == 1 then parts[0]
    else parts[0] + sep + Join(parts[1..], sep)
  }

  /** ASCII-only lower-casing, as `toLowerCase` acts on file names made of ASCII. */
  function LowerAscii(c: char): char {
    if 'A' <= c <= 'Z' then (c as int + 32) as char else c
  }

  function LowerAsciiString(s: string): (r: string)
    ensures |r| == |s|
    ensures forall i :: 0 <= i < |s| ==> r[i] == LowerAscii(s[i])
  {
    if |s| == 0 then "" else [LowerAscii(s[0])] + LowerAsciiString(s[1..])
  }
}

=== FILE: lyrics_step.dfy ===
/**
 * Step 1 of the workflow (the lyrics page): the keyword table read from a CSV, the drag-and-drop
 * counters, the drop filters, the reset on a new reference image and the store updates after the
 * analysis and prompt-generation calls. CSV parsing itself is an oracle: the page starts from the
 * rows Papa Parse returns, blank lines already skipped.
 */
module LyricsStep {
  import opened Wrappers
  import opened JsText
  import AppStore
  import AnalyzeImage

  // ---- CSV rows to keyword items ----

  /** `/^(id|编号|序号|ID)$/i` on the untrimmed first cell. */
  predicate IsHeaderCell(c: string) {
    c == "编号" || c == "序号" || (|c| == 2 && (c[0] == 'i' || c[0] == 'I') && (c[1] == 'd' || c[1] == 'D'))
  }

  /** How many leading rows are a header: one when the very first cell looks like one. */
  function HeaderRows(data: seq<seq<string>>): (n: nat)
    ensures n <= 1 && n <= |data|
    ensures n == 1 <==> |data| > 0 && |data[0]| > 0 && IsHeaderCell(data[0][0])
  {
    if |data| > 0 && |data[0]| > 0 && IsHeaderCell(data[0][0]) then 1 else 0
  }

  /** A row becomes an item when its trimmed second cell is non-empty. */
  predicate KeepsRow(row: seq<string>) {
    |row| > 1 && Trim(row[1]) != ""
  }

  /** `String(position + 1).padStart(3, '0')` */
  function GeneratedId(position: nat): (id: string)
    ensures |id| >= 3 && AllDigits(id)
  {
    PaddedNat(position + 1, 3)
  }

  /** `row[k]?.trim()`, with a missing cell read as empty. */
  function Cell(row: seq<string>, k: nat): string {
    if k < |row| then Trim(row[k]) else ""
  }

  /** The item a row gives: its trimmed id (or the generated one when blank or missing), keyword and
      translation; it is kept exactly when the keyword is non-empty. */
  function RowItem(row: seq<string>, position: nat): (item: AppStore.KeywordItem)
    ensures item.keyword != "" <==> KeepsRow(row)
    ensures item.keyword == Cell(row, 1) && item.translation == Cell(row, 2)
    ensures item.id == (if Cell(row, 0) != "" then Cell(row, 0) else GeneratedId(position))
  {
    var id := if Cell(row, 0) != "" then Cell(row, 0) else GeneratedId(position);
    AppStore.KeywordItem(id, Cell(row, 1), Cell(row, 2))
  }

  /** The `forEach` with a conditional `push`: `item(row, position)` for each kept row of `rows[k..]`,
      in input order, where a row's position is its index after the header. */
  function PushKept<T>(rows: seq<seq<string>>, k: nat, keep: seq<string> -> bool, item: (seq<string>, nat) -> T): seq<T>
    requires k <= |rows|
    decreases |rows| - k
  {
    if k == |rows| then []
    else (if keep(rows[k]) then [item(rows[k], k)] else []) + PushKept(rows, k + 1, keep, item)
  }

  /** The positions of the kept rows of `rows[k..]`, in increasing order. */
  function KeptFrom(rows: seq<seq<string>>, k: nat, keep: seq<string> -> bool): seq<nat>
    requires k <= |rows|
    decreases |rows| - k
  {
    if k == |rows| then []
    else (if keep(rows[k]) then [k] else []) + KeptFrom(rows, k + 1, keep)
  }

  /** One row further: a kept row adds its position in front, any other row nothing. */
  lemma KeptStep(rows: seq<seq<string>>, k: nat, keep: seq<string> -> bool)
    requires k < |rows|
    ensures keep(rows[k]) ==> KeptFrom(rows, k, keep) == [k] + KeptFrom(rows, k + 1, keep)
    ensures !keep(rows[k]) ==> KeptFrom(rows, k, keep) == KeptFrom(rows, k + 1, keep)
  {
    if !keep(rows[k]) {
      assert [] + KeptFrom(rows, k + 1, keep) == KeptFrom(rows, k + 1, keep);
    }
  }

  predicate Increasing(r: seq<nat>) {
    forall i, j :: 0 <= i < j < |r| ==> r[i] < r[j]
  }

  /** A position below every later one keeps an increasing list increasing. */
  lemma IncreasingCons(k: nat, rest: seq<nat>)
    requires Increasing(rest) && forall i :: 0 <= i < |rest| ==> k < rest[i]
    ensures Increasing([k] + rest)
  {
    var r := [k] + rest;
    forall i, j | 0 <= i < j < |r| ensures r[i] < r[j] {
      assert r[j] == rest[j - 1];
      if i > 0 {
        assert r[i] == rest[i - 1];
      }
    }
  }

  /** Only rows of `rows[k..]` that are kept are listed. */
  lemma {:induction false} KeptRowsAreKept(rows: seq<seq<string>>, k: nat, keep: seq<string> -> bool)
    requires k <= |rows|
    ensures forall i :: 0 <= i < |KeptFrom(rows, k, keep)| ==>
      k <= KeptFrom(rows, k, keep)[i] < |rows| && keep(rows[KeptFrom(rows, k, keep)[i]])
    decreases |rows| - k
  {
    if k < |rows| {
      KeptRowsAreKept(rows, k + 1, keep);
      KeptStep(rows, k, keep);
      if keep(rows[k]) {
        var rest := KeptFrom(rows, k + 1, keep);
        var r := [k] + rest;
        assert forall i :: 0 < i < |r| ==> r[i] == rest[i - 1];
      }
    }
  }

  /** The kept rows of `rows[k..]` are listed in increasing order, so each at most once. */
  lemma {:induction false} KeptRowsInOrder(rows: seq<seq<string>>, k: nat, keep: seq<string> -> bool)
    requires k <= |rows|
    ensures Increasing(KeptFrom(rows, k, keep))
    decreases |rows| - k
  {
    if k < |rows| {
      KeptRowsInOrder(rows, k + 1, keep);
      KeptRowsAreKept(rows, k + 1, keep);
      KeptStep(rows, k, keep);
      if keep(rows[k]) {
        IncreasingCons(k, KeptFrom(rows, k + 1, keep));
      }
    }
  }

  /** Every kept row of `rows[k..]` is listed. */
  lemma {:induction false} KeptRowsComplete(rows: seq<seq<string>>, k: nat, j: nat, keep: seq<string> -> bool)
    requires k <= j < |rows| && keep(rows[j])
    ensures j in KeptFrom(rows, k, keep)
    decreases j - k
  {
    KeptStep(rows, k, keep);
    if k < j {
      KeptRowsComplete(rows, k + 1, j, keep);
    }
  }

  /** The rows after the header, the ones `forEach` visits. */
  function DataRows(data: seq<seq<string>>): seq<seq<string>> {
    data[HeaderRows(data)..]
  }

  /** `handleCsvUpload`: the keyword items of a parsed table. */
  function CsvKeywords(data: seq<seq<string>>): seq<AppStore.KeywordItem> {
    PushKept(DataRows(data), 0, KeepsRow, RowItem)
  }

  /** The row at position `p`, read as an empty row past the end (kept positions are all in range). */
  function RowAt(rows: seq<seq<string>>, p: nat): seq<string> {
    if p < |rows| then rows[p] else []
  }

  /** `item` of the rows at the positions `kept`, in that order. */
  function KeptItems<T>(rows: seq<seq<string>>, kept: seq<nat>, item: (seq<string>, nat) -> T): (r: seq<T>)
    ensures |r| == |kept|
  {
    if kept == [] then [] else [item(RowAt(rows, kept[0]), kept[0])] + KeptItems(rows, kept[1..], item)
  }

  lemma KeptItemsCons<T>(rows: seq<seq<string>>, k: nat, rest: seq<nat>, item: (seq<string>, nat) -> T)
    requires k < |rows|
    ensures KeptItems(rows, [k] + rest, item) == [item(rows[k], k)] + KeptItems(rows, rest, item)
  {
    assert ([k] + rest)[1..] == rest;
  }

  /** One row further: a kept row pushes its item in front, any other row nothing. */
  lemma PushStep<T>(rows: seq<seq<string>>, k: nat, keep: seq<string> -> bool, item: (seq<string>, nat) -> T)
    requires k < |rows|
    ensures keep(rows[k]) ==> PushKept(rows, k, keep, item) == [item(rows[k], k)] + PushKept(rows, k + 1, keep, item)
    ensures !keep(rows[k]) ==> PushKept(rows, k, keep, item) == PushKept(rows, k + 1, keep, item)
  {
    if !keep(rows[k]) {
      assert [] + PushKept(rows, k + 1, keep, item) == PushKept(rows, k + 1, keep, item);
    }
  }

  lemma FollowStep<T>(rows: seq<seq<string>>, k: nat, keep: seq<string> -> bool, item: (seq<string>, nat) -> T)
    requires k < |rows| && PushKept(rows, k + 1, keep, item) == KeptItems(rows, KeptFrom(rows, k + 1, keep), item)
    ensures PushKept(rows, k, keep, item) == KeptItems(rows, KeptFrom(rows, k, keep), item)
  {
    PushStep(rows, k, keep, item);
    KeptStep(rows, k, keep);
    if keep(rows[k]) {
      KeptItemsCons(rows, k, KeptFrom(rows, k + 1, keep), item);
    }
  }

  /** What is pushed is exactly the items of the kept rows, in input order. */
  lemma {:induction false} PushFollowsKeptRows<T>(rows: seq<seq<string>>, k: nat, keep: seq<string> -> bool, item: (seq<string>, nat) -> T)
    requires k <= |rows|
    ensures PushKept(rows, k, keep, item) == KeptItems(rows, KeptFrom(rows, k, keep), item)
    decreases |rows| - k
  {
    if k < |rows| {
      PushFollowsKeptRows(rows, k + 1, keep, item);
      FollowStep(rows, k, keep, item);
    }
  }

  /** The keyword items are the items of the kept data rows, in input order: together with
      `KeptRowsAreKept`, `KeptRowsComplete` and `KeptRowsInOrder`, each row whose keyword cell is
      non-blank gives exactly one item, and no other row gives one. */
  lemma CsvItemsFollowKeptRows(data: seq<seq<string>>)
    ensures CsvKeywords(data) == KeptItems(DataRows(data), KeptFrom(DataRows(data), 0, KeepsRow), RowItem)
  {
    PushFollowsKeptRows(DataRows(data), 0, KeepsRow, RowItem);
  }

  /** Rows with a blank id cell are numbered by position, so two of them never share an id. */
  lemma GeneratedIdsDiffer(i: nat, j: nat)
    requires i != j
    ensures GeneratedId(i) != GeneratedId(j)
  {
    PaddedNatInjective(i + 1, j + 1, 3);
  }

  /** The header row is never an item, and the rows after it keep their positions. */
  lemma HeaderIsSkipped(header: seq<string>, rows: seq<seq<string>>)
    requires |header| > 0 && IsHeaderCell(header[0])
    ensures CsvKeywords([header] + rows) == PushKept(rows, 0, KeepsRow, RowItem)
  {
    assert DataRows([header] + rows) == rows;
  }

  // ---- drag counters ----

  /** A drop zone's counter and highlight. */
  datatype Drag = Drag(count: int, active: bool)

  datatype DragEvent = Enter | Leave | Drop

  /** Enter counts up and highlights; leave counts down and clears at zero or below; drop clears. */
  function DragStep(d: Drag, e: DragEvent): (r: Drag)
    ensures e == Enter ==> r == Drag(d.count + 1, true)
    ensures e == Drop ==> r == Drag(0, false)
    ensures e == Leave ==> r == (if d.count - 1 <= 0 then Drag(0, false) else Drag(d.count - 1, d.active))
  {
    match e
    case Enter => Drag(d.count + 1, true)
    case Leave => if d.count - 1 <= 0 then Drag(0, false) else Drag(d.count - 1, d.active)
    case Drop => Drag(0, false)
  }

  /** The counter is never negative, and the zone is highlighted exactly while it is positive. */
  predicate Settled(d: Drag) {
    d.count >= 0 && (d.active <==> d.count > 0)
  }

  function DragRun(d: Drag, events: seq<DragEvent>): Drag
    decreases |events|
  {
    if events == [] then d else DragRun(DragStep(d, events[0]), events[1..])
  }

  lemma {:induction false} DragRunStaysSettled(d: Drag, events: seq<DragEvent>)
    requires Settled(d)
    ensures Settled(DragRun(d, events))
    decreases |events|
  {
    if events != [] {
      DragRunStaysSettled(DragStep(d, events[0]), events[1..]);
    }
  }

  /** From the initial zone, any sequence of events leaves a settled zone. */
  lemma InitialDragStaysSettled(events: seq<DragEvent>)
    ensures Settled(DragRun(Drag(0, false), events))
  {
    DragRunStaysSettled(Drag(0, false), events);
  }

  // ---- drop filters ----

  datatype DroppedFile = DroppedFile(name: string, mime: string)

  /** The CSV zone takes the first file when its name ends in `.csv` in any case, or its type is a CSV type. */
  predicate AcceptsCsv(file: Option<DroppedFile>) {
    file.Some? && (EndsWith(LowerAsciiString(file.value.name), ".csv")
                   || file.value.mime == "text/csv" || file.value.mime == "application/csv")
  }

  /** The image zone takes the first file when its type starts with `image/`. */
  predicate AcceptsImage(file: Option<DroppedFile>) {
    file.Some? && StartsWith(file.value.mime, "image/")
  }

  /** The name check ignores case and the type: a `.csv` name in either case passes whatever the type. */
  lemma CsvSuffixAccepted(stem: string, mime: string)
    ensures AcceptsCsv(Some(DroppedFile(stem + ".CSV", mime)))
    ensures AcceptsCsv(Some(DroppedFile(stem + ".csv", mime)))
  {
    LowerEnding(stem, ".CSV");
    assert LowerAsciiString(".CSV") == ".csv";
    LowerEnding(stem, ".csv");
    assert LowerAsciiString(".csv") == ".csv";
  }

  /** Without the suffix only the two CSV types pass, and an empty drop never does. */
  lemma CsvOthersRejected(stem: string)
    ensures !AcceptsCsv(Some(DroppedFile(stem + ".txt", "text/plain")))
    ensures !AcceptsCsv(None)
  {
    LowerEnding(stem, ".txt");
    assert LowerAsciiString(".txt")[3] == 't';
  }

  /** Lower-casing acts on each character, so the ending of a lower-cased name is the lower-cased ending. */
  lemma LowerEnding(stem: string, suffix: string)
    ensures EndsWith(LowerAsciiString(stem + suffix), LowerAsciiString(suffix))
  {
    var s := stem + suffix;
    var l := LowerAsciiString(s);
    assert forall i :: 0 <= i < |suffix| ==> l[|stem| + i] == LowerAscii(suffix[i]);
  }

  // ---- store updates ----

  /** The six analysis fields and the empty-scene image, all cleared. */
  predicate AnalysisCleared(s: AppStore.State) {
    s.characterGender == "" && s.characterHairColor == "" && s.sceneDescription == ""
    && s.imageContext == "" && s.fullContext == "" && s.sceneContext == "" && s.emptySceneImage == None
  }

  /** A new reference image: it is stored and the previous analysis is cleared before the new one runs. */
  function ImageUploaded(s: AppStore.State, dataUrl: string): (r: AppStore.State)
    ensures r.uploadedImage == Some(dataUrl) && AnalysisCleared(r)
    ensures r.(uploadedImage := s.uploadedImage, characterGender := s.characterGender,
               characterHairColor := s.characterHairColor, sceneDescription := s.sceneDescription,
               imageContext := s.imageContext, fullContext := s.fullContext,
               sceneContext := s.sceneContext, emptySceneImage := s.emptySceneImage) == s
  {
    s.(uploadedImage := Some(dataUrl), characterGender := "", characterHairColor := "", sceneDescription := "",
       imageContext := "", fullContext := "", sceneContext := "", emptySceneImage := None)
  }

  /** The store once the analysis answered: on success each field is the response's value `|| ''`,
      the short context fills `imageContext`, and the empty-scene image is the response's `|| null`;
      a failed analysis only raises the error toast and leaves the store as it was. */
  function AnalysisApplied(s: AppStore.State, a: AnalyzeImage.Analysis): (r: AppStore.State)
    ensures a.AnalysisFailed? ==> r == s
    ensures a.Analysed? ==>
      && r.imageContext == OrElse(a.shortContext, "") && r.fullContext == OrElse(a.fullContext, "")
      && r.characterGender == a.characterGender && r.characterHairColor == a.characterHairColor
      && r.sceneDescription == a.sceneDescription && r.sceneContext == a.sceneContext
      && (r.emptySceneImage.Some? <==> Truthy(a.emptySceneImage))
      && (r.emptySceneImage.Some? ==> r.emptySceneImage == a.emptySceneImage)
    ensures r.(characterGender := s.characterGender, characterHairColor := s.characterHairColor,
               sceneDescription := s.sceneDescription, imageContext := s.imageContext,
               fullContext := s.fullContext, sceneContext := s.sceneContext,
               emptySceneImage := s.emptySceneImage) == s
  {
    match a
    case AnalysisFailed(_, _) => s
    case Analysed(_, _, _, _, _, _, _) =>
      s.(characterGender := a.characterGender, characterHairColor := a.characterHairColor,
         sceneDescription := a.sceneDescription, imageContext := OrElse(a.shortContext, ""),
         fullContext := OrElse(a.fullContext, ""), sceneContext := a.sceneContext,
         emptySceneImage := if Truthy(a.emptySceneImage) then a.emptySceneImage else None)
  }

  /** Upload then a successful analysis: the image stays, no empty-scene image is set (the analysis
      route never returns one), and a blank short context leaves the page unable to generate prompts. */
  lemma UploadThenAnalysis(s: AppStore.State, dataUrl: string, apiKey: string,
                           reply: Option<string>, parse: string -> Option<AnalyzeImage.Fields>)
    requires AnalyzeImage.Analyze(Some(AnalyzeImage.AnalyzeRequest(Some(dataUrl))), apiKey, reply, parse).Analysed?
    ensures var r := AnalysisApplied(ImageUploaded(s, dataUrl),
                                     AnalyzeImage.Analyze(Some(AnalyzeImage.AnalyzeRequest(Some(dataUrl))), apiKey, reply, parse));
      r.uploadedImage == Some(dataUrl) && r.emptySceneImage == None
      && (r.imageContext == "" ==> !CanGeneratePrompt(r))
  {
  }

  /** The prompt button needs a selected keyword and a non-empty image context. */
  predicate CanGeneratePrompt(s: AppStore.State) {
    s.selectedKeyword.Some? && s.imageContext != ""
  }

  /** `handleGeneratePrompt` once `/api/generate-prompt` answered: `reply` is the returned version, or
      `None` when the call failed (the error toast only). The version is added with the keyword and
      its translation, selected, and step 2 is unlocked. Without a selected keyword or an image context
      the button only alerts and nothing changes. */
  function PromptGenerated(s: AppStore.State, reply: Option<AppStore.PromptVersion>): (r: AppStore.State)
    ensures !CanGeneratePrompt(s) || reply.None? ==> r == s
    ensures CanGeneratePrompt(s) && reply.Some? ==>
      var kw := s.selectedKeyword.value;
      && |r.promptVersions| == |s.promptVersions| + 1 && r.promptVersions[..|s.promptVersions|] == s.promptVersions
      && r.promptVersions[|s.promptVersions|] == reply.value.(keywordJa := Some(kw.keyword), keywordCn := Some(kw.translation))
      && r.selectedVersion == Some(reply.value.version)
      && 2 in r.unlockedModules
      && (forall m :: m in r.unlockedModules <==> m in s.unlockedModules || m == 2)
      && r.(promptVersions := s.promptVersions, selectedVersion := s.selectedVersion,
            unlockedModules := s.unlockedModules) == s
  {
    if !CanGeneratePrompt(s) || reply.None? then s
    else
      var kw := s.selectedKeyword.value;
      AppStore.UnlockModule(AppStore.AddPromptVersion(s, reply.value.(keywordJa := Some(kw.keyword), keywordCn := Some(kw.translation))), 2)
  }
}

=== FILE: mureka.dfy ===
/**
 * `/api/mureka-song`: submitting a song to Mureka (POST) and querying the
 * task (GET), which also saves the finished audio. Every `fetch` is an
 * oracle: the upstream reply comes in as a parameter, and so does the
 * outcome of each download-and-write.
 */
module Mureka {
  import opened Wrappers
  import opened JsText
  import Clock
  import GridRoutes

  /** A song entry as Mureka returns it; `duration` is `None` when missing or zero. */
  datatype RawSong = RawSong(url: Option<string>, mp3Url: Option<string>, flacUrl: Option<string>,
                             title: Option<string>, duration: Option<nat>)

  /** The three places a reply may hold songs: `choices`, `songs` and `result.songs`. */
  datatype SongLists = SongLists(choices: Option<seq<RawSong>>, songs: Option<seq<RawSong>>, resultSongs: Option<seq<RawSong>>)

  /** `data.choices || data.songs || data.result?.songs || []`: an array is truthy even when empty. */
  function RawSongs(l: SongLists): (r: seq<RawSong>)
    ensures l.choices.Some? ==> r == l.choices.value
    ensures l.choices.None? && l.songs.Some? ==> r == l.songs.value
  {
    if l.choices.Some? then l.choices.value
    else if l.songs.Some? then l.songs.value
    else l.resultSongs.GetOr([])
  }

  /** An empty `choices` array hides whatever `songs` holds. */
  lemma EmptyChoicesHideSongs(songs: seq<RawSong>, rest: Option<seq<RawSong>>)
    ensures RawSongs(SongLists(Some([]), Some(songs), rest)) == []
  {
  }

  /** The duration: seconds above 1000 are read as milliseconds (the division is not modelled). */
  datatype Duration = NoDuration | Millis(ms: nat) | Seconds(s: nat)

  function DurationOf(d: Option<nat>): (r: Duration)
    ensures d.None? || d == Some(0) <==> r.NoDuration?
    ensures r.Millis? ==> r.ms > 1000 && d == Some(r.ms)
    ensures r.Seconds? ==> 1 <= r.s <= 1000 && d == Some(r.s)
  {
    match d
    case None => NoDuration
    case Some(n) => if n == 0 then NoDuration else if n > 1000 then Millis(n) else Seconds(n)
  }

  // ---------------------------------------------------------------------------
  // POST: submitting
  // ---------------------------------------------------------------------------

  const MissingLyrics: string := "缺少歌词 (lyrics)"
  const MissingKeyPost: string := "请先在设置中配置 Mureka API Key"
  const PostFailure: string := "歌曲生成请求失败"

  /** The body's fields; a body that is not JSON reads as `{}`, so every field is `None`. */
  datatype SongBody = SongBody(lyrics: Option<string>, stylePrompt: Option<string>, model: Option<string>, title: Option<string>)

  /** What `request.json()` gives: a body that is not JSON (read as `{}`), JSON `null`, or a value
      whose fields are read. */
  datatype SongPost = NotJson | NullJson | Posted(fields: SongBody)

  /** The error Node's engine throws when the fields of a `null` body are destructured. */
  const NullBodyError: string := "Cannot destructure property 'lyrics' of 'body' as it is null."

  /** The names `Object.prototype` gives every object literal whose value is a function. */
  const PrototypeMethods: set<string> := {
    "constructor", "hasOwnProperty", "isPrototypeOf", "propertyIsEnumerable", "toLocaleString",
    "toString", "valueOf", "__defineGetter__", "__defineSetter__", "__lookupGetter__", "__lookupSetter__"
  }

  /** The four names the map lists itself. */
  const MappedModels: set<string> := {"V8", "O1", "O2", "auto"}

  /** What the request body's `model` becomes once serialised: a name, `{}`, or nothing at all
      (`JSON.stringify` drops a property whose value is a function). */
  datatype ModelField = ModelName(name: string) | EmptyObject | Omitted

  /** `modelMap[model] || 'auto'` on a plain object literal, `model` defaulting to `'auto'`: its own
      four names and every unknown name give `auto`, an inherited method name gives a function, and
      `__proto__` gives `Object.prototype`, which serialises as `{}`. */
  function ApiModel(model: Option<string>): (m: ModelField)
    ensures m.Omitted? <==> model.Some? && model.value in PrototypeMethods
    ensures m.EmptyObject? <==> model == Some("__proto__")
    ensures m.ModelName? ==> m.name == "auto"
  {
    var name := model.GetOr("auto");
    if name in MappedModels then ModelName("auto")
    else if name in PrototypeMethods then Omitted
    else if name == "__proto__" then EmptyObject
    else ModelName("auto")
  }

  /** Every name the page offers, and a missing one, selects `auto`. */
  lemma OfferedModelsAreAuto(model: Option<string>)
    requires model.None? || model.value in MappedModels
    ensures ApiModel(model) == ModelName("auto")
  {
  }

  datatype SongRequest = SongRequest(lyrics: string, model: ModelField, prompt: Option<string>)

  /** The request body: lyrics cut to 5000, and a prompt only for a non-blank style, trimmed and cut to 1000. */
  function SongRequestOf(lyrics: string, b: SongBody): (q: SongRequest)
    ensures |q.lyrics| <= 5000 && StartsWith(lyrics, q.lyrics) && (|lyrics| <= 5000 ==> q.lyrics == lyrics)
    ensures q.model == ApiModel(b.model)
    ensures q.prompt.Some? <==> b.stylePrompt.Some? && !AllSpace(b.stylePrompt.value)
    ensures q.prompt.Some? ==> |q.prompt.value| <= 1000 && StartsWith(Trim(b.stylePrompt.value), q.prompt.value)
  {
    var prompt := if Truthy(b.stylePrompt) && Trim(b.stylePrompt.value) != "" then Some(Take(Trim(b.stylePrompt.value), 1000)) else None;
    TrimEmptyIffAllSpace(b.stylePrompt.GetOr(""));
    SongRequest(Take(lyrics, 5000), ApiModel(b.model), prompt)
  }

  /** What a successful submit returns. */
  datatype SubmitData = SubmitData(id: Option<string>, task_id: Option<string>, taskId: Option<string>,
                                   status: Option<string>, lists: SongLists)

  datatype SubmittedSong = SubmittedSong(url: Option<string>, title: string, duration: Duration)

  datatype SubmitResponse =
    | Completed(taskId: Option<string>, songs: seq<SubmittedSong>)
    | Submitted(taskId: Option<string>, status: string)
    | SubmitFailed(code: nat, error: string)

  /** `data.id || data.task_id || data.taskId` */
  function TaskIdOf(d: SubmitData): Option<string> {
    if Truthy(d.id) then d.id else if Truthy(d.task_id) then d.task_id else if Truthy(d.taskId) then d.taskId else None
  }

  function FirstUrl(s: RawSong): Option<string> {
    if Truthy(s.url) then s.url else if Truthy(s.mp3Url) then s.mp3Url else if Truthy(s.flacUrl) then s.flacUrl else None
  }

  /** `歌曲 ${i + 1}` */
  function DefaultTitle(i: nat): string { "歌曲 " + NatToString(i + 1) }

  /** The songs of a synchronous completion: title from the song, else the request, else numbered. */
  function SubmittedSongs(raw: seq<RawSong>, title: Option<string>): (r: seq<SubmittedSong>)
    ensures |r| == |raw|
    ensures forall i :: 0 <= i < |raw| ==> r[i].url == FirstUrl(raw[i]) && r[i].duration == DurationOf(raw[i].duration)
    ensures forall i :: 0 <= i < |raw| && !Truthy(raw[i].title) && !Truthy(title) ==> r[i].title == DefaultTitle(i)
  {
    seq(|raw|, i requires 0 <= i < |raw| =>
      SubmittedSong(FirstUrl(raw[i]), OrElse(raw[i].title, OrElse(title, DefaultTitle(i))), DurationOf(raw[i].duration)))
  }

  /** `POST /api/mureka-song`; `upstream` is the submit call's outcome. */
  function SubmitSong(body: SongPost, apiKey: string, upstream: Upstream<SubmitData>): (r: SubmitResponse)
    ensures body.NullJson? ==> r == SubmitFailed(500, NullBodyError)
    ensures body.NotJson? || (body.Posted? && !Truthy(body.fields.lyrics)) ==> r == SubmitFailed(400, MissingLyrics)
    ensures body.Posted? && Truthy(body.fields.lyrics) && apiKey == "" ==> r == SubmitFailed(400, MissingKeyPost)
    ensures body.Posted? && Truthy(body.fields.lyrics) && apiKey != "" ==>
      match upstream
      case Threw(m) => r == SubmitFailed(500, m)
      case NotOk(s, t) => r == SubmitFailed(s, "Mureka 提交失败 (" + NatToString(s) + "): " + t)
      case Ok(d) =>
        (|RawSongs(d.lists)| > 0 ==> r.Completed? && |r.songs| == |RawSongs(d.lists)|)
        && (|RawSongs(d.lists)| == 0 ==> r == Submitted(TaskIdOf(d), OrElse(d.status, "preparing")))
    ensures r.Completed? || r.Submitted? ==> apiKey != "" && upstream.Ok?
  {
    match body
    case NullJson => SubmitFailed(500, NullBodyError)
    case NotJson => SubmitFailed(400, MissingLyrics)
    case Posted(b) =>
      if !Truthy(b.lyrics) then SubmitFailed(400, MissingLyrics)
      else if apiKey == "" then SubmitFailed(400, MissingKeyPost)
      else match upstream
        case Threw(m) => SubmitFailed(500, m)
        case NotOk(s, t) => SubmitFailed(s, "Mureka 提交失败 (" + NatToString(s) + "): " + t)
        case Ok(d) =>
          var raw := RawSongs(d.lists);
          if |raw| > 0 then Completed(TaskIdOf(d), SubmittedSongs(raw, b.title))
          else Submitted(TaskIdOf(d), OrElse(d.status, "preparing"))
  }

  /** The upstream status of a refused submit is passed through unchanged, whatever it is. */
  lemma SubmitPassesStatusThrough(lyrics: string, apiKey: string, status: nat, text: string)
    requires lyrics != "" && apiKey != ""
    ensures var r := SubmitSong(Posted(SongBody(Some(lyrics), None, None, None)), apiKey, NotOk(status, text));
      r.SubmitFailed? && r.code == status
  {
  }

  // ---------------------------------------------------------------------------
  // GET: querying and saving
  // ---------------------------------------------------------------------------

  const MissingTask: string := "缺少 taskId"
  const MissingKeyGet: string := "请先配置 Mureka API Key"

  datatype Query = Query(taskId: Option<string>, step3OutputBaseDir: Option<string>,
                         keywordId: Option<string>, coreWord: Option<string>)

  datatype QueryData = QueryData(status: Option<string>, lists: SongLists, message: Option<string>, error: Option<string>)

  datatype Song = Song(url: string, title: Option<string>, duration: Duration)

  /** The songs with a usable URL, in order: `url || mp3_url || flac_url || ''`, empty ones dropped. */
  function UsableSongs(raw: seq<RawSong>): (r: seq<Song>)
    ensures |r| <= |raw|
    ensures forall i :: 0 <= i < |r| ==> r[i].url != ""
    ensures |r| == 0 <==> forall i :: 0 <= i < |raw| ==> FirstUrl(raw[i]).None?
  {
    if |raw| == 0 then []
    else
      var rest := UsableSongs(raw[1..]);
      assert forall i :: 1 <= i < |raw| ==> raw[1..][i - 1] == raw[i];
      match FirstUrl(raw[0])
      case Some(u) => [Song(u, raw[0].title, DurationOf(raw[0].duration))] + rest
      case None => rest
  }

  /** The project directory, then the id-and-core-word scene directory, then `output/music`. */
  function MusicDir(q: Query, now: Clock.DateTime): (d: seq<string>)
    requires Clock.Valid(now)
    ensures Truthy(q.step3OutputBaseDir) ==> d == [q.step3OutputBaseDir.value, "MUSIC"]
    ensures !Truthy(q.step3OutputBaseDir) && !(Truthy(q.keywordId) && Truthy(q.coreWord)) ==> d == ["output", "music"]
    ensures !Truthy(q.step3OutputBaseDir) && Truthy(q.keywordId) && Truthy(q.coreWord) ==>
      d == ["output", "scene", GridRoutes.SceneDirName(q.keywordId.value, q.coreWord.value, now), "MUSIC"]
  {
    if Truthy(q.step3OutputBaseDir) then [q.step3OutputBaseDir.value, "MUSIC"]
    else if Truthy(q.keywordId) && Truthy(q.coreWord) then
      ["output", "scene", GridRoutes.SceneDirName(q.keywordId.value, q.coreWord.value, now), "MUSIC"]
    else ["output", "music"]
  }

  /** `String(n).padStart(2, '0')` */
  function SongNumber(n: nat): (r: string)
    ensures AllDigits(r) && |r| >= 2
  {
    PaddedNat(n, 2)
  }

  /** `wav` when the URL mentions `.wav`, otherwise `mp3`. */
  function AudioExt(url: string): string { if Contains(url, ".wav") then "wav" else "mp3" }

  /** `song_${NN}_${YYYYMMDDHHmmss}.${ext}` */
  function SongFileName(i: nat, url: string, now: Clock.DateTime): (f: string)
    requires Clock.Valid(now)
  {
    SongName(SongNumber(i + 1), Clock.CompactStamp(now), AudioExt(url))
  }

  function SongName(number: string, stamp: string, ext: string): string
  {
    "song_" + number + "_" + stamp + "." + ext
  }

  /** Distinct songs of one query get distinct file names. */
  lemma SongFileNamesDiffer(i: nat, j: nat, u: string, v: string, now: Clock.DateTime)
    requires Clock.Valid(now) && i != j
    ensures SongFileName(i, u, now) != SongFileName(j, v, now)
  {
    PaddedNatInjective(i + 1, j + 1, 2);
    SongNamesDiffer(SongNumber(i + 1), SongNumber(j + 1), Clock.CompactStamp(now), AudioExt(u), AudioExt(v));
  }

  /** The file is a `.wav` exactly when the URL mentions `.wav`; otherwise it is an `.mp3`. */
  lemma SongFileExtension(i: nat, u: string, now: Clock.DateTime)
    requires Clock.Valid(now)
    ensures EndsWith(SongFileName(i, u, now), ".wav") <==> Contains(u, ".wav")
    ensures !Contains(u, ".wav") ==> EndsWith(SongFileName(i, u, now), ".mp3")
  {
    SongNameExt(SongNumber(i + 1), Clock.CompactStamp(now), AudioExt(u));
  }

  lemma SongNamesDiffer(a: string, b: string, stamp: string, x: string, y: string)
    requires AllDigits(a) && AllDigits(b) && a != b
    ensures SongName(a, stamp, x) != SongName(b, stamp, y)
  {
    var f, g := SongName(a, stamp, x), SongName(b, stamp, y);
    assert f[5..] == a + ("_" + (stamp + "." + x));
    assert g[5..] == b + ("_" + (stamp + "." + y));
    DigitFieldsDiffer(a, b, stamp + "." + x, stamp + "." + y);
  }

  lemma SongNameExt(n: string, stamp: string, ext: string)
    requires ext == "wav" || ext == "mp3"
    ensures EndsWith(SongName(n, stamp, ext), ".wav") <==> ext == "wav"
    ensures EndsWith(SongName(n, stamp, ext), ".mp3") <==> ext == "mp3"
  {
    var f := SongName(n, stamp, ext);
    assert f[|f| - 4..] == "." + ext;
    assert f[|f| - 3] == ext[0];
  }

  /** Two digit fields that differ stay apart when each is followed by `_`. */
  lemma DigitFieldsDiffer(a: string, b: string, x: string, y: string)
    requires AllDigits(a) && AllDigits(b) && a != b
    ensures a + ("_" + x) != b + ("_" + y)
  {
    var s, t := a + ("_" + x), b + ("_" + y);
    if |a| == |b| {
      assert s[..|a|] == a;
      assert t[..|b|] == b;
    } else if |a| < |b| {
      assert s[|a|] == '_';
      assert t[|a|] == b[|a|];
    } else {
      assert t[|b|] == '_';
      assert s[|b|] == a[|b|];
    }
  }


  datatype QueriedSong = QueriedSong(url: string, title: string, duration: Duration, savedPath: Option<seq<string>>)

  datatype QueryResponse =
    | Done(songs: seq<QueriedSong>)
    | Pending(message: Option<string>)
    | Failed(message: Option<string>)
    | QueryFailed(status: nat, error: string)

  /** The path of every song whose download and write succeeded (`saved[i]`), in song order. */
  function SavedPaths(songs: seq<Song>, saved: seq<bool>, dir: seq<string>, now: Clock.DateTime, from: nat): (r: seq<seq<string>>)
    requires Clock.Valid(now) && |saved| == |songs| && from <= |songs|
    ensures |r| <= |songs| - from
    decreases |songs| - from
  {
    if from == |songs| then []
    else (if saved[from] then [dir + [SongFileName(from, songs[from].url, now)]] else [])
         + SavedPaths(songs, saved, dir, now, from + 1)
  }

  /** As written: `savedPath: savedPaths[i] || undefined` pairs song `i` with the i-th path pushed,
      which belongs to a later song once an earlier save has failed. */
  function SavedPathAsWritten(songs: seq<Song>, saved: seq<bool>, dir: seq<string>, now: Clock.DateTime, i: nat): (r: Option<seq<string>>)
    requires Clock.Valid(now) && |saved| == |songs|
    ensures r.Some? ==> exists k :: 0 <= k < |songs| && saved[k]
  {
    var paths := SavedPaths(songs, saved, dir, now, 0);
    if i < |paths| then
      SavedPathsWitness(songs, saved, dir, now, 0);
      Some(paths[i])
    else None
  }

  lemma {:induction false} SavedPathsWitness(songs: seq<Song>, saved: seq<bool>, dir: seq<string>, now: Clock.DateTime, from: nat)
    requires Clock.Valid(now) && |saved| == |songs| && from <= |songs|
    ensures |SavedPaths(songs, saved, dir, now, from)| > 0 ==> exists k :: from <= k < |songs| && saved[k]
    decreases |songs| - from
  {
    if from < |songs| && !saved[from] {
      SavedPathsWitness(songs, saved, dir, now, from + 1);
    }
  }

  /** Intended: song `i` carries its own path exactly when its own save succeeded. */
  function SavedPathOf(songs: seq<Song>, saved: seq<bool>, dir: seq<string>, now: Clock.DateTime, i: nat): (r: Option<seq<string>>)
    requires Clock.Valid(now) && |saved| == |songs| && i < |songs|
    ensures r.Some? <==> saved[i]
    ensures r.Some? ==> r.value == dir + [SongFileName(i, songs[i].url, now)]
  {
    if saved[i] then Some(dir + [SongFileName(i, songs[i].url, now)]) else None
  }

  /** With the first of two saves failing, the route as written reports the second song's file as
      the first song's path and none for the second; the intended pairing reports it for the second. */
  lemma SavedPathShiftsAfterFailure(u: string, v: string, dir: seq<string>, now: Clock.DateTime)
    requires Clock.Valid(now)
    ensures var songs := [Song(u, None, NoDuration), Song(v, None, NoDuration)];
      && SavedPathAsWritten(songs, [false, true], dir, now, 0) == Some(dir + [SongFileName(1, v, now)])
      && SavedPathAsWritten(songs, [false, true], dir, now, 1) == None
      && SavedPathOf(songs, [false, true], dir, now, 0) == None
      && SavedPathOf(songs, [false, true], dir, now, 1) == Some(dir + [SongFileName(1, v, now)])
  {
    var songs := [Song(u, None, NoDuration), Song(v, None, NoDuration)];
    assert SavedPaths(songs, [false, true], dir, now, 2) == [];
    assert SavedPaths(songs, [false, true], dir, now, 1) == [dir + [SongFileName(1, v, now)]];
  }

  /** The path of every song from `from` on, whether or not it was saved. */
  function EveryPath(songs: seq<Song>, dir: seq<string>, now: Clock.DateTime, from: nat): (r: seq<seq<string>>)
    requires Clock.Valid(now) && from <= |songs|
    ensures |r| == |songs| - from
    decreases |songs| - from
  {
    if from == |songs| then [] else [dir + [SongFileName(from, songs[from].url, now)]] + EveryPath(songs, dir, now, from + 1)
  }

  /** Past the first entry, `EveryPath` continues with the paths of the later songs. */
  lemma EveryPathTail(songs: seq<Song>, dir: seq<string>, now: Clock.DateTime, from: nat, i: nat)
    requires Clock.Valid(now) && from < |songs| && 0 < i < |songs| - from
    ensures EveryPath(songs, dir, now, from)[i] == EveryPath(songs, dir, now, from + 1)[i - 1]
  {
  }

  /** The `i`-th entry of `EveryPath` belongs to song `from + i`. */
  lemma {:induction false} EveryPathAt(songs: seq<Song>, dir: seq<string>, now: Clock.DateTime, from: nat, i: nat)
    requires Clock.Valid(now) && from + i < |songs|
    ensures EveryPath(songs, dir, now, from)[i] == dir + [SongFileName(from + i, songs[from + i].url, now)]
    decreases i
  {
    if i > 0 {
      EveryPathTail(songs, dir, now, from, i);
      EveryPathAt(songs, dir, now, from + 1, i - 1);
      var k := from + i;
      assert from + 1 + (i - 1) == k;
    }
  }

  /** With every save successful, the saved paths are every song's path. */
  lemma {:induction false} AllSavedIsEveryPath(songs: seq<Song>, saved: seq<bool>, dir: seq<string>, now: Clock.DateTime, from: nat)
    requires Clock.Valid(now) && |saved| == |songs| && from <= |songs|
    requires forall k :: 0 <= k < |saved| ==> saved[k]
    ensures SavedPaths(songs, saved, dir, now, from) == EveryPath(songs, dir, now, from)
    decreases |songs| - from
  {
    if from < |songs| {
      AllSavedIsEveryPath(songs, saved, dir, now, from + 1);
    }
  }

  /** When every save succeeds the two pairings agree: the route as written gives each song its own path. */
  lemma SavedPathsAlignWhenAllSaved(songs: seq<Song>, saved: seq<bool>, dir: seq<string>, now: Clock.DateTime)
    requires Clock.Valid(now) && |saved| == |songs|
    requires forall k :: 0 <= k < |saved| ==> saved[k]
    ensures forall k :: 0 <= k < |songs| ==>
      SavedPathAsWritten(songs, saved, dir, now, k) == SavedPathOf(songs, saved, dir, now, k)
  {
    AllSavedIsEveryPath(songs, saved, dir, now, 0);
    forall k | 0 <= k < |songs|
      ensures SavedPathAsWritten(songs, saved, dir, now, k) == SavedPathOf(songs, saved, dir, now, k)
    {
      EveryPathAt(songs, dir, now, 0, k);
    }
  }

  /** `status === 'failed' || 'error' || 'cancelled'` */
  predicate IsFailedStatus(s: string) { s == "failed" || s == "error" || s == "cancelled" }

  /** `GET /api/mureka-song`; `upstream` is the query call's outcome, `saved[i]` whether song `i`
      was downloaded and written, `now` the saving time. */
  function QuerySong(q: Query, apiKey: string, upstream: Upstream<QueryData>, saved: seq<bool>, now: Clock.DateTime): (r: QueryResponse)
    requires Clock.Valid(now)
    requires upstream.Ok? ==> |saved| == |UsableSongs(RawSongs(upstream.data.lists))|
    ensures !Truthy(q.taskId) ==> r == QueryFailed(400, MissingTask)
    ensures Truthy(q.taskId) && apiKey == "" ==> r == QueryFailed(400, MissingKeyGet)
    ensures Truthy(q.taskId) && apiKey != "" && upstream.NotOk? ==>
      r == QueryFailed(upstream.status, "查询失败 (" + NatToString(upstream.status) + "): " + upstream.text)
    ensures r.Done? ==> upstream.Ok? && |r.songs| == |UsableSongs(RawSongs(upstream.data.lists))| > 0 && forall i :: 0 <= i < |r.songs| ==> (r.songs[i].url != ""
      && r.songs[i].savedPath == SavedPathOf(UsableSongs(RawSongs(upstream.data.lists)), saved, MusicDir(q, now), now, i))
  {
    if !Truthy(q.taskId) then QueryFailed(400, MissingTask)
    else if apiKey == "" then QueryFailed(400, MissingKeyGet)
    else match upstream
      case Threw(m) => QueryFailed(500, m)
      case NotOk(s, t) => QueryFailed(s, "查询失败 (" + NatToString(s) + "): " + t)
      case Ok(d) =>
        var songs := UsableSongs(RawSongs(d.lists));
        var status := OrElse(d.status, "unknown");
        if |songs| > 0 then
          var dir := MusicDir(q, now);
          Done(seq(|songs|, i requires 0 <= i < |songs| =>
            QueriedSong(songs[i].url, OrElse(songs[i].title, DefaultTitle(i)), songs[i].duration, SavedPathOf(songs, saved, dir, now, i))))
        else
          var message := if Truthy(d.message) then d.message else if Truthy(d.error) then d.error else None;
          if IsFailedStatus(status) then Failed(message) else Pending(message)
  }

  /** The status mapping: completed iff some song has a URL; otherwise failed iff the upstream status
      says so, and pending for anything else, including `succeeded` with no usable song. */
  lemma QueryStatusMapping(q: Query, apiKey: string, d: QueryData, saved: seq<bool>, now: Clock.DateTime)
    requires Clock.Valid(now) && Truthy(q.taskId) && apiKey != ""
    requires |saved| == |UsableSongs(RawSongs(d.lists))|
    ensures var r := QuerySong(q, apiKey, Ok(d), saved, now);
      && (r.Done? <==> exists i :: 0 <= i < |RawSongs(d.lists)| && FirstUrl(RawSongs(d.lists)[i]).Some?)
      && (r.Failed? <==> !r.Done? && Truthy(d.status) && IsFailedStatus(d.status.value))
      && (r.Pending? <==> !r.Done? && !(Truthy(d.status) && IsFailedStatus(d.status.value)))
  {
    var raw := RawSongs(d.lists);
    if |UsableSongs(raw)| == 0 {
      assert forall i :: 0 <= i < |raw| ==> FirstUrl(raw[i]).None?;
    }
  }
}

=== FILE: prompt_files.dfy ===
/**
 * The music-prompt files of step 1: `POST /api/generate-prompt` and
 * `POST /api/regenerate-prompt`. Both ask the text model for a JSON object,
 * strip a Markdown code fence from the reply, and store the result as a CSV
 * file named `<id>_<keyword>_<YYYYMMDD>_<HHMM>_V<nn>.csv`, where the version
 * is one more than the largest version already on disk for the same id,
 * keyword and date. The model's reply, `JSON.parse`, the directory listing
 * and the clock are inputs.
 */
module PromptFiles {
  import opened Wrappers
  import opened JsText
  import Clock
  import Prompts
  import AppStore

  // ---------------------------------------------------------------------------
  // Markdown code fences around the model's JSON
  // ---------------------------------------------------------------------------

  const JsonFenceOpen: string := "```json\n"
  const FenceOpen: string := "```\n"
  const FenceClose: string := "\n```"

  /** `s.replace(/^p/, '')` for a literal `p`. */
  function DropPrefix(s: string, p: string): (r: string)
    ensures |r| <= |s|
    ensures StartsWith(s, p) ==> p + r == s
    ensures !StartsWith(s, p) ==> r == s
  {
    if StartsWith(s, p) then s[|p|..] else s
  }

  /** `s.replace(/p$/, '')` for a literal `p`. */
  function DropSuffix(s: string, p: string): (r: string)
    ensures |r| <= |s|
    ensures EndsWith(s, p) ==> r + p == s
    ensures !EndsWith(s, p) ==> r == s
  {
    if EndsWith(s, p) then s[..|s| - |p|] else s
  }

  /** The trimmed reply with a leading "```json" or "```" line and a trailing "```" line removed. */
  function StripFence(text: string): (r: string)
    ensures |r| <= |Trim(text)|
    ensures !StartsWith(Trim(text), "```") ==> r == Trim(text)
  {
    var t := Trim(text);
    if StartsWith(t, "```json") then DropSuffix(DropPrefix(t, JsonFenceOpen), FenceClose)
    else if StartsWith(t, "```") then DropSuffix(DropPrefix(t, FenceOpen), FenceClose)
    else t
  }

  /** Whatever the model fences, with or without the `json` tag, comes back exactly. */
  lemma StripFenceRoundTrip(body: string)
    ensures StripFence(JsonFenceOpen + body + FenceClose) == body
    ensures StripFence(FenceOpen + body + FenceClose) == body
  {
    var a := JsonFenceOpen + body + FenceClose;
    TrimOfUnpadded(a);
    assert a[..|JsonFenceOpen|] == JsonFenceOpen;
    assert a[..7] == "```json";
    assert a[|JsonFenceOpen|..] == body + FenceClose;
    assert (body + FenceClose)[|body|..] == FenceClose;
    var b := FenceOpen + body + FenceClose;
    TrimOfUnpadded(b);
    assert b[..|FenceOpen|] == FenceOpen;
    assert b[3] == '\n';
    assert !StartsWith(b, "```json");
    assert b[|FenceOpen|..] == body + FenceClose;
  }

  // ---------------------------------------------------------------------------
  // The pieces of the file name
  // ---------------------------------------------------------------------------

  /** The characters the keyword keeps: ASCII letters and digits and the CJK block U+4E00..U+9FA5. */
  predicate IsSafeKeywordChar(c: char) {
    IsAsciiLetter(c) || IsDigit(c) || ('\U{4E00}' <= c <= '\U{9FA5}')
  }

  predicate AllSafe(s: string) { forall i :: 0 <= i < |s| ==> IsSafeKeywordChar(s[i]) }

  /** `s.replace(/[^a-zA-Z0-9一-龥]/g, '')` */
  function KeepSafe(s: string): (r: string)
    ensures |r| <= |s| && AllSafe(r)
    ensures r == "" <==> forall i :: 0 <= i < |s| ==> !IsSafeKeywordChar(s[i])
  {
    if |s| == 0 then ""
    else
      var rest := KeepSafe(s[1..]);
      assert forall i :: 1 <= i < |s| ==> s[i] == s[1..][i - 1];
      if IsSafeKeywordChar(s[0]) then [s[0]] + rest else rest
  }

  /** Text made of safe characters only passes through unchanged. */
  lemma {:induction false} KeepSafeOfSafe(s: string)
    requires AllSafe(s)
    ensures KeepSafe(s) == s
  {
    if |s| > 0 {
      KeepSafeOfSafe(s[1..]);
      assert [s[0]] + s[1..] == s;
    }
  }

  /** `keywords.slice(0, 15)` with every unsafe character deleted. */
  function SafeKeyword(keywords: string): (r: string)
    ensures |r| <= 15 && AllSafe(r)
    ensures forall i :: 0 <= i < |r| ==> r[i] != '_' && !IsLineTerminator(r[i])
    ensures r == "" <==> forall i :: 0 <= i < |Take(keywords, 15)| ==> !IsSafeKeywordChar(keywords[i])
  {
    KeepSafe(Take(keywords, 15))
  }

  /** Cleaning a keyword twice changes nothing more. */
  lemma SafeKeywordIdempotent(keywords: string)
    ensures SafeKeyword(SafeKeyword(keywords)) == SafeKeyword(keywords)
  {
    KeepSafeOfSafe(SafeKeyword(keywords));
  }

  /** `String(keywordId).padStart(3, '0')`; the id is given as the text `String` makes of it. */
  function PaddedId(id: string): (r: string)
    ensures |r| >= 3 && EndsWith(r, id)
    ensures AllDigits(id) ==> AllDigits(r)
  {
    PadStart(id, 3, '0')
  }

  /** `toTimeString().slice(0, 5).replace(':', '')`: local hours and minutes, `HHMM`. */
  function TimeOfDay(local: Clock.DateTime): (r: string)
    requires Clock.Valid(local)
    ensures |r| == 4 && AllDigits(r)
    ensures DigitsValue(r[..2]) == local.hour && DigitsValue(r[2..]) == local.minute
  {
    var h := Clock.Fixed(local.hour, 2);
    var m := Clock.Fixed(local.minute, 2);
    Clock.FixedValue(local.hour, 2);
    Clock.FixedValue(local.minute, 2);
    assert (h + m)[..2] == h && (h + m)[2..] == m;
    h + m
  }

  /** The digits of `V${String(n).padStart(2, '0')}`; they read back as the number they render. */
  function VersionDigits(n: nat): (r: string)
    ensures |r| >= 2 && AllDigits(r)
    ensures DigitsValue(r) == n
  {
    var s := NatToString(n);
    var r := PadStart(s, 2, '0');
    PaddedDigitsValue(r, s, n);
    r
  }

  /** Leading zeros do not change the value of the decimal rendering of `n`. */
  lemma PaddedDigitsValue(r: string, s: string, n: nat)
    requires s == NatToString(n) && r == PadStart(s, 2, '0')
    ensures AllDigits(r) && DigitsValue(r) == n
  {
    assert r == r[..|r| - |s|] + s;
    Clock.LeadingZerosValue(r[..|r| - |s|], s);
    DigitsValueOfNatToString(n);
  }

  // ---------------------------------------------------------------------------
  // Versioned file names
  // ---------------------------------------------------------------------------

  /** The five fields of `<id>_<keyword>_<date>_<time>_V<version>.csv`. */
  datatype NameParts = NameParts(id: string, keyword: string, date: string, time: string, version: string)

  /** The part the version search matches literally: `<id>_<keyword>_<date>`. */
  function VersionHead(p: NameParts): string {
    p.id + "_" + p.keyword + "_" + p.date
  }

  function VersionedName(p: NameParts): string {
    VersionHead(p) + "_" + p.time + "_V" + p.version + ".csv"
  }

  /** The shape `^(\d+)_(.*)_(\d{8})_(\d{4})_V(\d+)\.csv$` gives each field. */
  predicate WellFormedParts(p: NameParts) {
    && p.id != "" && AllDigits(p.id)
    && NoLineTerminator(p.keyword)
    && |p.date| == 8 && AllDigits(p.date)
    && |p.time| == 4 && AllDigits(p.time)
    && p.version != "" && AllDigits(p.version)
  }

  /** `file.match(^<head>_\d{4}_V(\d+)\.csv$)`, read as a number; the head is matched literally. */
  function VersionOf(file: string, head: string): (r: Option<nat>)
    ensures r.Some? ==> StartsWith(file, head + "_") && EndsWith(file, ".csv")
  {
    var pre := head + "_";
    if StartsWith(file, pre) && EndsWith(file, ".csv") && |file| >= |pre| + 11 then
      var mid := file[|pre|..|file| - 4];
      if AllDigits(mid[..4]) && mid[4] == '_' && mid[5] == 'V' && AllDigits(mid[6..])
      then Some(DigitsValue(mid[6..]))
      else None
    else None
  }

  /** A versioned name matches the search for its own head, with its own version. */
  lemma OwnVersionMatches(p: NameParts)
    requires |p.time| == 4 && AllDigits(p.time) && p.version != "" && AllDigits(p.version)
    ensures VersionOf(VersionedName(p), VersionHead(p)) == Some(DigitsValue(p.version))
  {
    var f := VersionedName(p);
    var pre := VersionHead(p) + "_";
    var mid := p.time + "_V" + p.version;
    assert f == pre + mid + ".csv";
    assert f[..|pre|] == pre;
    assert f[|f| - 4..] == ".csv";
    assert f[|pre|..|f| - 4] == mid;
    assert mid[..4] == p.time;
    assert mid[6..] == p.version;
  }

  /** The loop over the directory listing: the largest matching version, starting from `start`. */
  function MaxVersion(files: seq<string>, head: string, start: nat): (m: nat)
    ensures m >= start
    ensures forall i :: 0 <= i < |files| && VersionOf(files[i], head).Some? ==> VersionOf(files[i], head).value <= m
    ensures m == start || exists i :: 0 <= i < |files| && VersionOf(files[i], head) == Some(m)
    decreases |files|
  {
    if |files| == 0 then start
    else
      var v := VersionOf(files[0], head);
      var s := if v.Some? && v.value > start then v.value else start;
      var m := MaxVersion(files[1..], head, s);
      assert forall i :: 1 <= i < |files| ==> files[i] == files[1..][i - 1];
      assert m != s ==> exists i :: 0 <= i < |files| && VersionOf(files[i], head) == Some(m) by {
        if m != s {
          var j :| 0 <= j < |files[1..]| && VersionOf(files[1..][j], head) == Some(m);
          assert files[j + 1] == files[1..][j];
        }
      }
      m
  }

  /** `n` is above the version of every file on disk that matches the head. */
  predicate AboveAll(files: seq<string>, head: string, n: nat) {
    forall i :: 0 <= i < |files| && VersionOf(files[i], head).Some? ==> VersionOf(files[i], head).value < n
  }

  /** The version the next file gets is above the start and above every version already on disk. */
  lemma NextVersionIsFresh(files: seq<string>, head: string, start: nat)
    ensures MaxVersion(files, head, start) + 1 > start
    ensures AboveAll(files, head, MaxVersion(files, head, start) + 1)
  {
  }

  /** The same, for the version as written in the new name and read back. */
  lemma NextVersionDigitsFresh(files: seq<string>, head: string, start: nat)
    ensures DigitsValue(VersionDigits(MaxVersion(files, head, start) + 1)) > start
    ensures AboveAll(files, head, DigitsValue(VersionDigits(MaxVersion(files, head, start) + 1)))
  {
    NextVersionIsFresh(files, head, start);
  }

  // ---------------------------------------------------------------------------
  // Reading a versioned name back
  // ---------------------------------------------------------------------------

  /** The length of the run of digits at the end of `s`. */
  function TrailingDigits(s: string): (n: nat)
    ensures n <= |s| && AllDigits(s[|s| - n..])
    ensures n < |s| ==> !IsDigit(s[|s| - n - 1])
  {
    if |s| > 0 && IsDigit(s[|s| - 1]) then
      var t := s[..|s| - 1];
      var n := TrailingDigits(t);
      assert s[|s| - (n + 1)..] == t[|t| - n..] + [s[|s| - 1]];
      AllDigitsAppend(t[|t| - n..], [s[|s| - 1]]);
      n + 1
    else 0
  }

  lemma AllDigitsAppend(a: string, b: string)
    requires AllDigits(a) && AllDigits(b)
    ensures AllDigits(a + b)
  {
  }

  /** The length of the run of digits at the start of `s`. */
  function LeadingDigits(s: string): (n: nat)
    ensures n <= |s| && AllDigits(s[..n])
    ensures n < |s| ==> !IsDigit(s[n])
  {
    if |s| > 0 && IsDigit(s[0]) then
      var n := LeadingDigits(s[1..]);
      assert s[..n + 1] == [s[0]] + s[1..][..n];
      n + 1
    else 0
  }

  lemma TrailingDigitsOf(x: string, ds: string)
    requires |x| > 0 && !IsDigit(x[|x| - 1]) && AllDigits(ds)
    ensures TrailingDigits(x + ds) == |ds|
  {
    var s := x + ds;
    var n := TrailingDigits(s);
    assert s[|s| - |ds| - 1] == x[|x| - 1];
  }

  lemma LeadingDigitsOf(ds: string, y: string)
    requires AllDigits(ds) && |y| > 0 && !IsDigit(y[0])
    ensures LeadingDigits(ds + y) == |ds|
  {
    var s := ds + y;
    var n := LeadingDigits(s);
    assert s[|ds|] == y[0];
  }

  /** The fixed right-hand part `_(\d{8})_(\d{4})_V(\d+)\.csv`, and what precedes it. */
  datatype Tail = Tail(stem: string, date: string, time: string, version: string)

  /** The sixteen characters `_<8 digits>_<4 digits>_V` between the keyword and the version digits. */
  predicate IsTailMark(m: string) {
    |m| == 16 && m[0] == '_' && AllDigits(m[1..9]) && m[9] == '_' && AllDigits(m[10..14]) && m[14] == '_' && m[15] == 'V'
  }

  lemma TailMarkParts(m: string)
    requires IsTailMark(m)
    ensures m == "_" + m[1..9] + "_" + m[10..14] + "_V"
  {
    assert m == m[..1] + m[1..9] + m[9..10] + m[10..14] + m[14..];
  }

  lemma TailMarkOf(date: string, time: string)
    requires |date| == 8 && AllDigits(date) && |time| == 4 && AllDigits(time)
    ensures var m := "_" + date + "_" + time + "_V";
      IsTailMark(m) && m[1..9] == date && m[10..14] == time
  {
  }

  /** The right-hand part is found from the end: the version is the digit run before ".csv". */
  function ParseTail(f: string): (r: Option<Tail>)
    ensures r.Some? ==> |r.value.date| == 8 && AllDigits(r.value.date) && |r.value.time| == 4 && AllDigits(r.value.time)
    ensures r.Some? ==> r.value.version != "" && AllDigits(r.value.version)
    ensures r.Some? ==> f == r.value.stem + ("_" + r.value.date + "_" + r.value.time + "_V") + r.value.version + ".csv"
  {
    if !EndsWith(f, ".csv") then None
    else
      var b := f[..|f| - 4];
      var v := TrailingDigits(b);
      var k := |b| - v;
      if v == 0 || k < 16 then None
      else
        var x := b[..k];
        var m := x[k - 16..];
        if IsTailMark(m) then
          var t := Tail(x[..k - 16], m[1..9], m[10..14], b[k..]);
          assert x == t.stem + m;
          assert b == x + t.version;
          assert f == b + ".csv";
          TailMarkParts(m);
          Some(t)
        else None
  }

  /** Building a name and reading its right-hand part back. */
  lemma ParseTailOf(stem: string, date: string, time: string, version: string)
    requires |date| == 8 && AllDigits(date) && |time| == 4 && AllDigits(time) && version != "" && AllDigits(version)
    ensures ParseTail(stem + ("_" + date + "_" + time + "_V") + version + ".csv") == Some(Tail(stem, date, time, version))
  {
    var m := "_" + date + "_" + time + "_V";
    var x := stem + m;
    var b := x + version;
    var f := b + ".csv";
    assert f[..|f| - 4] == b;
    TrailingDigitsOf(x, version);
    var k := |x|;
    assert b[..k] == x && b[k..] == version;
    assert x[k - 16..] == m && x[..k - 16] == stem;
    TailMarkOf(date, time);
  }

  /** `(\d+)_(rest)` at the start of the stem: the id is the whole leading digit run. */
  function SplitId(stem: string): (r: Option<(string, string)>)
    ensures r.Some? ==> r.value.0 != "" && AllDigits(r.value.0) && stem == r.value.0 + "_" + r.value.1
  {
    var d := LeadingDigits(stem);
    if d == 0 || d >= |stem| || stem[d] != '_' then None
    else
      assert stem == stem[..d] + "_" + stem[d + 1..];
      Some((stem[..d], stem[d + 1..]))
  }


  /** The name reader with an empty keyword allowed: `^(\d+)_(.*)_(\d{8})_(\d{4})_V(\d+)\.csv$`. */
  function ParseName(f: string): (r: Option<NameParts>)
    ensures r.Some? ==> WellFormedParts(r.value) && VersionedName(r.value) == f
  {
    match ParseTail(f)
    case None => None
    case Some(t) =>
      match SplitId(t.stem)
      case None => None
      case Some(h) =>
        if NoLineTerminator(h.1) then Some(NameParts(h.0, h.1, t.date, t.time, t.version)) else None
  }

  /** Every well-formed name reads back as the fields it was built from. */
  lemma ParseNameRoundTrip(p: NameParts)
    requires WellFormedParts(p)
    ensures ParseName(VersionedName(p)) == Some(p)
  {
    var stem := p.id + "_" + p.keyword;
    assert VersionedName(p) == stem + ("_" + p.date + "_" + p.time + "_V") + p.version + ".csv";
    ParseTailOf(stem, p.date, p.time, p.version);
    SplitIdOf(p.id, p.keyword);
  }

  lemma SplitIdOf(id: string, keyword: string)
    requires id != "" && AllDigits(id)
    ensures SplitId(id + "_" + keyword) == Some((id, keyword))
  {
    var stem := id + "_" + keyword;
    LeadingDigitsOf(id, "_" + keyword);
    assert stem == id + ("_" + keyword);
    assert stem[..|id|] == id && stem[|id| + 1..] == keyword;
  }

  /** The reader exactly as the routes write it: `(.+)` demands a non-empty keyword. */
  function ParseNameAsWritten(f: string): (r: Option<NameParts>)
    ensures r.Some? ==> r.value.keyword != "" && WellFormedParts(r.value) && VersionedName(r.value) == f
    ensures r.None? && ParseName(f).Some? ==> ParseName(f).value.keyword == ""
  {
    match ParseName(f)
    case None => None
    case Some(p) => if p.keyword != "" then Some(p) else None
  }

  /** A keyword of kana only, the common case for Japanese keywords, is cleaned away entirely. */
  lemma KanaKeywordIsDropped()
    ensures SafeKeyword("ラブ") == ""
  {
    assert Take("ラブ", 15) == "ラブ";
    assert !IsSafeKeywordChar("ラブ"[0]) && !IsSafeKeywordChar("ラブ"[1]);
  }

  /** A name built around that keyword, whatever its other fields, is one the as-written reader
      rejects, while the corrected reader gives back its fields. */
  lemma KanaKeywordNameUnreadable(id: string, date: string, time: string, version: string)
    requires id != "" && AllDigits(id) && |date| == 8 && AllDigits(date) && |time| == 4 && AllDigits(time)
    requires version != "" && AllDigits(version)
    ensures var p := NameParts(id, SafeKeyword("ラブ"), date, time, version);
      && ParseNameAsWritten(VersionedName(p)) == None
      && ParseName(VersionedName(p)) == Some(p)
  {
    KanaKeywordIsDropped();
    var p := NameParts(id, "", date, time, version);
    EmptyKeywordRejectedAsWritten(p);
    ParseNameRoundTrip(p);
  }

  /** In general: every well-formed name with an empty keyword is rejected as written. */
  lemma EmptyKeywordRejectedAsWritten(p: NameParts)
    requires WellFormedParts(p) && p.keyword == ""
    ensures ParseNameAsWritten(VersionedName(p)) == None
  {
    ParseNameRoundTrip(p);
  }

  // ---------------------------------------------------------------------------
  // The CSV file
  // ---------------------------------------------------------------------------

  /** `str.replace(/"/g, '""')` */
  function DoubleQuotes(s: string): (r: string)
    ensures |r| >= |s|
  {
    if |s| == 0 then ""
    else (if s[0] == '"' then "\"\"" else [s[0]]) + DoubleQuotes(s[1..])
  }

  /** `escapeCsv`: the text in double quotes, inner quotes doubled. */
  function EscapeCsv(s: string): string {
    "\"" + DoubleQuotes(s) + "\""
  }

  /** Reads a quoted field after its opening quote: up to the lone closing quote, with `""` read as `"`.
      Gives the field and the text after the closing quote. */
  function ReadQuoted(t: string): Option<(string, string)>
    decreases |t|
  {
    if |t| == 0 then None
    else if t[0] == '"' then
      if |t| >= 2 && t[1] == '"' then
        match ReadQuoted(t[2..])
        case None => None
        case Some(q) => Some(("\"" + q.0, q.1))
      else Some(("", t[1..]))
    else
      match ReadQuoted(t[1..])
      case None => None
      case Some(q) => Some(([t[0]] + q.0, q.1))
  }

  /** An escaped field reads back, as long as what follows it does not start with a quote. */
  lemma {:induction false} ReadQuotedOfEscaped(x: string, rest: string)
    requires rest == "" || rest[0] != '"'
    ensures ReadQuoted(DoubleQuotes(x) + "\"" + rest) == Some((x, rest))
  {
    var t := DoubleQuotes(x) + "\"" + rest;
    if |x| == 0 {
      assert t == "\"" + rest;
    } else {
      ReadQuotedOfEscaped(x[1..], rest);
      if x[0] == '"' {
        assert t[2..] == DoubleQuotes(x[1..]) + "\"" + rest;
        assert "\"" + x[1..] == x;
      } else {
        assert t[1..] == DoubleQuotes(x[1..]) + "\"" + rest;
        assert [x[0]] + x[1..] == x;
      }
    }
  }

  const CsvHeader: string := "字段,原文,中文翻译"

  /** The three-line CSV file: a header, then the style prompt row and the lyrics row, each with its
      original and its Chinese translation. */
  function CsvContent(d: AppStore.PromptData): string {
    Field(CsvHeader + "\nstylePrompt,", d.stylePrompt,
      Field(",", d.stylePromptCN,
        Field("\nlyrics,", d.lyrics,
          Field(",", d.lyricsCN, ""))))
  }

  /** One escaped field after its lead (a separator or the row start), followed by the rest of the file. */
  function Field(lead: string, x: string, rest: string): (r: string)
    ensures |lead| > 0 ==> |r| > 0 && r[0] == lead[0]
  {
    lead + EscapeCsv(x) + rest
  }

  /** Reads a literal prefix. */
  function Expect(s: string, p: string): (r: Option<string>)
    ensures r.Some? <==> StartsWith(s, p)
    ensures r.Some? ==> s == p + r.value
  {
    if StartsWith(s, p) then Some(s[|p|..]) else None
  }

  /** Reads `,"field"` or a literal prefix followed by `"field"`. */
  function ReadField(s: string, lead: string): Option<(string, string)> {
    match Expect(s, lead + "\"")
    case None => None
    case Some(t) => ReadQuoted(t)
  }

  /** The CSV reader for the file the routes write. */
  function ParseCsv(s: string): Option<AppStore.PromptData> {
    match ReadField(s, CsvHeader + "\nstylePrompt,")
    case None => None
    case Some(a) =>
      match ReadField(a.1, ",")
      case None => None
      case Some(b) =>
        match ReadField(b.1, "\nlyrics,")
        case None => None
        case Some(c) =>
          match ReadField(c.1, ",")
          case None => None
          case Some(e) => if e.1 == "" then Some(AppStore.PromptData(a.0, b.0, c.0, e.0)) else None
  }

  lemma ReadFieldOfEscaped(lead: string, x: string, rest: string)
    requires rest == "" || rest[0] != '"'
    ensures ReadField(Field(lead, x, rest), lead) == Some((x, rest))
  {
    var s := Field(lead, x, rest);
    assert s == (lead + "\"") + (DoubleQuotes(x) + "\"" + rest);
    assert s[..|lead + "\""|] == lead + "\"";
    ReadQuotedOfEscaped(x, rest);
  }

  /** The file the routes write reads back as the four texts, whatever quotes or newlines they hold. */
  lemma CsvRoundTrip(d: AppStore.PromptData)
    ensures ParseCsv(CsvContent(d)) == Some(d)
  {
    var r3 := Field(",", d.lyricsCN, "");
    var r2 := Field("\nlyrics,", d.lyrics, r3);
    var r1 := Field(",", d.stylePromptCN, r2);
    ReadFieldOfEscaped(CsvHeader + "\nstylePrompt,", d.stylePrompt, r1);
    ReadFieldOfEscaped(",", d.stylePromptCN, r2);
    ReadFieldOfEscaped("\nlyrics,", d.lyrics, r3);
    ReadFieldOfEscaped(",", d.lyricsCN, "");
  }

  // ---------------------------------------------------------------------------
  // The model's reply
  // ---------------------------------------------------------------------------

  /** The four fields of the parsed reply; `None` is a missing or non-string field. */
  datatype AiPrompt = AiPrompt(stylePrompt: Option<string>, stylePromptCN: Option<string>,
                               lyrics: Option<string>, lyricsCN: Option<string>)

  /** The reply as the routes accept it: it arrived (`reply`), parses after the fence is stripped
      (`parse`), has a non-empty style prompt and lyrics, and has string translations (escaping a
      missing one throws). */
  function Accepted(reply: Option<string>, parse: string -> Option<AiPrompt>): (r: Option<AppStore.PromptData>)
    ensures r.Some? ==> reply.Some? && r.value.stylePrompt != "" && r.value.lyrics != ""
    ensures r.Some? ==> parse(StripFence(reply.value)) == Some(AiPrompt(Some(r.value.stylePrompt),
      Some(r.value.stylePromptCN), Some(r.value.lyrics), Some(r.value.lyricsCN)))
    ensures reply.Some? && parse(StripFence(reply.value)).Some? && r.None? ==>
      var a := parse(StripFence(reply.value)).value;
      !Truthy(a.stylePrompt) || !Truthy(a.lyrics) || a.stylePromptCN.None? || a.lyricsCN.None?
  {
    if reply.None? then None
    else
      match parse(StripFence(reply.value))
      case None => None
      case Some(a) =>
        if Truthy(a.stylePrompt) && Truthy(a.lyrics) && a.stylePromptCN.Some? && a.lyricsCN.Some?
        then Some(AppStore.PromptData(a.stylePrompt.value, a.stylePromptCN.value, a.lyrics.value, a.lyricsCN.value))
        else None
  }

  // ---------------------------------------------------------------------------
  // The routes
  // ---------------------------------------------------------------------------

  datatype PromptOutcome =
    | Created(filename: string, version: string, data: AppStore.PromptData, createdAt: string, csv: string)
    | Failed(status: nat, error: string)

  /** The response, and the prompt sent to the model when the route got that far. */
  datatype PromptReply = PromptReply(outcome: PromptOutcome, sent: Option<string>)

  const MissingFields: string := "Missing required fields"
  const MissingKey: string := "API Key not configured"
  const GenerateFailure: string := "Failed to generate prompt"
  const RegenerateFailure: string := "Failed to regenerate prompt"

  /** The name, version and file written for accepted data. */
  function Saved(parts: NameParts, data: AppStore.PromptData, utc: Clock.DateTime): PromptOutcome
    requires Clock.Valid(utc)
  {
    Created(VersionedName(parts), "V" + parts.version, data, Clock.IsoString(utc), CsvContent(data))
  }

  /** The request body of `generate-prompt`; `keywordId` is the text `String(keywordId)` gives. */
  datatype GenerateBody = GenerateBody(keywords: Option<string>, keywordId: string, context: Option<string>,
                                       fullContext: Option<string>)

  /** The name fields a new prompt file gets. */
  function GeneratedParts(b: GenerateBody, files: seq<string>, utc: Clock.DateTime, local: Clock.DateTime): NameParts
    requires Clock.Valid(utc) && Clock.Valid(local) && b.keywords.Some?
  {
    var head := PaddedId(b.keywordId) + "_" + SafeKeyword(b.keywords.value) + "_" + Clock.DateStamp(utc);
    NameParts(PaddedId(b.keywordId), SafeKeyword(b.keywords.value), Clock.DateStamp(utc), TimeOfDay(local),
              VersionDigits(MaxVersion(files, head, 0) + 1))
  }

  /** `POST /api/generate-prompt`. `body == None` is a body that is not JSON; `prompts` is the stored
      prompt configuration; `reply` is the model's text (`None` when the call throws); `written` says
      that `mkdir` and both `writeFile` calls went through (any of them throwing is the route's 500). */
  function GeneratePrompt(body: Option<GenerateBody>, apiKey: string, prompts: Option<Prompts.StoredPrompts>,
                          reply: Option<string>, parse: string -> Option<AiPrompt>, files: seq<string>,
                          written: bool, utc: Clock.DateTime, local: Clock.DateTime): (r: PromptReply)
    requires Clock.Valid(utc) && Clock.Valid(local)
    ensures body.None? ==> r == PromptReply(Failed(500, GenerateFailure), None)
    ensures body.Some? && (!Truthy(body.value.keywords) || !Truthy(body.value.context)) ==>
      r == PromptReply(Failed(400, MissingFields), None)
    ensures body.Some? && Truthy(body.value.keywords) && Truthy(body.value.context) && apiKey == "" ==>
      r == PromptReply(Failed(400, MissingKey), None)
    ensures body.Some? && Truthy(body.value.keywords) && Truthy(body.value.context) && apiKey != "" ==>
      r.sent == Some(Prompts.ApplyMusicTemplate(Prompts.GetPromptsConfig(prompts).musicPromptTemplate,
        body.value.context.value, body.value.keywords.value, body.value.fullContext.GetOr("")))
      && (r.outcome.Created? <==> Accepted(reply, parse).Some? && written)
      && (r.outcome.Failed? ==> r.outcome == Failed(500, GenerateFailure))
  {
    match body
    case None => PromptReply(Failed(500, GenerateFailure), None)
    case Some(b) =>
      if !Truthy(b.keywords) || !Truthy(b.context) then PromptReply(Failed(400, MissingFields), None)
      else if apiKey == "" then PromptReply(Failed(400, MissingKey), None)
      else
        var sent := Prompts.ApplyMusicTemplate(Prompts.GetPromptsConfig(prompts).musicPromptTemplate,
          b.context.value, b.keywords.value, b.fullContext.GetOr(""));
        match Accepted(reply, parse)
        case None => PromptReply(Failed(500, GenerateFailure), Some(sent))
        case Some(data) =>
          if !written then PromptReply(Failed(500, GenerateFailure), Some(sent))
          else PromptReply(Saved(GeneratedParts(b, files, utc, local), data, utc), Some(sent))
  }

  /** What `Saved` writes: the versioned name, `V` and the version, the ISO time stamp, and a CSV that
      reads back as the data. */
  lemma SavedFacts(parts: NameParts, data: AppStore.PromptData, utc: Clock.DateTime)
    requires Clock.Valid(utc)
    ensures var o := Saved(parts, data, utc);
      && o.filename == VersionedName(parts) && o.version == "V" + parts.version && o.data == data
      && ParseCsv(o.csv) == Some(data) && |o.createdAt| == 24
  {
    CsvRoundTrip(data);
  }

  /** The new name keeps the padded id, the cleaned keyword, the UTC date and the local time; its version
      is at least 1 and above every version on disk for that head; with a digit id it reads back field
      by field. */
  lemma GeneratedPartsFacts(b: GenerateBody, files: seq<string>, utc: Clock.DateTime, local: Clock.DateTime)
    requires Clock.Valid(utc) && Clock.Valid(local) && b.keywords.Some?
    ensures var p := GeneratedParts(b, files, utc, local);
      && p.id == PaddedId(b.keywordId) && p.keyword == SafeKeyword(b.keywords.value)
      && p.date == Clock.DateStamp(utc) && p.time == TimeOfDay(local)
      && DigitsValue(p.version) >= 1
      && AboveAll(files, VersionHead(p), DigitsValue(p.version))
      && (AllDigits(b.keywordId) ==> ParseName(VersionedName(p)) == Some(p))
  {
    var p := GeneratedParts(b, files, utc, local);
    NextVersionDigitsFresh(files, VersionHead(p), 0);
    Clock.DateStampFields(utc);
    if AllDigits(b.keywordId) {
      ParseNameRoundTrip(p);
    }
  }

  /** A created outcome is the accepted data saved under the generated name. */
  lemma GeneratedIsSaved(body: Option<GenerateBody>, apiKey: string, prompts: Option<Prompts.StoredPrompts>,
                         reply: Option<string>, parse: string -> Option<AiPrompt>, files: seq<string>,
                         written: bool, utc: Clock.DateTime, local: Clock.DateTime)
    requires Clock.Valid(utc) && Clock.Valid(local)
    requires GeneratePrompt(body, apiKey, prompts, reply, parse, files, written, utc, local).outcome.Created?
    ensures body.Some? && body.value.keywords.Some? && Accepted(reply, parse).Some? && written
    ensures GeneratePrompt(body, apiKey, prompts, reply, parse, files, written, utc, local).outcome
      == Saved(GeneratedParts(body.value, files, utc, local), Accepted(reply, parse).value, utc)
  {
  }

  /** A created file is named after the padded id, the cleaned keyword, the UTC date and the local
      time; its version is above every version on disk for that head; with a digit id its name reads
      back field by field; its CSV reads back as the accepted data. */
  lemma GeneratedFileFacts(body: Option<GenerateBody>, apiKey: string, prompts: Option<Prompts.StoredPrompts>,
                           reply: Option<string>, parse: string -> Option<AiPrompt>, files: seq<string>,
                           written: bool, utc: Clock.DateTime, local: Clock.DateTime)
    requires Clock.Valid(utc) && Clock.Valid(local)
    requires GeneratePrompt(body, apiKey, prompts, reply, parse, files, written, utc, local).outcome.Created?
    ensures body.Some? && body.value.keywords.Some?
    ensures var o := GeneratePrompt(body, apiKey, prompts, reply, parse, files, written, utc, local).outcome;
      var b := body.value;
      var p := GeneratedParts(b, files, utc, local);
      && o.filename == VersionedName(p) && o.version == "V" + p.version
      && p.id == PaddedId(b.keywordId) && p.keyword == SafeKeyword(b.keywords.value)
      && p.date == Clock.DateStamp(utc) && p.time == TimeOfDay(local)
      && AboveAll(files, VersionHead(p), DigitsValue(p.version))
      && DigitsValue(p.version) >= 1
      && (AllDigits(b.keywordId) ==> ParseName(o.filename) == Some(p))
      && ParseCsv(o.csv) == Some(o.data)
      && |o.createdAt| == 24
  {
    GeneratedIsSaved(body, apiKey, prompts, reply, parse, files, written, utc, local);
    GeneratedPartsFacts(body.value, files, utc, local);
    SavedFacts(GeneratedParts(body.value, files, utc, local), Accepted(reply, parse).value, utc);
  }

  /** `${x}` of a possibly missing field. */
  function Shown(o: Option<string>): string {
    if o.Some? then o.value else "undefined"
  }

  const RegenerationHead: string :=
    "Role: 顶级 AI 音乐监制、意象派词人。\n"
    + "Task: 根据用户反馈，修改并优化之前生成的音乐提示词。\n"
    + "\n"
    + "【之前版本的内容】\n"
    + "Style Prompt: "
  const RegenerationTail: string :=
    "\n"
    + "\n"
    + "【Engine Rules 8.1】\n"
    + "1. Vocal Spectrum: 根据情境选择 Breathy, Smoky, Velvety 等性感声线。\n"
    + "2. Style Matrix: 必须具有电影感 (Cinematic, Atmospheric)。\n"
    + "3. Poetic Logic: 意象具体 (Show, Don't Tell)，感官化 (湿润、热度、气味)。\n"
    + "4. Lyrics Engineering: \n"
    + "   - 歌词原文：日文为主（严格押韵），偶尔出现的英文也要押韵（与相邻句或段内形成押韵或音韵呼应）。\n"
    + "   - **核心词汇（Keywords）必须出现在 Chorus 段落中**，且自然融入。\n"
    + "   - **严禁**在歌词原文中包含罗马音、翻译或括号注释。\n"
    + "   - 歌词必须分段 (Intro, Verse, Chorus...)。\n"
    + "   - 尺度：Sensual & Erotic (性感、露骨但艺术)。\n"
    + "\n"
    + "请根据用户反馈进行修改，保持原有的优点，改进不足之处。\n"
    + "\n"
    + "【Output JSON Format】\n"
    + "必须输出纯 JSON 格式，不要包含 Markdown 代码块标记：\n"
    + "{\n"
    + "  \"stylePrompt\": \"英文风格提示词\",\n"
    + "  \"stylePromptCN\": \"风格提示词的中文翻译\",\n"
    + "  \"lyrics\": \"歌词原文 (保留换行)\",\n"
    + "  \"lyricsCN\": \"歌词的中文翻译 (必须与原文逐行对应，保留换行和结构标记)\"\n"
    + "}"

  /** A text framed by a head and a tail, with a piece just before the tail. */
  lemma Framed(h: string, mid: string, f: string, t: string)
    ensures var r := h + mid + f + t;
      |r| >= |h| + |f| + |t| && StartsWith(r, h) && EndsWith(r, t) && r[|r| - |t| - |f|..|r| - |t|] == f
  {
    var r := h + mid + f + t;
    assert r[..|h|] == h;
    assert r[|r| - |t|..] == t;
    assert r[|h + mid|..|h + mid| + |f|] == f;
  }

  /** The previous four texts and the heading of the feedback, as the prompt lists them. */
  function PreviousSection(previous: AiPrompt): string {
    Shown(previous.stylePrompt) + "\nStyle Prompt CN: " + Shown(previous.stylePromptCN)
      + "\nLyrics: " + Shown(previous.lyrics) + "\nLyrics CN: " + Shown(previous.lyricsCN) + "\n\n【用户反馈】\n"
  }

  /** The regeneration prompt: the previous four texts, then the feedback, then the fixed rules. */
  function RegenerationPrompt(previous: AiPrompt, feedback: string): string {
    RegenerationHead + PreviousSection(previous) + feedback + RegenerationTail
  }

  /** The regeneration prompt starts with the fixed head, ends with the fixed rules, and holds the
      feedback, unchanged, just before the rules. */
  lemma RegenerationPromptFrame(previous: AiPrompt, feedback: string)
    ensures var r := RegenerationPrompt(previous, feedback);
      && |r| >= |RegenerationHead| + |feedback| + |RegenerationTail|
      && StartsWith(r, RegenerationHead) && EndsWith(r, RegenerationTail)
      && r[|r| - |RegenerationTail| - |feedback|..|r| - |RegenerationTail|] == feedback
  {
    Framed(RegenerationHead, PreviousSection(previous), feedback, RegenerationTail);
  }

  /** The previous version as the client sends it back. */
  datatype PreviousVersion = PreviousVersion(filename: string, data: AiPrompt)

  datatype RegenerateBody = RegenerateBody(previousVersion: Option<PreviousVersion>, feedback: Option<string>)

  /** The name fields of the regenerated file: id, keyword and date carried over, time and version new. */
  function RegeneratedParts(previous: NameParts, files: seq<string>, local: Clock.DateTime): NameParts
    requires Clock.Valid(local) && AllDigits(previous.version)
  {
    NameParts(previous.id, previous.keyword, previous.date, TimeOfDay(local),
              VersionDigits(MaxVersion(files, VersionHead(previous), DigitsValue(previous.version)) + 1))
  }

  /** `POST /api/regenerate-prompt`, with the previous file name read by `ParseName`; `written` says
      that `mkdir` and both `writeFile` calls went through. */
  function RegeneratePrompt(body: Option<RegenerateBody>, apiKey: string, reply: Option<string>,
                            parse: string -> Option<AiPrompt>, files: seq<string>, written: bool,
                            utc: Clock.DateTime, local: Clock.DateTime): (r: PromptReply)
    requires Clock.Valid(utc) && Clock.Valid(local)
    ensures body.None? ==> r == PromptReply(Failed(500, RegenerateFailure), None)
    ensures body.Some? && (body.value.previousVersion.None? || !Truthy(body.value.feedback)) ==>
      r == PromptReply(Failed(400, MissingFields), None)
    ensures body.Some? && body.value.previousVersion.Some? && Truthy(body.value.feedback) ==>
      && (apiKey == "" ==> r == PromptReply(Failed(400, MissingKey), None))
      && (apiKey != "" ==> r.sent == Some(RegenerationPrompt(body.value.previousVersion.value.data, body.value.feedback.value)))
      && (apiKey != "" ==> (r.outcome.Created? <==>
            Accepted(reply, parse).Some? && written && ParseName(body.value.previousVersion.value.filename).Some?))
      && (r.outcome.Failed? && apiKey != "" ==> r.outcome == Failed(500, RegenerateFailure))
  {
    match body
    case None => PromptReply(Failed(500, RegenerateFailure), None)
    case Some(b) =>
      if b.previousVersion.None? || !Truthy(b.feedback) then PromptReply(Failed(400, MissingFields), None)
      else if apiKey == "" then PromptReply(Failed(400, MissingKey), None)
      else
        var prev := b.previousVersion.value;
        var sent := RegenerationPrompt(prev.data, b.feedback.value);
        match Accepted(reply, parse)
        case None => PromptReply(Failed(500, RegenerateFailure), Some(sent))
        case Some(data) =>
          if !written then PromptReply(Failed(500, RegenerateFailure), Some(sent))
          else
            match ParseName(prev.filename)
            case None => PromptReply(Failed(500, RegenerateFailure), Some(sent))
            case Some(p) => PromptReply(Saved(RegeneratedParts(p, files, local), data, utc), Some(sent))
  }

  /** The regenerated name is well formed and reads back as its fields. */
  lemma RegeneratedNameReadsBack(prev: NameParts, files: seq<string>, local: Clock.DateTime)
    requires Clock.Valid(local) && WellFormedParts(prev)
    ensures ParseName(VersionedName(RegeneratedParts(prev, files, local))) == Some(RegeneratedParts(prev, files, local))
  {
    var q := RegeneratedParts(prev, files, local);
    assert WellFormedParts(q);
    ParseNameRoundTrip(q);
  }

  /** The regenerated name keeps the previous id, keyword and date, takes the current local time, and
      gets a version above the previous one and above every version on disk for that head; it reads
      back as those fields. */
  lemma RegeneratedPartsFacts(prev: NameParts, files: seq<string>, local: Clock.DateTime)
    requires Clock.Valid(local) && WellFormedParts(prev)
    ensures var q := RegeneratedParts(prev, files, local);
      && ParseName(VersionedName(q)) == Some(q)
      && q.id == prev.id && q.keyword == prev.keyword && q.date == prev.date && q.time == TimeOfDay(local)
      && DigitsValue(q.version) > DigitsValue(prev.version)
      && AboveAll(files, VersionHead(prev), DigitsValue(q.version))
  {
    RegeneratedNameReadsBack(prev, files, local);
    NextVersionDigitsFresh(files, VersionHead(prev), DigitsValue(prev.version));
  }

  /** A created regeneration is the accepted data saved under the name regenerated from the previous one. */
  lemma RegeneratedIsSaved(body: Option<RegenerateBody>, apiKey: string, reply: Option<string>,
                           parse: string -> Option<AiPrompt>, files: seq<string>,
                           written: bool, utc: Clock.DateTime, local: Clock.DateTime)
    requires Clock.Valid(utc) && Clock.Valid(local)
    requires RegeneratePrompt(body, apiKey, reply, parse, files, written, utc, local).outcome.Created?
    ensures body.Some? && body.value.previousVersion.Some? && Accepted(reply, parse).Some? && written
    ensures ParseName(body.value.previousVersion.value.filename).Some?
    ensures RegeneratePrompt(body, apiKey, reply, parse, files, written, utc, local).outcome
      == Saved(RegeneratedParts(ParseName(body.value.previousVersion.value.filename).value, files, local),
               Accepted(reply, parse).value, utc)
  {
  }

  /** A regenerated file is named from the previous name's fields as above, and its CSV reads back. */
  lemma RegenerationBumpsVersion(body: Option<RegenerateBody>, apiKey: string, reply: Option<string>,
                                 parse: string -> Option<AiPrompt>, files: seq<string>,
                                 written: bool, utc: Clock.DateTime, local: Clock.DateTime)
    requires Clock.Valid(utc) && Clock.Valid(local)
    requires RegeneratePrompt(body, apiKey, reply, parse, files, written, utc, local).outcome.Created?
    ensures var o := RegeneratePrompt(body, apiKey, reply, parse, files, written, utc, local).outcome;
      var prev := ParseName(body.value.previousVersion.value.filename);
      && prev.Some?
      && var q := RegeneratedParts(prev.value, files, local);
      && o.filename == VersionedName(q) && o.version == "V" + q.version
      && ParseName(o.filename) == Some(q)
      && DigitsValue(q.version) > DigitsValue(prev.value.version)
      && AboveAll(files, VersionHead(prev.value), DigitsValue(q.version))
      && ParseCsv(o.csv) == Some(o.data)
  {
    RegeneratedIsSaved(body, apiKey, reply, parse, files, written, utc, local);
    var prev := ParseName(body.value.previousVersion.value.filename).value;
    RegeneratedPartsFacts(prev, files, local);
    SavedFacts(RegeneratedParts(prev, files, local), Accepted(reply, parse).value, utc);
  }
}

=== FILE: prompts_config.dfy ===
/**
 * The editable prompt configuration: its built-in defaults, how a stored
 * configuration is normalised on load, how a posted configuration is merged
 * with the current one, and placeholder substitution in the music template.
 */
module Prompts {
  import opened Wrappers
  import opened JsText
  import GridImageGen

  const ContextPlaceholder: string := "{{context}}"
  const KeywordsPlaceholder: string := "{{keywords}}"
  const FullContextPlaceholder: string := "{{fullContext}}"

  const DefaultMusicTemplate: string :=
    "Role: 顶级 AI 音乐监制、意象派词人。\n"
    + "Task: 根据 Context 和 Keywords，创作 Suno/Mureka 音乐提示词，并提供中文翻译。\n"
    + "\n"
    + "Context: {{context}}\n"
    + "Keywords: {{keywords}}\n"
    + "Full Context (文学性描述): {{fullContext}}\n"
    + "\n"
    + "【Engine Rules 8.1】\n"
    + "1. Vocal Spectrum: 根据情境选择 Breathy, Smoky, Velvety 等性感声线。\n"
    + "2. Style Matrix: 必须具有电影感 (Cinematic, Atmospheric)。\n"
    + "3. Poetic Logic: 意象具体 (Show, Don't Tell)，感官化 (湿润、热度、气味)。\n"
    + "4. Lyrics Engineering: \n"
    + "   - 歌词原文：日文为主，**必须押韵**；偶尔出现的英文也**必须押韵**（与相邻句或段内句尾形成押韵或音韵呼应）。\n"
    + "   - **日文押韵规则**：采用句尾单押（韵脚）。日文元音仅 a/i/u/e/o，句末音节元音相同即押韵（如 あ韵、た韵、る韵等）。每段内偶数句与偶数句、或句尾与句尾保持同一韵脚，避免呆板重复，可适当换韵。\n"
    + "   - **点缀英文**：在 Hook、副歌或句尾适当插入英文词/短语，该英文的尾音或节奏需与相邻日文句尾形成押韵或音韵呼应（如 night/光、touch/手等）。\n"
    + "   - **核心词汇（Keywords）必须出现在 Chorus 段落中**，且自然融入。\n"
    + "   - **严禁**在歌词原文中包含罗马音、翻译或括号注释。\n"
    + "   - 歌词必须分段 (Intro, Verse, Chorus...)。\n"
    + "   - 尺度：Sensual & Erotic (性感、露骨但艺术)。\n"
    + "\n"
    + "【Output JSON Format】\n"
    + "必须输出纯 JSON 格式，不要包含 Markdown 代码块标记：\n"
    + "{\n"
    + "  \"stylePrompt\": \"英文风格提示词\",\n"
    + "  \"stylePromptCN\": \"风格提示词的中文翻译\",\n"
    + "  \"lyrics\": \"歌词原文 (保留换行)\",\n"
    + "  \"lyricsCN\": \"歌词的中文翻译 (必须与原文逐行对应，保留换行和结构标记)\"\n"
    + "}"

  const DefaultGridContactSheet: string :=
    "你是一位日本人像摄影师。根据附件中的参考图，生成「一张」电影接触表图片。\n"
    + "\n"
    + "要求：这一张图必须是一幅完整的 3x3 网格图，包含 9 个画面格子（从左到右、从上到下编号 1–9）。\n"
    + "每个格子的镜头类型如下，同一人物、同一服装与照明在所有格中保持一致：\n"

  const DefaultGridCloseup: string :=
    "你是一个日本私摄影师，从师于川内伦子，或者奥山由之。善于捕捉光影、景物，女性的局部，和私密瞬间。\n"
    + "\n"
    + "分析输入图像的整体构成。识别故事中的主要角色。\n"
    + "\n"
    + "生成一个连贯的16:9比例的 3x3网格\"电影接触表\"，包含这9个独特的镜头，每个镜头都精确包含参考图中的某个静物、气氛光影、或者女性的局部。镜头之间用黑色的细线分割。\n"
    + "\n"
    + "你必须根据内容调整标准的电影镜头类型，但是选择亲密的，或者充满爱意的角度。\n"
    + "\n"
    + "第一行(建立背景):\n"
    + "1.环境空镜，这个环境中如果没有人的全景。\n"
    + "2.特写：环境中最具有美感的一个物品的特写\n"
    + "3.光影，捕捉这个环境中迷人的光影，女性可以在焦点之外。\n"
    + "\n"
    + "第二行(核心覆盖范围):\n"
    + "4.特写，环境中存在的，空气中的灰尘、影子、或者水、风\n"
    + "5.大特写，图片中女性的嘴唇的大特写，以一种亲密的角度。\n"
    + "6.特写。图片中女性的锁骨\n"
    + "\n"
    + "第三行(细节与角度):\n"
    + "7.特写镜头(ECU):女性的双眼，从旁观者的视角\n"
    + "8.低角度镜头拍摄女孩的美丽的足部、或者脚踝\n"
    + "9.女孩服装和身体之间接触的细节，或者女孩的手轻抚着画面中的某个物品。\n"
    + "\n"
    + "确保严格一致性:同一人物/物体、相同服装和照明在所有画幅中保持一致。\n"
    + "\n"
    + "所有画面均具有逼真的纹理、一致的电影色彩分级，并针对所分析的关键人物或物体进行正确的构图。"

  /** The default panel list: the same nine shot descriptions the contact-sheet generator numbers 1..9. */
  function DefaultPanels(): (r: seq<string>)
    ensures |r| == 9
    ensures forall i :: 0 <= i < 9 ==> GridImageGen.PanelDescription(i + 1) == Some(r[i])
  {
    seq(9, i requires 0 <= i < 9 => GridImageGen.PanelDescription(i + 1).value)
  }

  datatype PromptsConfig = PromptsConfig(
    musicPromptTemplate: string, gridContactSheetPrompt: string,
    gridPanelDescriptions: seq<string>, gridCloseupPrompt: string)

  /** The built-in configuration. */
  function Defaults(): (d: PromptsConfig)
    ensures HasNinePanels(d)
  {
    PromptsConfig(DefaultMusicTemplate, DefaultGridContactSheet, DefaultPanels(), DefaultGridCloseup)
  }

  predicate HasNinePanels(c: PromptsConfig) { |c.gridPanelDescriptions| == 9 }

  /** The parsed configuration file: a field that is absent or null is `None`; the panel list is
      `None` unless it is an array. */
  datatype StoredPrompts = StoredPrompts(
    musicPromptTemplate: Option<string>, gridContactSheetPrompt: Option<string>,
    gridPanelDescriptions: Option<seq<string>>, gridCloseupPrompt: Option<string>)

  /** The panel list on load: the first nine of a stored list of at least nine, else the default list. */
  function LoadPanels(stored: Option<seq<string>>, fallback: seq<string>): (r: seq<string>)
    requires |fallback| == 9
    ensures |r| == 9
    ensures stored.Some? && |stored.value| >= 9 ==> r == stored.value[..9]
    ensures stored.None? || |stored.value| < 9 ==> r == fallback
  {
    if stored.Some? && |stored.value| >= 9 then stored.value[..9] else fallback
  }

  /** Loading against a given set of defaults: a field present in the file wins, any other field
      takes its default, and the panel list is normalised to nine entries. */
  function LoadConfig(file: Option<StoredPrompts>, defaults: PromptsConfig): (c: PromptsConfig)
    requires HasNinePanels(defaults)
    ensures HasNinePanels(c)
    ensures file.None? ==> c == defaults
    ensures file.Some? ==>
      && c.musicPromptTemplate == file.value.musicPromptTemplate.GetOr(defaults.musicPromptTemplate)
      && c.gridContactSheetPrompt == file.value.gridContactSheetPrompt.GetOr(defaults.gridContactSheetPrompt)
      && c.gridCloseupPrompt == file.value.gridCloseupPrompt.GetOr(defaults.gridCloseupPrompt)
      && c.gridPanelDescriptions == LoadPanels(file.value.gridPanelDescriptions, defaults.gridPanelDescriptions)
  {
    match file
    case None => defaults
    case Some(d) =>
      PromptsConfig(
        d.musicPromptTemplate.GetOr(defaults.musicPromptTemplate),
        d.gridContactSheetPrompt.GetOr(defaults.gridContactSheetPrompt),
        LoadPanels(d.gridPanelDescriptions, defaults.gridPanelDescriptions),
        d.gridCloseupPrompt.GetOr(defaults.gridCloseupPrompt))
  }

  /** `getPromptsConfig`; `file == None` is a read or parse failure. */
  function GetPromptsConfig(file: Option<StoredPrompts>): (c: PromptsConfig)
    ensures HasNinePanels(c)
  {
    LoadConfig(file, Defaults())
  }

  /** What a saved configuration reads back as: every field present. */
  function Stored(c: PromptsConfig): StoredPrompts {
    StoredPrompts(Some(c.musicPromptTemplate), Some(c.gridContactSheetPrompt), Some(c.gridPanelDescriptions), Some(c.gridCloseupPrompt))
  }

  /** Saving then loading gives the configuration back, except that a panel list is cut to nine
      entries, or replaced by the defaults when it has fewer than nine. */
  lemma SaveLoadRoundTrip(c: PromptsConfig, defaults: PromptsConfig)
    requires HasNinePanels(defaults)
    ensures var l := LoadConfig(Some(Stored(c)), defaults);
      && l.musicPromptTemplate == c.musicPromptTemplate
      && l.gridContactSheetPrompt == c.gridContactSheetPrompt
      && l.gridCloseupPrompt == c.gridCloseupPrompt
      && (|c.gridPanelDescriptions| >= 9 ==> l.gridPanelDescriptions == c.gridPanelDescriptions[..9])
      && (|c.gridPanelDescriptions| < 9 ==> l.gridPanelDescriptions == defaults.gridPanelDescriptions)
      && (|c.gridPanelDescriptions| == 9 ==> l == c)
  {
  }

  /** Loading is a normal form: a loaded configuration, saved and loaded again, is unchanged. */
  lemma LoadIsIdempotent(file: Option<StoredPrompts>, defaults: PromptsConfig)
    requires HasNinePanels(defaults)
    ensures LoadConfig(Some(Stored(LoadConfig(file, defaults))), defaults) == LoadConfig(file, defaults)
  {
    var c := LoadConfig(file, defaults);
    assert c.gridPanelDescriptions[..9] == c.gridPanelDescriptions;
  }

  // ---------------------------------------------------------------- POST /api/prompts

  /** The posted body after its type guards: a field of the wrong type is `None`. */
  datatype PromptsPost = PromptsPost(
    musicPromptTemplate: Option<string>, gridContactSheetPrompt: Option<string>,
    gridPanelDescriptions: Option<seq<string>>, gridCloseupPrompt: Option<string>)

  datatype PostOutcome = Saved(config: PromptsConfig) | PostFailed(status: nat, error: string)

  /** Merging a posted body into the current configuration. */
  function Merge(b: PromptsPost, current: PromptsConfig): PromptsConfig {
    PromptsConfig(
      b.musicPromptTemplate.GetOr(current.musicPromptTemplate),
      b.gridContactSheetPrompt.GetOr(current.gridContactSheetPrompt),
      b.gridPanelDescriptions.GetOr(current.gridPanelDescriptions),
      b.gridCloseupPrompt.GetOr(current.gridCloseupPrompt))
  }

  /** What `request.json()` gives: no JSON at all (it throws), `null` (reading a field of it throws),
      a JSON value that has none of the fields (a number, string, boolean or array), or an object. */
  datatype PromptsBody = NotJson | NullBody | FieldlessJson | Fields(post: PromptsPost)

  /** `POST /api/prompts`: a body that cannot be read fails, and so does a save whose `mkdir` or
      `writeFile` throws (`written` is false); otherwise a body without the fields saves the current
      configuration back unchanged. */
  function PostPrompts(body: PromptsBody, file: Option<StoredPrompts>, written: bool): (r: PostOutcome)
    ensures r.PostFailed? <==> body.NotJson? || body.NullBody? || !written
    ensures r.PostFailed? ==> r == PostFailed(500, "Failed to save prompts")
    ensures written && body.FieldlessJson? ==> r == Saved(GetPromptsConfig(file))
    ensures written && body.Fields? ==> r == Saved(Merge(body.post, GetPromptsConfig(file)))
  {
    match body
    case NotJson => PostFailed(500, "Failed to save prompts")
    case NullBody => PostFailed(500, "Failed to save prompts")
    case FieldlessJson =>
      if written then Saved(Merge(PromptsPost(None, None, None, None), GetPromptsConfig(file)))
      else PostFailed(500, "Failed to save prompts")
    case Fields(b) =>
      if written then Saved(Merge(b, GetPromptsConfig(file)))
      else PostFailed(500, "Failed to save prompts")
  }

  /** Each posted field of the right type replaces the current value, independently of the others;
      every other field keeps the current value. Panel lists of any length are saved. */
  lemma MergeIsFieldwise(b: PromptsPost, current: PromptsConfig)
    ensures var s := Merge(b, current);
      && s.musicPromptTemplate == (if b.musicPromptTemplate.Some? then b.musicPromptTemplate.value else current.musicPromptTemplate)
      && s.gridContactSheetPrompt == (if b.gridContactSheetPrompt.Some? then b.gridContactSheetPrompt.value else current.gridContactSheetPrompt)
      && s.gridPanelDescriptions == (if b.gridPanelDescriptions.Some? then b.gridPanelDescriptions.value else current.gridPanelDescriptions)
      && s.gridCloseupPrompt == (if b.gridCloseupPrompt.Some? then b.gridCloseupPrompt.value else current.gridCloseupPrompt)
  {
  }

  /** An empty object saves exactly the current configuration. */
  lemma EmptyPostKeepsConfig(current: PromptsConfig)
    ensures Merge(PromptsPost(None, None, None, None), current) == current
  {
  }

  /** A posted panel list shorter than nine is stored, but the next load replaces it by the defaults. */
  lemma ShortPanelsRevertOnLoad(b: PromptsPost, current: PromptsConfig, defaults: PromptsConfig)
    requires HasNinePanels(defaults)
    requires b.gridPanelDescriptions.Some? && |b.gridPanelDescriptions.value| < 9
    ensures Merge(b, current).gridPanelDescriptions == b.gridPanelDescriptions.value
    ensures LoadConfig(Some(Stored(Merge(b, current))), defaults).gridPanelDescriptions == defaults.gridPanelDescriptions
  {
  }

  // ---------------------------------------------------------------- placeholder substitution

  /** Literal replacement of every non-overlapping occurrence of `p` in `s[from..]`, left to right. */
  function ReplaceAllFrom(s: string, p: string, v: string, from: nat): (r: string)
    requires |p| > 0 && from <= |s|
    ensures IndexOfFrom(s, p, from) == -1 ==> r == s[from..]
    decreases |s| - from
  {
    var i := IndexOfFrom(s, p, from);
    if i < 0 then s[from..] else s[from..i] + v + ReplaceAllFrom(s, p, v, i + |p|)
  }

  function ReplaceAll(s: string, p: string, v: string): string
    requires |p| > 0
  {
    ReplaceAllFrom(s, p, v, 0)
  }

  /** `s[from..]` cut at every non-overlapping occurrence of `p`, left to right. */
  function SplitFrom(s: string, p: string, from: nat): (r: seq<string>)
    requires |p| > 0 && from <= |s|
    ensures |r| >= 1
    decreases |s| - from
  {
    var i := IndexOfFrom(s, p, from);
    if i < 0 then [s[from..]] else [s[from..i]] + SplitFrom(s, p, i + |p|)
  }

  /** An occurrence inside a slice is an occurrence in the whole text, shifted by the slice's start. */
  lemma OccursInSlice(s: string, p: string, from: nat, to: nat, j: nat)
    requires from <= to <= |s| && OccursAt(s[from..to], p, j)
    ensures OccursAt(s, p, from + j)
  {
    var t := s[from..to];
    var u, w := t[j..j + |p|], s[from + j..from + j + |p|];
    assert forall k :: 0 <= k < |p| ==> u[k] == w[k];
  }

  /** No occurrence of `p` starts in `[from, to)` and fits in `s[..to]`: then `s[from..to]` does not contain `p`. */
  lemma NoOccurrenceInSlice(s: string, p: string, from: nat, to: nat)
    requires |p| > 0 && from <= to <= |s|
    requires forall j :: from <= j < to ==> !OccursAt(s, p, j)
    ensures !Contains(s[from..to], p)
  {
    var t := s[from..to];
    forall j: nat | j <= |t| ensures !OccursAt(t, p, j) {
      if OccursAt(t, p, j) {
        OccursInSlice(s, p, from, to, j);
      }
    }
  }

  /** Joining a head onto a non-empty list puts one separator between the head and the rest. */
  lemma JoinCons(head: string, rest: seq<string>, sep: string)
    requires |rest| >= 1
    ensures Join([head] + rest, sep) == head + sep + Join(rest, sep)
  {
    assert ([head] + rest)[1..] == rest;
  }

  /** A text from `from` is the part before an occurrence at `i`, the occurrence, and the part after it. */
  lemma AroundOccurrence(s: string, p: string, from: nat, i: nat)
    requires from <= i && OccursAt(s, p, i)
    ensures s[from..] == s[from..i] + p + s[i + |p|..]
  {
    assert s[from..] == s[from..i] + s[i..i + |p|] + s[i + |p|..];
  }

  /** The first piece is cut before the first occurrence at or after `from`. */
  lemma SplitFromStep(s: string, p: string, from: nat)
    requires |p| > 0 && from <= |s|
    ensures var i := IndexOfFrom(s, p, from);
      i >= 0 ==> i + |p| <= |s| && SplitFrom(s, p, from) == [s[from..i]] + SplitFrom(s, p, i + |p|)
  {
  }

  /** Without a further occurrence the rest of the text is the last piece. */
  lemma SplitFromLast(s: string, p: string, from: nat)
    requires |p| > 0 && from <= |s| && IndexOfFrom(s, p, from) < 0
    ensures SplitFrom(s, p, from) == [s[from..]]
  {
  }

  /** The last piece does not contain the pattern. */
  lemma LastPieceWithout(s: string, p: string, from: nat)
    requires |p| > 0 && from <= |s| && IndexOfFrom(s, p, from) < 0
    ensures !Contains(s[from..], p)
  {
    NoOccurrenceInSlice(s, p, from, |s|);
    assert s[from..|s|] == s[from..];
  }

  /** Splitting and joining with the pattern rebuilds the text. */
  lemma {:induction false} SplitFromJoin(s: string, p: string, from: nat)
    requires |p| > 0 && from <= |s|
    ensures Join(SplitFrom(s, p, from), p) == s[from..]
    decreases |s| - from
  {
    var i := IndexOfFrom(s, p, from);
    if i < 0 {
      JoinLastPiece(s, p, from);
    } else {
      SplitFromJoin(s, p, i + |p|);
      JoinNextPiece(s, p, from);
    }
  }

  /** The base case of `SplitFromJoin`. */
  lemma JoinLastPiece(s: string, p: string, from: nat)
    requires |p| > 0 && from <= |s| && IndexOfFrom(s, p, from) < 0
    ensures Join(SplitFrom(s, p, from), p) == s[from..]
  {
    SplitFromLast(s, p, from);
  }

  /** The step of `SplitFromJoin`: if the pieces after the first occurrence rebuild the text after
      it, all the pieces rebuild the text. */
  lemma JoinNextPiece(s: string, p: string, from: nat)
    requires |p| > 0 && from <= |s|
    requires var i := IndexOfFrom(s, p, from);
      i >= 0 && i + |p| <= |s| && Join(SplitFrom(s, p, i + |p|), p) == s[i + |p|..]
    ensures Join(SplitFrom(s, p, from), p) == s[from..]
  {
    var i := IndexOfFrom(s, p, from);
    SplitFromStep(s, p, from);
    AroundOccurrence(s, p, from, i);
    JoinStep(s[from..], s[from..i], p, s[i + |p|..], SplitFrom(s, p, from), SplitFrom(s, p, i + |p|));
  }

  /** One joining step: pieces that are a head and the rest, joined, give the head, the separator
      and the join of the rest. */
  lemma JoinStep(whole: string, head: string, sep: string, tail: string, pieces: seq<string>, rest: seq<string>)
    requires pieces == [head] + rest && |rest| >= 1 && Join(rest, sep) == tail && whole == head + sep + tail
    ensures Join(pieces, sep) == whole
  {
    JoinCons(head, rest, sep);
  }

  /** No piece of a split contains the pattern. */
  lemma {:induction false} SplitFromPiecesWithout(s: string, p: string, from: nat)
    requires |p| > 0 && from <= |s|
    ensures forall k :: 0 <= k < |SplitFrom(s, p, from)| ==> !Contains(SplitFrom(s, p, from)[k], p)
    decreases |s| - from
  {
    var i := IndexOfFrom(s, p, from);
    if i < 0 {
      LastPieceAlone(s, p, from);
    } else {
      SplitFromPiecesWithout(s, p, i + |p|);
      NextPiecesWithout(s, p, from, i, i + |p|);
    }
  }

  /** The base case of `SplitFromPiecesWithout`. */
  lemma LastPieceAlone(s: string, p: string, from: nat)
    requires |p| > 0 && from <= |s| && IndexOfFrom(s, p, from) < 0
    ensures forall k :: 0 <= k < |SplitFrom(s, p, from)| ==> !Contains(SplitFrom(s, p, from)[k], p)
  {
    SplitFromLast(s, p, from);
    LastPieceWithout(s, p, from);
  }

  /** The step of `SplitFromPiecesWithout`. */
  lemma NextPiecesWithout(s: string, p: string, from: nat, i: nat, next: nat)
    requires |p| > 0 && from <= |s| && i == IndexOfFrom(s, p, from) && next == i + |p| <= |s|
    requires forall k :: 0 <= k < |SplitFrom(s, p, next)| ==> !Contains(SplitFrom(s, p, next)[k], p)
    ensures forall k :: 0 <= k < |SplitFrom(s, p, from)| ==> !Contains(SplitFrom(s, p, from)[k], p)
  {
    SplitFromStep(s, p, from);
    NoOccurrenceInSlice(s, p, from, i);
    PiecesWithout(s[from..i], SplitFrom(s, p, i + |p|), p);
  }

  /** Adding a head without the pattern to pieces without it keeps every piece free of it. */
  lemma PiecesWithout(head: string, rest: seq<string>, p: string)
    requires !Contains(head, p)
    requires forall k :: 0 <= k < |rest| ==> !Contains(rest[k], p)
    ensures forall k :: 0 <= k < |[head] + rest| ==> !Contains(([head] + rest)[k], p)
  {
    forall k | 0 <= k < |[head] + rest| ensures !Contains(([head] + rest)[k], p) {
      if k > 0 {
        assert ([head] + rest)[k] == rest[k - 1];
      }
    }
  }

  /** Replacing is joining the pieces between occurrences with the value instead of the pattern. */
  lemma {:induction false} ReplaceAllFromIsJoin(s: string, p: string, v: string, from: nat)
    requires |p| > 0 && from <= |s|
    ensures ReplaceAllFrom(s, p, v, from) == Join(SplitFrom(s, p, from), v)
    decreases |s| - from
  {
    var i := IndexOfFrom(s, p, from);
    if i < 0 {
      SplitFromLast(s, p, from);
    } else {
      ReplaceAllFromIsJoin(s, p, v, i + |p|);
      ReplaceNextPiece(s, p, v, from);
    }
  }

  /** The step of `ReplaceAllFromIsJoin`. */
  lemma ReplaceNextPiece(s: string, p: string, v: string, from: nat)
    requires |p| > 0 && from <= |s|
    requires var i := IndexOfFrom(s, p, from);
      i >= 0 && i + |p| <= |s| && ReplaceAllFrom(s, p, v, i + |p|) == Join(SplitFrom(s, p, i + |p|), v)
    ensures ReplaceAllFrom(s, p, v, from) == Join(SplitFrom(s, p, from), v)
  {
    var i := IndexOfFrom(s, p, from);
    SplitFromStep(s, p, from);
    JoinStep(ReplaceAllFrom(s, p, v, from), s[from..i], v, ReplaceAllFrom(s, p, v, i + |p|),
             SplitFrom(s, p, from), SplitFrom(s, p, i + |p|));
  }

  /** Every occurrence is replaced: the text is the pieces joined by `p`, none of which contains `p`,
      and the result is the same pieces joined by `v`. */
  lemma ReplaceAllReplacesEveryOccurrence(s: string, p: string, v: string)
    requires |p| > 0
    ensures var pieces := SplitFrom(s, p, 0);
      && Join(pieces, p) == s
      && (forall k :: 0 <= k < |pieces| ==> !Contains(pieces[k], p))
      && ReplaceAll(s, p, v) == Join(pieces, v)
  {
    SplitFromJoin(s, p, 0);
    SplitFromPiecesWithout(s, p, 0);
    ReplaceAllFromIsJoin(s, p, v, 0);
  }

  /** A text without the pattern is returned unchanged. */
  lemma ReplaceAllWithoutOccurrence(s: string, p: string, v: string)
    requires |p| > 0 && !Contains(s, p)
    ensures ReplaceAll(s, p, v) == s
  {
  }

  /** The music template with literal substitution: context, then keywords, then fullContext. */
  function ApplyMusicTemplate(template: string, context: string, keywords: string, fullContext: string): string {
    ReplaceAll(ReplaceAll(ReplaceAll(template, ContextPlaceholder, context), KeywordsPlaceholder, keywords),
               FullContextPlaceholder, fullContext)
  }

  /** Because the context is substituted first, placeholders inside the context value are substituted too. */
  lemma ContextValueIsExpanded(context: string, keywords: string, fullContext: string)
    ensures ApplyMusicTemplate(ContextPlaceholder, context, keywords, fullContext)
      == ReplaceAll(ReplaceAll(context, KeywordsPlaceholder, keywords), FullContextPlaceholder, fullContext)
  {
    var t := ContextPlaceholder;
    assert OccursAt(t, t, 0);
    assert IndexOfFrom(t, t, |t|) == -1;
    assert ReplaceAll(t, t, context) == t[0..0] + context + t[|t|..];
    assert ReplaceAll(t, t, context) == context;
  }

  /** Because fullContext is substituted last, its value is inserted literally. */
  lemma FullContextValueIsLiteral(context: string, keywords: string, fullContext: string)
    ensures ApplyMusicTemplate(FullContextPlaceholder, context, keywords, fullContext) == fullContext
  {
    var t := FullContextPlaceholder;
    NoOtherPlaceholderInFullContext();
    ReplaceAllWithoutOccurrence(t, ContextPlaceholder, context);
    ReplaceAllWithoutOccurrence(t, KeywordsPlaceholder, keywords);
    ReplaceWhole(t, fullContext);
  }

  /** The fullContext placeholder contains neither of the other two. */
  lemma NoOtherPlaceholderInFullContext()
    ensures !Contains(FullContextPlaceholder, ContextPlaceholder)
    ensures !Contains(FullContextPlaceholder, KeywordsPlaceholder)
  {
    var t := FullContextPlaceholder;
    forall j | 0 <= j <= |t| ensures !OccursAt(t, ContextPlaceholder, j) {
      if j + |ContextPlaceholder| <= |t| {
        assert t[j..j + |ContextPlaceholder|][2] == t[j + 2];
        assert j == 0 || j == 1 || j == 2 || j == 3 || j == 4;
      }
    }
    forall j | 0 <= j <= |t| ensures !OccursAt(t, KeywordsPlaceholder, j) {
      if j + |KeywordsPlaceholder| <= |t| {
        assert t[j..j + |KeywordsPlaceholder|][2] == t[j + 2];
        assert j == 0 || j == 1 || j == 2 || j == 3;
      }
    }
  }

  /** Replacing a whole non-empty text by a value gives the value. */
  lemma ReplaceWhole(t: string, v: string)
    requires |t| > 0
    ensures ReplaceAll(t, t, v) == v
  {
    assert OccursAt(t, t, 0);
    assert IndexOfFrom(t, t, |t|) == -1;
    assert ReplaceAll(t, t, v) == t[0..0] + v + t[|t|..];
  }

  // ---------------------------------------------------------------- String.prototype.replace as written

  /** The characters that follow `$` in a special replacement pattern without capture groups. */
  predicate IsDollarPattern(c: char) { c == '$' || c == '&' || c == '`' || c == '\'' }

  /** `GetSubstitution` for a pattern without capture groups: `$$`, `$&`, `` $` `` and `$'` are
      expanded against the match at `pos` of length `len` in `s`; every other character is literal. */
  function Substitution(v: string, s: string, pos: nat, len: nat): string
    requires pos + len <= |s|
  {
    if |v| == 0 then ""
    else if v[0] == '$' && |v| >= 2 && IsDollarPattern(v[1]) then
      (if v[1] == '$' then "$" else if v[1] == '&' then s[pos..pos + len]
       else if v[1] == '`' then s[..pos] else s[pos + len..])
      + Substitution(v[2..], s, pos, len)
    else [v[0]] + Substitution(v[1..], s, pos, len)
  }

  /** A value without `$` is inserted as is. */
  lemma {:induction false} SubstitutionWithoutDollar(v: string, s: string, pos: nat, len: nat)
    requires pos + len <= |s|
    requires forall k :: 0 <= k < |v| ==> v[k] != '$'
    ensures Substitution(v, s, pos, len) == v
  {
    if |v| > 0 {
      SubstitutionWithoutDollar(v[1..], s, pos, len);
    }
  }

  /** `s.replace(/p/g, v)`: like `ReplaceAllFrom`, but the value goes through `Substitution`. */
  function ReplaceAllJsFrom(s: string, p: string, v: string, from: nat): (r: string)
    requires |p| > 0 && from <= |s|
    ensures IndexOfFrom(s, p, from) == -1 ==> r == s[from..]
    decreases |s| - from
  {
    var i := IndexOfFrom(s, p, from);
    if i < 0 then s[from..] else s[from..i] + Substitution(v, s, i, |p|) + ReplaceAllJsFrom(s, p, v, i + |p|)
  }

  /** `applyMusicTemplate` as written. */
  function ApplyMusicTemplateAsWritten(template: string, context: string, keywords: string, fullContext: string): string {
    var a := ReplaceAllJsFrom(template, ContextPlaceholder, context, 0);
    var b := ReplaceAllJsFrom(a, KeywordsPlaceholder, keywords, 0);
    ReplaceAllJsFrom(b, FullContextPlaceholder, fullContext, 0)
  }

  /** Without `$` in the value the two replacements agree. */
  lemma {:induction false} ReplaceAllJsAgreesWithoutDollar(s: string, p: string, v: string, from: nat)
    requires |p| > 0 && from <= |s|
    requires forall k :: 0 <= k < |v| ==> v[k] != '$'
    ensures ReplaceAllJsFrom(s, p, v, from) == ReplaceAllFrom(s, p, v, from)
    decreases |s| - from
  {
    var i := IndexOfFrom(s, p, from);
    if i >= 0 {
      ReplaceAllJsAgreesWithoutDollar(s, p, v, i + |p|);
      JsStepAgrees(s, p, v, from, i);
    }
  }

  /** The step of `ReplaceAllJsAgreesWithoutDollar`. */
  lemma JsStepAgrees(s: string, p: string, v: string, from: nat, i: nat)
    requires |p| > 0 && from <= |s| && i == IndexOfFrom(s, p, from) && i + |p| <= |s|
    requires forall k :: 0 <= k < |v| ==> v[k] != '$'
    requires ReplaceAllJsFrom(s, p, v, i + |p|) == ReplaceAllFrom(s, p, v, i + |p|)
    ensures ReplaceAllJsFrom(s, p, v, from) == ReplaceAllFrom(s, p, v, from)
  {
    SubstitutionWithoutDollar(v, s, i, |p|);
  }

  /** With `$`-free values the template as written behaves as the literal substitution. */
  lemma AsWrittenAgreesWithoutDollar(template: string, context: string, keywords: string, fullContext: string)
    requires forall k :: 0 <= k < |context| ==> context[k] != '$'
    requires forall k :: 0 <= k < |keywords| ==> keywords[k] != '$'
    requires forall k :: 0 <= k < |fullContext| ==> fullContext[k] != '$'
    ensures ApplyMusicTemplateAsWritten(template, context, keywords, fullContext)
      == ApplyMusicTemplate(template, context, keywords, fullContext)
  {
    var a := ReplaceAllJsFrom(template, ContextPlaceholder, context, 0);
    ReplaceAllJsAgreesWithoutDollar(template, ContextPlaceholder, context, 0);
    var b := ReplaceAllJsFrom(a, KeywordsPlaceholder, keywords, 0);
    ReplaceAllJsAgreesWithoutDollar(a, KeywordsPlaceholder, keywords, 0);
    ReplaceAllJsAgreesWithoutDollar(b, FullContextPlaceholder, fullContext, 0);
  }

  /** A context of `$&` puts the placeholder itself back instead of the text `$&`. */
  lemma DollarAmpersandReinsertsPlaceholder()
    ensures ApplyMusicTemplateAsWritten(ContextPlaceholder, "$&", "", "") == ContextPlaceholder
    ensures ApplyMusicTemplate(ContextPlaceholder, "$&", "", "") == "$&"
  {
    var t := ContextPlaceholder;
    assert OccursAt(t, t, 0);
    assert IndexOfFrom(t, t, |t|) == -1;
    assert Substitution("$&", t, 0, |t|) == t by {
      assert Substitution("", t, 0, |t|) == "";
    }
    assert ReplaceAllJsFrom(t, t, "$&", 0) == t;
    LongerNeverOccurs(t, KeywordsPlaceholder);
    LongerNeverOccurs(t, FullContextPlaceholder);
    assert ReplaceAll(t, t, "$&") == "$&";
    LongerNeverOccurs("$&", KeywordsPlaceholder);
    LongerNeverOccurs("$&", FullContextPlaceholder);
  }
}

=== FILE: scene_image_gen.dfy ===
/**
 * The step-3 scene-image generator: the fixed prompt template around the
 * scene prompt, the request, and the same four-call ladder as the contact sheet.
 */
module SceneImageGen {
  import opened Wrappers
  import opened JsText
  import opened ImageLadder
  import GridImageGen

  const MissingKeyError: string := "未配置 Gemini API Key，请在设置中填写"

  const TemplateHead: string :=
    "你是一位日本人像/场景摄影师，请根据以下提示词与参考图生成一张 16:9 的电影感场景图。\n\n"
    + "【要求】\n"
    + "- 人物面部与身体特征必须与参考图完全一致。\n"
    + "- 严格保持参考图的光影、色调与影像风格一致。\n"
    + "- 构图：中景或近景。22岁的年轻亚洲女子的脸不要完全正对镜头，可以是微微侧脸或因情绪导致的抬头、低头；人物在画面中的位置不必在正中央，构图自然。\n\n"
    + "【场景提示词】\n"
  const TemplateTail: string := "\n\n请输出一张 16:9 的横图，保持电影感与风格统一。"

  /** The user prompt is embedded verbatim between the fixed head and tail. */
  function FullPrompt(prompt: string): (r: string)
    ensures |r| == |TemplateHead| + |prompt| + |TemplateTail|
    ensures StartsWith(r, TemplateHead) && EndsWith(r, TemplateTail)
    ensures r[|TemplateHead|..|r| - |TemplateTail|] == prompt
  {
    var r := TemplateHead + prompt + TemplateTail;
    assert r[..|TemplateHead|] == TemplateHead;
    assert r[|r| - |TemplateTail|..] == TemplateTail;
    r
  }

  /** Distinct scene prompts give distinct requests. */
  lemma FullPromptInjective(a: string, b: string)
    requires FullPrompt(a) == FullPrompt(b)
    ensures a == b
  {
  }

  /** `generateSceneImage`: `replies[k]` answers the k-th scheduled call. */
  function GenerateSceneImage(apiKey: string, prompt: string, reference: string, replies: seq<Reply>): (g: GridImageGen.Generation)
    requires |replies| == |GeneratorSchedule|
    ensures apiKey == "" ==> g == GridImageGen.Generation(None, Some(MissingKeyError), 0, None)
    ensures g.attempts <= 4
    ensures g.image.Some? ==> g.errorSlot == None
    ensures apiKey != "" ==>
      g.request.Some? && g.request.value.imageSize == "2K"
      && g.request.value.contents == [GridImageGen.TextContent(FullPrompt(prompt)), GridImageGen.InlineImage(reference)]
  {
    if apiKey == "" then GridImageGen.Generation(None, Some(MissingKeyError), 0, None)
    else
      var req := GridImageGen.Request([GridImageGen.TextContent(FullPrompt(prompt)), GridImageGen.InlineImage(reference)], "16:9", "2K");
      var o := Run(GeneratorSchedule, replies, LastImage, None);
      GridImageGen.Generation(o.image, if o.image.Some? then None else Some(SlotText(o.lastError)), o.attempts, Some(req))
  }

  /** The result is the last image part of the first reply that has one, after exactly that many calls;
      with no image anywhere all four calls are made. */
  lemma SceneImageAttempts(apiKey: string, prompt: string, reference: string, replies: seq<Reply>)
    requires |replies| == 4 && apiKey != ""
    ensures var g := GenerateSceneImage(apiKey, prompt, reference, replies);
      && (FirstSuccess(replies, LastImage).Some? ==>
            g.attempts == FirstSuccess(replies, LastImage).value + 1
            && g.image == ReplyImage(replies[g.attempts - 1], LastImage))
      && (FirstSuccess(replies, LastImage).None? ==> g.image == None && g.attempts == 4)
  {
  }

  /** On failure the slot holds the message of the last recorded error, under the same rules as the contact sheet. */
  lemma SceneFailureSlot(apiKey: string, prompt: string, reference: string, replies: seq<Reply>)
    requires |replies| == 4 && apiKey != ""
    requires FirstSuccess(replies, LastImage).None?
    ensures var g := GenerateSceneImage(apiKey, prompt, reference, replies);
      && (replies[2].Responded? && replies[2].blockReason != "" ==>
            g.errorSlot == Some("内容被过滤: " + replies[2].blockReason))
      && (!(replies[2].Responded? && replies[2].blockReason != "") ==>
            g.errorSlot == Some(SlotText(PrimarySlot(replies[0], replies[1]))))
  {
    GeneratorFailureSlot(replies);
  }
}

=== FILE: scene_prompts.dfy ===
/**
 * The step-3 prompt routes: the five scene-expansion prompts, the five
 * "desire scene" prompts, regenerating one prompt of either list, and the
 * single studio-mode prompt. The model's reply is an oracle (`reply`), and
 * so is `JSON.parse` (`parse`); what is modelled is the request validation,
 * the values each route interpolates into its request, and the normalisation
 * of the reply.
 */
module ScenePrompts {
  import opened Wrappers
  import opened JsText
  import DataUrl

  // ---------------------------------------------------------------------------
  // Loose code fences: `/^```\w*\n?/` and `/\n?```$/`
  // ---------------------------------------------------------------------------

  const Fence: string := "```"

  /** Where `^```\w*\n?` stops matching in a text that starts with a fence. */
  function OpenFenceEnd(t: string): (e: nat)
    requires StartsWith(t, Fence)
    ensures 3 <= e <= |t|
  {
    var w := 3 + DataUrl.WordRun(t, 3);
    if w < |t| && t[w] == '\n' then w + 1 else w
  }

  /** `t.replace(/^```\w*\n?/, '')` */
  function DropOpenFence(t: string): (r: string)
    ensures |r| <= |t|
    ensures !StartsWith(t, Fence) ==> r == t
    ensures StartsWith(t, Fence) ==> r == t[OpenFenceEnd(t)..]
  {
    if StartsWith(t, Fence) then t[OpenFenceEnd(t)..] else t
  }

  /** `s.replace(/\n?```$/, '')`: the leftmost match takes the newline when there is one. */
  function DropCloseFence(s: string): (r: string)
    ensures |r| <= |s|
    ensures EndsWith(s, "\n" + Fence) ==> r + "\n" + Fence == s
    ensures !EndsWith(s, "\n" + Fence) && EndsWith(s, Fence) ==> r + Fence == s
    ensures !EndsWith(s, Fence) ==> r == s
  {
    if EndsWith(s, "\n" + Fence) then s[..|s| - 4]
    else if EndsWith(s, Fence) then s[..|s| - 3]
    else s
  }

  /** The trimmed reply, unfenced only when it starts with three backticks. */
  function Unfence(text: string): (r: string)
    ensures |r| <= |Trim(text)|
    ensures !StartsWith(Trim(text), Fence) ==> r == Trim(text)
  {
    var t := Trim(text);
    if StartsWith(t, Fence) then DropCloseFence(DropOpenFence(t)) else t
  }

  /** A body fenced with any `\w*` tag and a line break on both sides comes back exactly. */
  lemma UnfenceRoundTrip(tag: string, body: string)
    requires DataUrl.AllWordChars(tag)
    ensures Unfence(Fence + tag + "\n" + body + "\n" + Fence) == body
  {
    var t := Fence + tag + "\n" + (body + "\n" + Fence);
    assert t == Fence + tag + "\n" + body + "\n" + Fence;
    TrimOfUnpadded(t);
    DropOpenFenceOf(tag, body + "\n" + Fence);
    DropCloseFenceOf(body);
  }

  lemma DropOpenFenceOf(tag: string, rest: string)
    requires DataUrl.AllWordChars(tag)
    ensures DropOpenFence(Fence + tag + "\n" + rest) == rest
  {
    var t := Fence + tag + "\n" + rest;
    assert t[..3] == Fence;
    DataUrl.WordRunOf(t, 3, |tag|);
    assert t[4 + |tag|..] == rest;
  }

  lemma DropCloseFenceOf(body: string)
    ensures DropCloseFence(body + "\n" + Fence) == body
  {
    var s := body + "\n" + Fence;
    assert s[|s| - 4..] == "\n" + Fence;
  }

  /** A JSON array fenced on one line (`[` right after the backticks) comes back exactly too. */
  lemma UnfenceOneLine(body: string)
    requires |body| > 0 && body[0] == '[' && body[|body| - 1] == ']'
    ensures Unfence(Fence + body + Fence) == body
  {
    var t := Fence + body + Fence;
    TrimOfUnpadded(t);
    assert t[..3] == Fence;
    assert t[3] == '[';
    assert DataUrl.WordRun(t, 3) == 0;
    var rest := t[3..];
    assert rest == body + Fence;
    assert rest[|rest| - 4] == ']';
    assert rest[|rest| - 3..] == Fence;
  }

  // ---------------------------------------------------------------------------
  // Exactly five items with numbered ids
  // ---------------------------------------------------------------------------

  /** What `JSON.parse` made of the unfenced reply: it threw, it is not an array, or an array. */
  datatype Json = Unparseable | NotArray | Array(items: seq<string>)

  datatype PromptItem = PromptItem(id: string, prompt: string, imageUrl: Option<string>)

  function ItemId(prefix: string, n: nat): string { prefix + NatToString(n) }

  /** `prompts.slice(0, 5).map((p, i) => ({ id: `${prefix}${i + 1}`, prompt: p, imageUrl: null }))` */
  function FiveItems(prefix: string, items: seq<string>): (r: seq<PromptItem>)
    requires |items| >= 5
    ensures |r| == 5
    ensures forall i :: 0 <= i < 5 ==> r[i].prompt == items[i] && r[i].imageUrl.None?
    ensures forall i :: 0 <= i < 5 ==> StartsWith(r[i].id, prefix)
  {
    seq(5, i requires 0 <= i < 5 => PromptItem(ItemId(prefix, i + 1), items[i], None))
  }

  /** The position an id names: the number after the prefix. */
  function IdNumber(prefix: string, id: string): Option<nat> {
    if StartsWith(id, prefix) && |id| > |prefix| && AllDigits(id[|prefix|..])
    then Some(DigitsValue(id[|prefix|..])) else None
  }

  /** Item `i` is numbered `i + 1`, so the five ids are pairwise distinct. */
  lemma FiveItemsNumbered(prefix: string, items: seq<string>)
    requires |items| >= 5
    ensures forall i :: 0 <= i < 5 ==> IdNumber(prefix, FiveItems(prefix, items)[i].id) == Some(i + 1)
    ensures forall i, j :: 0 <= i < j < 5 ==> FiveItems(prefix, items)[i].id != FiveItems(prefix, items)[j].id
  {
    var r := FiveItems(prefix, items);
    forall i | 0 <= i < 5
      ensures IdNumber(prefix, r[i].id) == Some(i + 1)
    {
      var id := ItemId(prefix, i + 1);
      assert id[..|prefix|] == prefix;
      assert id[|prefix|..] == NatToString(i + 1);
      DigitsValueOfNatToString(i + 1);
    }
  }

  datatype ListResponse = Listed(prompts: seq<PromptItem>) | ListFailed(status: nat, error: string)

  const MissingKey: string := "API Key not configured"
  const InvalidFormat: string := "Invalid prompts format"

  /** The common tail of both five-prompt routes: read the reply, unfence it, parse it, keep five. */
  function FiveFromReply(prefix: string, failure: string, reply: Option<string>, parse: string -> Json): (r: ListResponse)
    ensures reply.None? ==> r == ListFailed(500, failure)
    ensures reply.Some? ==>
      match parse(Unfence(reply.value))
      case Unparseable => r == ListFailed(500, failure)
      case NotArray => r == ListFailed(500, InvalidFormat)
      case Array(xs) =>
        (|xs| < 5 ==> r == ListFailed(500, InvalidFormat))
        && (|xs| >= 5 ==> (r.Listed? && |r.prompts| == 5
            && forall i :: 0 <= i < 5 ==> r.prompts[i] == PromptItem(ItemId(prefix, i + 1), xs[i], None)))
  {
    match reply
    case None => ListFailed(500, failure)
    case Some(text) =>
      match parse(Unfence(text))
      case Unparseable => ListFailed(500, failure)
      case NotArray => ListFailed(500, InvalidFormat)
      case Array(xs) => if |xs| < 5 then ListFailed(500, InvalidFormat) else Listed(FiveItems(prefix, xs))
  }

  // ---------------------------------------------------------------------------
  // generate-scene-prompts
  // ---------------------------------------------------------------------------

  const SceneFailure: string := "Failed to generate scene prompts"
  const MissingImage: string := "Missing image"
  const Nothing: string := "（无）"
  const Unspecified: string := "（未指定）"

  /** The request body; a non-string `image` is modelled as absent. */
  datatype SceneBody = SceneBody(image: Option<string>, sceneContext: Option<string>, fullContext: Option<string>,
                                 characterGender: Option<string>, characterHairColor: Option<string>,
                                 sceneDescription: Option<string>)

  /** `sceneDescription?.trim() || '（无）'` */
  function SceneBase(description: Option<string>): (r: string)
    ensures r != ""
    ensures description.Some? && !AllSpace(description.value) ==> r == Trim(description.value)
    ensures (description.None? || AllSpace(description.value)) ==> r == Nothing
  {
    match description
    case None => Nothing
    case Some(d) =>
      TrimEmptyIffAllSpace(d);
      if Trim(d) != "" then Trim(d) else Nothing
  }

  /** The values the scene route writes into its request. */
  datatype SceneAsk = SceneAsk(sceneBase: string, sceneContext: string, fullContext: string,
                               gender: string, hair: string, genderWord: string, hairWord: string,
                               image: DataUrl.Parsed)

  function SceneAskOf(b: SceneBody): (a: SceneAsk)
    requires b.image.Some?
    ensures a.sceneBase == SceneBase(b.sceneDescription)
    ensures a.image == DataUrl.ParseDataUrl(b.image.value)
    ensures Truthy(b.characterGender) ==> a.gender == a.genderWord == b.characterGender.value
    ensures !Truthy(b.characterGender) ==> a.gender == Unspecified && a.genderWord == "女性"
    ensures !Truthy(b.characterHairColor) ==> a.hair == Unspecified && a.hairWord == "长发"
  {
    SceneAsk(SceneBase(b.sceneDescription), OrElse(b.sceneContext, Nothing), OrElse(b.fullContext, Nothing),
             OrElse(b.characterGender, Unspecified), OrElse(b.characterHairColor, Unspecified),
             OrElse(b.characterGender, "女性"), OrElse(b.characterHairColor, "长发"),
             DataUrl.ParseDataUrl(b.image.value))
  }

  /** `POST /api/generate-scene-prompts`; `body` is `None` when the request is not JSON. */
  function GenerateScenePrompts(body: Option<SceneBody>, apiKey: string, reply: Option<string>, parse: string -> Json): (r: ListResponse)
    ensures body.None? ==> r == ListFailed(500, SceneFailure)
    ensures body.Some? && !Truthy(body.value.image) ==> r == ListFailed(400, MissingImage)
    ensures body.Some? && Truthy(body.value.image) && apiKey == "" ==> r == ListFailed(400, MissingKey)
    ensures r.Listed? ==> |r.prompts| == 5 && forall i :: 0 <= i < 5 ==>
      r.prompts[i].id == ItemId("scene-", i + 1) && r.prompts[i].imageUrl.None?
    ensures r.Listed? <==> (body.Some? && Truthy(body.value.image) && apiKey != "" && reply.Some?
      && parse(Unfence(reply.value)).Array? && |parse(Unfence(reply.value)).items| >= 5)
  {
    match body
    case None => ListFailed(500, SceneFailure)
    case Some(b) =>
      if !Truthy(b.image) then ListFailed(400, MissingImage)
      else if apiKey == "" then ListFailed(400, MissingKey)
      else FiveFromReply("scene-", SceneFailure, reply, parse)
  }

  // ---------------------------------------------------------------------------
  // generate-desire-scene-prompts
  // ---------------------------------------------------------------------------

  const DesireFailure: string := "Failed to generate desire scene prompts"
  const MissingStory: string := "Missing story (爱欲现场)"
  const NoMainScenes: string := "（无，可自由选择场景）"
  const OtherSceneHead: string := "【另一日本场景】可选用："

  /** The request body. A list that is not an array is `None`; a null or empty entry is `None`. */
  datatype DesireBody = DesireBody(story: Option<string>, segments: Option<seq<Option<string>>>,
                                   mainScenePrompts: Option<seq<Option<string>>>, sceneContext: Option<string>,
                                   characterGender: Option<string>, characterHairColor: Option<string>,
                                   otherScene: Option<string>)

  function SegmentHead(n: nat): string { "第 " + NatToString(n) + " 段：\n" }

  /** `` `第 ${i + 1} 段：\n${(s || '').slice(0, 400)}` `` for each of the five segments. */
  function SegmentEntries(segs: seq<Option<string>>): (r: seq<string>)
    requires |segs| == 5
    ensures |r| == 5
    ensures forall i :: 0 <= i < 5 ==>
      StartsWith(r[i], SegmentHead(i + 1)) && |r[i]| <= |SegmentHead(i + 1)| + 400
      && StartsWith(OrElse(segs[i], ""), r[i][|SegmentHead(i + 1)|..])
  {
    seq(5, i requires 0 <= i < 5 => SegmentHead(i + 1) + Take(OrElse(segs[i], ""), 400))
  }

  /** Segments are used only when they form an array of at least five. */
  predicate UsesSegments(segments: Option<seq<Option<string>>>) {
    segments.Some? && |segments.value| >= 5
  }

  /** The story section: the first five segments, numbered and cut, or else the story cut to 6000. */
  function StoryBlock(story: string, segments: Option<seq<Option<string>>>): (r: string)
    ensures !UsesSegments(segments) ==> |r| <= 6000 && StartsWith(story, r) && (|story| <= 6000 ==> r == story)
  {
    if UsesSegments(segments) then Join(SegmentEntries(segments.value[..5]), "\n\n") else Take(story, 6000)
  }

  /** A segment of at most 400 characters is carried whole under its number; the sixth and later
      segments never are, whatever they hold. */
  lemma SegmentEntriesKeepShortSegments(segs: seq<Option<string>>, more: seq<Option<string>>)
    requires |segs| == 5
    ensures forall i :: 0 <= i < 5 && Truthy(segs[i]) && |segs[i].value| <= 400 ==>
      SegmentEntries(segs)[i] == SegmentHead(i + 1) + segs[i].value
    ensures StoryBlock("", Some(segs + more)) == Join(SegmentEntries(segs), "\n\n")
  {
    assert (segs + more)[..5] == segs;
  }

  /** `(p || '').slice(0, 120)` numbered, for at most five main-scene prompts. */
  function MainSceneEntries(scenes: seq<Option<string>>): (r: seq<string>)
    ensures |r| == if |scenes| < 5 then |scenes| else 5
    ensures forall i :: 0 <= i < |r| ==>
      StartsWith(r[i], NatToString(i + 1) + ". ") && EndsWith(r[i], "...")
      && |r[i]| <= |NatToString(i + 1)| + 2 + 120 + 3
  {
    var listed := if |scenes| < 5 then scenes else scenes[..5];
    seq(|listed|, i requires 0 <= i < |listed| => NatToString(i + 1) + ". " + Take(OrElse(listed[i], ""), 120) + "...")
  }

  function MainScenesBlock(mainScenePrompts: Option<seq<Option<string>>>): (r: string)
    ensures (mainScenePrompts.None? || |mainScenePrompts.value| == 0) ==> r == NoMainScenes
  {
    var entries := MainSceneEntries(mainScenePrompts.GetOr([]));
    if |entries| > 0 then Join(entries, "\n") else NoMainScenes
  }

  /** The other-scene line is present exactly when `otherScene` is truthy. */
  function OtherSceneLine(otherScene: Option<string>): (r: string)
    ensures r == "" <==> !Truthy(otherScene)
    ensures Truthy(otherScene) ==> (|r| == |OtherSceneHead| + |otherScene.value| + 1
      && r[|OtherSceneHead|..|r| - 1] == otherScene.value)
  {
    if Truthy(otherScene) then
      var r := OtherSceneHead + otherScene.value + "\n";
      assert r[|OtherSceneHead|..|r| - 1] == otherScene.value;
      r
    else ""
  }

  datatype DesireAsk = DesireAsk(story: string, mainScenes: string, sceneContext: string, otherScene: string,
                                 gender: string, hair: string, genderWord: string, hairWord: string)

  function DesireAskOf(b: DesireBody): (a: DesireAsk)
    requires b.story.Some?
    ensures a.story == StoryBlock(b.story.value, b.segments)
    ensures a.mainScenes == MainScenesBlock(b.mainScenePrompts)
    ensures a.otherScene == OtherSceneLine(b.otherScene)
    ensures a.sceneContext == OrElse(b.sceneContext, Nothing)
  {
    DesireAsk(StoryBlock(b.story.value, b.segments), MainScenesBlock(b.mainScenePrompts),
              OrElse(b.sceneContext, Nothing), OtherSceneLine(b.otherScene),
              OrElse(b.characterGender, Unspecified), OrElse(b.characterHairColor, Unspecified),
              OrElse(b.characterGender, "女性"), OrElse(b.characterHairColor, "长发"))
  }

  /** `POST /api/generate-desire-scene-prompts` */
  function GenerateDesirePrompts(body: Option<DesireBody>, apiKey: string, reply: Option<string>, parse: string -> Json): (r: ListResponse)
    ensures body.None? ==> r == ListFailed(500, DesireFailure)
    ensures body.Some? && !Truthy(body.value.story) ==> r == ListFailed(400, MissingStory)
    ensures body.Some? && Truthy(body.value.story) && apiKey == "" ==> r == ListFailed(400, MissingKey)
    ensures r.Listed? ==> |r.prompts| == 5 && forall i :: 0 <= i < 5 ==>
      r.prompts[i].id == ItemId("desire-", i + 1) && r.prompts[i].imageUrl.None?
    ensures r.Listed? <==> (body.Some? && Truthy(body.value.story) && apiKey != "" && reply.Some?
      && parse(Unfence(reply.value)).Array? && |parse(Unfence(reply.value)).items| >= 5)
  {
    match body
    case None => ListFailed(500, DesireFailure)
    case Some(b) =>
      if !Truthy(b.story) then ListFailed(400, MissingStory)
      else if apiKey == "" then ListFailed(400, MissingKey)
      else FiveFromReply("desire-", DesireFailure, reply, parse)
  }

  // ---------------------------------------------------------------------------
  // Regenerating one prompt: the "other" prompts and the quote strip
  // ---------------------------------------------------------------------------

  /** `typeof index === 'number' ? index : 0`; a non-number is `None`. */
  function IndexOr0(index: Option<int>): int { index.GetOr(0) }

  /** `existingPrompts.filter((_, j) => j !== i)`, scanning positions from `from`. */
  function KeepOthersFrom(xs: seq<string>, i: int, from: nat): (r: seq<string>)
    requires from <= |xs|
    decreases |xs| - from
  {
    if from == |xs| then []
    else (if from == i then [] else [xs[from]]) + KeepOthersFrom(xs, i, from + 1)
  }

  /** The prompts other than the one at position `i` (all of them when `i` is no position). */
  function Others(existing: Option<seq<string>>, i: int): (r: seq<string>)
    ensures existing.None? ==> r == []
    ensures existing.Some? && 0 <= i < |existing.value| ==>
      |r| == |existing.value| - 1
      && (forall j :: 0 <= j < i ==> r[j] == existing.value[j])
      && (forall j :: i <= j < |r| ==> r[j] == existing.value[j + 1])
    ensures existing.Some? && !(0 <= i < |existing.value|) ==> r == existing.value
  {
    match existing
    case None => []
    case Some(xs) => if 0 <= i < |xs| then xs[..i] + xs[i + 1..] else xs
  }

  /** The position filter and the splice agree on every suffix. */
  lemma {:induction false} KeepOthersFromIsSplice(xs: seq<string>, i: int, from: nat)
    requires from <= |xs|
    ensures from <= i < |xs| ==> KeepOthersFrom(xs, i, from) == xs[from..i] + xs[i + 1..]
    ensures !(from <= i < |xs|) ==> KeepOthersFrom(xs, i, from) == xs[from..]
    decreases |xs| - from
  {
    if from < |xs| {
      KeepOthersFromIsSplice(xs, i, from + 1);
      if from == i {
        assert xs[from..i] == [];
      } else if from < i < |xs| {
        assert xs[from..i] == [xs[from]] + xs[from + 1..i];
      } else {
        assert xs[from..] == [xs[from]] + xs[from + 1..];
      }
    }
  }

  /** `Others` is exactly the route's position filter. */
  lemma OthersIsFilter(xs: seq<string>, i: int)
    ensures Others(Some(xs), i) == KeepOthersFrom(xs, i, 0)
  {
    KeepOthersFromIsSplice(xs, i, 0);
    assert xs[0..] == xs;
    if 0 <= i < |xs| {
      assert xs[0..i] == xs[..i];
    }
  }

  /** `` `${j + 1}. ${p}` `` for each listed prompt. */
  function Numbered(xs: seq<string>): (r: seq<string>)
    ensures |r| == |xs|
    ensures forall j :: 0 <= j < |xs| ==> StartsWith(r[j], NatToString(j + 1) + ". ") && EndsWith(r[j], xs[j])
  {
    seq(|xs|, j requires 0 <= j < |xs| => NatToString(j + 1) + ". " + xs[j])
  }

  /** The "existing prompts" section: present only when there is another prompt. */
  function OthersBlock(head: string, listed: seq<string>): (r: string)
    ensures |listed| == 0 <==> r == ""
    ensures |listed| > 0 ==> StartsWith(r, head + "\n") && EndsWith(r, "\n\n")
  {
    if |listed| > 0 then
      var r := head + "\n" + Join(Numbered(listed), "\n") + "\n\n";
      assert r[..|head| + 1] == head + "\n";
      assert r[|r| - 2..] == "\n\n";
      r
    else ""
  }

  predicate IsQuote(c: char) { c == '"' || c == '\'' }

  /** `(text || '').trim().replace(/^["']|["']$/g, '')`: at most one quote off each end. */
  function StripQuotes(text: string): (r: string)
    ensures |r| <= |Trim(text)| <= |r| + 2
  {
    var t := Trim(text);
    var u := if |t| > 0 && IsQuote(t[0]) then t[1..] else t;
    if |u| > 0 && IsQuote(u[|u| - 1]) then u[..|u| - 1] else u
  }

  /** Quotes around a reply are removed whatever they enclose, including a lone pair. */
  lemma StripQuotesOfQuoted(q1: char, core: string, q2: char)
    requires IsQuote(q1) && IsQuote(q2)
    ensures StripQuotes([q1] + core + [q2]) == core
  {
    var t := [q1] + core + [q2];
    TrimOfUnpadded(t);
    assert t[1..] == core + [q2];
  }

  /** A reply without surrounding space or quotes is returned as it is. */
  lemma StripQuotesOfPlain(core: string)
    requires |core| > 0 && !IsJsSpace(core[0]) && !IsJsSpace(core[|core| - 1])
    requires !IsQuote(core[0]) && !IsQuote(core[|core| - 1])
    ensures StripQuotes(core) == core
  {
    TrimOfUnpadded(core);
  }

  /** Only one quote comes off each end: a doubled quote keeps its inner half. */
  lemma StripQuotesRemovesOnlyOne(core: string)
    requires |core| > 0 && !IsJsSpace(core[0]) && !IsQuote(core[|core| - 1]) && !IsJsSpace(core[|core| - 1])
    ensures StripQuotes("\"\"" + core) == "\"" + core
  {
    var t := "\"\"" + core;
    TrimOfUnpadded(t);
    assert t[1..] == "\"" + core;
  }

  // ---------------------------------------------------------------------------
  // regenerate-one-scene-prompt and regenerate-one-desire-prompt
  // ---------------------------------------------------------------------------

  const RegenerateFailure: string := "Failed to regenerate prompt"
  const MissingStoryShort: string := "Missing story"
  const SceneOthersHead: string := "【已有其它提示词（对应不同空间，本条勿与它们重复同一房间）】"
  const DesireOthersHead: string := "【已有其它提示词（勿重复）】"

  datatype OneResponse = OnePrompt(prompt: string) | OneFailed(status: nat, error: string)

  /** `data.replace(/^data:image\/\w+;base64,/, '')` with the MIME from the same match, or JPEG. */
  function InlineImage(image: string): (p: DataUrl.Parsed)
    ensures DataUrl.HeaderEnd(image).None? ==> p == DataUrl.Parsed(image, DataUrl.Jpeg)
    ensures EndsWith(image, p.data)
  {
    DataUrl.Parsed(DataUrl.StripImageHeader(image), DataUrl.MatchMime(image).GetOr(DataUrl.Jpeg))
  }

  /** A data URL with a `\w+` subtype splits into its payload and `image/<subtype>`. */
  lemma InlineImageRoundTrip(subtype: string, payload: string)
    requires |subtype| > 0 && DataUrl.AllWordChars(subtype)
    ensures InlineImage(DataUrl.ImagePrefix + subtype + DataUrl.Marker + payload) == DataUrl.Parsed(payload, "image/" + subtype)
  {
    var s := DataUrl.ImagePrefix + subtype + DataUrl.Marker + payload;
    HeaderOf(subtype, payload);
    assert s[|DataUrl.ImagePrefix| + |subtype| + |DataUrl.Marker|..] == payload;
  }

  lemma HeaderOf(subtype: string, payload: string)
    requires |subtype| > 0 && DataUrl.AllWordChars(subtype)
    ensures var s := DataUrl.ImagePrefix + subtype + DataUrl.Marker + payload;
      DataUrl.HeaderEnd(s) == Some(|DataUrl.ImagePrefix| + |subtype| + |DataUrl.Marker|)
      && DataUrl.MatchMime(s) == Some("image/" + subtype)
  {
    var s := DataUrl.ImagePrefix + subtype + DataUrl.Marker + payload;
    var p := |DataUrl.ImagePrefix|;
    assert s[..p] == DataUrl.ImagePrefix;
    assert s[p + |subtype|] == ';';
    DataUrl.WordRunOf(s, p, |subtype|);
    assert s[p + |subtype|..p + |subtype| + |DataUrl.Marker|] == DataUrl.Marker;
    assert s[5..p + |subtype|] == "image/" + subtype;
  }

  datatype OneSceneBody = OneSceneBody(image: Option<string>, sceneContext: Option<string>, fullContext: Option<string>,
                                       characterGender: Option<string>, characterHairColor: Option<string>,
                                       sceneDescription: Option<string>, index: Option<int>,
                                       existingPrompts: Option<seq<string>>)

  datatype OneSceneAsk = OneSceneAsk(ordinal: int, sceneBase: string, others: string, image: DataUrl.Parsed)

  /** The prompt names its ordinal `i + 1` and lists at most four of the other prompts. */
  function OneSceneAskOf(b: OneSceneBody): (a: OneSceneAsk)
    requires b.image.Some?
    ensures b.index.None? ==> a.ordinal == 1
    ensures a.others == OthersBlock(SceneOthersHead, Take4(Others(b.existingPrompts, IndexOr0(b.index))))
    ensures a.image == InlineImage(b.image.value)
  {
    OneSceneAsk(IndexOr0(b.index) + 1, SceneBase(b.sceneDescription),
                OthersBlock(SceneOthersHead, Take4(Others(b.existingPrompts, IndexOr0(b.index)))),
                InlineImage(b.image.value))
  }

  /** `other.slice(0, 4)` */
  function Take4(xs: seq<string>): (r: seq<string>)
    ensures |r| <= 4 && |r| <= |xs| && r == xs[..|r|]
    ensures |xs| <= 4 ==> r == xs
  {
    if |xs| <= 4 then xs else xs[..4]
  }

  /** `POST /api/regenerate-one-scene-prompt` */
  function RegenerateOneScene(body: Option<OneSceneBody>, apiKey: string, reply: Option<string>): (r: OneResponse)
    ensures body.None? ==> r == OneFailed(500, RegenerateFailure)
    ensures body.Some? && !Truthy(body.value.image) ==> r == OneFailed(400, MissingImage)
    ensures body.Some? && Truthy(body.value.image) && apiKey == "" ==> r == OneFailed(400, MissingKey)
    ensures r.OnePrompt? <==> (body.Some? && Truthy(body.value.image) && apiKey != "" && reply.Some?)
    ensures r.OnePrompt? ==> |r.prompt| <= |Trim(reply.value)| <= |r.prompt| + 2
  {
    match body
    case None => OneFailed(500, RegenerateFailure)
    case Some(b) =>
      if !Truthy(b.image) then OneFailed(400, MissingImage)
      else if apiKey == "" then OneFailed(400, MissingKey)
      else match reply
        case None => OneFailed(500, RegenerateFailure)
        case Some(text) => OnePrompt(StripQuotes(text))
  }

  datatype OneDesireBody = OneDesireBody(story: Option<string>, sceneContext: Option<string>,
                                         characterGender: Option<string>, characterHairColor: Option<string>,
                                         index: Option<int>, existingPrompts: Option<seq<string>>)

  datatype OneDesireAsk = OneDesireAsk(ordinal: int, story: string, sceneContext: string, others: string)

  /** The story is cut to 6000 characters and every other prompt is listed. */
  function OneDesireAskOf(b: OneDesireBody): (a: OneDesireAsk)
    requires b.story.Some?
    ensures b.index.None? ==> a.ordinal == 1
    ensures |a.story| <= 6000 && StartsWith(b.story.value, a.story)
    ensures a.others == OthersBlock(DesireOthersHead, Others(b.existingPrompts, IndexOr0(b.index)))
  {
    OneDesireAsk(IndexOr0(b.index) + 1, Take(b.story.value, 6000), OrElse(b.sceneContext, Nothing),
                 OthersBlock(DesireOthersHead, Others(b.existingPrompts, IndexOr0(b.index))))
  }

  /** `POST /api/regenerate-one-desire-prompt` */
  function RegenerateOneDesire(body: Option<OneDesireBody>, apiKey: string, reply: Option<string>): (r: OneResponse)
    ensures body.None? ==> r == OneFailed(500, RegenerateFailure)
    ensures body.Some? && !Truthy(body.value.story) ==> r == OneFailed(400, MissingStoryShort)
    ensures body.Some? && Truthy(body.value.story) && apiKey == "" ==> r == OneFailed(400, MissingKey)
    ensures r.OnePrompt? <==> (body.Some? && Truthy(body.value.story) && apiKey != "" && reply.Some?)
    ensures r.OnePrompt? ==> |r.prompt| <= |Trim(reply.value)| <= |r.prompt| + 2
  {
    match body
    case None => OneFailed(500, RegenerateFailure)
    case Some(b) =>
      if !Truthy(b.story) then OneFailed(400, MissingStoryShort)
      else if apiKey == "" then OneFailed(400, MissingKey)
      else match reply
        case None => OneFailed(500, RegenerateFailure)
        case Some(text) => OnePrompt(StripQuotes(text))
  }

  /** Regenerating prompt `i` of a list never shows that prompt among the others, and shows each
      of the rest once, in order. */
  lemma RegenerateOneOmitsOwnPrompt(xs: seq<string>, i: nat)
    requires i < |xs|
    ensures multiset(Others(Some(xs), i)) + multiset{xs[i]} == multiset(xs)
  {
    assert xs == xs[..i] + [xs[i]] + xs[i + 1..];
  }

  // ---------------------------------------------------------------------------
  // generate-studio-scene-prompt
  // ---------------------------------------------------------------------------

  const StudioFailure: string := "生成录音棚场景提示词失败"
  const BadMode: string := "mode must be 1, 2, or 3"
  const MissingUserScene: string := "userScene required when mode is 3"

  const RecordingInstruction: string :=
    "请根据参考图，生成一条「16:9 场景图」用的中文提示词，要求：\n"
    + "- 描述参考图中的人物身穿符合录音棚环境的服饰、发型、妆面；\n"
    + "- 头戴专业耳机；\n"
    + "- 在录音棚中录制歌曲的中景画面；\n"
    + "- 语气温和，不要露骨。"
  const OriginalInstruction: string :=
    "请根据参考图，生成一条「16:9 场景图」用的中文提示词，要求：\n"
    + "- 场景、人物、服装均与参考图一致，不变；\n"
    + "- 人物在唱歌的中景画面；\n"
    + "- 人物情绪符合下面歌词的氛围；\n"
    + "- 语气温和，不要露骨。"
  const UserSceneHead: string :=
    "请根据参考图和用户输入的场景，生成一条「16:9 场景图」用的中文提示词，要求：\n"
    + "- 描述参考图中的人物身穿符合歌词气质的服饰、发型、妆面；\n"
    + "- 在用户输入的场景中唱歌的中景画面；\n"
    + "- 人物情绪符合下面歌词；\n"
    + "- 用户场景："
  const UserSceneTail: string := "\n- 语气温和，不要露骨。"

  /** `mode`, after `Number(mode)`, when that is an integer; `None` otherwise (NaN, fractions). */
  datatype StudioBody = StudioBody(mode: Option<int>, image: Option<string>, lyrics: Option<string>,
                                   fullContext: Option<string>, userScene: Option<string>)

  predicate IsStudioMode(m: Option<int>) { m.Some? && 1 <= m.value <= 3 }

  /** The instruction block for mode 1 (studio), 2 (as in the picture) or 3 (the user's scene). */
  function Instruction(mode: int, userScene: string): (r: string)
    requires 1 <= mode <= 3
    ensures mode == 1 ==> r == RecordingInstruction
    ensures mode == 2 ==> r == OriginalInstruction
    ensures mode == 3 ==> (StartsWith(r, UserSceneHead) && EndsWith(r, UserSceneTail)
      && |r| == |UserSceneHead| + |Trim(userScene)| + |UserSceneTail|
      && r[|UserSceneHead|..|r| - |UserSceneTail|] == Trim(userScene))
  {
    if mode == 1 then RecordingInstruction
    else if mode == 2 then OriginalInstruction
    else
      var r := UserSceneHead + Trim(userScene) + UserSceneTail;
      assert r[..|UserSceneHead|] == UserSceneHead;
      assert r[|r| - |UserSceneTail|..] == UserSceneTail;
      assert r[|UserSceneHead|..|r| - |UserSceneTail|] == Trim(userScene);
      r
  }

  /** The three modes give three different instructions, and mode 3 tells users' scenes apart
      up to surrounding space. */
  lemma InstructionsDistinct(a: string, b: string)
    ensures Instruction(1, a) != Instruction(2, b)
    ensures Instruction(1, a) != Instruction(3, b) && Instruction(2, a) != Instruction(3, b)
    ensures Instruction(3, a) == Instruction(3, b) <==> Trim(a) == Trim(b)
  {
    assert RecordingInstruction[|RecordingInstruction| - 35] != OriginalInstruction[|OriginalInstruction| - 35];
    assert UserSceneHead[6] != RecordingInstruction[6];
    assert UserSceneHead[6] != OriginalInstruction[6];
  }

  /** `${fullContext ? `文学性描述：${fullContext}\n\n` : ''}${lyrics ? `日文歌词：\n${lyrics}` : '（无）'}` */
  function LyricsBlock(fullContext: Option<string>, lyrics: Option<string>): (r: string)
    ensures !Truthy(fullContext) && !Truthy(lyrics) ==> r == Nothing
    ensures Truthy(fullContext) <==> StartsWith(r, "文学性描述：")
    ensures Truthy(lyrics) ==> EndsWith(r, lyrics.value)
    ensures !Truthy(lyrics) ==> EndsWith(r, Nothing)
  {
    var context := if Truthy(fullContext) then "文学性描述：" + fullContext.value + "\n\n" else "";
    var words := if Truthy(lyrics) then "日文歌词：\n" + lyrics.value else Nothing;
    var r := context + words;
    assert r[|r| - |words|..] == words;
    assert Truthy(fullContext) ==> r[..6] == "文学性描述：";
    assert !Truthy(fullContext) ==> r[0] != "文学性描述："[0];
    r
  }

  /** `POST /api/generate-studio-scene-prompt` */
  function GenerateStudioPrompt(body: Option<StudioBody>, apiKey: string, reply: Option<string>): (r: OneResponse)
    ensures body.None? ==> r == OneFailed(500, StudioFailure)
    ensures body.Some? && !Truthy(body.value.image) ==> r == OneFailed(400, MissingImage)
    ensures body.Some? && Truthy(body.value.image) && !IsStudioMode(body.value.mode) ==> r == OneFailed(400, BadMode)
    ensures body.Some? && Truthy(body.value.image) && body.value.mode == Some(3) && body.value.userScene.None? ==>
      r == OneFailed(400, MissingUserScene)
    ensures r.OnePrompt? <==> (body.Some? && Truthy(body.value.image) && IsStudioMode(body.value.mode)
      && (body.value.mode == Some(3) ==> body.value.userScene.Some?) && apiKey != "" && reply.Some?)
    ensures r.OnePrompt? ==> |r.prompt| <= |Trim(reply.value)| <= |r.prompt| + 2
  {
    match body
    case None => OneFailed(500, StudioFailure)
    case Some(b) =>
      if !Truthy(b.image) then OneFailed(400, MissingImage)
      else if !IsStudioMode(b.mode) then OneFailed(400, BadMode)
      else if b.mode.value == 3 && b.userScene.None? then OneFailed(400, MissingUserScene)
      else if apiKey == "" then OneFailed(400, MissingKey)
      else match reply
        case None => OneFailed(500, StudioFailure)
        case Some(text) => OnePrompt(StripQuotes(text))
  }

  datatype StudioAsk = StudioAsk(instruction: string, lyrics: string, image: DataUrl.Parsed)

  /** What an accepted studio request sends: the mode's instruction, the lyrics block, the image. */
  function StudioAskOf(b: StudioBody): (a: StudioAsk)
    requires b.image.Some? && IsStudioMode(b.mode)
    requires b.mode.value == 3 ==> b.userScene.Some?
    ensures a.instruction == Instruction(b.mode.value, b.userScene.GetOr(""))
    ensures a.image == InlineImage(b.image.value)
    ensures a.lyrics == LyricsBlock(b.fullContext, b.lyrics)
  {
    StudioAsk(Instruction(b.mode.value, b.userScene.GetOr("")), LyricsBlock(b.fullContext, b.lyrics), InlineImage(b.image.value))
  }

  /** An accepted studio request's instruction: mode 3 carries the trimmed scene, and an empty
      scene string is accepted. */
  lemma StudioAcceptsEmptyScene(image: string, apiKey: string, reply: string)
    requires image != "" && apiKey != ""
    ensures GenerateStudioPrompt(Some(StudioBody(Some(3), Some(image), None, None, Some(""))), apiKey, Some(reply)).OnePrompt?
    ensures Instruction(3, "") == UserSceneHead + UserSceneTail
  {
    assert Trim("") == "";
  }
}

=== FILE: settings_route.dfy ===
/**
 * The settings route: GET masks secrets, POST merges a posted settings object
 * with the stored one and keeps a stored secret whenever the posted value is
 * a masked one. Settings are maps from key to JSON value; the file is an input.
 */
module SettingsRoute {
  import opened Wrappers
  import opened JsText

  /** A JSON value: a string, or any other value with its truthiness and the text `String(value)`
      gives it. */
  datatype Value = Str(s: string) | Other(truthy: bool, text: string)

  type Settings = map<string, Value>

  const DefaultKeys: set<string> := {
    "geminiApiKey", "promptOutputDir", "grokApiKey", "openaiApiKey", "anthropicApiKey", "sunoApiKey",
    "murekaApiKey", "runwayApiKey", "pikaApiKey", "ossRegion", "ossAccessKeyId", "ossAccessKeySecret",
    "ossBucket", "ossCustomDomain"
  }

  /** Every known key, with the empty string. */
  function DefaultSettings(): (d: Settings)
    ensures d.Keys == DefaultKeys
    ensures forall k :: k in d ==> d[k] == Str("")
  {
    map k | k in DefaultKeys :: Str("")
  }

  const MaskMarker: string := "****"

  /** The one test GET and POST share for a secret-bearing key. */
  predicate IsSensitive(key: string) {
    Contains(key, "ApiKey") || Contains(key, "AccessKey") || EndsWith(key, "Secret")
  }

  /** A long secret shows only its first and last four characters. */
  function MaskValue(key: string, v: Value): (r: Value)
    ensures (IsSensitive(key) && v.Str? && |v.s| > 8) ==>
      r.Str? && |r.s| == 12 && r.s[..4] == v.s[..4] && r.s[8..] == v.s[|v.s| - 4..] && OccursAt(r.s, MaskMarker, 4)
    ensures !(IsSensitive(key) && v.Str? && |v.s| > 8) ==> r == v
  {
    if IsSensitive(key) && v.Str? && |v.s| > 8 then
      var m := v.s[..4] + MaskMarker + v.s[|v.s| - 4..];
      assert m[4..8] == MaskMarker;
      Str(m)
    else v
  }

  /** `GET /api/settings`; `file == None` is a missing or unparseable file. */
  function GetSettings(file: Option<Settings>): (r: Settings)
    ensures file.None? ==> r == DefaultSettings()
    ensures file.Some? ==> r.Keys == file.value.Keys
    ensures file.Some? ==> forall k :: k in r ==> r[k] == MaskValue(k, file.value[k])
  {
    match file
    case None => DefaultSettings()
    case Some(m) => map k | k in m :: MaskValue(k, m[k])
  }

  /** `{ ...defaultSettings, ...JSON.parse(content) }`, or the defaults alone when the file cannot be read. */
  function Existing(file: Option<Settings>): (e: Settings)
    ensures e.Keys == DefaultKeys + (if file.Some? then file.value.Keys else {})
  {
    match file
    case None => DefaultSettings()
    case Some(m) => DefaultSettings() + m
  }

  /** `existing[key] || ''` */
  function KeptValue(existing: Settings, key: string): (r: Value)
    ensures key in existing && existing[key].Str? && existing[key].s != "" ==> r == existing[key]
    ensures r.Other? ==> key in existing && existing[key] == r && r.truthy
  {
    if key in existing && ((existing[key].Str? && existing[key].s != "") || (existing[key].Other? && existing[key].truthy))
    then existing[key] else Str("")
  }

  /** The value stored for one posted entry. */
  function MergedValue(existing: Settings, key: string, posted: Value): Value {
    var str := if posted.Str? then posted.s else "";
    if IsSensitive(key) && Contains(str, MaskMarker) then KeptValue(existing, key) else Str(str)
  }

  /** The posted entries merged over the defaults, each entry by `MergedValue`. */
  function MergedSettings(b: Settings, file: Option<Settings>): (r: Settings)
    ensures r.Keys == DefaultKeys + b.Keys
    ensures forall k :: k in DefaultKeys && k !in b ==> r[k] == Str("")
    ensures forall k :: k in b ==> r[k] == MergedValue(Existing(file), k, b[k])
  {
    var e := Existing(file);
    DefaultSettings() + map k | k in b :: MergedValue(e, k, b[k])
  }

  /** The outcome of the three file-system steps, `mkdir`, the settings write and the `.env.local`
      write: all succeed, or the first to fail throws with a message. */
  datatype FsSteps = FsOk | MkdirFailed(message: string) | SettingsWriteFailed(message: string)
                   | EnvWriteFailed(message: string)

  /** `settings` is what `config/settings.json` holds afterwards when the route wrote it, `env` the
      `.env.local` text. */
  datatype SaveOutcome =
    | Written(settings: Settings, env: string)
    | BadBody
    | SaveFailed(error: string, settingsWritten: Option<Settings>)

  /** `POST /api/settings`. `body == None` is a JSON `null` or a non-object value; an unparseable body
      counts as `{}`. `file` is the stored settings, if readable. A failing file-system step answers
      500 with its message; when only the `.env.local` write fails, the settings file is already
      written. */
  function PostSettings(body: Option<Settings>, file: Option<Settings>, fs: FsSteps): (r: SaveOutcome)
    ensures body.None? <==> r == BadBody
    ensures r.SaveFailed? <==> body.Some? && !fs.FsOk?
    ensures r.SaveFailed? ==> r.error == "保存失败: " + fs.message
    ensures r.SaveFailed? ==> (r.settingsWritten.Some? <==> fs.EnvWriteFailed?)
    ensures r.SaveFailed? && r.settingsWritten.Some? ==> r.settingsWritten.value == MergedSettings(body.value, file)
    ensures r.Written? ==> r.settings == MergedSettings(body.value, file) && r.env == EnvFile(r.settings)
  {
    match body
    case None => BadBody
    case Some(b) =>
      match fs
      case MkdirFailed(m) => SaveFailed("保存失败: " + m, None)
      case SettingsWriteFailed(m) => SaveFailed("保存失败: " + m, None)
      case EnvWriteFailed(m) => SaveFailed("保存失败: " + m, Some(MergedSettings(b, file)))
      case FsOk =>
        var merged := MergedSettings(b, file);
        Written(merged, EnvFile(merged))
  }

  // ---- the `.env.local` file ----

  /** The variables of the first group, each with the setting it copies. */
  const ApiKeyVars: seq<(string, string)> := [
    ("GEMINI_API_KEY", "geminiApiKey"), ("PROMPT_DIR", "promptOutputDir"), ("GROK_API_KEY", "grokApiKey"),
    ("OPENAI_API_KEY", "openaiApiKey"), ("ANTHROPIC_API_KEY", "anthropicApiKey"), ("SUNO_API_KEY", "sunoApiKey"),
    ("MUREKA_API_KEY", "murekaApiKey"), ("RUNWAY_API_KEY", "runwayApiKey"), ("PIKA_API_KEY", "pikaApiKey")
  ]

  /** The variables of the object-storage group. */
  const OssVars: seq<(string, string)> := [
    ("OSS_REGION", "ossRegion"), ("OSS_ACCESS_KEY_ID", "ossAccessKeyId"),
    ("OSS_ACCESS_KEY_SECRET", "ossAccessKeySecret"), ("OSS_BUCKET", "ossBucket"),
    ("OSS_CUSTOM_DOMAIN", "ossCustomDomain")
  ]

  const EnvHeader: string := "# Auto-generated from settings panel\n# Do not edit manually\n\n"
  const OssHeader: string := "\n# 阿里云 OSS\n"

  /** `${mergedSettings[key] || ''}` */
  function EnvValue(m: Settings, key: string): string {
    if key !in m then ""
    else match m[key]
      case Str(s) => s
      case Other(truthy, text) => if truthy then text else ""
  }

  /** One `NAME=value` line. */
  function EnvLine(m: Settings, v: (string, string)): string {
    v.0 + "=" + EnvValue(m, v.1) + "\n"
  }

  /** The lines of a group of variables, in order. */
  function EnvLines(m: Settings, vars: seq<(string, string)>): string {
    if vars == [] then "" else EnvLine(m, vars[0]) + EnvLines(m, vars[1..])
  }

  /** The generated `.env.local` text. */
  function EnvFile(m: Settings): string {
    EnvHeader + EnvLines(m, ApiKeyVars) + OssHeader + EnvLines(m, OssVars)
  }

  /** A group's text is the lines before a variable, its own line, and the lines after it. */
  lemma {:induction false} EnvLinesSplit(m: Settings, vars: seq<(string, string)>, i: nat)
    requires i < |vars|
    ensures EnvLines(m, vars) == EnvLines(m, vars[..i]) + EnvLine(m, vars[i]) + EnvLines(m, vars[i + 1..])
    decreases i
  {
    if i > 0 {
      EnvLinesSplit(m, vars[1..], i - 1);
      assert vars[1..][..i - 1] == vars[1..i];
      assert vars[1..][i - 1] == vars[i];
      assert vars[1..][i..] == vars[i + 1..];
      assert vars[..i][1..] == vars[1..i];
      assert vars[..i][0] == vars[0];
    } else {
      assert vars[..0] == [];
      assert vars[1..] == vars[i + 1..];
    }
  }

  /** A variable's line sits between the text before and after its group. */
  lemma GroupLineInText(m: Settings, pre: string, vars: seq<(string, string)>, post: string, i: nat)
    requires i < |vars|
    ensures exists before, after :: pre + EnvLines(m, vars) + post == before + EnvLine(m, vars[i]) + after
  {
    EnvLinesSplit(m, vars, i);
    Regroup(pre, EnvLines(m, vars[..i]), EnvLine(m, vars[i]), EnvLines(m, vars[i + 1..]), post);
  }

  lemma Regroup(p: string, x: string, l: string, y: string, q: string)
    ensures p + (x + l + y) + q == (p + x) + l + (y + q)
  {
  }

  /** Every variable of either group gets its own line in `.env.local`, and a stored string setting
      appears there verbatim: the line is `NAME=value`. */
  lemma EnvCarriesSetting(m: Settings, v: (string, string))
    requires v in ApiKeyVars || v in OssVars
    ensures exists before, after :: EnvFile(m) == before + EnvLine(m, v) + after
    ensures v.1 in m && m[v.1].Str? ==> EnvLine(m, v) == v.0 + "=" + m[v.1].s + "\n"
  {
    var a, o := EnvLines(m, ApiKeyVars), EnvLines(m, OssVars);
    assert EnvFile(m) == EnvHeader + a + (OssHeader + o);
    assert EnvFile(m) == (EnvHeader + a + OssHeader) + o + "";
    if v in ApiKeyVars {
      var i :| 0 <= i < |ApiKeyVars| && ApiKeyVars[i] == v;
      GroupLineInText(m, EnvHeader, ApiKeyVars, OssHeader + o, i);
    } else {
      var i :| 0 <= i < |OssVars| && OssVars[i] == v;
      GroupLineInText(m, EnvHeader + a + OssHeader, OssVars, "", i);
    }
  }

  /** The merge rule per entry: a masked value for a sensitive key keeps the stored value (or `''`);
      any other string is stored as is; a non-string is stored as `''`. */
  lemma MergedValueCases(existing: Settings, key: string, posted: Value)
    ensures posted.Other? ==> MergedValue(existing, key, posted) == Str("")
    ensures posted.Str? && !(IsSensitive(key) && Contains(posted.s, MaskMarker)) ==> MergedValue(existing, key, posted) == posted
    ensures posted.Str? && IsSensitive(key) && Contains(posted.s, MaskMarker) ==>
      MergedValue(existing, key, posted) == KeptValue(existing, key)
  {
    if posted.Other? {
      assert !Contains("", MaskMarker) by { LongerNeverOccurs("", MaskMarker); }
    }
  }

  /** Posting back exactly what GET returned leaves every stored string setting as it was. */
  lemma GetThenPostKeepsStrings(stored: Settings)
    ensures var r := PostSettings(Some(GetSettings(Some(stored))), Some(stored), FsOk);
      r.Written? && forall k :: k in stored && stored[k].Str? ==> r.settings[k] == stored[k]
  {
    var shown := GetSettings(Some(stored));
    var r := PostSettings(Some(shown), Some(stored), FsOk);
    var e := Existing(Some(stored));
    forall k | k in stored && stored[k].Str?
      ensures r.settings[k] == stored[k]
    {
      var s := stored[k].s;
      assert e[k] == stored[k];
      if IsSensitive(k) && |s| > 8 {
        ContainsAt(shown[k].s, MaskMarker, 4);
        assert r.settings[k] == KeptValue(e, k);
      } else {
        assert shown[k] == stored[k];
        if IsSensitive(k) && Contains(s, MaskMarker) {
          assert s != "" by {
            if s == "" { LongerNeverOccurs(s, MaskMarker); }
          }
        }
      }
    }
  }
}

=== FILE: song_step.dfy ===
/**
 * Step 2 of the application (`Module2Song`): the list of prompt versions, the
 * version navigation, the editor over the shown version, regeneration with
 * feedback and the request for the story. The page is the store plus the
 * component's own state; every handler is a transition of the pair, and each
 * `fetch` arrives as its already-decoded outcome.
 */
module SongStep {
  import opened Wrappers
  import opened JsText
  import AppStore
  import PromptFiles
  import StoryRoute

  /** The component's own state: the feedback box and the unsaved edits of the shown version. */
  datatype Editor = Editor(feedback: string, edits: Option<AppStore.PromptData>)

  datatype Page = Page(store: AppStore.State, editor: Editor)

  // ---------------------------------------------------------------------------
  // The file-name caption
  // ---------------------------------------------------------------------------

  /** `parseFilename`: the caption fields of a prompt file, the version shown with its `V`. */
  function FilenameInfo(f: string): (r: Option<PromptFiles.NameParts>)
    ensures r.None? <==> PromptFiles.ParseNameAsWritten(f).None?
    ensures r.Some? ==>
      && |r.value.version| >= 2 && r.value.version[0] == 'V' && r.value.keyword != ""
      && PromptFiles.VersionedName(r.value.(version := r.value.version[1..])) == f
  {
    match PromptFiles.ParseNameAsWritten(f)
    case None => None
    case Some(p) =>
      var q := p.(version := "V" + p.version);
      assert q.version[1..] == p.version;
      Some(q)
  }

  /** A generated name with a non-empty keyword reads back as its own fields. */
  lemma FilenameInfoRoundTrip(p: PromptFiles.NameParts)
    requires PromptFiles.WellFormedParts(p) && p.keyword != ""
    ensures FilenameInfo(PromptFiles.VersionedName(p)) == Some(p.(version := "V" + p.version))
  {
    PromptFiles.ParseNameRoundTrip(p);
  }

  // ---------------------------------------------------------------------------
  // Looking a version up by its name
  // ---------------------------------------------------------------------------

  /** `promptVersions.findIndex(v => v.version === name)`: the first match, or -1. */
  function IndexOfVersion(vs: seq<AppStore.PromptVersion>, name: Option<string>): (r: int)
    ensures -1 <= r < |vs|
    ensures r >= 0 ==> Some(vs[r].version) == name && forall j :: 0 <= j < r ==> Some(vs[j].version) != name
    ensures r == -1 <==> forall j :: 0 <= j < |vs| ==> Some(vs[j].version) != name
    decreases |vs|
  {
    if |vs| == 0 then -1
    else if Some(vs[0].version) == name then 0
    else
      var k := IndexOfVersion(vs[1..], name);
      assert forall j :: 1 <= j < |vs| ==> vs[j] == vs[1..][j - 1];
      if k == -1 then -1 else k + 1
  }

  /** `promptVersions.find(v => v.version === name)`. */
  function FindVersion(vs: seq<AppStore.PromptVersion>, name: Option<string>): (r: Option<AppStore.PromptVersion>)
    ensures r.Some? <==> exists j :: 0 <= j < |vs| && Some(vs[j].version) == name
    ensures r.Some? ==> r.value in vs && Some(r.value.version) == name
  {
    var i := IndexOfVersion(vs, name);
    if i >= 0 then Some(vs[i]) else None
  }

  /** No two versions in the list share a name. */
  predicate DistinctVersions(vs: seq<AppStore.PromptVersion>) {
    forall i, j :: 0 <= i < j < |vs| ==> vs[i].version != vs[j].version
  }

  /** With distinct names, looking up a listed version's name finds its own position. */
  lemma IndexOfDistinct(vs: seq<AppStore.PromptVersion>, k: nat)
    requires k < |vs|
    ensures DistinctVersions(vs) ==> IndexOfVersion(vs, Some(vs[k].version)) == k
  {
    var r := IndexOfVersion(vs, Some(vs[k].version));
    assert r != -1;
  }

  /** The version whose data the page shows. */
  function CurrentVersion(s: AppStore.State): Option<AppStore.PromptVersion> {
    FindVersion(s.promptVersions, s.selectedVersion)
  }

  /** The version the story is built from. */
  function FinalVersion(s: AppStore.State): Option<AppStore.PromptVersion> {
    FindVersion(s.promptVersions, s.finalSelectedVersion)
  }

  /** The last version carrying the name: the lookup under which a version just added is the one shown. */
  function NewestVersion(vs: seq<AppStore.PromptVersion>, name: Option<string>): (r: Option<AppStore.PromptVersion>)
    ensures r.Some? <==> exists j :: 0 <= j < |vs| && Some(vs[j].version) == name
    ensures r.Some? ==> r.value in vs && Some(r.value.version) == name
    ensures |vs| > 0 && Some(vs[|vs| - 1].version) == name ==> r == Some(vs[|vs| - 1])
    decreases |vs|
  {
    if |vs| == 0 then None
    else if Some(vs[|vs| - 1].version) == name then Some(vs[|vs| - 1])
    else
      var r := NewestVersion(vs[..|vs| - 1], name);
      assert forall j :: 0 <= j < |vs| - 1 ==> vs[j] == vs[..|vs| - 1][j];
      r
  }

  /** Whatever the list holds, the version `addPromptVersion` just added and selected is the newest
      under its name. */
  lemma AddedVersionIsNewest(s: AppStore.State, v: AppStore.PromptVersion)
    ensures var r := AppStore.AddPromptVersion(s, v);
      NewestVersion(r.promptVersions, r.selectedVersion) == Some(v)
  {
    var r := AppStore.AddPromptVersion(s, v);
    assert r.promptVersions[|r.promptVersions| - 1] == v;
  }

  /** Versions are named per keyword and date, so a second keyword starts again at `V01`: the page
      then selects the new `V01` but shows the first keyword's prompt. */
  lemma SecondKeywordShowsFirstPrompt(s: AppStore.State, first: AppStore.PromptVersion, second: AppStore.PromptVersion)
    requires s.promptVersions == [] && first.version == "V01" && second.version == "V01" && first != second
    ensures var r := AppStore.AddPromptVersion(AppStore.AddPromptVersion(s, first), second);
      && r.selectedVersion == Some(second.version)
      && CurrentVersion(r) == Some(first)
      && NewestVersion(r.promptVersions, r.selectedVersion) == Some(second)
  {
    var r := AppStore.AddPromptVersion(AppStore.AddPromptVersion(s, first), second);
    assert r.promptVersions == [first, second];
    assert IndexOfVersion(r.promptVersions, r.selectedVersion) == 0;
  }

  // ---------------------------------------------------------------------------
  // Navigation
  // ---------------------------------------------------------------------------

  function CurrentIndex(s: AppStore.State): int {
    IndexOfVersion(s.promptVersions, s.selectedVersion)
  }

  predicate CanGoPrev(s: AppStore.State) { CurrentIndex(s) > 0 }

  predicate CanGoNext(s: AppStore.State) { CurrentIndex(s) < |s.promptVersions| - 1 }

  /** `handleVersionChange`: selects the version and drops the edits. */
  function VersionChange(p: Page, name: string): (r: Page)
    ensures r.store == p.store.(selectedVersion := Some(name))
    ensures r.editor == p.editor.(edits := None)
  {
    Page(p.store.(selectedVersion := Some(name)), p.editor.(edits := None))
  }

  /** The "next version" button: the version after the shown one (the first one when the selection
      names no version), or nothing when the last one is shown. */
  function Next(p: Page): (r: Page)
    ensures !CanGoNext(p.store) ==> r == p
    ensures CanGoNext(p.store) ==> r == VersionChange(p, p.store.promptVersions[CurrentIndex(p.store) + 1].version)
    ensures CanGoNext(p.store) && DistinctVersions(p.store.promptVersions) ==>
      CurrentIndex(r.store) == CurrentIndex(p.store) + 1
  {
    if CanGoNext(p.store) then
      var k := CurrentIndex(p.store) + 1;
      IndexOfDistinct(p.store.promptVersions, k);
      VersionChange(p, p.store.promptVersions[k].version)
    else p
  }

  /** The "previous version" button. */
  function Prev(p: Page): (r: Page)
    ensures !CanGoPrev(p.store) ==> r == p
    ensures CanGoPrev(p.store) ==> r == VersionChange(p, p.store.promptVersions[CurrentIndex(p.store) - 1].version)
    ensures CanGoPrev(p.store) && DistinctVersions(p.store.promptVersions) ==>
      CurrentIndex(r.store) == CurrentIndex(p.store) - 1
  {
    if CanGoPrev(p.store) then
      var k := CurrentIndex(p.store) - 1;
      IndexOfDistinct(p.store.promptVersions, k);
      VersionChange(p, p.store.promptVersions[k].version)
    else p
  }

  /** A selection that names no version: "next" shows the first version. */
  lemma NextFromUnknownShowsFirst(p: Page)
    requires CurrentIndex(p.store) == -1 && |p.store.promptVersions| > 0
    ensures CurrentVersion(Next(p).store) == Some(p.store.promptVersions[0])
  {
    var vs := p.store.promptVersions;
    assert Next(p).store.selectedVersion == Some(vs[0].version);
    assert IndexOfVersion(vs, Some(vs[0].version)) == 0;
  }

  /** With distinct names, "next" then "previous" comes back to the version shown before. */
  lemma NextThenPrevReturns(p: Page)
    requires DistinctVersions(p.store.promptVersions) && CurrentIndex(p.store) >= 0 && CanGoNext(p.store)
    ensures Prev(Next(p)).store.selectedVersion == p.store.selectedVersion
  {
    var i := CurrentIndex(p.store);
    var q := Next(p);
    assert CurrentIndex(q.store) == i + 1 && CanGoPrev(q.store);
    assert Prev(q).store.selectedVersion == Some(p.store.promptVersions[i].version);
  }

  /** Navigation never selects a name outside the list: it keeps the selection or names a listed version. */
  lemma NavigationStaysInList(p: Page)
    ensures Next(p).store.selectedVersion == p.store.selectedVersion || FindVersion(p.store.promptVersions, Next(p).store.selectedVersion).Some?
    ensures Prev(p).store.selectedVersion == p.store.selectedVersion || FindVersion(p.store.promptVersions, Prev(p).store.selectedVersion).Some?
  {
    var vs := p.store.promptVersions;
    var i := CurrentIndex(p.store);
    if CanGoNext(p.store) {
      assert Some(vs[i + 1].version) == Next(p).store.selectedVersion;
    }
    if CanGoPrev(p.store) {
      assert Some(vs[i - 1].version) == Prev(p).store.selectedVersion;
    }
  }

  // ---------------------------------------------------------------------------
  // The editor
  // ---------------------------------------------------------------------------

  datatype Field = StylePrompt | StylePromptCN | Lyrics | LyricsCN

  function FieldOf(d: AppStore.PromptData, f: Field): string {
    match f
    case StylePrompt => d.stylePrompt
    case StylePromptCN => d.stylePromptCN
    case Lyrics => d.lyrics
    case LyricsCN => d.lyricsCN
  }

  /** `{ ...d, [f]: v }`: the named field takes the value, every other field is kept. */
  function WithField(d: AppStore.PromptData, f: Field, v: string): (r: AppStore.PromptData)
    ensures FieldOf(r, f) == v
    ensures forall g :: g != f ==> FieldOf(r, g) == FieldOf(d, g)
  {
    match f
    case StylePrompt => d.(stylePrompt := v)
    case StylePromptCN => d.(stylePromptCN := v)
    case Lyrics => d.(lyrics := v)
    case LyricsCN => d.(lyricsCN := v)
  }

  /** `editableData || currentVersion?.data`: the edits when there are any, else the shown version's data. */
  function CurrentData(p: Page): (r: Option<AppStore.PromptData>)
    ensures p.editor.edits.Some? ==> r == p.editor.edits
    ensures p.editor.edits.None? ==> (r.Some? <==> CurrentVersion(p.store).Some?)
    ensures p.editor.edits.None? && r.Some? ==> r.value == CurrentVersion(p.store).value.data
  {
    if p.editor.edits.Some? then p.editor.edits
    else match CurrentVersion(p.store)
      case Some(v) => Some(v.data)
      case None => None
  }

  /** `updateField`: with data shown, only the named field of the shown data changes; the store and
      the feedback are untouched. With nothing shown it does nothing. */
  function UpdateField(p: Page, f: Field, v: string): (r: Page)
    ensures CurrentData(p).None? ==> r == p
    ensures CurrentData(p).Some? ==>
      && r.store == p.store && r.editor.feedback == p.editor.feedback
      && CurrentData(r).Some?
      && FieldOf(CurrentData(r).value, f) == v
      && forall g :: g != f ==> FieldOf(CurrentData(r).value, g) == FieldOf(CurrentData(p).value, g)
  {
    match CurrentData(p)
    case None => p
    case Some(d) => p.(editor := p.editor.(edits := Some(WithField(d, f, v))))
  }

  /** Changing version discards the edits: the page shows the stored data of the version chosen. */
  lemma VersionChangeDiscardsEdits(p: Page, f: Field, v: string, name: string)
    ensures var q := VersionChange(UpdateField(p, f, v), name);
      CurrentData(q) == (match FindVersion(p.store.promptVersions, Some(name))
                         case Some(w) => Some(w.data)
                         case None => None)
  {
  }

  // ---------------------------------------------------------------------------
  // Regeneration
  // ---------------------------------------------------------------------------

  /** The guard of `handleRegenerate`: non-blank feedback and a version shown. */
  predicate CanRegenerate(p: Page) {
    Trim(p.editor.feedback) != "" && CurrentVersion(p.store).Some?
  }

  function AiPromptOf(d: AppStore.PromptData): PromptFiles.AiPrompt {
    PromptFiles.AiPrompt(Some(d.stylePrompt), Some(d.stylePromptCN), Some(d.lyrics), Some(d.lyricsCN))
  }

  /** The body posted to `/api/regenerate-prompt`, when the guard lets the request go. */
  function RegenerateRequest(p: Page): (r: Option<PromptFiles.RegenerateBody>)
    ensures r.Some? <==> CanRegenerate(p)
    ensures r.Some? ==> r.value.feedback == Some(p.editor.feedback)
    ensures r.Some? ==> (r.value.previousVersion ==
      Some(PromptFiles.PreviousVersion(CurrentVersion(p.store).value.filename, AiPromptOf(CurrentVersion(p.store).value.data))))
  {
    if CanRegenerate(p) then
      var v := CurrentVersion(p.store).value;
      Some(PromptFiles.RegenerateBody(Some(PromptFiles.PreviousVersion(v.filename, AiPromptOf(v.data))), Some(p.editor.feedback)))
    else None
  }

  /** A request the page sends always passes the route's check for a previous version and a
      non-empty feedback, so it is never refused for missing fields. */
  lemma RegenerateRequestIsComplete(p: Page)
    requires CanRegenerate(p)
    ensures RegenerateRequest(p).value.previousVersion.Some? && Truthy(RegenerateRequest(p).value.feedback)
  {
    assert p.editor.feedback != "" by {
      if p.editor.feedback == "" {
        TrimEmptyIffAllSpace(p.editor.feedback);
      }
    }
  }

  /** `handleRegenerate` once the response is in (`None` when the call threw). On a created file the
      version is added with the shown version's keywords, and the feedback and edits are cleared;
      a refused guard or a failed call changes nothing. */
  function HandleRegenerate(p: Page, reply: Option<PromptFiles.PromptOutcome>): (r: Page)
    ensures !CanRegenerate(p) || reply.None? || reply.value.Failed? ==> r == p
    ensures CanRegenerate(p) && reply.Some? && reply.value.Created? ==>
      var cur := CurrentVersion(p.store).value;
      var o := reply.value;
      && r.editor == Editor("", None)
      && r.store == AppStore.AddPromptVersion(p.store,
           AppStore.PromptVersion(o.filename, o.version, o.data, o.createdAt, cur.keywordJa, cur.keywordCn))
  {
    if !CanRegenerate(p) then p
    else
      var cur := CurrentVersion(p.store).value;
      match reply
      case None => p
      case Some(o) =>
        if o.Failed? then p
        else
          Page(AppStore.AddPromptVersion(p.store,
                 AppStore.PromptVersion(o.filename, o.version, o.data, o.createdAt, cur.keywordJa, cur.keywordCn)),
               Editor("", None))
  }

  /** After a regeneration the new version is selected and holds the shown version's keywords; it is
      the one displayed when its name is new to the list, and always the newest under its name. */
  lemma RegeneratedVersionIsShown(p: Page, o: PromptFiles.PromptOutcome)
    requires CanRegenerate(p) && o.Created?
    requires forall j :: 0 <= j < |p.store.promptVersions| ==> p.store.promptVersions[j].version != o.version
    ensures var r := HandleRegenerate(p, Some(o));
      && CurrentData(r) == Some(o.data)
      && CurrentVersion(r.store).value.keywordJa == CurrentVersion(p.store).value.keywordJa
      && CurrentVersion(r.store).value.keywordCn == CurrentVersion(p.store).value.keywordCn
  {
    var r := HandleRegenerate(p, Some(o));
    var vs := r.store.promptVersions;
    var n := |p.store.promptVersions|;
    assert vs[..n] == p.store.promptVersions;
    assert forall j :: 0 <= j < n ==> vs[j] == p.store.promptVersions[j];
    assert IndexOfVersion(vs, r.store.selectedVersion) == n;
  }

  // ---------------------------------------------------------------------------
  // The story and the way on
  // ---------------------------------------------------------------------------

  /** "Set as final": the shown version's name becomes the final one. */
  function SetFinal(s: AppStore.State): (r: AppStore.State)
    ensures r.finalSelectedVersion == s.selectedVersion
    ensures FinalVersion(r) == CurrentVersion(s)
    ensures r.(finalSelectedVersion := s.finalSelectedVersion) == s
  {
    s.(finalSelectedVersion := s.selectedVersion)
  }

  /** The body posted to `/api/generate-story`: sent only when a final version is chosen and found. */
  function StoryRequest(s: AppStore.State): (r: Option<StoryRoute.StoryBody>)
    ensures r.Some? <==> Truthy(s.finalSelectedVersion) && FinalVersion(s).Some?
    ensures r.Some? ==> r.value.fullContext == Some(s.fullContext) && r.value.lyrics == Some(FinalVersion(s).value.data.lyrics)
  {
    if !Truthy(s.finalSelectedVersion) then None
    else match FinalVersion(s)
      case None => None
      case Some(v) => Some(StoryRoute.StoryBody(Some(s.fullContext), Some(v.data.lyrics)))
  }

  /** Marking a shown, named version final lets the story request go, with that version's lyrics. */
  lemma SetFinalEnablesStory(s: AppStore.State)
    requires CurrentVersion(s).Some? && s.selectedVersion != Some("")
    ensures StoryRequest(SetFinal(s)).Some?
    ensures StoryRequest(SetFinal(s)).value.lyrics == Some(CurrentVersion(s).value.data.lyrics)
  {
  }

  /** `handleGenerateStory` once the response is in: the story, its segments and an empty other
      scene are stored and step 3 is unlocked; nothing else changes. */
  function HandleGenerateStory(s: AppStore.State, reply: Option<StoryRoute.StoryResponse>): (r: AppStore.State)
    ensures StoryRequest(s).None? || reply.None? || reply.value.StoryFailed? ==> r == s
    ensures StoryRequest(s).Some? && reply.Some? && reply.value.StoryDone? ==>
      && r.generatedStory == reply.value.story && r.generatedStorySegments == reply.value.segments
      && r.generatedStoryOtherScene == "" && 3 in r.unlockedModules
      && r.(generatedStory := s.generatedStory, generatedStorySegments := s.generatedStorySegments,
            generatedStoryOtherScene := s.generatedStoryOtherScene, unlockedModules := s.unlockedModules) == s
  {
    if StoryRequest(s).None? then s
    else match reply
      case None => s
      case Some(o) =>
        if o.StoryFailed? then s
        else AppStore.UnlockModule(s.(generatedStory := o.story, generatedStorySegments := o.segments,
                                      generatedStoryOtherScene := ""), 3)
  }

  /** The button to step 3 is enabled iff the story is not blank. */
  predicate CanContinue(s: AppStore.State) { Trim(s.generatedStory) != "" }

  function Continue(s: AppStore.State): (r: AppStore.State)
    ensures !CanContinue(s) ==> r == s
    ensures CanContinue(s) ==> r.currentModule == 3 && 3 in r.unlockedModules
  {
    if CanContinue(s) then AppStore.UnlockModule(s, 3).(currentModule := 3) else s
  }

  /** A story the route produces always starts with its first segment's number, so once it is
      stored the way to step 3 is open. */
  lemma RouteStoryEnablesContinue(s: AppStore.State, apiKey: string, reply: Option<string>)
    requires StoryRequest(s).Some?
    ensures var resp := StoryRoute.GenerateStory(StoryRequest(s), apiKey, reply);
      resp.StoryDone? ==> CanContinue(HandleGenerateStory(s, Some(resp)))
  {
    var resp := StoryRoute.GenerateStory(StoryRequest(s), apiKey, reply);
    if resp.StoryDone? {
      var story := resp.story;
      StoryRoute.StoryStartsWithOne(resp.segments);
      TrimEmptyIffAllSpace(story);
      assert !AllSpace(story) by {
        assert !IsJsSpace(story[0]);
      }
    }
  }
}

=== FILE: story_route.dfy ===
/**
 * `POST /api/generate-story`: the model writes five numbered paragraphs; the
 * route cuts its reply into exactly five segments and joins them back into the
 * story `1. s1`, blank line, `2. s2`, ... The reply is an input (`None` when
 * the call throws).
 *
 * The segment regex `([1-5])\.\s*([\s\S]*?)(?=\s*[1-5]\.\s*|$)` is written out
 * as a scanner: every marker `d.` (a digit 1..5 and a dot) opens a segment,
 * white space after the marker is skipped, and the segment ends lazily at the
 * first position from which white space leads to another marker, or at the end.
 */
module StoryRoute {
  import opened Wrappers
  import opened JsText

  /** `[1-5]\.` at position `k`. */
  predicate MarkerAt(s: string, k: nat) {
    k + 1 < |s| && '1' <= s[k] <= '5' && s[k + 1] == '.'
  }

  predicate NoMarker(s: string) { forall k :: 0 <= k < |s| ==> !MarkerAt(s, k) }

  /** No white space at either end: what `trim()` returns. */
  predicate Unpadded(s: string) { |s| > 0 ==> !IsJsSpace(s[0]) && !IsJsSpace(s[|s| - 1]) }

  /** What the scanner produces: trimmed text holding no marker. */
  predicate Clean(s: string) { Unpadded(s) && NoMarker(s) }

  /** The first marker at or after `from`, where the next `exec` starts matching. */
  function NextMarker(s: string, from: nat): (r: Option<nat>)
    requires from <= |s|
    ensures r.Some? ==> from <= r.value && MarkerAt(s, r.value)
    decreases |s| - from
  {
    if from == |s| then None
    else if MarkerAt(s, from) then Some(from)
    else NextMarker(s, from + 1)
  }

  /** No marker lies before the one `NextMarker` finds (before the end when it finds none). */
  lemma {:induction false} NextMarkerIsFirst(s: string, from: nat, k: nat)
    requires from <= k < |s|
    requires NextMarker(s, from).Some? ==> k < NextMarker(s, from).value
    ensures !MarkerAt(s, k)
    decreases |s| - from
  {
    if k > from {
      NextMarkerIsFirst(s, from + 1, k);
    }
  }

  /** The look-ahead `(?=\s*[1-5]\.\s*|$)` holds at `e`. */
  predicate SegmentEndsAt(s: string, e: nat)
    requires e <= |s|
  {
    e == |s| || MarkerAt(s, SpaceRunEnd(s, e))
  }

  /** The lazy `[\s\S]*?`: the first position at or after `from` where the look-ahead holds. */
  function SegmentEnd(s: string, from: nat): (e: nat)
    requires from <= |s|
    ensures from <= e <= |s| && SegmentEndsAt(s, e)
    decreases |s| - from
  {
    if SegmentEndsAt(s, from) then from else SegmentEnd(s, from + 1)
  }

  /** The segment ends at the first position where the look-ahead holds. */
  lemma {:induction false} SegmentEndIsFirst(s: string, from: nat, j: nat)
    requires from <= |s| && from <= j < SegmentEnd(s, from)
    ensures !SegmentEndsAt(s, j)
    decreases |s| - from
  {
    if j > from {
      SegmentEndIsFirst(s, from + 1, j);
    }
  }

  /** Inside a segment no marker starts: a marker is not white space, so the look-ahead would hold there. */
  lemma {:induction false} NoMarkerBeforeSegmentEnd(s: string, from: nat, j: nat)
    requires from <= |s|
    requires from <= j < SegmentEnd(s, from)
    ensures !MarkerAt(s, j)
  {
    SegmentEndIsFirst(s, from, j);
  }

  /** Where the text of the segment a marker at `k` opens lies before it is trimmed (`m[2]`): from
      the end of the white space after the marker to the first position where the look-ahead
      holds, which is also where the next search starts (`lastIndex`). */
  function SegmentSpan(s: string, k: nat): (r: (nat, nat))
    requires MarkerAt(s, k)
    ensures k + 2 <= r.0 <= r.1 <= |s|
  {
    var q := SpaceRunEnd(s, k + 2);
    (q, SegmentEnd(s, q))
  }

  /** The trimmed text of a span, `m[2].trim()`. */
  function SpanText(s: string, p: (nat, nat)): string {
    if p.0 <= p.1 <= |s| then Trim(s[p.0..p.1]) else ""
  }

  /** The segment a marker at `k` opens, and where the next search starts. */
  function SegmentAt(s: string, k: nat): (r: (string, nat))
    requires MarkerAt(s, k)
    ensures k + 2 <= r.1 <= |s|
  {
    (SpanText(s, SegmentSpan(s, k)), SegmentSpan(s, k).1)
  }

  /** The `exec` loop from position `from`: the span of one segment per marker, in order. */
  function ScanSpans(s: string, from: nat): seq<(nat, nat)>
    requires from <= |s|
    decreases |s| - from
  {
    match NextMarker(s, from)
    case None => []
    case Some(k) => [SegmentSpan(s, k)] + ScanSpans(s, SegmentSpan(s, k).1)
  }

  /** The trimmed texts of the spans, in order. */
  function SpanTexts(s: string, spans: seq<(nat, nat)>): (r: seq<string>)
    ensures |r| == |spans|
  {
    if |spans| == 0 then [] else [SpanText(s, spans[0])] + SpanTexts(s, spans[1..])
  }

  /** The trimmed segments the loop collects from position `from` on. */
  function ScanSegments(s: string, from: nat): seq<string>
    requires from <= |s|
  {
    SpanTexts(s, ScanSpans(s, from))
  }

  /** The segment a marker opens is trimmed and holds no marker. */
  lemma {:induction false} SegmentAtIsClean(s: string, k: nat)
    requires MarkerAt(s, k)
    ensures Clean(SegmentAt(s, k).0)
  {
    SegmentTextHasNoMarker(s, SpaceRunEnd(s, k + 2));
  }

  predicate AllClean(r: seq<string>) { forall i :: 0 <= i < |r| ==> Clean(r[i]) }

  /** Every scanned segment is trimmed and holds no marker. */
  lemma {:induction false} ScannedSegmentsAreClean(s: string, from: nat)
    requires from <= |s|
    ensures AllClean(ScanSegments(s, from))
    decreases |s| - from
  {
    match NextMarker(s, from)
    case None =>
    case Some(k) =>
      var p := SegmentAt(s, k);
      ScanStep(s, from, k);
      SegmentAtIsClean(s, k);
      ScannedSegmentsAreClean(s, p.1);
      AllCleanCons(p.0, ScanSegments(s, p.1));
  }

  lemma {:induction false} AllCleanCons(x: string, rest: seq<string>)
    requires Clean(x) && AllClean(rest)
    ensures AllClean([x] + rest)
  {
    var r := [x] + rest;
    forall i | 0 <= i < |r|
      ensures Clean(r[i])
    {
      if i > 0 {
        assert r[i] == rest[i - 1];
      }
    }
  }

  /** One `exec` step: the marker found opens the next segment. */
  lemma {:induction false} ScanStep(s: string, from: nat, k: nat)
    requires from <= |s| && NextMarker(s, from) == Some(k)
    ensures ScanSegments(s, from) == [SegmentAt(s, k).0] + ScanSegments(s, SegmentAt(s, k).1)
  {
    var p := SegmentSpan(s, k);
    var rest := ScanSpans(s, p.1);
    assert ScanSpans(s, from) == [p] + rest;
    assert ([p] + rest)[1..] == rest;
  }

  /** The trimmed text of a segment holds no marker. */
  lemma {:induction false} SegmentTextHasNoMarker(s: string, q: nat)
    requires q <= |s|
    ensures NoMarker(Trim(s[q..SegmentEnd(s, q)]))
  {
    var x := s[q..SegmentEnd(s, q)];
    forall j | 0 <= j < |x|
      ensures !MarkerAt(x, j)
    {
      NoMarkerBeforeSegmentEnd(s, q, q + j);
      if j + 1 < |x| {
        assert x[j] == s[q + j] && x[j + 1] == s[q + j + 1];
      }
    }
    NoMarkerTrim(x);
  }

  /** Trimming a marker-free text leaves it marker-free. */
  lemma {:induction false} NoMarkerTrim(x: string)
    requires NoMarker(x)
    ensures NoMarker(Trim(x))
  {
    var y := Trim(x);
    TrimIsSlice(x);
    var a := SpaceRunEnd(x, 0);
    forall k | 0 <= k < |y|
      ensures !MarkerAt(y, k)
    {
      if MarkerAt(y, k) {
        assert y[k] == x[a + k] && y[k + 1] == x[a + k + 1];
        assert MarkerAt(x, a + k);
      }
    }
  }

  /** Every marker the scanner passes opens exactly one segment. */
  function MarkerCount(s: string, from: nat): nat
    requires from <= |s|
    decreases |s| - from
  {
    if from == |s| then 0 else (if MarkerAt(s, from) then 1 else 0) + MarkerCount(s, from + 1)
  }

  lemma {:induction false} MarkerCountFrom(s: string, from: nat, to: nat)
    requires from <= to <= |s|
    requires forall k :: from <= k < to ==> !MarkerAt(s, k)
    ensures MarkerCount(s, from) == MarkerCount(s, to)
    decreases |s| - from
  {
    if from < to {
      MarkerCountFrom(s, from + 1, to);
    }
  }

  /** The regex finds one segment per occurrence of a marker: none is skipped or swallowed. */
  lemma {:induction false} ScanCountsMarkers(s: string, from: nat)
    requires from <= |s|
    ensures |ScanSegments(s, from)| == MarkerCount(s, from)
    decreases |s| - from
  {
    match NextMarker(s, from)
    case None =>
      forall j | from <= j < |s|
        ensures !MarkerAt(s, j)
      {
        NextMarkerIsFirst(s, from, j);
      }
      MarkerCountFrom(s, from, |s|);
    case Some(k) =>
      var q := SpaceRunEnd(s, k + 2);
      var e := SegmentEnd(s, q);
      assert SegmentAt(s, k).1 == e;
      forall j | from <= j < k
        ensures !MarkerAt(s, j)
      {
        NextMarkerIsFirst(s, from, j);
      }
      MarkerCountFrom(s, from, k);
      assert !MarkerAt(s, k + 1);
      forall j | k + 2 <= j < q
        ensures !MarkerAt(s, j)
      {
        SpaceRunEndSkipsSpace(s, k + 2, j);
      }
      MarkerCountFrom(s, k + 2, q);
      forall j | q <= j < e
        ensures !MarkerAt(s, j)
      {
        NoMarkerBeforeSegmentEnd(s, q, j);
      }
      MarkerCountFrom(s, q, e);
      ScanCountsMarkers(s, e);
  }

  // ---------------------------------------------------------------------------
  // Fallback: numbered paragraphs
  // ---------------------------------------------------------------------------

  /** A `\n\n` begins at `k`. */
  predicate BlankAt(s: string, k: nat) { k + 1 < |s| && s[k] == '\n' && s[k + 1] == '\n' }

  /** The first position at or after `from` where a `\n\n` begins. */
  function BlankLineAt(s: string, from: nat): (r: Option<nat>)
    requires from <= |s|
    ensures r.Some? ==> from <= r.value && BlankAt(s, r.value)
    ensures forall k :: from <= k < (if r.Some? then r.value else |s|) ==> !BlankAt(s, k)
    decreases |s| - from
  {
    if from + 1 >= |s| then None
    else if BlankAt(s, from) then Some(from)
    else BlankLineAt(s, from + 1)
  }

  /** The end of the run of `\n` starting at `from`. */
  function NewlineRunEnd(s: string, from: nat): (r: nat)
    requires from <= |s|
    ensures from <= r <= |s|
    ensures forall i :: from <= i < r ==> s[i] == '\n'
    ensures r < |s| ==> s[r] != '\n'
    decreases |s| - from
  {
    if from < |s| && s[from] == '\n' then NewlineRunEnd(s, from + 1) else from
  }

  /** `s.split(/\n\n+/)`: the pieces between maximal runs of two or more newlines. */
  function Paragraphs(s: string): (r: seq<string>)
    ensures |r| >= 1
    decreases |s|
  {
    match BlankLineAt(s, 0)
    case None => [s]
    case Some(i) =>
      var j := NewlineRunEnd(s, i);
      [s[..i]] + Paragraphs(s[j..])
  }

  /** The marker text `i.` of the fallback, for `i` in 1..5. */
  function Numbered(i: nat): (r: string)
    requires 1 <= i <= 5
    ensures r == NatToString(i) + "."
  {
    [DigitChar(i), '.']
  }

  /** `line.replace(new RegExp('^' + i + '\\.\\s*'), '').trim()`, as written: the marker is removed
      only when the untrimmed paragraph starts with it. */
  function FallbackTextAsWritten(line: string, i: nat): (r: string)
    requires 1 <= i <= 5
    ensures StartsWith(line, Numbered(i)) ==> r == Trim(line[2..])
    ensures !StartsWith(line, Numbered(i)) ==> r == Trim(line)
  {
    if StartsWith(line, Numbered(i)) then Trim(line[2..]) else Trim(line)
  }

  /** The fallback text as intended: the marker is removed from the trimmed paragraph, which is the
      text the paragraph was selected by. */
  function FallbackText(line: string, i: nat): (r: string)
    requires 1 <= i <= 5
  {
    var t := Trim(line);
    if StartsWith(t, Numbered(i)) then Trim(t[2..]) else t
  }

  /** Whatever white space precedes `i.` and follows it, the corrected fallback keeps just the text. */
  lemma {:induction false} FallbackTextDropsMarker(ws: string, i: nat, text: string)
    requires 1 <= i <= 5 && AllSpace(ws)
    requires |text| > 0 && !IsJsSpace(text[0]) && !IsJsSpace(text[|text| - 1])
    ensures FallbackText(ws + Numbered(i) + " " + text, i) == text
  {
    var core := Numbered(i) + " " + text;
    assert ws + Numbered(i) + " " + text == ws + core;
    assert core[0] == DigitChar(i) && core[|core| - 1] == text[|text| - 1];
    TrimOfSpaced(ws, core);
    FallbackTextOfCore(ws + core, i, text);
  }

  lemma {:induction false} FallbackTextOfCore(line: string, i: nat, text: string)
    requires 1 <= i <= 5 && Trim(line) == Numbered(i) + " " + text
    requires |text| > 0 && !IsJsSpace(text[0]) && !IsJsSpace(text[|text| - 1])
    ensures FallbackText(line, i) == text
  {
    var core := Numbered(i) + " " + text;
    assert core[..2] == Numbered(i);
    assert core[2..] == " " + text;
    TrimOfSpaced(" ", text);
  }

  /** Under the code as written, a paragraph indented by white space keeps its number: the story
      then repeats it (`2. 2. b`). */
  lemma {:induction false} IndentedParagraphKeepsNumberAsWritten(ws: string, i: nat, text: string)
    requires 1 <= i <= 5 && |ws| > 0 && AllSpace(ws)
    requires |text| > 0 && !IsJsSpace(text[0]) && !IsJsSpace(text[|text| - 1])
    ensures FallbackTextAsWritten(ws + Numbered(i) + " " + text, i) == Numbered(i) + " " + text
  {
    var core := Numbered(i) + " " + text;
    assert ws + Numbered(i) + " " + text == ws + core;
    assert core[0] == DigitChar(i) && core[|core| - 1] == text[|text| - 1];
    assert (ws + core)[0] == ws[0];
    TrimOfSpaced(ws, core);
  }

  /** The paragraph ` 2. b`: as written its text is `2. b`, corrected it is `b`. */
  lemma {:induction false} IndentedParagraphKeepsNumber()
    ensures FallbackTextAsWritten(" 2. b", 2) == "2. b"
    ensures FallbackText(" 2. b", 2) == "b"
  {
    var line := " " + Numbered(2) + " " + "b";
    assert line == " 2. b";
    IndentedParagraphKeepsNumberAsWritten(" ", 2, "b");
    FallbackTextDropsMarker(" ", 2, "b");
  }

  /** The paragraph the fallback takes for number `i`: one that starts with `i.` once trimmed. */
  predicate NumberedLine(line: string, i: nat)
    requires 1 <= i <= 5
  {
    StartsWith(Trim(line), Numbered(i))
  }

  /** `lines.find(l => l.trim().startsWith(i + '.'))`: the index of the first such paragraph. */
  function FindNumbered(lines: seq<string>, i: nat): (r: Option<nat>)
    requires 1 <= i <= 5
    ensures r.Some? ==> r.value < |lines| && NumberedLine(lines[r.value], i)
    ensures forall j {:trigger NumberedLine(lines[j], i)} ::
      0 <= j < (if r.Some? then r.value else |lines|) ==> !NumberedLine(lines[j], i)
  {
    if |lines| == 0 then None
    else if NumberedLine(lines[0], i) then Some(0)
    else match FindNumbered(lines[1..], i)
      case None => None
      case Some(j) =>
        assert forall k :: 1 <= k <= j ==> lines[k] == lines[1..][k - 1];
        Some(j + 1)
  }

  /** Segment `i` of the fallback: the text of the first paragraph numbered `i`, or `''`. */
  function FallbackSegment(lines: seq<string>, i: nat): (r: string)
    requires 1 <= i <= 5
  {
    match FindNumbered(lines, i)
    case None => ""
    case Some(j) => FallbackText(lines[j], i)
  }

  // ---------------------------------------------------------------------------
  // Segments and story
  // ---------------------------------------------------------------------------

  /** `segments.slice(0, 5)` padded with `''` to five. */
  function FiveSegments(segments: seq<string>): (r: seq<string>)
    ensures |r| == 5
    ensures forall i :: 0 <= i < 5 && i < |segments| ==> r[i] == segments[i]
    ensures forall i :: |segments| <= i < 5 ==> r[i] == ""
  {
    seq(5, i requires 0 <= i < 5 => if i < |segments| then segments[i] else "")
  }

  /** The fallback's five segments, one per number. */
  function FallbackSegments(text: string): (r: seq<string>)
    ensures |r| == 5
  {
    var lines := Paragraphs(text);
    seq(5, i requires 0 <= i < 5 => FallbackSegment(lines, i + 1))
  }

  /** The five segments of a trimmed reply: the first five scanned ones when there are at least
      five, else the numbered paragraphs. */
  function StorySegments(text: string): (r: seq<string>)
    ensures |r| == 5
    ensures |ScanSegments(text, 0)| >= 5 ==> r == ScanSegments(text, 0)[..5]
    ensures |ScanSegments(text, 0)| < 5 ==> r == FallbackSegments(text)
  {
    var scanned := ScanSegments(text, 0);
    if |scanned| >= 5 then
      assert FiveSegments(scanned) == scanned[..5];
      FiveSegments(scanned)
    else
      assert FiveSegments(FallbackSegments(text)) == FallbackSegments(text);
      FiveSegments(FallbackSegments(text))
  }

  /** The numbered parts `i. s`. */
  function StoryParts(segments: seq<string>): (r: seq<string>)
    ensures |r| == |segments|
    ensures forall i :: 0 <= i < |r| ==> r[i] == NatToString(i + 1) + ". " + segments[i]
  {
    seq(|segments|, i requires 0 <= i < |segments| => NatToString(i + 1) + ". " + segments[i])
  }

  /** `padded.map((s, i) => `${i + 1}. ${s}`).join('\n\n')` */
  function Story(segments: seq<string>): string {
    Join(StoryParts(segments), "\n\n")
  }

  /** For the first five numbers the number is one digit, a marker with the dot after it. */
  lemma SmallNumber(n: nat)
    requires 1 <= n <= 5
    ensures NatToString(n) == [DigitChar(n)] && '1' <= DigitChar(n) <= '5'
  {
  }

  /** The first marker from `from` is at `k`. */
  lemma {:induction false} NextMarkerIs(s: string, from: nat, k: nat)
    requires from <= k <= |s| && MarkerAt(s, k)
    requires forall j :: from <= j < k ==> !MarkerAt(s, j)
    ensures NextMarker(s, from) == Some(k)
    decreases k - from
  {
    if from < k {
      NextMarkerIs(s, from + 1, k);
    }
  }

  /** The lazy end is the first position where the look-ahead holds. */
  lemma {:induction false} SegmentEndIs(s: string, from: nat, e: nat)
    requires from <= e <= |s| && SegmentEndsAt(s, e)
    requires forall j :: from <= j < e ==> !SegmentEndsAt(s, j)
    ensures SegmentEnd(s, from) == e
    decreases e - from
  {
    if from < e {
      SegmentEndIs(s, from + 1, e);
    }
  }

  /** A blank line holds no marker, so scanning from it or from just after it is the same. */
  lemma {:induction false} ScanSkipsBlankLine(s: string, e: nat)
    requires e + 2 <= |s| && s[e] == '\n' && s[e + 1] == '\n'
    ensures ScanSegments(s, e) == ScanSegments(s, e + 2)
  {
    assert NextMarker(s, e) == NextMarker(s, e + 2) by {
      assert !MarkerAt(s, e) && !MarkerAt(s, e + 1);
    }
  }

  /** What may follow the text of a part: the end, or a blank line and the next marker. */
  predicate PartEndsAt(s: string, e: nat) {
    e == |s| || (e + 2 < |s| && s[e] == '\n' && s[e + 1] == '\n' && MarkerAt(s, e + 2))
  }

  /** One step of the scanner over `d. ` with an empty segment. */
  lemma {:induction false} ScanOneEmpty(s: string, from: nat, k: nat)
    requires from <= k && k + 3 <= |s|
    requires forall j :: from <= j < k ==> !MarkerAt(s, j)
    requires MarkerAt(s, k) && s[k + 2] == ' ' && PartEndsAt(s, k + 3)
    ensures ScanSegments(s, from) == [""] + ScanSegments(s, k + 3)
  {
    var e := k + 3;
    NextMarkerIs(s, from, k);
    if e == |s| {
      SpaceRunEndIs(s, k + 2, e);
      SegmentEndIs(s, e, e);
      assert s[e..e] == "";
      assert SegmentAt(s, k) == ("", e);
    } else {
      SpaceRunEndIs(s, k + 2, e + 2);
      SpaceRunEndIs(s, e + 2, e + 2);
      SegmentEndIs(s, e + 2, e + 2);
      assert s[e + 2..e + 2] == "";
      assert SegmentAt(s, k) == ("", e + 2);
      ScanSkipsBlankLine(s, e);
    }
  }

  /** One step of the scanner over `d. seg` with a non-empty, trimmed, marker-free segment. */
  lemma {:induction false} ScanOneText(s: string, from: nat, k: nat, seg: string)
    requires from <= k && k + 3 + |seg| <= |s| && |seg| > 0
    requires forall j :: from <= j < k ==> !MarkerAt(s, j)
    requires MarkerAt(s, k) && s[k + 2] == ' ' && s[k + 3..k + 3 + |seg|] == seg
    requires Clean(seg)
    requires PartEndsAt(s, k + 3 + |seg|)
    ensures ScanSegments(s, from) == [seg] + ScanSegments(s, k + 3 + |seg|)
  {
    SegmentAtText(s, k, seg);
    NextMarkerIs(s, from, k);
    ScanAfterSegment(s, from, k, seg, k + 3 + |seg|);
  }

  /** The scan from `from` once its first segment is known. */
  lemma {:induction false} ScanAfterSegment(s: string, from: nat, k: nat, x: string, e: nat)
    requires from <= |s| && NextMarker(s, from) == Some(k) && SegmentAt(s, k) == (x, e)
    ensures ScanSegments(s, from) == [x] + ScanSegments(s, e)
  {
    ScanStep(s, from, k);
  }

  /** The segment a marker opens over `d. seg` is `seg`, and the search resumes right after it. */
  lemma {:induction false} SegmentAtText(s: string, k: nat, seg: string)
    requires k + 3 + |seg| <= |s| && |seg| > 0
    requires MarkerAt(s, k) && s[k + 2] == ' ' && s[k + 3..k + 3 + |seg|] == seg
    requires Clean(seg)
    requires PartEndsAt(s, k + 3 + |seg|)
    ensures SegmentAt(s, k) == (seg, k + 3 + |seg|)
  {
    assert s[k + 3] == seg[0];
    SpaceRunEndIs(s, k + 2, k + 3);
    SegmentEndOfText(s, k + 3, seg);
    SegmentAtBounds(s, k, k + 3, k + 3 + |seg|);
    TrimOfUnpadded(seg);
  }

  /** The segment a marker opens, once its start and end are known. */
  lemma {:induction false} SegmentAtBounds(s: string, k: nat, q: nat, e: nat)
    requires MarkerAt(s, k) && k + 2 <= |s| && SpaceRunEnd(s, k + 2) == q
    requires q <= |s| && SegmentEnd(s, q) == e
    ensures SegmentAt(s, k) == (Trim(s[q..e]), e)
  {
  }

  /** A clean text followed by the end or by a blank line and a marker ends its segment. */
  lemma {:induction false} SegmentEndOfText(s: string, q: nat, seg: string)
    requires q + |seg| <= |s| && |seg| > 0 && s[q..q + |seg|] == seg && Clean(seg)
    requires PartEndsAt(s, q + |seg|)
    ensures SegmentEnd(s, q) == q + |seg|
  {
    var e := q + |seg|;
    NoEarlierSegmentEnd(s, q, seg);
    if e < |s| {
      SpaceRunEndIs(s, e, e + 2);
    }
    SegmentEndIs(s, q, e);
  }

  /** Inside a clean segment the look-ahead never holds. */
  lemma {:induction false} NoEarlierSegmentEnd(s: string, q: nat, seg: string)
    requires q + |seg| <= |s| && |seg| > 0 && s[q..q + |seg|] == seg && Clean(seg)
    requires q + |seg| < |s| ==> s[q + |seg|] != '.'
    ensures forall j :: q <= j < q + |seg| ==> !SegmentEndsAt(s, j)
  {
    var e := q + |seg|;
    assert s[e - 1] == seg[|seg| - 1];
    forall j | q <= j < e
      ensures !SegmentEndsAt(s, j)
    {
      var r := SpaceRunEnd(s, j);
      if r > e - 1 {
        SpaceRunEndSkipsSpace(s, j, e - 1);
      }
      if r < e - 1 {
        assert s[r] == seg[r - q] && s[r + 1] == seg[r - q + 1];
        assert !MarkerAt(seg, r - q);
      }
    }
  }

  /** One step of the scanner over `d. seg`, whatever the segment. */
  lemma {:induction false} ScanOne(s: string, from: nat, k: nat, seg: string)
    requires from <= k && k + 3 + |seg| <= |s|
    requires forall j :: from <= j < k ==> !MarkerAt(s, j)
    requires MarkerAt(s, k) && s[k + 2] == ' ' && s[k + 3..k + 3 + |seg|] == seg
    requires Clean(seg)
    requires PartEndsAt(s, k + 3 + |seg|)
    ensures ScanSegments(s, from) == [seg] + ScanSegments(s, k + 3 + |seg|)
  {
    if |seg| == 0 {
      ScanOneEmpty(s, from, k);
    } else {
      ScanOneText(s, from, k, seg);
    }
  }

  /** The text `t` holds the parts `i..` of a story: each is a marker, a space and its segment,
      a blank line separates the parts, and the last one ends `t`. */
  predicate StoryFrom(t: string, segments: seq<string>, i: nat)
    requires i < |segments|
    decreases |segments| - i
  {
    var e := 3 + |segments[i]|;
    e <= |t| && MarkerAt(t, 0) && t[2] == ' ' && t[3..e] == segments[i] &&
    if i + 1 == |segments| then e == |t|
    else e + 2 <= |t| && t[e] == '\n' && t[e + 1] == '\n' && StoryFrom(t[e + 2..], segments, i + 1)
  }

  /** A story standing from `k` on in `s`, in the positions of `s`. */
  lemma {:induction false} StoryFromAt(s: string, k: nat, segments: seq<string>, i: nat)
    requires i < |segments| && k <= |s| && StoryFrom(s[k..], segments, i)
    ensures k + 3 + |segments[i]| <= |s| && MarkerAt(s, k) && s[k + 2] == ' '
    ensures s[k + 3..k + 3 + |segments[i]|] == segments[i]
    ensures PartEndsAt(s, k + 3 + |segments[i]|)
    ensures i + 1 == |segments| ==> k + 3 + |segments[i]| == |s|
    ensures i + 1 < |segments| ==> k + 5 + |segments[i]| <= |s|
    ensures i + 1 < |segments| ==> s[k + 3 + |segments[i]|] == '\n' && s[k + 4 + |segments[i]|] == '\n'
    ensures i + 1 < |segments| ==> StoryFrom(s[k + 5 + |segments[i]|..], segments, i + 1)
  {
    var t := s[k..];
    var e := 3 + |segments[i]|;
    assert s[k] == t[0] && s[k + 1] == t[1] && s[k + 2] == t[2];
    assert s[k + 3..k + e] == t[3..e];
    if i + 1 < |segments| {
      assert t[e + 2..] == s[k + e + 2..];
      assert s[k + e] == t[e] && s[k + e + 1] == t[e + 1];
      assert MarkerAt(t[e + 2..], 0);
      assert s[k + e + 2] == t[e + 2] && s[k + e + 3] == t[e + 3];
    }
  }

  /** Scanning a story that stands from `k` on gives back its segments, part by part. */
  lemma {:induction false} ScanFrom(s: string, k: nat, segments: seq<string>, i: nat)
    requires i < |segments| && AllClean(segments) && k <= |s| && StoryFrom(s[k..], segments, i)
    ensures ScanSegments(s, k) == segments[i..]
    decreases |segments| - i
  {
    StoryFromAt(s, k, segments, i);
    if i + 1 == |segments| {
      ScanLastPart(s, k, segments);
    } else {
      ScanFrom(s, k + 5 + |segments[i]|, segments, i + 1);
      ScanPart(s, k, segments, i);
    }
  }

  /** The last part of a story scans as its segment alone. */
  lemma {:induction false} ScanLastPart(s: string, k: nat, segments: seq<string>)
    requires |segments| > 0 && AllClean(segments)
    requires k + 3 + |segments[|segments| - 1]| == |s| && MarkerAt(s, k) && s[k + 2] == ' '
    requires s[k + 3..|s|] == segments[|segments| - 1]
    ensures ScanSegments(s, k) == segments[|segments| - 1..]
  {
    var seg := segments[|segments| - 1];
    ScanOne(s, k, k, seg);
    assert ScanSegments(s, |s|) == [];
  }

  /** A part followed by a blank line scans as its segment, then as the parts after it. */
  lemma {:induction false} ScanPart(s: string, k: nat, segments: seq<string>, i: nat)
    requires i + 1 < |segments| && Clean(segments[i])
    requires k + 5 + |segments[i]| <= |s| && MarkerAt(s, k) && s[k + 2] == ' '
    requires s[k + 3..k + 3 + |segments[i]|] == segments[i]
    requires PartEndsAt(s, k + 3 + |segments[i]|)
    requires s[k + 3 + |segments[i]|] == '\n' && s[k + 4 + |segments[i]|] == '\n'
    requires ScanSegments(s, k + 5 + |segments[i]|) == segments[i + 1..]
    ensures ScanSegments(s, k) == segments[i..]
  {
    ScanOne(s, k, k, segments[i]);
    ScanSkipsBlankLine(s, k + 3 + |segments[i]|);
    SplitFirst(segments, i);
  }

  lemma {:induction false} SplitFirst(r: seq<string>, i: nat)
    requires i < |r|
    ensures r[i..] == [r[i]] + r[i + 1..]
  {
    assert r[i..] == [r[i]] + r[i + 1..];
  }

  /** Where the pieces of `d. seg` followed by `tail` stand. */
  lemma {:induction false} PartLayout(t: string, d: char, seg: string, tail: string)
    requires t == [d, '.', ' '] + seg + tail
    ensures |t| == 3 + |seg| + |tail|
    ensures t[0] == d && t[1] == '.' && t[2] == ' '
    ensures t[3..3 + |seg|] == seg
    ensures t[3 + |seg|..] == tail
  {
  }

  /** The joined parts from `i` on: the part `i`, then the blank line and the rest. */
  lemma {:induction false} JoinFrom(parts: seq<string>, sep: string, i: nat)
    requires i + 1 < |parts|
    ensures Join(parts[i..], sep) == parts[i] + sep + Join(parts[i + 1..], sep)
  {
    assert parts[i..][1..] == parts[i + 1..];
  }

  /** Part `i` of the story is `d. seg` for the digit `d` of `i + 1`. */
  lemma {:induction false} PartShape(segments: seq<string>, i: nat)
    requires i < |segments| <= 5
    ensures StoryParts(segments)[i] == [DigitChar(i + 1), '.', ' '] + segments[i]
    ensures '1' <= DigitChar(i + 1) <= '5'
  {
    SmallNumber(i + 1);
  }

  /** The joined parts from `i` on hold the parts `i..` as `StoryFrom` says. */
  lemma {:induction false} StoryIsFrom(segments: seq<string>, i: nat)
    requires |segments| <= 5 && i < |segments|
    ensures StoryFrom(Join(StoryParts(segments)[i..], "\n\n"), segments, i)
    decreases |segments| - i
  {
    var parts := StoryParts(segments);
    var seg := segments[i];
    var d := DigitChar(i + 1);
    var e := 3 + |seg|;
    PartShape(segments, i);
    if i + 1 == |segments| {
      assert parts[i..] == [parts[i]];
      PartLayout(parts[i], d, seg, "");
    } else {
      var rest := Join(parts[i + 1..], "\n\n");
      JoinFrom(parts, "\n\n", i);
      var t := parts[i] + "\n\n" + rest;
      PartLayout(t, d, seg, "\n\n" + rest);
      assert t[e] == '\n' && t[e + 1] == '\n';
      assert t[e + 2..] == rest;
      StoryIsFrom(segments, i + 1);
    }
  }

  lemma JoinStartsWithFirst(parts: seq<string>, sep: string)
    requires |parts| > 0
    ensures StartsWith(Join(parts, sep), parts[0])
  {
  }

  /** The story re-parses: scanning it gives back its segments, when they are trimmed and carry no
      marker themselves (which the scanner guarantees of the segments it produces). */
  lemma {:induction false} StoryScansBack(segments: seq<string>)
    requires 1 <= |segments| <= 5
    requires AllClean(segments)
    ensures ScanSegments(Story(segments), 0) == segments
  {
    assert StoryParts(segments)[0..] == StoryParts(segments);
    StoryIsFrom(segments, 0);
    assert Story(segments)[0..] == Story(segments);
    ScanFrom(Story(segments), 0, segments, 0);
  }



  // ---------------------------------------------------------------------------
  // The route
  // ---------------------------------------------------------------------------

  const MissingFields: string := "Missing required fields"
  const MissingKey: string := "API Key not configured"
  const StoryFailure: string := "Failed to generate story"

  datatype StoryBody = StoryBody(fullContext: Option<string>, lyrics: Option<string>)

  /** The success response; `otherScene` is always omitted and is not represented. */
  datatype StoryResponse =
    | StoryDone(story: string, segments: seq<string>)
    | StoryFailed(status: nat, error: string)

  /** `POST /api/generate-story`; `body == None` is a body that does not parse or is JSON `null`
      (destructuring it throws), `reply == None` a failed call. Any other JSON value has its two
      fields read, missing ones as `None`. */
  function GenerateStory(body: Option<StoryBody>, apiKey: string, reply: Option<string>): (r: StoryResponse)
    ensures body.None? ==> r == StoryFailed(500, StoryFailure)
    ensures body.Some? && !(Truthy(body.value.fullContext) && Truthy(body.value.lyrics)) ==> r == StoryFailed(400, MissingFields)
    ensures body.Some? && Truthy(body.value.fullContext) && Truthy(body.value.lyrics) ==>
      && (apiKey == "" ==> r == StoryFailed(400, MissingKey))
      && (apiKey != "" && reply.None? ==> r == StoryFailed(500, StoryFailure))
      && (apiKey != "" && reply.Some? ==> r.StoryDone?)
    ensures r.StoryDone? ==> |r.segments| == 5 && r.story == Story(r.segments) && reply.Some?
    ensures r.StoryDone? ==> r.segments == StorySegments(Trim(reply.value))
  {
    match body
    case None => StoryFailed(500, StoryFailure)
    case Some(b) =>
      if !(Truthy(b.fullContext) && Truthy(b.lyrics)) then StoryFailed(400, MissingFields)
      else if apiKey == "" then StoryFailed(400, MissingKey)
      else match reply
        case None => StoryFailed(500, StoryFailure)
        case Some(text) =>
          var segments := StorySegments(Trim(text));
          StoryDone(Story(segments), segments)
  }

  /** When the scanner finds five segments (by `ScanCountsMarkers`, when the reply holds five
      markers), the story the route returns scans back into the very segments it returns, whenever
      the fifth is not empty. */
  lemma {:induction false} StoryOfScannedReplyScansBack(text: string)
    requires |ScanSegments(Trim(text), 0)| >= 5
    ensures var segs := StorySegments(Trim(text));
      segs[4] != "" ==> StorySegments(Trim(Story(segs))) == segs
  {
    var t := Trim(text);
    var segs := StorySegments(t);
    var all := ScanSegments(t, 0);
    ScannedSegmentsAreClean(t, 0);
    assert forall j :: 0 <= j < 5 ==> segs[j] == all[j];
    if segs[4] != "" {
      StoryScansBack(segs);
      var story := Story(segs);
      StoryStartsWithOne(segs);
      StoryEndsWithLast(segs);
      TrimOfUnpadded(story);
    }
  }

  lemma {:induction false} StoryStartsWithOne(segs: seq<string>)
    requires |segs| == 5
    ensures |Story(segs)| > 0 && Story(segs)[0] == '1'
  {
    JoinStartsWithFirst(StoryParts(segs), "\n\n");
    assert StoryParts(segs)[0][0] == '1';
  }

  lemma {:induction false} StoryEndsWithLast(segs: seq<string>)
    requires |segs| == 5 && segs[4] != ""
    ensures EndsWith(Story(segs), segs[4])
  {
    var p := StoryParts(segs);
    JoinEndsWithLast(p, "\n\n");
    assert EndsWith(p[4], segs[4]);
  }

  lemma {:induction false} JoinEndsWithLast(parts: seq<string>, sep: string)
    requires |parts| > 0
    ensures EndsWith(Join(parts, sep), parts[|parts| - 1])
  {
    if |parts| > 1 {
      JoinEndsWithLast(parts[1..], sep);
    }
  }
}

=== FILE: storyboard_step.dfy ===
/**
 * Step 3 of the application (`Module3Storyboard`): the scene and desire prompt
 * lists, the image each prompt has produced and the ones it replaced, the
 * gallery of every picture, the names the pictures are saved under, and the
 * studio scene. Handlers are store transitions; each route's answer arrives
 * already decoded.
 */
module StoryboardStep {
  import opened Wrappers
  import opened JsText
  import AppStore
  import SongStep
  import ScenePrompts
  import GridRoutes

  type Prompt = AppStore.ScenePrompt

  // ---------------------------------------------------------------------------
  // Images of one prompt
  // ---------------------------------------------------------------------------

  /** `p.imageHistory || []` */
  function History(p: Prompt): seq<string> {
    match p.imageHistory
    case Some(h) => h
    case None => []
  }

  /** `.filter(Boolean)` over optional strings: the present, non-empty ones, in order. */
  function Present(xs: seq<Option<string>>): (r: seq<string>)
    ensures |r| <= |xs|
    ensures forall k :: 0 <= k < |r| ==> r[k] != ""
  {
    if |xs| == 0 then []
    else (if Truthy(xs[0]) then [xs[0].value] else []) + Present(xs[1..])
  }

  lemma {:induction false} PresentAppend(a: seq<Option<string>>, b: seq<Option<string>>)
    ensures Present(a + b) == Present(a) + Present(b)
  {
    if |a| > 0 {
      assert (a + b)[0] == a[0];
      assert (a + b)[1..] == a[1..] + b;
      PresentAppend(a[1..], b);
    } else {
      assert a + b == b;
    }
  }

  function Wrap(h: seq<string>): (r: seq<Option<string>>)
    ensures |r| == |h| && forall k :: 0 <= k < |h| ==> r[k] == Some(h[k])
  {
    seq(|h|, k requires 0 <= k < |h| => Some(h[k]))
  }

  /** `[...(p.imageHistory || []), p.imageUrl].filter(Boolean)`: the pictures of a prompt, oldest first. */
  function Urls(p: Prompt): seq<string> {
    Present(Wrap(History(p)) + [p.imageUrl])
  }

  /** The new picture of one prompt: the current one, when there is one, goes to the end of the
      history and the new URL takes its place. */
  function RecordImage(p: Prompt, url: Option<string>): (r: Prompt)
    ensures r.id == p.id && r.prompt == p.prompt && r.imageUrl == url
    ensures r.imageHistory.Some?
    ensures Truthy(p.imageUrl) ==> History(r) == History(p) + [p.imageUrl.value]
    ensures !Truthy(p.imageUrl) ==> History(r) == History(p)
  {
    var kept := if Truthy(p.imageUrl) then [p.imageUrl.value] else [];
    p.(imageHistory := Some(History(p) + kept), imageUrl := url)
  }

  /** Regenerating a picture loses none: the prompt's pictures are the old ones followed by the
      new one, when it is not empty. */
  lemma RecordImageKeepsPictures(p: Prompt, url: Option<string>)
    ensures Urls(RecordImage(p, url)) == Urls(p) + Present([url])
  {
    var h := History(p);
    var r := RecordImage(p, url);
    PresentAppend(Wrap(h), [p.imageUrl]);
    if Truthy(p.imageUrl) {
      assert Wrap(History(r)) == Wrap(h) + [p.imageUrl];
      PresentAppend(Wrap(h) + [p.imageUrl], [url]);
      assert Wrap(History(r)) + [url] == (Wrap(h) + [p.imageUrl]) + [url];
    } else {
      assert Present([p.imageUrl]) == [];
      PresentAppend(Wrap(h), [url]);
    }
  }

  /** The list after a picture for the prompt `id` arrives: every prompt with that id records it,
      every other prompt is kept as it is. */
  function RecordImageFor(ps: seq<Prompt>, id: string, url: Option<string>): (r: seq<Prompt>)
    ensures |r| == |ps|
    ensures forall j :: 0 <= j < |ps| && ps[j].id != id ==> r[j] == ps[j]
    ensures forall j :: 0 <= j < |ps| && ps[j].id == id ==> r[j] == RecordImage(ps[j], url)
  {
    seq(|ps|, j requires 0 <= j < |ps| => if ps[j].id != id then ps[j] else RecordImage(ps[j], url))
  }

  // ---------------------------------------------------------------------------
  // Editing the prompt texts
  // ---------------------------------------------------------------------------

  /** `ps.map((p, j) => j === index ? { ...p, prompt: text ?? p.prompt } : p)`: only the entry at
      `index` may change, only in its text, and a missing text keeps the old one. */
  function ReplaceAt(ps: seq<Prompt>, index: int, text: Option<string>): (r: seq<Prompt>)
    ensures |r| == |ps|
    ensures forall j :: 0 <= j < |ps| && j != index ==> r[j] == ps[j]
    ensures forall j :: 0 <= j < |ps| ==> r[j].(prompt := ps[j].prompt) == ps[j]
    ensures 0 <= index < |ps| ==> r[index].prompt == text.GetOr(ps[index].prompt)
  {
    seq(|ps|, j requires 0 <= j < |ps| => if j == index then ps[j].(prompt := text.GetOr(ps[j].prompt)) else ps[j])
  }

  /** Two answers for the same entry: the later text wins, a missing text leaves the earlier one. */
  lemma ReplaceAtTwice(ps: seq<Prompt>, index: int, a: Option<string>, b: Option<string>)
    ensures ReplaceAt(ReplaceAt(ps, index, a), index, b) == ReplaceAt(ps, index, if b.Some? then b else a)
  {
    var x := ReplaceAt(ReplaceAt(ps, index, a), index, b);
    var y := ReplaceAt(ps, index, if b.Some? then b else a);
    forall j | 0 <= j < |ps| ensures x[j] == y[j] {
    }
  }

  /** `updateScenePrompt` / `updateDesirePrompt`: every prompt with the id takes the text. */
  function UpdateById(ps: seq<Prompt>, id: string, text: string): (r: seq<Prompt>)
    ensures |r| == |ps|
    ensures forall j :: 0 <= j < |ps| && ps[j].id != id ==> r[j] == ps[j]
    ensures forall j :: 0 <= j < |ps| && ps[j].id == id ==> r[j] == ps[j].(prompt := text)
  {
    seq(|ps|, j requires 0 <= j < |ps| => if ps[j].id == id then ps[j].(prompt := text) else ps[j])
  }

  predicate DistinctIds(ps: seq<Prompt>) {
    forall i, j :: 0 <= i < j < |ps| ==> ps[i].id != ps[j].id
  }

  /** With distinct ids, editing one prompt by its id is editing that entry alone, and leaves every
      picture in place. */
  lemma UpdateByIdIsReplaceAt(ps: seq<Prompt>, k: nat, text: string)
    requires DistinctIds(ps) && k < |ps|
    ensures UpdateById(ps, ps[k].id, text) == ReplaceAt(ps, k, Some(text))
    ensures forall j :: 0 <= j < |ps| ==> Urls(UpdateById(ps, ps[k].id, text)[j]) == Urls(ps[j])
  {
    var x := UpdateById(ps, ps[k].id, text);
    var y := ReplaceAt(ps, k, Some(text));
    forall j | 0 <= j < |ps| ensures x[j] == y[j] {
      if j < k {
        assert ps[j].id != ps[k].id;
      } else if j > k {
        assert ps[k].id != ps[j].id;
      }
    }
  }

  // ---------------------------------------------------------------------------
  // The gallery
  // ---------------------------------------------------------------------------

  datatype Entry = Entry(id: string, url: string, caption: string)

  /** `场景 i` or `爱欲场景 i`, and ` (k/n)` when the prompt has more than one picture. */
  function Label(head: string, ordinal: nat, k: nat, n: nat): (r: string)
    ensures n > 1 <==> EndsWith(r, ")")
  {
    var base := head + " " + NatToString(ordinal);
    var last := NatToString(ordinal);
    assert base[|base| - 1] == last[|last| - 1];
    if n > 1 then
      var r := base + " (" + NatToString(k) + "/" + NatToString(n) + ")";
      assert r[|r| - 1] == ')';
      r
    else base
  }

  /** The entries of one prompt, the `i`-th of its list. */
  function EntriesOf(idPrefix: string, head: string, p: Prompt, i: nat): (r: seq<Entry>)
    ensures |r| == |Urls(p)|
    ensures forall k :: 0 <= k < |r| ==> r[k].url == Urls(p)[k]
    ensures forall k :: 0 <= k < |r| ==> (EndsWith(r[k].caption, ")") <==> |r| > 1)
  {
    var urls := Urls(p);
    seq(|urls|, k requires 0 <= k < |urls| =>
      Entry(idPrefix + p.id + "-" + NatToString(k), urls[k], Label(head, i + 1, k + 1, |urls|)))
  }

  function EntryUrls(e: seq<Entry>): (r: seq<string>)
    ensures |r| == |e| && forall k :: 0 <= k < |e| ==> r[k] == e[k].url
  {
    seq(|e|, k requires 0 <= k < |e| => e[k].url)
  }

  /** The entries of a run of prompts, the first of which is the `offset`-th of its list. */
  function GalleryFrom(idPrefix: string, head: string, ps: seq<Prompt>, offset: nat): seq<Entry>
    decreases |ps|
  {
    if |ps| == 0 then [] else EntriesOf(idPrefix, head, ps[0], offset) + GalleryFrom(idPrefix, head, ps[1..], offset + 1)
  }

  /** Every picture of a run of prompts, prompt by prompt. */
  function AllUrls(ps: seq<Prompt>): seq<string>
    decreases |ps|
  {
    if |ps| == 0 then [] else Urls(ps[0]) + AllUrls(ps[1..])
  }

  /** `allGeneratedImages`: the scene prompts' pictures, then the desire prompts'. */
  function Gallery(scenes: seq<Prompt>, desires: seq<Prompt>): seq<Entry> {
    GalleryFrom("", "场景", scenes, 0) + GalleryFrom("d-", "爱欲场景", desires, 0)
  }

  lemma EntryUrlsAppend(a: seq<Entry>, b: seq<Entry>)
    ensures EntryUrls(a + b) == EntryUrls(a) + EntryUrls(b)
  {
  }

  lemma {:induction false} GalleryFromUrls(idPrefix: string, head: string, ps: seq<Prompt>, offset: nat)
    ensures EntryUrls(GalleryFrom(idPrefix, head, ps, offset)) == AllUrls(ps)
    decreases |ps|
  {
    if |ps| > 0 {
      GalleryFromUrls(idPrefix, head, ps[1..], offset + 1);
      var e := EntriesOf(idPrefix, head, ps[0], offset);
      EntryUrlsAppend(e, GalleryFrom(idPrefix, head, ps[1..], offset + 1));
      assert EntryUrls(e) == Urls(ps[0]);
    }
  }

  /** The gallery shows, in order, each scene prompt's history and current picture, then each desire
      prompt's, skipping the empty ones. */
  lemma GalleryShowsEveryPicture(scenes: seq<Prompt>, desires: seq<Prompt>)
    ensures EntryUrls(Gallery(scenes, desires)) == AllUrls(scenes) + AllUrls(desires)
  {
    GalleryFromUrls("", "场景", scenes, 0);
    GalleryFromUrls("d-", "爱欲场景", desires, 0);
    EntryUrlsAppend(GalleryFrom("", "场景", scenes, 0), GalleryFrom("d-", "爱欲场景", desires, 0));
  }

  lemma {:induction false} AllUrlsAppend(a: seq<Prompt>, b: seq<Prompt>)
    ensures AllUrls(a + b) == AllUrls(a) + AllUrls(b)
    decreases |a|
  {
    if |a| > 0 {
      assert (a + b)[0] == a[0];
      assert (a + b)[1..] == a[1..] + b;
      AllUrlsAppend(a[1..], b);
    } else {
      assert a + b == b;
    }
  }

  /** A new picture for one prompt appears in the gallery right after that prompt's earlier
      pictures; every other picture stays where it was. */
  lemma NewPictureJoinsGallery(ps: seq<Prompt>, j: nat, url: Option<string>)
    requires j < |ps| && DistinctIds(ps)
    ensures AllUrls(RecordImageFor(ps, ps[j].id, url))
         == AllUrls(ps[..j]) + Urls(ps[j]) + Present([url]) + AllUrls(ps[j + 1..])
  {
    var r := RecordImageFor(ps, ps[j].id, url);
    var x := RecordImage(ps[j], url);
    forall i | 0 <= i < |ps| && i != j ensures r[i] == ps[i] {
      if i < j { assert ps[i].id != ps[j].id; } else { assert ps[j].id != ps[i].id; }
    }
    assert r == ps[..j] + [x] + ps[j + 1..];
    AllUrlsAppend(ps[..j] + [x], ps[j + 1..]);
    AllUrlsAppend(ps[..j], [x]);
    assert AllUrls([x]) == Urls(x) + AllUrls([]);
    RecordImageKeepsPictures(ps[j], url);
  }

  // ---------------------------------------------------------------------------
  // Names and the scene-image request
  // ---------------------------------------------------------------------------

  /** `selectedKeyword?.id ?? ''` */
  function KeywordId(s: AppStore.State): string {
    match s.selectedKeyword
    case Some(k) => k.id
    case None => ""
  }

  /** `(imageContext || '').trim().slice(0, 30) || 'scene'`: never empty, at most thirty characters,
      with no white space at its start. */
  function CoreWord(imageContext: string): (r: string)
    ensures 0 < |r| <= 30 && !IsJsSpace(r[0])
    ensures Trim(imageContext) == "" ==> r == "scene"
    ensures Trim(imageContext) != "" ==> StartsWith(Trim(imageContext), r)
  {
    var t := Take(Trim(imageContext), 30);
    if t != "" then t else "scene"
  }

  datatype Kind = SceneKind | DesireKind

  function KindName(k: Kind): string {
    match k
    case SceneKind => "scene"
    case DesireKind => "desire"
  }

  /** The position counted from one, padded to two digits. */
  function Ordinal(index: nat): (r: string)
    ensures |r| >= 2 && AllDigits(r)
  {
    PaddedNat(index + 1, 2)
  }

  lemma OrdinalsDiffer(i: nat, j: nat)
    requires i != j
    ensures Ordinal(i) != Ordinal(j)
  {
    PaddedNatInjective(i + 1, j + 1, 2);
  }

  predicate AllWordChars(s: string) { forall c :: 0 <= c < |s| ==> IsWordChar(s[c]) }

  /** The list's name followed by `_`. */
  function KindHead(k: Kind): (r: string)
    ensures |r| > 0 && AllWordChars(r)
  {
    var r := KindName(k) + "_";
    assert forall c :: 0 <= c < |KindName(k)| ==> 'a' <= r[c] <= 'z';
    r
  }

  /** `scene_NN` / `desire_NN`: the list's name and the two-digit position. */
  function ImageFileName(k: Kind, index: nat): (r: string)
    ensures |r| > 0 && IsDigit(r[|r| - 1])
    ensures AllWordChars(r)
  {
    var head := KindHead(k);
    var digits := Ordinal(index);
    var r := head + digits;
    assert forall c :: |head| <= c < |r| ==> r[c] == digits[c - |head|];
    r
  }

  /** Different prompts, or the two lists, never share a file name. */
  lemma ImageFileNamesDiffer(k1: Kind, i: nat, k2: Kind, j: nat)
    requires k1 != k2 || i != j
    ensures ImageFileName(k1, i) != ImageFileName(k2, j)
  {
    var a := ImageFileName(k1, i);
    var b := ImageFileName(k2, j);
    if k1 != k2 {
      assert a[0] != b[0];
    } else {
      OrdinalsDiffer(i, j);
      var n := |KindHead(k1)|;
      assert a[n..] == Ordinal(i);
      assert b[n..] == Ordinal(j);
    }
  }

  /** A word-character name ending in a digit carries no image extension. */
  lemma NoImageExtension(name: string)
    requires |name| > 0 && IsDigit(name[|name| - 1])
    ensures GridRoutes.StripImageExtension(name) == name
  {
    var n := |name|;
    if n >= 4 {
      assert LowerAsciiString(name[n - 4..])[3] == LowerAscii(name[n - 1]);
    }
    if n >= 5 {
      assert LowerAsciiString(name[n - 5..])[4] == LowerAscii(name[n - 1]);
    }
  }

  /** The body the page posts to `/api/generate-scene-image` for the `index`-th prompt of a list;
      `None` when there is no uploaded picture. */
  function SceneImageRequest(s: AppStore.State, k: Kind, item: Prompt, index: nat): (r: Option<GridRoutes.SceneBody>)
    ensures r.Some? <==> Truthy(s.uploadedImage)
    ensures r.Some? ==>
      && r.value.prompt == Some(item.prompt) && r.value.referenceImage == s.uploadedImage
      && r.value.coreWord == Some(CoreWord(s.imageContext)) && r.value.filename == Some(ImageFileName(k, index))
      && (r.value.keywordId.Some? <==> KeywordId(s) != "")
  {
    if !Truthy(s.uploadedImage) then None
    else
      var id := KeywordId(s);
      Some(GridRoutes.SceneBody(Some(item.prompt), s.uploadedImage, if id != "" then Some(id) else None,
                                Some(CoreWord(s.imageContext)), Some(ImageFileName(k, index))))
  }

  /** The file name the page asks for is the one the route saves under, and a picture is saved
      exactly when a keyword is selected. */
  lemma SceneImageSavedUnderItsName(s: AppStore.State, k: Kind, item: Prompt, index: nat, nowMs: nat)
    requires Truthy(s.uploadedImage)
    ensures var b := SceneImageRequest(s, k, item, index).value;
      && (Truthy(b.keywordId) && Truthy(b.coreWord) <==> KeywordId(s) != "")
      && GridRoutes.SceneBaseName(b.filename, nowMs) == ImageFileName(k, index)
  {
    var name := ImageFileName(k, index);
    NoImageExtension(name);
    assert forall c :: 0 <= c < |name| ==> GridRoutes.IsFileNameChar(name[c]);
  }

  /** The answer of `/api/generate-scene-image` as the page reads it. */
  datatype ImageReply = ImageDone(imageUrl: Option<string>, saveDir: Option<string>) | ImageFailed(error: string)

  function ListOf(s: AppStore.State, k: Kind): seq<Prompt> {
    match k
    case SceneKind => s.scenePrompts
    case DesireKind => s.desireScenePrompts
  }

  function WithList(s: AppStore.State, k: Kind, ps: seq<Prompt>): (r: AppStore.State)
    ensures ListOf(r, k) == ps
  {
    match k
    case SceneKind => s.(scenePrompts := ps)
    case DesireKind => s.(desireScenePrompts := ps)
  }

  /** `handleGenerateSceneImage` / `handleGenerateDesireImage` once the answer is in: the picture is
      recorded on the prompt, the save directory kept when one came back, and step 4 unlocked. */
  function GenerateImage(s: AppStore.State, k: Kind, item: Prompt, reply: ImageReply): (r: AppStore.State)
    ensures !Truthy(s.uploadedImage) || reply.ImageFailed? ==> r == s
    ensures Truthy(s.uploadedImage) && reply.ImageDone? ==>
      && ListOf(r, k) == RecordImageFor(ListOf(s, k), item.id, reply.imageUrl)
      && 4 in r.unlockedModules
      && r.step3OutputBaseDir == (if Truthy(reply.saveDir) then reply.saveDir else s.step3OutputBaseDir)
      && r.currentModule == s.currentModule && r.uploadedImage == s.uploadedImage
  {
    if !Truthy(s.uploadedImage) then s
    else match reply
      case ImageFailed(_) => s
      case ImageDone(url, dir) =>
        var s1 := if Truthy(dir) then s.(step3OutputBaseDir := dir) else s;
        AppStore.UnlockModule(WithList(s1, k, RecordImageFor(ListOf(s1, k), item.id, url)), 4)
  }

  /** The other list is never touched by a picture for this one. */
  lemma GenerateImageKeepsOtherList(s: AppStore.State, k: Kind, item: Prompt, reply: ImageReply)
    ensures var r := GenerateImage(s, k, item, reply);
      ListOf(r, if k == SceneKind then DesireKind else SceneKind) == ListOf(s, if k == SceneKind then DesireKind else SceneKind)
  {
  }

  // ---------------------------------------------------------------------------
  // The prompt lists
  // ---------------------------------------------------------------------------

  function FromRoute(items: seq<ScenePrompts.PromptItem>): (r: seq<Prompt>)
    ensures |r| == |items|
    ensures forall j :: 0 <= j < |items| ==>
      r[j].id == items[j].id && r[j].prompt == items[j].prompt && r[j].imageUrl == items[j].imageUrl && r[j].imageHistory.None?
  {
    seq(|items|, j requires 0 <= j < |items| => AppStore.ScenePrompt(items[j].id, items[j].prompt, items[j].imageUrl, None))
  }

  /** `handleGenerateScenePrompts` / `handleGenerateDesirePrompts` once the answer is in: the list
      is replaced by the route's prompts. Scene prompts need the uploaded picture, desire prompts a
      story that is not blank. */
  function SetPrompts(s: AppStore.State, k: Kind, reply: ScenePrompts.ListResponse): (r: AppStore.State)
    ensures var ready := if k == SceneKind then Truthy(s.uploadedImage) else Trim(s.generatedStory) != "";
      && (!ready || reply.ListFailed? ==> r == s)
      && (ready && reply.Listed? ==> r == WithList(s, k, FromRoute(reply.prompts)))
  {
    var ready := if k == SceneKind then Truthy(s.uploadedImage) else Trim(s.generatedStory) != "";
    if !ready then s
    else match reply
      case ListFailed(_, _) => s
      case Listed(items) => WithList(s, k, FromRoute(items))
  }

  /** Fresh prompts from the route carry no pictures, so a new list empties its part of the gallery. */
  lemma NewPromptsHaveNoPictures(prefix: string, failure: string, reply: Option<string>, parse: string -> ScenePrompts.Json)
    ensures var resp := ScenePrompts.FiveFromReply(prefix, failure, reply, parse);
      resp.Listed? ==> AllUrls(FromRoute(resp.prompts)) == []
  {
    var resp := ScenePrompts.FiveFromReply(prefix, failure, reply, parse);
    if resp.Listed? {
      var ps := FromRoute(resp.prompts);
      forall j | 0 <= j < |ps| ensures Urls(ps[j]) == [] {
        assert Wrap(History(ps[j])) + [ps[j].imageUrl] == [None];
      }
      NoPicturesFrom(ps);
    }
  }

  lemma {:induction false} NoPicturesFrom(ps: seq<Prompt>)
    requires forall j :: 0 <= j < |ps| ==> Urls(ps[j]) == []
    ensures AllUrls(ps) == []
    decreases |ps|
  {
    if |ps| > 0 {
      assert Urls(ps[0]) == [];
      NoPicturesFrom(ps[1..]);
    }
  }

  /** `handleRegenerateScenePrompt` / `handleRegenerateDesirePrompt` once the answer is in (`None`
      when it failed, else the answer's `prompt`, itself absent when missing). An index outside the
      list, or a scene prompt without the uploaded picture, changes nothing. */
  function RegeneratePrompt(s: AppStore.State, k: Kind, index: int, reply: Option<Option<string>>): (r: AppStore.State)
    ensures !(0 <= index < |ListOf(s, k)|) || (k == SceneKind && !Truthy(s.uploadedImage)) || reply.None? ==> r == s
    ensures 0 <= index < |ListOf(s, k)| && !(k == SceneKind && !Truthy(s.uploadedImage)) && reply.Some? ==>
      r == WithList(s, k, ReplaceAt(ListOf(s, k), index, reply.value))
  {
    if k == SceneKind && !Truthy(s.uploadedImage) then s
    else if !(0 <= index < |ListOf(s, k)|) then s
    else match reply
      case None => s
      case Some(text) => WithList(s, k, ReplaceAt(ListOf(s, k), index, text))
  }

  // ---------------------------------------------------------------------------
  // The studio scene
  // ---------------------------------------------------------------------------

  /** `characterRefImage ?? uploadedImage ?? null` */
  function EffectiveReference(characterRef: Option<string>, uploaded: Option<string>): (r: Option<string>)
    ensures characterRef.Some? ==> r == characterRef
    ensures characterRef.None? ==> r == uploaded
  {
    if characterRef.Some? then characterRef else uploaded
  }

  /** The lyrics handed to the studio prompt: the final version's, or `''`. */
  function StudioLyrics(s: AppStore.State): string {
    if Truthy(s.finalSelectedVersion) && SongStep.FinalVersion(s).Some? then SongStep.FinalVersion(s).value.data.lyrics else ""
  }

  /** The body posted to `/api/generate-studio-scene-prompt` in studio mode `mode` (1, 2 or 3);
      `None` when there is no reference picture, or mode 3 has a blank scene. */
  function StudioRequest(s: AppStore.State, characterRef: Option<string>, mode: int, userScene: string): (r: Option<ScenePrompts.StudioBody>)
    requires 1 <= mode <= 3
    ensures r.Some? <==> Truthy(EffectiveReference(characterRef, s.uploadedImage)) && (mode == 3 ==> Trim(userScene) != "")
    ensures r.Some? ==>
      && r.value.mode == Some(mode) && r.value.image == EffectiveReference(characterRef, s.uploadedImage)
      && r.value.lyrics == Some(StudioLyrics(s))
      && (r.value.fullContext.Some? <==> s.fullContext != "")
      && (r.value.userScene.Some? <==> mode == 3)
      && (mode == 3 ==> r.value.userScene == Some(Trim(userScene)))
  {
    var reference := EffectiveReference(characterRef, s.uploadedImage);
    if !Truthy(reference) then None
    else if mode == 3 && Trim(userScene) == "" then None
    else Some(ScenePrompts.StudioBody(Some(mode), reference, Some(StudioLyrics(s)),
                                      if s.fullContext != "" then Some(s.fullContext) else None,
                                      if mode == 3 then Some(Trim(userScene)) else None))
  }

  /** Whatever the page lets through, the route accepts: with a key and an answer it returns a prompt. */
  lemma StudioRequestAccepted(s: AppStore.State, characterRef: Option<string>, mode: int, userScene: string,
                              apiKey: string, reply: string)
    requires 1 <= mode <= 3 && apiKey != ""
    requires StudioRequest(s, characterRef, mode, userScene).Some?
    ensures ScenePrompts.GenerateStudioPrompt(StudioRequest(s, characterRef, mode, userScene), apiKey, Some(reply)).OnePrompt?
  {
  }

  /** After the studio picture comes back: it and the save directory are kept when present, and
      step 4 is unlocked. */
  function StudioApplied(s: AppStore.State, reply: ImageReply): (r: AppStore.State)
    ensures reply.ImageFailed? ==> r == s
    ensures reply.ImageDone? ==>
      && r.studioSceneImage == (if Truthy(reply.imageUrl) then reply.imageUrl else s.studioSceneImage)
      && r.step3OutputBaseDir == (if Truthy(reply.saveDir) then reply.saveDir else s.step3OutputBaseDir)
      && 4 in r.unlockedModules
      && r.scenePrompts == s.scenePrompts && r.desireScenePrompts == s.desireScenePrompts
  {
    match reply
    case ImageFailed(_) => s
    case ImageDone(url, dir) =>
      var s1 := if Truthy(url) then s.(studioSceneImage := url) else s;
      var s2 := if Truthy(dir) then s1.(step3OutputBaseDir := dir) else s1;
      AppStore.UnlockModule(s2, 4)
  }
}

=== FILE: video_step.dfy ===
/**
 * Step 5 of the application (`Module5Video`): the list of pictures step 4 produced, the
 * prompt with its fixed ethnicity lead, the upload of the chosen picture to a public host,
 * and the request to the Grok video route. The page is the store's provenance tree plus the
 * component's own state.
 */
module VideoStep {
  import opened Wrappers
  import opened JsText
  import AppStore
  import GridStep
  import Grok

  // ---------------------------------------------------------------------------
  // The prompt
  // ---------------------------------------------------------------------------

  const FaceClause: string := "，严格按照参考图人物的所有面部特征。"
  const DefaultEthnicity: string := "亚洲女性"

  /** The lead for an ethnicity: its name in corner brackets, then the face clause. */
  function Lead(name: string): (r: string)
    ensures |r| == |name| + 2 + |FaceClause|
    ensures r[0] == '【' && r[1..|name| + 1] == name && r[|r| - 1] == '。'
  {
    var r := "【" + name + "】" + FaceClause;
    assert r[|r| - 1] == FaceClause[|FaceClause| - 1];
    r
  }

  /** `ETHNICITY_PREFIX`: the fixed lead of the prompt for each option the store offers. */
  const EthnicityPrefix: map<string, string> := map[
    "亚洲女性" := Lead("亚洲女性"),
    "欧美女性" := Lead("欧美女性"),
    "亚洲男性" := Lead("亚洲男性"),
    "欧美男性" := Lead("欧美男性")
  ]

  /** The option the lead names: the option itself when the table knows it, the default otherwise. */
  function NamedEthnicity(option: string): (r: string)
    ensures r in EthnicityPrefix
  {
    if option in EthnicityPrefix then option else DefaultEthnicity
  }

  /** `ETHNICITY_PREFIX[option] ?? ETHNICITY_PREFIX['亚洲女性']`: the lead naming the option when the
      table knows it, and the default's lead otherwise. */
  function PrefixFor(option: string): (r: string)
    ensures r == Lead(NamedEthnicity(option))
    ensures r[0] == '【' && r[|r| - 1] == '。'
  {
    if option in EthnicityPrefix then EthnicityPrefix[option] else EthnicityPrefix[DefaultEthnicity]
  }

  /** Different known options give different leads. */
  lemma PrefixesDiffer(a: string, b: string)
    requires a in EthnicityPrefix && b in EthnicityPrefix && a != b
    ensures PrefixFor(a) != PrefixFor(b)
  {
    if |a| == |b| {
      assert PrefixFor(a)[1..|a| + 1] == a;
    }
  }

  /** `fullPrompt`: the lead, a space and the user's words, trimmed; empty with no picture chosen. */
  function FullPrompt(selected: bool, option: string, suffix: string): (r: string)
    ensures !selected ==> r == ""
    ensures selected ==> StartsWith(r, PrefixFor(option)) && !AllSpace(r)
  {
    if selected then
      var lead := PrefixFor(option);
      LeadIsUnpadded(lead);
      var text := lead + " " + suffix;
      assert text == lead + (" " + suffix);
      TrimKeepsUnpaddedHead(lead, " " + suffix);
      Trim(text)
    else ""
  }

  lemma LeadIsUnpadded(lead: string)
    requires |lead| > 0 && lead[0] == '【' && lead[|lead| - 1] == '。'
    ensures !IsJsSpace(lead[0]) && !IsJsSpace(lead[|lead| - 1])
  {
  }

  /** Trimming a text that opens with an unpadded head keeps the head. */
  lemma TrimKeepsUnpaddedHead(head: string, rest: string)
    requires |head| > 0 && !IsJsSpace(head[0]) && !IsJsSpace(head[|head| - 1])
    ensures StartsWith(Trim(head + rest), head) && !AllSpace(Trim(head + rest))
  {
    var s := head + rest;
    assert s[0] == head[0] && s[|head| - 1] == head[|head| - 1];
    assert SpaceRunEnd(s, 0) == 0;
    SpaceRunStartAbove(s, |s|, |head| - 1);
    assert Trim(s)[..|head|] == head;
    assert !IsJsSpace(Trim(s)[0]);
  }

  // ---------------------------------------------------------------------------
  // The pictures of step 4
  // ---------------------------------------------------------------------------

  datatype ItemKind = SceneItem | PanelItem

  datatype Item = Item(kind: ItemKind, url: string, caption: string, groupLabel: string)

  /** A panel index as JavaScript prints it. */
  function IntText(i: int): string {
    if i < 0 then "-" + NatToString(-i) else NatToString(i)
  }

  /** `${sourceLabel} - 2K #${idx + 1} (格${panelIndex})` */
  function PanelCaption(sourceLabel: string, idx: nat, panelIndex: int): string {
    sourceLabel + " - 2K #" + NatToString(idx + 1) + " (格" + IntText(panelIndex) + ")"
  }

  /** The items of one sheet's enlargements, numbered from `idx` within the sheet. */
  function PanelItems(sourceLabel: string, ps: seq<AppStore.Panel2K>, idx: nat): (r: seq<Item>)
    ensures |r| == |ps|
    ensures forall a :: 0 <= a < |ps| ==> r[a].kind == PanelItem && r[a].url == ps[a].imageUrl && r[a].groupLabel == sourceLabel
    decreases |ps|
  {
    if |ps| == 0 then []
    else [Item(PanelItem, ps[0].imageUrl, PanelCaption(sourceLabel, idx, ps[0].panelIndex), sourceLabel)]
         + PanelItems(sourceLabel, ps[1..], idx + 1)
  }

  function SheetItems(sourceLabel: string, sheets: seq<AppStore.Sheet>): (r: seq<Item>)
    decreases |sheets|
  {
    if |sheets| == 0 then [] else PanelItems(sourceLabel, sheets[0].panels, 0) + SheetItems(sourceLabel, sheets[1..])
  }

  /** `leftListItems`: for each source, its scene picture and then the enlargements of its sheets, in
      the order they were made. */
  function LeftList(gs: seq<AppStore.Group>): seq<Item>
    decreases |gs|
  {
    if |gs| == 0 then []
    else [Item(SceneItem, gs[0].sourceImageUrl, gs[0].sourceLabel, gs[0].sourceLabel)]
         + SheetItems(gs[0].sourceLabel, gs[0].sheets) + LeftList(gs[1..])
  }

  function SheetPanelCount(sheets: seq<AppStore.Sheet>): nat
    decreases |sheets|
  {
    if |sheets| == 0 then 0 else |sheets[0].panels| + SheetPanelCount(sheets[1..])
  }

  /** How many enlargements the store holds. */
  function PanelCount(gs: seq<AppStore.Group>): nat
    decreases |gs|
  {
    if |gs| == 0 then 0 else SheetPanelCount(gs[0].sheets) + PanelCount(gs[1..])
  }

  function CountKind(xs: seq<Item>, k: ItemKind): nat
    decreases |xs|
  {
    if |xs| == 0 then 0 else (if xs[0].kind == k then 1 else 0) + CountKind(xs[1..], k)
  }

  lemma {:induction false} CountKindAppend(a: seq<Item>, b: seq<Item>, k: ItemKind)
    ensures CountKind(a + b, k) == CountKind(a, k) + CountKind(b, k)
    decreases |a|
  {
    if |a| > 0 {
      assert (a + b)[0] == a[0];
      assert (a + b)[1..] == a[1..] + b;
      CountKindAppend(a[1..], b, k);
    } else {
      assert a + b == b;
    }
  }

  lemma {:induction false} PanelItemsCount(sourceLabel: string, ps: seq<AppStore.Panel2K>, idx: nat)
    ensures CountKind(PanelItems(sourceLabel, ps, idx), PanelItem) == |ps|
    ensures CountKind(PanelItems(sourceLabel, ps, idx), SceneItem) == 0
    decreases |ps|
  {
    if |ps| > 0 {
      var head := [Item(PanelItem, ps[0].imageUrl, PanelCaption(sourceLabel, idx, ps[0].panelIndex), sourceLabel)];
      CountKindAppend(head, PanelItems(sourceLabel, ps[1..], idx + 1), PanelItem);
      CountKindAppend(head, PanelItems(sourceLabel, ps[1..], idx + 1), SceneItem);
      PanelItemsCount(sourceLabel, ps[1..], idx + 1);
    }
  }

  lemma {:induction false} SheetItemsCount(sourceLabel: string, sheets: seq<AppStore.Sheet>)
    ensures CountKind(SheetItems(sourceLabel, sheets), PanelItem) == SheetPanelCount(sheets)
    ensures CountKind(SheetItems(sourceLabel, sheets), SceneItem) == 0
    decreases |sheets|
  {
    if |sheets| > 0 {
      var here := PanelItems(sourceLabel, sheets[0].panels, 0);
      PanelItemsCount(sourceLabel, sheets[0].panels, 0);
      SheetItemsCount(sourceLabel, sheets[1..]);
      CountKindAppend(here, SheetItems(sourceLabel, sheets[1..]), PanelItem);
      CountKindAppend(here, SheetItems(sourceLabel, sheets[1..]), SceneItem);
    }
  }

  /** The list holds one scene item per source and one item per enlargement. */
  lemma {:induction false} LeftListCounts(gs: seq<AppStore.Group>)
    ensures CountKind(LeftList(gs), SceneItem) == |gs|
    ensures CountKind(LeftList(gs), PanelItem) == PanelCount(gs)
    decreases |gs|
  {
    if |gs| > 0 {
      var scene := [Item(SceneItem, gs[0].sourceImageUrl, gs[0].sourceLabel, gs[0].sourceLabel)];
      var sheets := SheetItems(gs[0].sourceLabel, gs[0].sheets);
      SheetItemsCount(gs[0].sourceLabel, gs[0].sheets);
      LeftListCounts(gs[1..]);
      CountKindAppend(scene + sheets, LeftList(gs[1..]), SceneItem);
      CountKindAppend(scene + sheets, LeftList(gs[1..]), PanelItem);
      CountKindAppend(scene, sheets, SceneItem);
      CountKindAppend(scene, sheets, PanelItem);
    }
  }

  /** `hasStep4Output`: some sheet of some source holds an enlargement. */
  predicate HasStep4Output(gs: seq<AppStore.Group>) {
    exists i, k :: 0 <= i < |gs| && 0 <= k < |gs[i].sheets| && |gs[i].sheets[k].panels| > 0
  }

  lemma {:induction false} SheetPanelCountPositive(sheets: seq<AppStore.Sheet>)
    ensures SheetPanelCount(sheets) > 0 <==> exists k :: 0 <= k < |sheets| && |sheets[k].panels| > 0
    decreases |sheets|
  {
    if |sheets| > 0 {
      SheetPanelCountPositive(sheets[1..]);
      assert forall k :: 1 <= k < |sheets| ==> sheets[k] == sheets[1..][k - 1];
    }
  }

  /** The page unlocks exactly when the store holds an enlargement, which is exactly when the list
      shows a panel item. */
  lemma {:induction false} Step5UnlocksWithAPanel(gs: seq<AppStore.Group>)
    ensures HasStep4Output(gs) <==> PanelCount(gs) > 0
    ensures HasStep4Output(gs) <==> CountKind(LeftList(gs), PanelItem) > 0
    decreases |gs|
  {
    LeftListCounts(gs);
    if |gs| > 0 {
      Step5UnlocksWithAPanel(gs[1..]);
      SheetPanelCountPositive(gs[0].sheets);
      if HasStep4Output(gs) {
        var i, k :| 0 <= i < |gs| && 0 <= k < |gs[i].sheets| && |gs[i].sheets[k].panels| > 0;
        if i > 0 {
          assert gs[1..][i - 1] == gs[i];
        }
      }
      if HasStep4Output(gs[1..]) {
        var i, k :| 0 <= i < |gs[1..]| && 0 <= k < |gs[1..][i].sheets| && |gs[1..][i].sheets[k].panels| > 0;
        assert gs[i + 1] == gs[1..][i];
      }
    }
  }

  /** Enlarging a panel of a recorded sheet on show in step 4 unlocks this page. */
  lemma ExpandUnlocksStep5(p: GridStep.Page, panelIndex: nat, nowMs: nat, url: string)
    requires Truthy(p.shown.image) && Truthy(p.shown.sourceId) && url != ""
    requires var gs := p.store.step4Groups;
      && AppStore.HasSource(gs, p.shown.sourceId.value)
      && var g := gs[AppStore.FindSource(gs, p.shown.sourceId.value).value];
         && GridStep.FindSheet(g.sheets, p.shown.image.value, p.shown.savedDir).Some?
         && g.sheets[GridStep.FindSheet(g.sheets, p.shown.image.value, p.shown.savedDir).value].contactImageUrl == p.shown.image.value
    ensures HasStep4Output(GridStep.ExpandPanel(p, panelIndex, nowMs, GridStep.CellDone(Some(url))).store.step4Groups)
  {
    var gs := GridStep.ExpandPanel(p, panelIndex, nowMs, GridStep.CellDone(Some(url))).store.step4Groups;
    GridStep.ExpandShowsNewPanel(p, panelIndex, nowMs, url);
    CurrentPanelsInStore(gs, p.shown);
  }

  /** The enlargements step 4 shows come from the store. */
  lemma CurrentPanelsInStore(gs: seq<AppStore.Group>, shown: GridStep.Shown)
    requires |GridStep.CurrentPanels(gs, shown)| > 0
    ensures HasStep4Output(gs)
  {
    var i := AppStore.FindSource(gs, shown.sourceId.value).value;
    var k := GridStep.FindSheet(gs[i].sheets, shown.image.value, shown.savedDir).value;
    assert |gs[i].sheets[k].panels| > 0;
  }

  // ---------------------------------------------------------------------------
  // Choosing, uploading and generating
  // ---------------------------------------------------------------------------

  datatype Selection = Selection(url: string, caption: string)

  /** The component's state; `error` is the message on show. */
  datatype Page = Page(selected: Option<Selection>, uploadedUrl: Option<string>, needPublicUrl: bool,
                       suffix: string, duration: int, aspectRatio: string, error: Option<string>)

  const Initial: Page := Page(None, None, false, "", 10, "16:9", None)

  const ChooseFirst: string := "请先选择一张图片"
  const UploadFailedText: string := "上传失败"
  const UploadRetryText: string := "上传至图床失败，请重试"
  const EnterPrompt: string := "请输入提示词"
  const UploadFirst: string := "请先上传当前图片至图床"
  const VideoFailedText: string := "视频生成失败"

  /** A picture is only ever uploaded for the picture chosen. */
  predicate Consistent(p: Page) {
    Truthy(p.uploadedUrl) ==> p.selected.Some?
  }

  /** Clicking an item: it becomes the choice, and any earlier upload is forgotten. */
  function Select(p: Page, item: Item): (r: Page)
    ensures r.selected == Some(Selection(item.url, item.caption))
    ensures r.uploadedUrl.None? && !r.needPublicUrl
    ensures r.suffix == p.suffix && r.duration == p.duration && r.aspectRatio == p.aspectRatio && r.error == p.error
  {
    p.(selected := Some(Selection(item.url, item.caption)), uploadedUrl := None, needPublicUrl := false)
  }

  /** What `/api/upload-for-video` answered, as the page reads it; a throw that is not an `Error`
      carries no message. */
  datatype UploadReply =
    | Uploaded(url: Option<string>, needPublicUrl: bool)
    | UploadRejected(error: Option<string>)
    | UploadThrew(message: Option<string>)

  /** `handleUploadToImageHost` once the answer is in. */
  function Upload(p: Page, reply: UploadReply): (r: Page)
    ensures p.selected.None? || p.selected.value.url == "" ==> r == p.(error := Some(ChooseFirst))
    ensures p.selected.Some? && p.selected.value.url != "" ==>
      && r.selected == p.selected && r.suffix == p.suffix
      && (reply.Uploaded? <==> r.error.None?)
      && (reply.Uploaded? ==> r.uploadedUrl == reply.url && r.needPublicUrl == reply.needPublicUrl)
      && (reply.UploadRejected? ==> r.error == Some(OrElse(reply.error, UploadFailedText)) && !r.needPublicUrl)
  {
    if p.selected.None? || p.selected.value.url == "" then p.(error := Some(ChooseFirst))
    else
      var cleared := p.(error := None, needPublicUrl := false);
      match reply
      case Uploaded(url, warn) => cleared.(uploadedUrl := url, needPublicUrl := warn)
      case UploadRejected(e) => cleared.(error := Some(OrElse(e, UploadFailedText)))
      case UploadThrew(m) => cleared.(error := Some(m.GetOr(UploadRetryText)))
  }

  /** Choosing and uploading keep the upload tied to a chosen picture. */
  lemma ActionsKeepConsistent(p: Page, item: Item, reply: UploadReply)
    requires Consistent(p)
    ensures Consistent(Select(p, item))
    ensures Consistent(Upload(p, reply))
  {
  }

  /** Either the body to post or the message shown instead. */
  datatype Request = Send(body: Grok.VideoBody) | Refuse(message: string)

  /** `handleGenerateVideo` up to the request: the body for `/api/grok-video`, or the message shown. */
  function VideoRequest(p: Page, option: string, baseDir: Option<string>): (r: Request)
    ensures r.Refuse? <==> !Truthy(p.uploadedUrl) || AllSpace(FullPrompt(p.selected.Some?, option, p.suffix))
    ensures r.Refuse? ==> r.message == (if Truthy(p.uploadedUrl) then EnterPrompt else UploadFirst)
    ensures r.Send? ==>
      && r.body.imageUrl == p.uploadedUrl
      && r.body.prompt == Some(FullPrompt(p.selected.Some?, option, p.suffix))
      && r.body.duration == Some(p.duration) && r.body.aspectRatio == Some(p.aspectRatio)
      && r.body.step3OutputBaseDir == baseDir
  {
    var prompt := FullPrompt(p.selected.Some?, option, p.suffix);
    TrimEmptyIffAllSpace(prompt);
    if !Truthy(p.uploadedUrl) || Trim(prompt) == "" then
      Refuse(if Truthy(p.uploadedUrl) then EnterPrompt else UploadFirst)
    else Send(Grok.VideoBody(p.uploadedUrl, Some(prompt), Some(p.duration), Some(p.aspectRatio), baseDir))
  }

  /** On a consistent page the prompt is never blank once a picture is uploaded, so the request goes
      out exactly when an upload exists, and the route never answers that an input is missing. */
  lemma UploadedMeansRequest(p: Page, option: string, baseDir: Option<string>)
    requires Consistent(p)
    ensures VideoRequest(p, option, baseDir).Send? <==> Truthy(p.uploadedUrl)
    ensures VideoRequest(p, option, baseDir).Refuse? ==> VideoRequest(p, option, baseDir).message == UploadFirst
    ensures VideoRequest(p, option, baseDir).Send? ==>
      var b := VideoRequest(p, option, baseDir).body;
      Truthy(b.imageUrl) && Truthy(b.prompt) && StartsWith(b.prompt.value, PrefixFor(option))
  {
    var prompt := FullPrompt(p.selected.Some?, option, p.suffix);
    assert Truthy(p.uploadedUrl) ==> !AllSpace(prompt);
  }

  /** The route's answer, as the page reads it: the page's message, and the video opened in a new tab. */
  datatype VideoOutcome = VideoOutcome(error: Option<string>, video: Option<string>)

  /** `handleGenerateVideo` once the route has answered. A 2xx answer opens the video when one came
      back and shows no message; any other status shows the route's error. */
  function FinishVideo(reply: Grok.GrokResponse): (r: VideoOutcome)
    ensures r.video.Some? <==> reply.Video? && reply.videoUrl != ""
    ensures r.video.Some? ==> r.video.value == reply.videoUrl
    ensures r.error.Some? <==> reply.VideoFailed?
  {
    match reply
    case Video(url, _) => VideoOutcome(None, if url != "" then Some(url) else None)
    case StillRunning(_, _) => VideoOutcome(None, None)
    case VideoFailed(_, e) => VideoOutcome(Some(if e != "" then e else VideoFailedText), None)
  }

  /** A finished generation always opens its video; a generation still running after the route's
      guard shows nothing at all. */
  lemma FinishedVideoOpens(body: Option<Grok.VideoBody>, nullError: string, apiKey: string, created: Upstream<Option<string>>,
                           polls: seq<Grok.PollReply>, elapsed: seq<int>, saved: Option<nat>)
    requires |polls| == |elapsed|
    ensures var reply := Grok.GrokVideo(body, nullError, apiKey, created, polls, elapsed, saved);
      && (reply.Video? ==> FinishVideo(reply).video == Some(reply.videoUrl))
      && (reply.StillRunning? ==> FinishVideo(reply) == VideoOutcome(None, None))
  {
  }
}

=== FILE: wrappers.dfy ===
/** Optional values, standing in for the `T | null` / `T | undefined` of the application, and the
    outcome of one upstream HTTP call. */
module Wrappers {

  datatype Option<+T> = None | Some(value: T) {

    /** The wrapped value, or `default` when absent (the `??` operator). */
    function GetOr(default: T): T {
      match this
      case Some(v) => v
      case None => default
    }
  }

  /** One `fetch` to a provider: it threw (with the error's message), answered with a non-2xx status
      and a body text, or answered `ok` with the parsed body. */
  datatype Upstream<T> = Threw(message: string) | NotOk(status: nat, text: string) | Ok(data: T)
}
